=== FILE: README.md ===
# Scraper dashboard core, modelled in Dafny

This project models the deterministic core of a Streamlit scraping and dataset
dashboard. Around it sits I/O: fetching pages, saving them, parsing them and
browsing the results. The core it models is:

- the keyed first-write-wins merge of scraped records (`dedupe_by_key`) and the
  dataset service that wraps it;
- URL validation, split into scheme, authority and the rest in the manner of
  section 3 of RFC 3986 (scheme in 3.1, authority in 3.2), as `urlparse` does;
- the download page's intake of pasted URLs, its layered fetch cascade with an
  outer retry loop and growing backoff, and its batch accounting;
- the batch-aware download page's batch-id allocation and per-URL log entries;
- the artifact file names, the opportunity-id regular expressions and the
  content-hash duplicate check of the scrape log;
- the keyword-section HTML parsers over an abstract list of sibling nodes;
- the bulk parser page's parsed/unparsed partition, output paths, run-log
  entries and date filter;
- the table and matrix pages: tick-box state, renumbering of ticked items into
  `content_1..content_k`, wide and long rows joined to the first matching log
  entry, and column ordering;
- the JSON viewer's file-to-URL map and URL groups, and the log dashboard's
  status filter.

JSON values are flat (`Null`, `Bool`, `Int`, `Str`), and an object is a
`map<string, Value>`. Logs, datasets and directory listings are sequences.
The network, the clock, hashing, `strptime` and file loading are function
parameters (oracles). An exception the source raises and does not catch is a
`Raised(message)` result.

Modules follow the source files:

| Module | File |
|---|---|
| `Merger` | core/merger.py |
| `DatasetService` | services/dataset_service.py |
| `Validator` | core/validator.py |
| `Artifacts`, `Cascade`, `Intake` | pages/4_Download.py |
| `DownloadParser` | pages/4_Download_Parser.py |
| `ContentStore`, `Sections` | pages/5_Data.py |
| `ParserBulk` | pages/8_Parser_Bulk.py |
| `Data16` | pages/16_Data.py |
| `Selection` | what pages 14, 15 and 16 share |
| `Matrix` | pages 14 and 15 |
| `SharedSession` | the session state pages 15 and 16 share |
| `LogJoin` | the id regex and the log join that pages 11 to 15 share |
| `WideTable` | pages 12 and 13 |
| `LongTable` | page 11 |
| `JsonViewer` | pages/2_JSON_Data_Viewer.py |
| `LogsDashboard` | pages/1_Logs_Dashboard.py |

`Wrappers`, `Text`, `Json`, `Seqs` and `StringOrder` are generic helpers:
results, strings, JSON values, filters and distinct lists, and Python's
string order with an insertion sort.

### Behaviour as coded

The model follows the code wherever the documented behaviour differs from it:

- `DatasetService.merge` has no rollback. Records are reassigned before they
  are saved.
- The cascade page logs only successes. A failed run appends nothing.
- A duplicate page sent to `save_log` returns the earlier entry. It appends
  nothing and writes no file.
- `validate_url` checks the whole `netloc`, including user info and port, not
  a host name.

## Model

| member | source | states |
|---|---|---|
| Merger.DedupeByKey | core/merger.py:1-17 | added + deduped is the number of incoming items. The result is `existing` unchanged, followed by `added` items. Each appended item has a truthy key absent from `existing`, and appended keys are pairwise distinct |
| Merger.DedupeIsFirstWriteWins | core/merger.py:2-16 | the merged list is `existing` followed by exactly the incoming items whose key is truthy and not seen in `existing` or earlier in the input, in input order |
| Merger.MergedCoversIncoming | core/merger.py:9-14 | after the merge, every truthy incoming key is a key of the merged list |
| Merger.DedupeIdempotent | core/merger.py:2-14 | merging the same incoming list again adds nothing, dedupes everything and leaves the list unchanged |
| Merger.NoKeyNeverAdded | core/merger.py:9-14 | items whose key is missing or falsy are all counted as deduped and never appended, even into an empty list |
| Merger.DedupePreservesUniqueKeys | core/merger.py:2-16 | if `existing` has pairwise distinct keys, so does the merged list |
| Merger.KeySetMember | core/merger.py:2 | a value is in the seen-key set iff some item carries it as a truthy key, with `True` read as `1` |
| Merger.UnitTestDedupe | tests/test_merge.py:5-10 | the unit-test case gives added 1, deduped 1 and the two distinct records |
| DatasetService.Open | services/dataset_service.py:5-7 | a new service holds exactly the records that were loaded |
| DatasetService.AsList | services/dataset_service.py:23-24 | a single dict is merged as a one-element list |
| DatasetService.Merge | services/dataset_service.py:22-31 | the records become the dedupe result, and that same list is stored. The counters are the dedupe counters and sum to the incoming count. Earlier records stay as a prefix |
| DatasetService.AnyFromUrlIff | services/dataset_service.py:12-17 | `has_url(u)` holds iff some record carries `_source_url == u` |
| DatasetService.MergeKeepsUrls | services/dataset_service.py:12-28 | a URL the dataset already has is still there after any merge |
| DatasetService.RecordWithoutIdNotAdded | services/dataset_service.py:26 | a record without an `id` is deduped and not added, so a URL known only through it stays unknown |
| DatasetService.MergeTwice | services/dataset_service.py:22-31 | merging the same data twice adds nothing the second time |
| DatasetService.FirstWriteWinsScenario | services/dataset_service.py:22-31 | a concrete pair of merges in which the second record with id "2" is dropped and "3" is appended |
| Validator.UrlSplit | core/validator.py:8 | a split-off scheme is a lower-case scheme word. The netloc holds no `/`, `?` or `#`, and it is empty unless `//` follows the scheme. The rest starts at the netloc's end |
| Validator.UrlSplitChecks | core/validator.py:8 | a split that succeeds has a netloc that passes the bracket, bracketed-host and NFKC checks. The split raises iff `//` follows the scheme and the text up to the end of the authority fails one of them |
| Validator.HostErrorCases | core/validator.py:8 | a bracketed host passes iff it is an IPvFuture address when it starts with "v" and an IPv6 address otherwise. It fails with the IPv4 message iff it is an IPv4 address, and with the IPvFuture message iff it starts with "v" and is not IPvFuture |
| Validator.NfkcError | core/validator.py:8 | an ASCII netloc passes. Otherwise the netloc fails iff, with "@", ":", "#" and "?" removed, NFKC changes it and the result holds one of `/?#@:` |
| Validator.SplitScheme | core/validator.py:8 | a scheme is cut off only when it is a valid scheme word, and it is lower-cased; otherwise the text is left whole |
| Validator.SplitAuthority | core/validator.py:8 | after `//`, the netloc runs up to the first `/`, `?` or `#`, and netloc and rest give back the text. It raises iff `//` is there and that netloc fails the bracket checks: an unmatched bracket, brackets after the last "@" placed other than as `[host]` or `[host]:port`, or a checked host that is neither IPv6 nor IPvFuture |
| Validator.AfterLast | core/validator.py:8 | `rpartition("@")[2]`: the longest tail without the character, which is all of the text or follows the last occurrence |
| Validator.AfterFirst | core/validator.py:8 | `partition("]")[2]`: the text after the first occurrence, which with the text before it gives back the whole; empty when there is none |
| Validator.HostAcceptedByHost | core/validator.py:8 | a netloc holding both brackets passes them iff a host is extracted and that host passes the host check |
| Validator.BracketPlacement | core/validator.py:8 | a netloc `x[h]y` without "@" passes the bracket checks iff `x` is empty, `y` is empty or starts with ":", and `h` passes the host check; so `a[::1]` and `[::1]x` fail and `[::1]:80` passes |
| Validator.CheckedHostOf | core/validator.py:8 | in `x[h]y`, the host checked is `h` when nothing precedes the "[" and what follows the "]" is empty or a port; otherwise the netloc fails before any host is checked |
| Validator.UserinfoSkipped | core/validator.py:8 | the user information before the last "@" plays no part in the bracket checks |
| Validator.UserinfoBracketsCheckHost | core/validator.py:8 | with brackets only in the user information, the netloc passes iff the plain host before any ":" passes the host check, so `u[x]@example.com` fails |
| Validator.CheckedHostWithin | core/validator.py:8 | every checked host is made of characters of the netloc |
| Validator.ColonDotFreeRefused | core/validator.py:8 | a netloc holding "[" but no ":" or "." always fails the bracket checks |
| Validator.SplitAuthorityRaises | core/validator.py:8 | an authority that fails the bracket checks makes the cut raise their message |
| Validator.Clean | core/validator.py:8 | the cleaned URL holds no tab or newline |
| Validator.SplitRoundTrip | core/validator.py:8 | for a clean, lower-case URL, joining the split parts gives back the URL |
| Validator.SplitComposed | core/validator.py:8 | a URL built as `scheme://authority rest`, whose authority passes the netloc checks, splits back into exactly those parts |
| Validator.SplitComposedRaises | core/validator.py:8 | the same URL with an authority that fails a netloc check raises |
| Validator.ValidateUrl | core/validator.py:3-13 | empty or missing input is rejected with "URL is empty". Every other rejection carries one of the three error strings, and "Invalid URL" is given exactly when `urlparse` raises |
| Validator.AcceptedParts | core/validator.py:9-10 | an accepted URL splits with scheme http or https and a non-empty netloc |
| Validator.AcceptedFromParts | core/validator.py:9-10 | conversely, a URL that splits with scheme http or https and a non-empty netloc is accepted |
| Validator.AcceptsWebUrls | core/validator.py:9-10 | every `http(s)://authority rest` URL with a non-empty authority that passes the netloc checks is accepted |
| Validator.RejectsBadNetlocs | core/validator.py:12-13 | conversely, any `scheme://authority rest` URL whose authority fails a netloc check is rejected with "Invalid URL" |
| Validator.BracketedIpv4Rejected | core/validator.py:12-13 | a URL whose authority is a bracketed IPv4 address is rejected with "Invalid URL" |
| Validator.BracketedIpv4Raises | core/validator.py:8 | splitting such a URL raises the "An IPv4 address cannot be in brackets" error |
| Validator.BracketedWordRejected | core/validator.py:12-13 | a bracketed host with no ":" or ".", such as `[abc]`, is rejected with "Invalid URL" |
| Validator.MisplacedBracketsRejected | core/validator.py:12-13 | a URL whose brackets are preceded by text, or followed by text that is not a port, is rejected with "Invalid URL" whatever the host inside, as `http://a[::1]/` and `http://[::1]x/` are |
| Validator.BracketedUserinfoAccepted | core/validator.py:9-10 | `http(s)://<user information>@[::1]` is accepted even when the user information holds a "[" of its own, as in `http://u[x@[::1]` |
| Validator.BracketedFullFormAccepted | core/validator.py:9-10 | an http(s) URL whose authority is a bracketed full-form IPv6 address of eight hextets is accepted |
| Validator.NfkcDelimiterRejected | core/validator.py:12-13 | a non-ASCII authority without "@" or ":" that NFKC changes into text holding one of `/?#@:`, such as `a℀b`, is rejected with "Invalid URL" |
| Validator.AcceptedShape | core/validator.py:9-10 | an accepted clean URL has the shape `scheme://authority rest` |
| Validator.SchemelessRejected | core/validator.py:9-11 | text without a colon that does not start with `//` is rejected with "Invalid URL format" |
| Validator.UnitTestAccepts | tests/test_scraper.py:6-7 | `https://example.com` is accepted |
| Validator.UnitTestRejects | tests/test_scraper.py:8-9 | `notaurl` is rejected |
| IpAddress.Parse | core/validator.py:8 | `ip_address` gives IPv4 iff the text is a dotted quad, IPv6 iff it is an IPv6 address, and raises iff it is neither |
| IpAddress.Ipv4NotIpv6 | core/validator.py:8 | no text is both an IPv4 and an IPv6 address, so IPv4 being tried first decides nothing |
| IpAddress.DottedQuadIsIPv4 | core/validator.py:8 | four numbers up to 255, written in decimal and joined by ".", form an IPv4 address |
| IpAddress.FullFormIsIPv6 | core/validator.py:8 | eight hextets joined by ":" form an IPv6 address |
| IpAddress.LoopbackIsIPv6 | core/validator.py:8 | the compressed loopback `::1` is an IPv6 address |
| IpAddress.WordIsNeither | core/validator.py:8 | text with no ":" and no "." is neither kind of address |
| Artifacts.ExtractId | pages/4_Download.py:29-31 | the id is "unknown" iff `/opportunity/.+?/(\d+)` matches nowhere. Otherwise it is the digit run of the leftmost, shortest match. It is never empty |
| Artifacts.AiesecGuardNeverRejects | pages/4_Download.py:157-159 | the `if not op_id` guard of the API layer never fires |
| Artifacts.ExtractIdWithoutSlug | pages/4_Download.py:29-31 | with no `/` after any `/opportunity/`, the id is "unknown" |
| Artifacts.ExtractIdOfSlugUrl | pages/4_Download.py:29-31 | for `…/opportunity/<slug>/<digits>…` the id is those digits |
| Artifacts.Stamp | pages/4_Download.py:38 | the stamp is the ISO time with every `:` turned into `-`, cut at the first `.` |
| Artifacts.DownloadArtifact | pages/4_Download.py:36-43 | the file is `scraped_html/<stamp>_<method>_<id>.html` |
| Artifacts.BatchArtifact | pages/4_Download_Parser.py:63-74 | the file is `scraped_html/<stamp>_<batch>_<method>_<id>_<first 8 hash chars>.html` |
| Artifacts.ArtifactsAreHtml | pages/4_Download.py:39 | both kinds of artifact name end in `.html` |
| Cascade.LayerResult | pages/4_Download.py:145-210 | the placeholder layer never returns, and the cloud layer never returns without a key. Any other layer returns what its oracle returns, with an exception read as nothing |
| Cascade.FirstWin | pages/4_Download.py:206-212 | the winner is the first layer, in list order, that returns something; every earlier layer returned nothing |
| Cascade.ArtifactText | pages/4_Download.py:214 | the text written is never empty and is the page itself when the page is not empty |
| Cascade.SuccessEntry | pages/4_Download.py:217-224 | the success entry has status "success", the URL, and the path of the saved file |
| Cascade.SavedArtifact | pages/4_Download.py:214-215 | the saved file is at the success entry's path and has non-empty text |
| Cascade.FailureRecord | pages/4_Download.py:231-237 | a pass that does not land returns a failed record for the URL; it carries the message of the raising page write or log append when there was one |
| Cascade.LandingPass | pages/4_Download.py:188-231 | the pass found is the first pass that lands; with none found, no pass lands |
| Cascade.PassFault | pages/4_Download.py:214-232 | in a pass with a winner, nothing is raised iff the page write and the log append both succeed |
| Cascade.Stray | pages/4_Download.py:214-232 | the pages left on disk by passes whose log append raised: at most one per pass, none when no append raises, each with text |
| Cascade.Attempts | pages/4_Download.py:188-237 | the loop appends at most one entry, and never more than the files it writes. It appends exactly its returned record iff that record is a success, and then the last file written is the entry's. When no log append raises, it writes as many files as it appends |
| Cascade.RunSingleScrape | pages/4_Download.py:179-239 | the run raises iff `urlparse` does. An empty scheme or netloc returns "invalid_url" and appends nothing. At most one entry is appended, and the record names the URL |
| Cascade.AttemptsLand | pages/4_Download.py:206-226 | when pass b is the first to land, the run returns b's success entry and logs exactly it. It writes the pages of earlier passes whose log append raised, then b's file |
| Cascade.AttemptsLandTrace | pages/4_Download.py:188-231 | a run that lands in pass b first backs off a, …, b-1 seconds. Its last events are the layers of pass b up to the winner, so no later layer or pass runs |
| Cascade.AttemptsFail | pages/4_Download.py:227-237 | when no pass lands, the run returns the last pass's failed record and appends nothing. The only files written are the pages of passes whose log append raised, so none when no append raises |
| Cascade.AttemptsFailTrace | pages/4_Download.py:188-231 | a run in which no pass lands backs off after every pass but the last |
| Cascade.AttemptsSucceedIff | pages/4_Download.py:188-231 | the loop succeeds iff some pass within the retry budget lands |
| Cascade.RunSingleScrapeSpec | pages/4_Download.py:179-239 | success holds iff the URL has a scheme and a netloc and some pass lands. A success logs exactly its record and writes at least its file; a failure logs nothing |
| Cascade.RunKeepsNoStray | pages/4_Download.py:214-232 | when no log append raises, the run writes as many files as it logs entries |
| Cascade.WinnerIsRealLayer | pages/4_Download.py:145-171 | the winner is never the placeholder layer, nor the cloud layer without a key |
| Cascade.BackoffsIncrease | pages/4_Download.py:188-229 | the delays are 1, 2, 3, … seconds, fewer than the number of passes, so they strictly increase |
| Cascade.FallbackFails | pages/4_Download.py:239 | the record returned after zero passes is a failure |
| Cascade.InvalidFails | pages/4_Download.py:184-186 | the invalid-URL record is a failure |
| Intake.PastedUrls | pages/4_Download.py:275 | every kept line is stripped and not empty |
| Intake.PastedUrlsKeep | pages/4_Download.py:275 | a string is kept iff some line strips to it and it is not empty |
| Intake.Normalise | pages/4_Download.py:302-310 | a valid line is kept as is. Otherwise it is kept with `https://` prepended when that is valid, and dropped otherwise |
| Intake.Classify | pages/4_Download.py:300-310 | every line lands in exactly one list. The valid list holds only valid URLs, and the invalid list holds lines invalid both as they are and with `https://` |
| Intake.ClassifyPartition | pages/4_Download.py:300-310 | the valid list is the normalised lines in line order. A line is listed invalid iff it normalises to nothing |
| Intake.UniqueUrls | pages/4_Download.py:312-318 | the unique list is the first occurrence of each URL, in order: same members, no repeats |
| Intake.Intake | pages/4_Download.py:275-318 | the URLs scraped are the deduplicated normalised lines, all valid and pairwise distinct |
| Intake.WorkerResult | pages/4_Download.py:358-363 | each worker's result names its URL, and a success comes only from a run that did not raise |
| Intake.BatchResults | pages/4_Download.py:346-375 | there is exactly one result per unique URL |
| Intake.Summarise | pages/4_Download.py:379-382 | success plus failed equals the total attempted |
| Intake.SuccessCountIff | pages/4_Download.py:380 | all succeed iff the count is the total, and none succeeds iff the count is 0 |
| Intake.RaisingWorkerFails | pages/4_Download.py:360-363 | a URL `urlparse` rejects fails its slot with the exception's message |
| DownloadParser.BatchSearch | pages/4_Download_Parser.py:55 | the leftmost position at which `batch_\d+` matches |
| DownloadParser.BatchNumber | pages/4_Download_Parser.py:55-57 | a number is read iff `batch_\d+` matches somewhere |
| DownloadParser.BatchField | pages/4_Download_Parser.py:54-55 | a missing `batch_id` reads as "". A non-string id makes `re.search` raise |
| DownloadParser.BatchNums | pages/4_Download_Parser.py:51-57 | the numbers are those of the entries whose id matches; the list raises iff some id is not a string |
| DownloadParser.MaxNum | pages/4_Download_Parser.py:59 | the maximum is a member of the list and bounds every member |
| DownloadParser.NextNumber | pages/4_Download_Parser.py:59 | the next number is at least 1 and exceeds every used number. It is one above the maximum when numbers exist |
| DownloadParser.CreateNewBatchId | pages/4_Download_Parser.py:49-60 | it raises iff some id is not a string. Otherwise the id starts with `batch_` |
| DownloadParser.NewBatchIdIsFresh | pages/4_Download_Parser.py:49-60 | the new id's number exceeds every number in the log, and no entry carries the new id |
| DownloadParser.BatchIdNumber | pages/4_Download_Parser.py:60 | `batch_<n zero-padded to 3>` reads back as n |
| DownloadParser.FirstBatchId | pages/4_Download_Parser.py:54-60 | with no matching id in the log, the id is `batch_001` |
| DownloadParser.EntryFor | pages/4_Download_Parser.py:111-139 | each entry carries the batch id and the URL, with status "success" only for a fetched page. A success has `html_path` and method "Requests"; a failure has its reason |
| DownloadParser.ScrapeOne | pages/4_Download_Parser.py:108-142 | it raises iff `urlparse` does, or the URL has a scheme and storing raises: the page write's exception when a page came back and its write fails, else the log append's. A URL without a scheme is "invalid_url" and not logged, and an empty netloc is not checked. Any other URL that does not raise logs exactly its entry, and a fetched page also writes one file |
| DownloadParser.Store | pages/4_Download_Parser.py:118-142 | after the scheme check: it raises iff the page write (for a fetched page) or the log append raises, with that exception. Otherwise it logs exactly its entry, "success" iff a page came back, and writes the page under its batch name |
| DownloadParser.FaultFreeScrape | pages/4_Download_Parser.py:108-142 | when neither the page write nor the log append raises, the scrape raises iff `urlparse` does, and a URL with a scheme logs one entry |
| DownloadParser.ScrapeAll | pages/4_Download_Parser.py:181-190 | there is one result per input line, in order, with no dedupe |
| DownloadParser.FirstRaised | pages/4_Download_Parser.py:187-188 | nothing is raised iff every worker returned |
| DownloadParser.RunBatch | pages/4_Download_Parser.py:166-192 | no non-blank line means nothing runs. The batch finishes iff some line is pasted, every log id is a string or missing, `urlparse` accepts every URL, and for every URL with a scheme neither the page write nor the log append raises (`fut.result()` re-raises a worker's exception). A finished batch has one result per non-blank line and only appends to the log |
| DownloadParser.RunUrls | pages/4_Download_Parser.py:170-192 | on the stripped URL list: nothing runs without URLs, it finishes exactly under the conditions above, including no raising page write or log append, and a finished batch has one result per URL and only appends to the log |
| DownloadParser.DoneTagged | pages/4_Download_Parser.py:111-135 | every result of a finished batch carries the batch id and its own URL |
| DownloadParser.DoneShape | pages/4_Download_Parser.py:175-190 | a finished batch uses the id made from the starting log, and the log grows by exactly the workers' appends |
| DownloadParser.AppendedCount | pages/4_Download_Parser.py:109-142 | when every worker returns, the number of appended entries is the number of URLs with a scheme |
| DownloadParser.AppendedTagged | pages/4_Download_Parser.py:121-133 | every appended entry carries the batch id |
| DownloadParser.NextBatchExceeds | pages/4_Download_Parser.py:49-60 | after a batch that logged something, the next id's number exceeds this batch's |
| DownloadParser.NextIdExceeds | pages/4_Download_Parser.py:49-60 | once entries tagged with an id are logged, the next id is above it |
| ContentStore.FindHash | pages/5_Data.py:62-64 | the first entry carrying the hash, or none iff no entry carries it |
| ContentStore.SaveLog | pages/5_Data.py:57-80 | a known hash returns the earlier entry; the log is unchanged and no file is written. Otherwise one entry with the hash, the URL and the artifact path is appended, and that file is written |
| ContentStore.SaveLogKeepsHashesUnique | pages/5_Data.py:57-80 | if no two entries share a hash, that stays true after `save_log` |
| ContentStore.SaveLogIdempotent | pages/5_Data.py:58-64 | saving the same content again, from any URL or method at any time, changes nothing and returns the first entry |
| Sections.CollectFrom | pages/5_Data.py:229-242 | collection only extends the items found so far, and every item added is non-empty |
| Sections.CollectFromIsPrefix | pages/5_Data.py:231-242 | the items are the first `max_nodes` non-empty p/li/div/span texts before the next h1-h6 sibling |
| Sections.BeforeStop | pages/5_Data.py:234-235 | the siblings up to, not including, the first heading |
| Sections.CollectBound | pages/5_Data.py:240-242 | at most `max_nodes` items are collected (at least one when `max_nodes` < 1) |
| Sections.Selected | pages/5_Data.py:224-228 | a heading is selected iff its lower-cased text contains some lower-cased keyword |
| Sections.ExtractSections | pages/5_Data.py:218-248 | every section has items and a selected heading, and there are no more sections than headings |
| Sections.YieldsSection | pages/5_Data.py:226-247 | a heading adds a section exactly when it is selected and collects something, and the section holds the first `max_nodes` candidates |
| Sections.SectionRecords | pages/5_Data.py:296-301 | one record per item of a section, tagged with the section heading |
| Sections.FlattenRecords | pages/5_Data.py:295-302 | types 3-5 emit one record per item, in section-then-item order, each with its own heading |
| Sections.SectionParsersTagged | pages/5_Data.py:289-334 | types 3, 4 and 5 tag every record "job_description", "skill" and "eligibility" |
| Sections.NonEmpty | pages/5_Data.py:256-259 | exactly the non-empty paragraph texts are kept |
| Sections.HeadingRecords | pages/5_Data.py:261-264 | each heading record has type "heading" and non-empty content |
| Sections.ParserType1 | pages/5_Data.py:252-266 | the paragraph records come first, in order, then the heading records |
| Sections.ParagraphsFirst | pages/5_Data.py:252-266 | no heading record precedes a paragraph record |
| ParserBulk.HasOutput | pages/8_Parser_Bulk.py:268-270 | a page has output iff some .json name starts with its name with every ".html" removed |
| ParserBulk.Partition | pages/8_Parser_Bulk.py:259-273 | every listed .html file is on exactly one side, as often as it is listed: parsed iff some listed .json name starts with its base name, unparsed otherwise |
| ParserBulk.PartitionIsLoop | pages/8_Parser_Bulk.py:264-273 | the two sides are the ones the tab's loop builds by appending each listed .html file, in listing order, to one side |
| ParserBulk.SidesKeepOrder | pages/8_Parser_Bulk.py:264-273 | each side keeps the listing's order: with the .json files fixed, the sides of `xs + ys` are the sides of `xs` followed by those of `ys` |
| ParserBulk.AllParsedIff | pages/8_Parser_Bulk.py:339-394 | before any date filter, nothing is left unparsed, and the page says all files are parsed, iff every listed .html file has output |
| ParserBulk.ParsedAfterRun | pages/8_Parser_Bulk.py:176-270 | for `<stem>.html` with no "." in the stem, the output is `<stem>_<module>.json`, and once it is listed the page counts as parsed |
| ParserBulk.ItemsExtracted | pages/8_Parser_Bulk.py:179 | `items_extracted` is the list length only for a successful list result, and `None` otherwise |
| ParserBulk.RunEntry | pages/8_Parser_Bulk.py:181-188 | the entry's status is "success" iff the parser succeeded. It carries the page path, the output path, the item count and the parser name |
| ParserBulk.BulkRun | pages/8_Parser_Bulk.py:173-192 | entry k is about the chosen page k in the html directory and its output path. It says "success" iff the parser succeeded on that page, and it counts items only then |
| ParserBulk.BulkRunSuccesses | pages/8_Parser_Bulk.py:173-197 | the summary has as many "success" rows as there are chosen pages the parser succeeds on |
| ParserBulk.DateFiltered | pages/8_Parser_Bulk.py:279-296 | with no date nothing changes. With a date, a file is kept iff it was listed and its stamp parses to that date |
| ParserBulk.DateFilterKeepsSides | pages/8_Parser_Bulk.py:264-296 | after the date filter the parsed side is exactly the dated .html files with output |
| LogJoin.IdSearch | pages/12_Table_New.py:55-56 | the id is a non-empty digit run, and it is missing iff `_\d` occurs nowhere |
| LogJoin.IdSearchFinds | pages/15_Select_Columns_Matrix_Multi.py:74-75 | the id is the digit run after the first `_<digit>` |
| LogJoin.IdOfDownloadName | pages/4_Download.py:39 | a download artifact name reads back its opportunity id |
| LogJoin.IdOfBatchName | pages/4_Download_Parser.py:68 | a batch artifact name reads back its batch number, not its opportunity id |
| LogJoin.ExtractMeta | pages/15_Select_Columns_Matrix_Multi.py:67-77 | the timestamp is the parse of the part before the first "_", and the id is the first `_<digits>` |
| LogJoin.FirstMention | pages/12_Table_New.py:80-82 | the first log entry whose column holds a string containing the id, or none iff no entry does |
| LogJoin.Matches | pages/14_Select_Columns_Matrix.py:50-52 | the lookup raises iff the log has no such column. Otherwise it gives the first mentioning entry, or none when nothing mentions the id |
| LogJoin.GuardedMatch | pages/15_Select_Columns_Matrix_Multi.py:54-61 | an empty log or a missing id gives no entry; otherwise it is the plain lookup |
| LogJoin.UrlOf | pages/15_Select_Columns_Matrix_Multi.py:56-61 | the matched entry's `url`, or `None` |
| Selection.Uniform | pages/16_Data.py:203-216 | every index of the range holds the given value, and nothing else is held |
| Selection.Invert | pages/16_Data.py:218-221 | inverting succeeds iff every index has a value, and then negates each one |
| Selection.InvertTwice | pages/16_Data.py:218-221 | inverting twice gives back the original checks |
| Selection.InvertUniform | pages/14_Select_Columns_Matrix.py:74-81 | inverting "all ticked" gives "none ticked" and vice versa |
| Selection.Toggle | pages/16_Data.py:237-239 | a tick box sets its own index and leaves the others alone |
| Selection.InitChecks | pages/16_Data.py:200-205 | state that already exists is kept; new state is all ticked; other files' state is untouched |
| Selection.Press | pages/16_Data.py:212-221 | Select All picks every index and Unselect All picks none. Invert flips each one, and raises iff some index has no value |
| Selection.Picked | pages/14_Select_Columns_Matrix.py:108-111 | the picked indices are exactly the ticked ones in range, in ascending order |
| Selection.StrictPicked | pages/15_Select_Columns_Matrix_Multi.py:145 | `checks[i]` raises iff some index has no value; otherwise it gives the same picks |
| Selection.PickedAll | pages/16_Data.py:203 | fresh state picks every index |
| Selection.PickedEvery | pages/16_Data.py:252-253 | when every index is ticked, all are picked in order |
| Selection.PickedNone | pages/16_Data.py:216 | Unselect All picks nothing |
| Selection.PickedCount | pages/16_Data.py:251-255 | the number of columns is the number of ticked indices |
| Selection.ColumnKeyInjective | pages/16_Data.py:254 | different numbers give different `content_n` names |
| Selection.FillColumns | pages/16_Data.py:245-255 | the row keeps its metadata, `content_k` holds the k-th value for k = 1..n, and there are no other keys |
| Selection.ContentValues | pages/16_Data.py:252-254 | the k-th value is the item at the k-th picked index |
| Selection.ContentValuesAll | pages/16_Data.py:252-254 | picking every index gives all items, in order |
| Selection.SortedContentColumns | pages/16_Data.py:269 | the content columns are sorted as strings and are a permutation of those present |
| Selection.MetaThenContent | pages/16_Data.py:268-271 | the columns are the metadata columns present followed by the sorted content columns |
| Selection.ContentColumnOrder | pages/16_Data.py:269 | `content_10` comes before `content_2` |
| Data16.SplitExtRoot | pages/16_Data.py:31 | `os.path.splitext`: the extension cut is the last "." after the last "/" |
| Data16.FilenameMetadata | pages/16_Data.py:22-38 | a name without "_" gives ("", ""). Otherwise `opp` is everything after the first "_", and `ts` is the prefix with its first two "-" read as ":" |
| Data16.FilenameMetadataOf | pages/16_Data.py:27-34 | for `<stamp>_<rest>.json`, `opp` is `rest`, and only the first two "-" of the stamp become ":" |
| Data16.StrippedValue | pages/16_Data.py:56-57 | reading a metadata field succeeds iff the key is missing or holds a string |
| Data16.Length | pages/16_Data.py:65-72 | `len` of a missing field is 0, of a list its length, of a string its length; it raises on a number |
| Data16.MetaOf | pages/16_Data.py:42 | `metadata` is read only when missing or a dict |
| Data16.MetadataRow | pages/16_Data.py:41-73 | the row exists iff the file is a dict with readable fields. Then headings plus paragraphs are at most the blocks, `text_length` is the length of `all_text`, and the name's metadata is filled in |
| Data16.ContentBlocks | pages/16_Data.py:182-186 | the blocks are the stripped non-empty `content` values; reading raises iff some content is not a string |
| Data16.TextItems | pages/16_Data.py:184-186 | the items with text, in ascending order, and all of them |
| Data16.ContentBlocksInOrder | pages/16_Data.py:183-186 | block k is the stripped content of the k-th item with text |
| Data16.AllTextBlock | pages/16_Data.py:187-188 | the `all_text` fallback gives one stripped block, or none when it is blank |
| Data16.Blocks | pages/16_Data.py:179-188 | a list of `structured_content` gives its content blocks; otherwise the block is the `all_text` fallback |
| Data16.NoFallback | pages/16_Data.py:182-188 | with a `structured_content` list, `all_text` is never consulted |
| Data16.RowBase | pages/16_Data.py:245-249 | the row starts with exactly the three metadata keys, none of them a content key |
| Data16.ContentRow | pages/16_Data.py:245-255 | the row exists iff every block has a tick-box value |
| Data16.ContentRowColumns | pages/16_Data.py:245-255 | `content_1..content_k` hold the ticked blocks in ascending order with no gaps, and k is the number ticked |
| Data16.FreshRowHoldsAll | pages/16_Data.py:202-255 | with fresh state, the row holds every block |
| Data16.PageStep | pages/16_Data.py:190-255 | a file without blocks leaves the session as it was and has no row. Otherwise the state is created under the key with indices 0..N-1 only when the key is missing, and the row exists iff the stored state covers 0..N-1, which it always does for a file not shown before |
| Data16.DataStep | pages/16_Data.py:190-255 | the same step under `checks_<file>` |
| Data16.OwnStep | pages/16_Data.py:190-203 | the same step under a key of page 16's own |
| Data16.ContentTableColumns | pages/16_Data.py:266-271 | the table keeps the metadata and content columns, with the content columns in string order |
| Matrix.Contents | pages/14_Select_Columns_Matrix.py:129-130 | each item's `content`, or `None` when it has none |
| Matrix.PickedContents | pages/14_Select_Columns_Matrix.py:128-130 | the k-th value is the content of the k-th picked item |
| Matrix.PickedAllContents | pages/14_Select_Columns_Matrix.py:62-130 | picking every item gives every content, in order |
| Matrix.WideRowColumns | pages/14_Select_Columns_Matrix.py:121-130 | the wide row keeps its base columns and holds the picked contents as `content_1..k`, with no other keys |
| Matrix.WideRowAll | pages/14_Select_Columns_Matrix.py:121-130 | picking every item puts every content in the row |
| Matrix.SingleLookup | pages/14_Select_Columns_Matrix.py:38-52 | with no log file there is neither id nor URL. Otherwise it raises iff the name has an id and the log has no `url` column, and a URL found is the first entry mentioning the id |
| Matrix.SingleLookupEmptyLog | pages/14_Select_Columns_Matrix.py:41-50 | an empty log file raises `KeyError` for a file name with an id |
| Matrix.GuardedSingleLookup | pages/15_Select_Columns_Matrix_Multi.py:54-61 | with the multi page's `not df.empty` guard, an empty log gives the id and no URL |
| Matrix.SingleBase | pages/14_Select_Columns_Matrix.py:121-125 | the base row has exactly the file, the id and the URL |
| Matrix.SingleRow | pages/14_Select_Columns_Matrix.py:108-132 | no table is built iff no item is ticked |
| Matrix.SingleRowColumns | pages/14_Select_Columns_Matrix.py:108-130 | the row names the file and URL and holds the ticked contents as `content_1..k`, k the number ticked |
| Matrix.SingleRowAll | pages/14_Select_Columns_Matrix.py:60-130 | fresh state gives the row of all items |
| Matrix.UrlMap | pages/15_Select_Columns_Matrix_Multi.py:44-61 | with a log, every file is mapped and nothing else. The lookup raises iff the log has entries, no `url` column, and some file has an id. Each URL is the first mentioning entry's |
| Matrix.UrlMapOf | pages/15_Select_Columns_Matrix_Multi.py:50-61 | the map's keys are exactly the files, and each value mentions the file's id |
| Matrix.MultiBase | pages/15_Select_Columns_Matrix_Multi.py:105-152 | the base row has exactly the four metadata keys, filled from the name, its stamp and the URL map |
| Matrix.MultiRow | pages/15_Select_Columns_Matrix_Multi.py:145-160 | the row exists iff every item has a tick-box value |
| Matrix.MultiRowColumns | pages/15_Select_Columns_Matrix_Multi.py:145-158 | the row keeps its metadata and holds the ticked contents as `content_1..k`, k the number ticked |
| Matrix.MultiKeyInjective | pages/15_Select_Columns_Matrix_Multi.py:109 | different files have different state keys, so their ticks are independent |
| Matrix.MultiStep | pages/15_Select_Columns_Matrix_Multi.py:109-160 | each file's state is initialised once, and its row is built from it |
| Matrix.MultiRows | pages/15_Select_Columns_Matrix_Multi.py:96-160 | there is one row per selected file |
| Matrix.FreshMultiRow | pages/15_Select_Columns_Matrix_Multi.py:111-158 | a fresh file's row holds every content |
| Matrix.FreshMultiRows | pages/15_Select_Columns_Matrix_Multi.py:96-160 | with fresh state, every file's row holds all its contents |
| Matrix.MultiColumns | pages/15_Select_Columns_Matrix_Multi.py:170-172 | the four metadata columns come first, then exactly the content columns in string order |
| SharedSession.MatrixThenDataRaises | pages/16_Data.py:200-236 | once page 15 has stored its state `{1..n}` for a file, page 16 finds it under the same key, with no index 0, and raises `KeyError` for any file with a block, whatever n |
| SharedSession.MatrixStepThenDataRaises | pages/15_Select_Columns_Matrix_Multi.py:109-112 | the same after a whole pass of page 15 over a list file |
| SharedSession.OwnKeyApart | pages/15_Select_Columns_Matrix_Multi.py:109 | a page-16 key of its own never equals a page-15 key |
| SharedSession.OwnKeysKeepPagesApart | pages/16_Data.py:200-203 | with page 16's own key, each page's row is the same whether or not the other page ran first, whatever state page 15 stored |
| SharedSession.OwnKeyFreshRow | pages/16_Data.py:190-203 | with page 16's own key, a file page 16 has not shown before has a row iff it has blocks, and that row always exists, whatever state page 15 stored |
| WideTable.ItemColumns | pages/12_Table_New.py:91-97 | three columns per item |
| WideTable.ItemColumnsMembers | pages/12_Table_New.py:91-97 | a column is an item column iff it is `level_i`, `content_i` or `scrape_url_i` for some item i |
| WideTable.RowColumnsNoRepeats | pages/12_Table_New.py:85-97 | no column name repeats in a row |
| WideTable.RowColumnsPrefix | pages/12_Table_New.py:85-102 | a shorter row's columns are a prefix of a longer row's |
| WideTable.MetaRecord | pages/12_Table_New.py:85-89 | the record starts with the file, the id and the timestamp |
| WideTable.PutItem | pages/12_Table_New.py:91-97 | item n sets `level_n`, `content_n` and `scrape_url_n` |
| WideTable.WideColumns | pages/12_Table_New.py:85-97 | a record's keys, in order, are the metadata then `level_i`, `content_i`, `scrape_url_i` for each item |
| WideTable.WideCells | pages/12_Table_New.py:85-97 | the record holds the metadata and, per item, its `level`, `content` and the file's URL |
| WideTable.WideSameUrl | pages/12_Table_New.py:97 | `scrape_url_i` is the same for every item |
| WideTable.WideRow | pages/12_Table_New.py:75-99 | the row raises iff the log has entries but no `url` column and the name has an id. Otherwise it is the record with the first mentioning URL |
| WideTable.WideRows | pages/12_Table_New.py:64-99 | one row per file that loads, in selection order. It raises iff some loaded file's lookup raises |
| WideTable.WideRowAt | pages/12_Table_New.py:66-99 | the j-th file's row follows the rows of the loaded files before it |
| WideTable.TableColumns | pages/13_Table_View.py:98-106 | the frame's columns are the columns of the longest row, or none when no file loads |
| WideTable.View | pages/13_Table_View.py:122-128 | the view raises `KeyError` iff some chosen column is missing. Otherwise it shows the metadata then the choice |
| WideTable.DynamicColumns | pages/13_Table_View.py:106-112 | the dynamic columns of a row are exactly its item columns |
| WideTable.ViewOfTable | pages/13_Table_View.py:114-128 | any choice among the dynamic columns shows, and the default shows every column |
| WideTable.NoRowsNoView | pages/13_Table_View.py:98-128 | with no file loaded the table has no columns and the view raises |
| LongTable.Field | pages/11_Table.py:113-117 | a missing log entry or column reads as `None` |
| LongTable.LongRow | pages/11_Table.py:103-118 | the row has exactly its ten keys and carries the file's metadata, the item's fields and the matched log fields |
| LongTable.PageMatch | pages/11_Table.py:90-101 | the page's join raises iff the log has entries and either lacks the column or the name has no id. With an id it is the guarded join |
| LongTable.Lookup | pages/11_Table.py:90-101 | the join the page uses (as written, or as guarded on pages 12, 13 and 15) |
| LongTable.FileRows | pages/11_Table.py:87-118 | a file's rows raise iff a lookup raises. Otherwise there is one row per item, from its metadata and the two matches |
| LongTable.Gather | pages/11_Table.py:77-118 | the rows of all files, one file after another; it raises iff some file's rows raise |
| LongTable.GatherAt | pages/11_Table.py:77-118 | row i of file k comes after the rows of the files before it |
| LongTable.LongRows | pages/11_Table.py:77-120 | it raises iff some loaded file's rows raise. Otherwise there is one row per item of every loaded file, and unloaded files give none |
| LongTable.LongRowAt | pages/11_Table.py:77-118 | file k's item i is at position (rows of the earlier files) + i, in file-then-item order |
| LongTable.RowsCarryItems | pages/11_Table.py:103-112 | every row carries its file's metadata and its item's fields |
| LongTable.ScrapeColumns | pages/11_Table.py:90-114 | scrape fields come from the first entry whose `html_path` contains the id, and are `None` without one |
| LongTable.ParserColumns | pages/11_Table.py:96-117 | parser fields come from the first entry whose `html_file_path` contains the id, and are `None` without one |
| LongTable.NoIdRaises | pages/11_Table.py:91-92 | as written, a file without an id raises once the scrape log has entries; the guarded join builds its rows |
| LongTable.GuardedRaisesOnlyWithoutColumn | pages/11_Table.py:90-101 | with the guard, only a log lacking the joined column stops the page, and only for a name with an id |
| LongTable.JoinsAgreeWithId | pages/11_Table.py:90-101 | both joins agree on every name with an id |
| LongTable.NotesExample | pages/11_Table.py:91-92 | `notes.json` with one scrape-log entry raises as written and gives no rows with the guard |
| JsonViewer.Describe | pages/2_JSON_Data_Viewer.py:56-62 | an unreadable file maps to "Corrupted JSON" and {}. A readable one maps to its `_source_url`, or "Unknown URL" when absent |
| JsonViewer.BuildFileMap | pages/2_JSON_Data_Viewer.py:54-62 | the map's keys are the distinct file names in first-seen order, each with its description |
| JsonViewer.UniqueUrls | pages/2_JSON_Data_Viewer.py:67 | sorting raises iff the URLs are not all strings and not all equal |
| JsonViewer.UniqueUrlsSorted | pages/2_JSON_Data_Viewer.py:67 | the drop-down is sorted and repeat-free |
| JsonViewer.UniqueUrlsExact | pages/2_JSON_Data_Viewer.py:67 | a URL is offered iff some file maps to it |
| JsonViewer.MatchingFiles | pages/2_JSON_Data_Viewer.py:71 | at most the mapped files |
| JsonViewer.MatchingFilesExact | pages/2_JSON_Data_Viewer.py:71 | a file is listed iff it maps to the selected URL |
| JsonViewer.ExactlyOneGroup | pages/2_JSON_Data_Viewer.py:54-71 | every file falls in exactly one URL group, its own, which is offered |
| JsonViewer.EveryUrlHasFiles | pages/2_JSON_Data_Viewer.py:67-73 | every offered URL lists at least one file |
| JsonViewer.FileMapNamesDistinct | pages/2_JSON_Data_Viewer.py:54-60 | the map's names are pairwise distinct |
| JsonViewer.Preview | pages/2_JSON_Data_Viewer.py:94 | a falsy URL shows no preview, and a string previews iff it starts with "http". A truthy non-string raises |
| LogsDashboard.Entries | pages/1_Logs_Dashboard.py:11-12 | the kept lines are pieces of the split text that are not blank |
| LogsDashboard.EntriesExact | pages/1_Logs_Dashboard.py:11-12 | a line is kept iff it is a piece of the text and not blank after stripping |
| LogsDashboard.EntriesCount | pages/1_Logs_Dashboard.py:11-12 | kept plus blank lines make up all the lines |
| LogsDashboard.Shown | pages/1_Logs_Dashboard.py:19-23 | every shown line is a log line that passes the filter |
| LogsDashboard.FilterByStatus | pages/1_Logs_Dashboard.py:19-23 | the loop computes the filtered list |
| LogsDashboard.AllKeepsEverything | pages/1_Logs_Dashboard.py:21 | "ALL" keeps every line |
| LogsDashboard.StatusShowsMarked | pages/1_Logs_Dashboard.py:21-22 | any other status shows a line iff the line holds the status between two vertical bars |
| LogsDashboard.FilterKeepsOrder | pages/1_Logs_Dashboard.py:19-23 | filtering distributes over concatenation, so it keeps order and adds nothing |
| LogsDashboard.LoggedLineNeverMatches | pages/1_Logs_Dashboard.py:21-22 | a logger line whose message starts with its status and holds a single vertical bar (the SKIPPED and SUCCESS messages) is shown under no status but "ALL" |
| LogsDashboard.ErrorLineShownUnderUrlOnly | pages/1_Logs_Dashboard.py:21-22 | a logger line whose ERROR message holds the status, a bar, the URL, a bar and the error is shown under a status other than "ALL" iff that status is the URL itself |
| LogsDashboard.ErrorLineHoldsUrlMarker | pages/1_Logs_Dashboard.py:21-22 | an error line holds the marker of its URL |
| LogsDashboard.ErrorLineMarkerIsUrl | pages/1_Logs_Dashboard.py:21-22 | any marker an error line holds is the marker of its URL |
| LogsDashboard.IntendedShown | pages/1_Logs_Dashboard.py:19-23 | the filter with the marker placed as the logger writes it keeps only log lines that carry the marker |
| LogsDashboard.IntendedShowsLoggedStatus | pages/1_Logs_Dashboard.py:21-22 | with that marker, every logger line is shown under its own status |

## Left out

- Network layers (`try_requests` through `try_aiesec_api`, the retry sessions, core/scraper.py, core/dynamic_scraper.py): each is the oracle `probe(url, attempt, layer)`, or `fetch(url)`, with an exception read as nothing.
- Concurrency (`ThreadPoolExecutor`, `as_completed`, core/scheduler.py): a batch is a sequential map over its URLs, and completion order is not modelled.
- `time.sleep`: delays are observable events carrying an integer number of seconds. The rate-limit pause is an event with no length.
- The clock, SHA-256 and `strptime`: the ISO time is a string parameter, the hash is an uninterpreted function, and date parsing is an abstract `string -> Option<string>`.
- Files and JSON persistence (StorageService, export_service, the logger, `json.load`/`dump`, `os.listdir`): logs, the dataset and directory listings are sequences, and writes are returned as lists of artifacts.
- Nested JSON: values are flat. A parsed file is a list of flat objects; items that are not dicts, and the `AttributeError` their `.get` raises, are not modelled.
- NaN: the empty cell pandas makes for a missing column is `None` in the model.
- BeautifulSoup: a page is a list of headings, each with its text and following siblings already reduced to `get_text(strip=True)`. `find_all("p")` is a list of texts. `parser_type_2`, the parsers/*.py modules and config/validator.py are not part of this model.
- Lower-casing is ASCII only. `str.strip` strips exactly the characters `str.isspace` accepts.
- `splitlines` on pasted text is taken as already split into lines. The log dashboard's `split("\n")` is modelled exactly.
- Streamlit widgets, rendering, CSV export and the pages' free-text regex searches (pages/11_Table.py:134-139, pages/12_Table_New.py:115-122): presentation, not modelled. Pages 3, 7, 9 and 10 and ui/* are presentation only.
- The `.str` accessor on a column that holds no strings at all raises `AttributeError` in pandas. The model treats such a column like any other, where non-strings never match.
- Errors while loading the scrape or parser logs, and the page-level load failures of pages 14 and 15 (`json.load` on the selected file), are not modelled; those files are given as loaded.
- The CSV-upload branch of the intake page (pages/4_Download.py:277-290) is not modelled; only pasted lines are.
- Commented-out code (for example pages/4_Download.py:405-1174) is not live and is not modelled.
- tests/test_storage.py calls methods that StorageService does not define, so it states nothing to model.
- JsonViewer.UniqueUrls: Python can sort a mix of numbers and booleans, and `1 == True` merges them in the set. The model raises whenever the URLs are neither all strings nor all equal, which is weaker than the source on such inputs.
- Validator.ValidateUrl: the "Invalid URL" branch covers the `ValueError`s `urlsplit` raises in Python 3.12.9 and later (and 3.13.2 and later): an unmatched bracket, brackets after the last "@" placed other than as `[host]` or `[host]:port`, a checked host that is neither IPv6 nor IPvFuture, and a non-ASCII netloc that NFKC turns into one holding a delimiter. Port-range errors are raised later, by `.port`, which the validator never reads.
- Validator.HostAccepted: the bracket check of Python 3.11.4 to 3.12.8 (and 3.13.0 and 3.13.1), which checks the text after the first "[" up to the next "]" wherever it stands, is not modelled; under it `http://a[::1]/` passes and `http://u[x@[::1]` fails. Releases before 3.11.4 check no bracketed host at all. Every member built on the split (Cascade.RunSingleScrape, Intake.RaisingWorkerFails, DownloadParser.ScrapeOne, DownloadParser.FaultFreeScrape and the batch results) follows the same release.
- NFKC normalisation (`unicodedata.normalize`) is the parameter `nfkc`; the model does not know its tables.
- Validator.BracketedHostError: the message for a host that is no address quotes the host with plain quotes, not with Python's `repr`; every such message becomes "Invalid URL" in the validator anyway.
- IpAddress.IsIPv6: the grammar covers the field, hextet, `::` and embedded-IPv4 rules of `ipaddress`; a cap on the length of the text that later Python releases apply before parsing is not modelled, and the address value itself is not computed.
- Artifacts.ExtractId: `\d` matches ASCII digits only. Python's `\d` on a `str` matches every Unicode decimal digit, and `int()` reads them; ids written in other scripts are read as "unknown".
- DownloadParser.BatchSearch: `batch_\d+` is matched on ASCII digits only, for the same reason.
- DownloadParser.BatchNumber: the number read after `batch_` is an ASCII digit run; runs in other scripts are not read.
- LogJoin.IdSearch: `_(\d+)` is matched on ASCII digits only, for the same reason.
- Text.IsDigit is ASCII `0`-`9`; no Unicode digit category is modelled.
- DownloadParser.DoneShape and DownloadParser.AppendedCount hold for the sequential schedule only. Under the thread pool two `append_log` calls can interleave their read and write of the log and lose an entry.
- One `now` stands for the two `utcnow()` calls of a save (pages/4_Download.py:38 and 218, and the same pair in pages/5_Data.py), so the file name's stamp and the entry's timestamp are equal in the model.
- DownloadParser.Store: a page written before its log append raised stays on disk, but the raised result does not list it; and a write or log rewrite that fails part-way (after `open(..., "w")` has emptied the file) is taken to change nothing.
- Cascade.RunSingleScrape: the fatal-error branch (pages/4_Download.py:232-237) is taken when the page write or the log append raises, the two oracles `writeFault` and `logFault`; a raising log append is taken to leave the written page on disk and the log as it was, so a failure part-way through rewriting the log file is not modelled. `FailureRecord` covers both failure records with one status.

## Findings

| source | as written | input that shows it | evidently intended | confidence | as-written member | corrected member |
|---|---|---|---|---|---|---|
| pages/11_Table.py:91-92 | The scrape-log lookup passes `opportunity_id` to `str.contains` even when the name has no `_<digits>` and the id is `None`. pandas then raises `TypeError`, and the page stops. The parser-log lookup at lines 98-99 does the same | selecting `notes.json`, or any parser output of a page saved as `…_unknown.html`, while the scrape log has an entry | skip the lookup when there is no id, as pages 12, 13 and 15 do with `if opp_id and not df.empty`, and leave the log columns empty | medium, not executed | LongTable.NotesExample | LongTable.GuardedRaisesOnlyWithoutColumn |
| pages/14_Select_Columns_Matrix.py:41-50 | Only the existence of the log file is checked. An existing log holding `[]` gives a frame with no `url` column, and `logs_df["url"]` raises `KeyError` for any file with an id | `scrape_log.json` holding `[]` and a file named `2025-01-01T00-00-00_Requests_123.json` | guard with `not logs_df.empty`, as page 15 does at line 54 | low, not executed | Matrix.SingleLookupEmptyLog | Matrix.GuardedSingleLookup |
| pages/1_Logs_Dashboard.py:21-22 | The status filter looks for the status between two vertical bars. The logger writes `<time> <level> <message>` (utils/logger.py:7-8), and app.py puts the status first in the message, followed by a bar and the URL (lines 97-131). So a SKIPPED or SUCCESS line never holds the marker, and an ERROR line, `ERROR | url | error`, holds only the marker of its URL. The page also reads `scraper.log`, while the logger writes `app.log` | choosing SUCCESS for a log whose line is `2025-01-01 10:00:00,000 INFO ` followed by the message app.py logs for a saved page of `https://a.org` shows no line | look for the status as the message starts it: a space, the status, a space and a bar | medium, not executed | LogsDashboard.LoggedLineNeverMatches | LogsDashboard.IntendedShowsLoggedStatus |
| pages/16_Data.py:200-236 | Page 16 keeps a file's tick boxes under `checks_<file>` with the indices 0..N-1. Page 15 keeps the same file's boxes under the same key with 1..N (15_Select_Columns_Matrix_Multi.py:109-112). `st.session_state` is shared by the pages of the app, and each page creates the state only when the key is missing, so it reads the other page's state | a file `a.json` holding a dict with one key, `structured_content`, a list with one item whose `content` is "x". Page 15 stores `{1: True}` under `checks_a.json` (lines 111-112) before its `data[0]` raises `KeyError` at line 132. Page 16 then has one block, finds `{1: True}` and raises `KeyError` on `checks[0]` at line 236 | each page keeps its own state, under a key of its own such as `data_checks_<file>` on page 16 | medium, not executed | SharedSession.MatrixThenDataRaises | SharedSession.OwnKeysKeepPagesApart |

=== FILE: artifacts.dfy ===
/** Artifact identity in the two download pages: the opportunity id taken from
    a URL (`extract_id`, the pattern `/opportunity/.+?/(\d+)`), the filename
    stamp derived from a timestamp, and the names under which fetched pages
    are stored (`pages/4_Download.py` and `pages/4_Download_Parser.py`). */
module Artifacts {

  import opened Wrappers
  import opened Text

  /** The directory fetched pages are written to. */
  const HtmlDir: string := "scraped_html"

  /** The literal the id pattern starts with. */
  const Marker: string := "/opportunity/"

  /** What `extract_id` returns when the pattern does not match. */
  const Unknown: string := "unknown"

  // ---------------------------------------------------------------
  // The id pattern, as a reference definition
  // ---------------------------------------------------------------

  /** With the marker ending at `j`, the digits of `(\d+)` can start at `p`:
      `.+?` takes `s[j..p - 1]` (at least one character, none a newline), then
      "/" at `p - 1` and a digit at `p`. */
  predicate TailAt(s: string, j: int, p: int) {
    && 0 <= j && j + 2 <= p < |s|
    && s[p - 1] == '/' && IsDigit(s[p])
    && forall t :: j <= t < p - 1 ==> s[t] != '\n'
  }

  /** The pattern matches starting at `i` with its group starting at `p`. */
  predicate MatchAt(s: string, i: int, p: int) {
    OccursAt(s, Marker, i) && TailAt(s, i + |Marker|, p)
  }

  /** The match `re.search` reports: the leftmost start, and at that start the
      shortest `.+?`. */
  ghost predicate FirstMatch(s: string, i: int, p: int) {
    && MatchAt(s, i, p)
    && (forall a, q :: 0 <= a < i ==> !MatchAt(s, a, q))
    && (forall q :: q < p ==> !MatchAt(s, i, q))
  }

  // ---------------------------------------------------------------
  // The matcher
  // ---------------------------------------------------------------

  /** The lazy `.+?/` followed by a digit: the first candidate group start at or
      after `p`, given that `s[j..p - 1]` holds no newline. */
  function LazyTail(s: string, j: nat, p: nat): (r: Option<nat>)
    requires j + 2 <= p
    requires forall t :: j <= t < p - 1 && t < |s| ==> s[t] != '\n'
    ensures r.Some? ==> p <= r.value && TailAt(s, j, r.value)
    ensures r.Some? ==> forall q :: p <= q < r.value ==> !TailAt(s, j, q)
    ensures r.None? ==> forall q :: p <= q ==> !TailAt(s, j, q)
    decreases |s| - p
  {
    if p >= |s| then None
    else if s[p - 1] == '/' && IsDigit(s[p]) then Some(p)
    else if s[p - 1] == '\n' then None
    else LazyTail(s, j, p + 1)
  }

  /** The group start for the marker ending at `j`, if the rest of the pattern matches. */
  function TailFrom(s: string, j: nat): (r: Option<nat>)
    ensures r.Some? ==> TailAt(s, j, r.value) && forall q :: q < r.value ==> !TailAt(s, j, q)
    ensures r.None? ==> forall q :: !TailAt(s, j, q)
  {
    if j < |s| && s[j] != '\n' then LazyTail(s, j, j + 2) else None
  }

  /** Leftmost match starting at or after `i`: its start and its group start. */
  function MatchFrom(s: string, i: nat): (r: Option<(nat, nat)>)
    requires i <= |s|
    ensures r.Some? ==> i <= r.value.0 && MatchAt(s, r.value.0, r.value.1)
    ensures r.Some? ==> forall a, q :: i <= a < r.value.0 ==> !MatchAt(s, a, q)
    ensures r.Some? ==> forall q :: q < r.value.1 ==> !MatchAt(s, r.value.0, q)
    ensures r.None? ==> forall a, q :: i <= a ==> !MatchAt(s, a, q)
    decreases |s| - i
  {
    var t := if OccursAt(s, Marker, i) then TailFrom(s, i + |Marker|) else None;
    if t.Some? then Some((i, t.value))
    else if i == |s| then None
    else MatchFrom(s, i + 1)
  }

  /** `extract_id(url)`: the digits of the first match, or "unknown". */
  function ExtractId(url: string): (r: string)
    ensures r != ""
    ensures r == Unknown <==> forall i, p :: !MatchAt(url, i, p)
    ensures r != Unknown ==> AllDigits(r) && exists i, p :: FirstMatch(url, i, p) && r == DigitRun(url, p)
  {
    var m := MatchFrom(url, 0);
    if m.Some? then
      var d := DigitRun(url, m.value.1);
      assert d[0] == url[m.value.1];
      assert FirstMatch(url, m.value.0, m.value.1);
      d
    else Unknown
  }

  /** The AIESEC API layer's guard `if not op_id` never fires: the id is never empty. */
  lemma AiesecGuardNeverRejects(url: string)
    ensures ExtractId(url) != ""
  {
  }

  /** A URL with no "/" after any marker has no id, such as
      `https://aiesec.org/opportunity/1330505`. */
  lemma ExtractIdWithoutSlug(s: string)
    requires forall i :: OccursAt(s, Marker, i) ==> forall t :: i + |Marker| <= t < |s| ==> s[t] != '/'
    ensures ExtractId(s) == Unknown
  {
  }

  /** The shape `pre + Marker + slug + "/" + d + rest` the next lemmas speak about. */
  predicate SlugUrl(pre: string, slug: string, d: string, rest: string) {
    && (|slug| > 0 && forall t :: 0 <= t < |slug| ==> slug[t] != '/' && slug[t] != '\n')
    && (|d| > 0 && AllDigits(d))
    && (|rest| == 0 || !IsDigit(rest[0]))
  }

  /** In a slug URL the pattern matches at the marker after `pre`, with the group
      right after the slug, and at that start no shorter `.+?` matches. */
  lemma SlugUrlMatch(pre: string, slug: string, d: string, rest: string, s: string)
    requires s == pre + Marker + slug + "/" + d + rest
    requires SlugUrl(pre, slug, d, rest)
    ensures MatchAt(s, |pre|, |pre| + |Marker| + |slug| + 1)
    ensures forall q :: q < |pre| + |Marker| + |slug| + 1 ==> !MatchAt(s, |pre|, q)
  {
    var i0 := |pre|;
    var j := i0 + |Marker|;
    var p0 := j + |slug| + 1;
    assert s[i0..i0 + |Marker|] == Marker;
    assert forall t :: j <= t < p0 - 1 ==> s[t] == slug[t - j];
    assert s[p0 - 1] == '/';
    assert s[p0] == d[0];
  }

  /** A URL whose first marker is followed by a slug without "/", then "/" and
      the digits `d`, has id `d`. */
  lemma ExtractIdOfSlugUrl(pre: string, slug: string, d: string, rest: string)
    requires forall k :: 0 <= k < |pre| ==> !OccursAt(pre + Marker + slug + "/" + d + rest, Marker, k)
    requires SlugUrl(pre, slug, d, rest)
    ensures ExtractId(pre + Marker + slug + "/" + d + rest) == d
  {
    var s := pre + Marker + slug + "/" + d + rest;
    var p0 := |pre| + |Marker| + |slug| + 1;
    SlugUrlMatch(pre, slug, d, rest, s);
    FirstMatchAt(s, |pre|, p0);
    SlugUrlTail(pre, slug, d, rest);
    DigitRunOf(s, p0, d, rest);
  }

  lemma SlugUrlTail(pre: string, slug: string, d: string, rest: string)
    ensures var s := pre + Marker + slug + "/" + d + rest;
            s[|pre| + |Marker| + |slug| + 1..] == d + rest
  {
  }

  /** A match at the first marker, with no shorter `.+?` there, is the one
      `extract_id` reports. */
  lemma FirstMatchAt(s: string, i0: nat, p0: nat)
    requires MatchAt(s, i0, p0)
    requires forall k :: 0 <= k < i0 ==> !OccursAt(s, Marker, k)
    requires forall q :: q < p0 ==> !MatchAt(s, i0, q)
    ensures MatchFrom(s, 0) == Some((i0, p0))
    ensures p0 <= |s| && ExtractId(s) == DigitRun(s, p0)
  {
  }

  /** The digit run at the start of `d + rest` is `d` when `rest` does not start with a digit. */
  lemma DigitRunOf(s: string, k: nat, d: string, rest: string)
    requires k <= |s| && s[k..] == d + rest
    requires AllDigits(d)
    requires |rest| == 0 || !IsDigit(rest[0])
    ensures DigitRun(s, k) == d
  {
    var m := k + |d|;
    assert forall t :: k <= t < m ==> s[t] == s[k..][t - k] == d[t - k];
    if m < |s| {
      assert s[m] == s[k..][|d|] == rest[0];
    }
    DigitRunUpTo(s, k, m);
    assert s[k..m] == d;
  }

  /** The greedy digit run from `k` ends exactly where the digits stop. */
  lemma {:induction false} DigitRunUpTo(s: string, k: nat, m: nat)
    requires k <= m <= |s|
    requires forall t :: k <= t < m ==> IsDigit(s[t])
    requires m == |s| || !IsDigit(s[m])
    ensures DigitRun(s, k) == s[k..m]
    decreases m - k
  {
    if k < m {
      DigitRunUpTo(s, k + 1, m);
      assert s[k..m] == [s[k]] + s[k + 1..m];
    }
  }

  // ---------------------------------------------------------------
  // Timestamps and artifact names
  // ---------------------------------------------------------------

  /** `now.isoformat().replace(":", "-").split(".")[0]`: the filename stamp. */
  function Stamp(now: string): (r: string)
    ensures |r| <= |now|
    ensures ':' !in r && '.' !in r
    ensures forall i :: 0 <= i < |r| ==> r[i] == (if now[i] == ':' then '-' else now[i])
    ensures |r| < |now| ==> now[|r|] == '.'
  {
    var t := ReplaceChar(now, ':', '-');
    var r := BeforeFirst(t, '.');
    assert forall i :: 0 <= i < |r| ==> r[i] == t[i];
    r
  }

  /** A file written by `save_html_file`: where, and what. */
  datatype Artifact = Artifact(path: string, text: string)

  /** `os.path.join(HTML_DIR, filename)` */
  function InHtmlDir(filename: string): (path: string)
    ensures StartsWith(path, HtmlDir + "/")
    ensures path[|HtmlDir| + 1..] == filename
  {
    HtmlDir + "/" + filename
  }

  /** `save_html_file` in `pages/4_Download.py`: `<stamp>_<method>_<id>.html`. */
  function DownloadArtifact(now: string, methodName: string, url: string): (path: string)
    ensures StartsWith(path, HtmlDir + "/")
    ensures path[|HtmlDir| + 1..] == Stamp(now) + "_" + methodName + "_" + ExtractId(url) + ".html"
  {
    InHtmlDir(Stamp(now) + "_" + methodName + "_" + ExtractId(url) + ".html")
  }

  /** `save_html_file` in `pages/4_Download_Parser.py`:
      `<stamp>_<batch>_<method>_<id>_<first 8 hash characters>.html`. */
  function BatchArtifact(now: string, batchId: string, methodName: string, url: string,
                         html: string, hash: string -> string): (path: string)
    ensures StartsWith(path, HtmlDir + "/")
    ensures path[|HtmlDir| + 1..]
      == Stamp(now) + "_" + batchId + "_" + methodName + "_" + ExtractId(url) + "_" + Take(hash(html), 8) + ".html"
    ensures |Take(hash(html), 8)| <= 8
  {
    InHtmlDir(Stamp(now) + "_" + batchId + "_" + methodName + "_" + ExtractId(url) + "_" + Take(hash(html), 8) + ".html")
  }

  /** Both artifact names end in ".html". */
  lemma ArtifactsAreHtml(now: string, batchId: string, methodName: string, url: string,
                         html: string, hash: string -> string)
    ensures EndsWith(DownloadArtifact(now, methodName, url), ".html")
    ensures EndsWith(BatchArtifact(now, batchId, methodName, url, html, hash), ".html")
  {
    var da := Stamp(now) + "_" + methodName + "_" + ExtractId(url);
    var ba := Stamp(now) + "_" + batchId + "_" + methodName + "_" + ExtractId(url) + "_" + Take(hash(html), 8);
    EndsWithAppend(da, ".html");
    EndsWithPrepend(HtmlDir + "/", da + ".html", ".html");
    assert DownloadArtifact(now, methodName, url) == InHtmlDir(da + ".html");
    EndsWithAppend(ba, ".html");
    EndsWithPrepend(HtmlDir + "/", ba + ".html", ".html");
    assert BatchArtifact(now, batchId, methodName, url, html, hash) == InHtmlDir(ba + ".html");
  }

  lemma EndsWithAppend(x: string, p: string)
    ensures EndsWith(x + p, p)
  {
    assert (x + p)[|x + p| - |p|..] == p;
  }

  lemma EndsWithPrepend(x: string, s: string, p: string)
    requires EndsWith(s, p)
    ensures EndsWith(x + s, p)
  {
    assert (x + s)[|x + s| - |p|..] == s[|s| - |p|..];
  }
}

=== FILE: cascade.dfy ===
/** `run_single_scrape` in `pages/4_Download.py`: eight fetch strategies tried
    in a fixed order inside an outer retry loop; the first strategy that
    returns something wins, its page is saved and one log entry is appended.

    The network is an oracle `probe(url, attempt, layer)` giving the content a
    strategy returns in that pass, `None` when it returns nothing or raises.
    Saving the page can raise, and so can appending the log entry after the
    page is saved: `writeFault(url, attempt)` and `logFault(url, attempt)` say
    when and with what message. A pass whose append raises leaves its page on
    disk without an entry. Sleeps are recorded as events of a trace. */
module Cascade {

  import opened Wrappers
  import opened Text
  import opened Json
  import opened Validator
  import opened Artifacts

  // ---------------------------------------------------------------
  // The layers
  // ---------------------------------------------------------------

  const LayerCount: nat := 8
  /** `try_cloud_api`: returns `None` without a key. */
  const CloudLayer: nat := 5
  /** `try_aiesec_api`: returns JSON rather than HTML. */
  const AiesecLayer: nat := 6
  /** `try_ai_extraction`: a placeholder that always returns `None`. */
  const AiLayer: nat := 7

  /** The `method` each real layer reports. */
  const Methods: seq<string> :=
    ["Requests", "Requests-HTML", "Splash", "Playwright", "Selenium", "Cloud API", "AIESEC API"]

  /** Everything `run_single_scrape` depends on besides the URL. */
  datatype Env = Env(
    probe: (string, nat, nat) -> Option<string>,
    cloudKey: string,
    rateLimited: bool,
    retryAttempts: int,
    writeFault: (string, nat) -> Option<string>,
    logFault: (string, nat) -> Option<string>,
    now: string,
    nfkc: string -> string)

  /** What layer `layer` returns in pass `attempt`; a raised exception is `None`. */
  function LayerResult(env: Env, url: string, attempt: nat, layer: nat): (r: Option<string>)
    requires layer < LayerCount
    ensures r.Some? ==> layer < AiLayer && (layer == CloudLayer ==> env.cloudKey != "")
    ensures layer < AiLayer && (layer != CloudLayer || env.cloudKey != "") ==> r == env.probe(url, attempt, layer)
  {
    if layer == AiLayer then None
    else if layer == CloudLayer && env.cloudKey == "" then None
    else env.probe(url, attempt, layer)
  }

  /** The first layer at or after `l` that returns something in pass `attempt`. */
  function FirstWin(env: Env, url: string, attempt: nat, l: nat): (r: Option<nat>)
    requires l <= LayerCount
    ensures r.Some? ==> l <= r.value < AiLayer && LayerResult(env, url, attempt, r.value).Some?
    ensures r.Some? ==> forall k :: l <= k < r.value ==> LayerResult(env, url, attempt, k).None?
    ensures r.None? ==> forall k :: l <= k < LayerCount ==> LayerResult(env, url, attempt, k).None?
    decreases LayerCount - l
  {
    if l == LayerCount then None
    else if LayerResult(env, url, attempt, l).Some? then Some(l)
    else FirstWin(env, url, attempt, l + 1)
  }

  /** The winning layer of pass `attempt`, if any. */
  function Win(env: Env, url: string, attempt: nat): Option<nat> {
    FirstWin(env, url, attempt, 0)
  }

  /** Pass `attempt` writes a page: some layer wins and `save_html_file` does
      not raise. */
  predicate Written(env: Env, url: string, attempt: nat) {
    Win(env, url, attempt).Some? && env.writeFault(url, attempt).None?
  }

  /** Pass `attempt` ends the run successfully: its page is written and
      `append_log` does not raise. */
  predicate Lands(env: Env, url: string, attempt: nat) {
    Written(env, url, attempt) && env.logFault(url, attempt).None?
  }

  /** The exception a pass with a winning layer raises: the write's, or else
      the append's. */
  function PassFault(env: Env, url: string, attempt: nat): (f: Option<string>)
    ensures Win(env, url, attempt).Some? ==> (f.None? <==> Lands(env, url, attempt))
  {
    if env.writeFault(url, attempt).Some? then env.writeFault(url, attempt) else env.logFault(url, attempt)
  }

  // ---------------------------------------------------------------
  // Records
  // ---------------------------------------------------------------

  /** `res.get("html") or json.dumps(res.get("json", ""))`: what is written to disk.
      The JSON layer's content is already the dumped text; an empty page falls
      back to the dump of `""`. */
  function ArtifactText(content: string): (t: string)
    ensures t != ""
    ensures content != "" ==> t == content
  {
    if content != "" then content else "\"\""
  }

  function InvalidRecord(url: string): Obj {
    map["status" := Str("failed"), "reason" := Str("invalid_url"), "url" := Str(url)]
  }

  /** Where the winning layer's page of pass `attempt` is saved. */
  function SuccessPath(env: Env, url: string, attempt: nat): string
    requires Win(env, url, attempt).Some?
  {
    DownloadArtifact(env.now, Methods[Win(env, url, attempt).value], url)
  }

  /** The log entry of a landed pass, from its parts. */
  function LandedEntry(now: string, methodName: string, path: string, url: string): (e: Obj)
    ensures Get(e, "status") == Str("success") && Get(e, "url") == Str(url)
    ensures Get(e, "html_path") == Str(path)
  {
    map["timestamp" := Str(now), "method" := Str(methodName), "html_path" := Str(path),
        "items_extracted" := Null, "url" := Str(url), "status" := Str("success")]
  }

  function SuccessEntry(env: Env, url: string, attempt: nat): (e: Obj)
    requires Win(env, url, attempt).Some?
    ensures IsSuccess(e) && Get(e, "url") == Str(url)
    ensures Get(e, "html_path") == Str(SuccessPath(env, url, attempt))
  {
    LandedEntry(env.now, Methods[Win(env, url, attempt).value], SuccessPath(env, url, attempt), url)
  }

  function SavedArtifact(env: Env, url: string, attempt: nat): (a: Artifact)
    requires Win(env, url, attempt).Some?
    ensures a.path == SuccessPath(env, url, attempt)
    ensures a.text != ""
  {
    var w := Win(env, url, attempt).value;
    Artifact(SuccessPath(env, url, attempt),
             ArtifactText(LayerResult(env, url, attempt, w).value))
  }

  /** The success entry points at the file that was written. */
  lemma SavedPathLogged(env: Env, url: string, attempt: nat)
    requires Win(env, url, attempt).Some?
    ensures Get(SuccessEntry(env, url, attempt), "html_path") == Str(SavedArtifact(env, url, attempt).path)
  {
  }

  /** The record of the last pass when it does not land: the caught exception's
      message, or `method: None` when every layer came back empty. */
  function FailureRecord(env: Env, url: string, attempt: nat): (e: Obj)
    ensures Get(e, "status") == Str("failed") && Get(e, "url") == Str(url)
  {
    if Win(env, url, attempt).Some? && PassFault(env, url, attempt).Some? then
      map["timestamp" := Str(env.now), "error" := Str(PassFault(env, url, attempt).value),
          "url" := Str(url), "status" := Str("failed")]
    else
      map["timestamp" := Str(env.now), "method" := Null, "url" := Str(url), "status" := Str("failed")]
  }

  /** What the function returns when the retry loop runs zero times. */
  function FallbackRecord(env: Env, url: string): Obj {
    map["timestamp" := Str(env.now), "url" := Str(url), "status" := Str("failed")]
  }

  predicate IsSuccess(record: Obj) {
    Get(record, "status") == Str("success")
  }

  // ---------------------------------------------------------------
  // Passes and the run
  // ---------------------------------------------------------------

  /** Observable steps: the rate-limit pause, a layer tried, the backoff after a pass. */
  datatype Event = Pause | Try(attempt: nat, layer: nat) | Backoff(seconds: nat)

  /** The layers `0..last` tried in pass `attempt`, in order. */
  function Tries(attempt: nat, last: nat): (t: seq<Event>)
    ensures |t| == last + 1
    ensures forall i :: 0 <= i < |t| ==> t[i] == Try(attempt, i)
  {
    seq(last + 1, i requires 0 <= i <= last => Try(attempt, i))
  }

  /** The events of pass `attempt`: the pause before the first pass, then the
      layers up to the winner, or all of them. */
  function PassTrace(env: Env, url: string, attempt: nat): seq<Event> {
    var w := Win(env, url, attempt);
    (if env.rateLimited && attempt == 1 then [Pause] else [])
    + Tries(attempt, if w.Some? then w.value else AiLayer)
  }

  /** The result of a run: the returned dict, the log entries appended, the
      files written, and the trace. */
  datatype Run = Run(record: Obj, appended: seq<Obj>, saved: seq<Artifact>, trace: seq<Event>)

  /** The events of passes `attempt..retryAttempts`: each pass, then its
      backoff when it does not land and another pass follows. */
  function Trace(env: Env, url: string, attempt: nat): (t: seq<Event>)
    requires 1 <= attempt <= env.retryAttempts
    decreases env.retryAttempts - attempt
  {
    var pass := PassTrace(env, url, attempt);
    if Lands(env, url, attempt) || attempt == env.retryAttempts then pass
    else pass + [Backoff(attempt)] + Trace(env, url, attempt + 1)
  }

  /** What the loop leaves behind, apart from its trace: the returned dict,
      the log entries appended and the files written. */
  datatype Outcome = Outcome(record: Obj, appended: seq<Obj>, saved: seq<Artifact>)

  /** The pass in which the loop, started at pass `attempt`, returns a
      success: it returns as soon as a pass lands. */
  function LandingPass(env: Env, url: string, attempt: nat): (r: Option<nat>)
    requires 1 <= attempt <= env.retryAttempts
    ensures r.Some? ==> FirstLanding(env, url, attempt, r.value)
    ensures r.None? ==> forall c :: attempt <= c <= env.retryAttempts ==> !Lands(env, url, c)
    decreases env.retryAttempts - attempt
  {
    if Lands(env, url, attempt) then Some(attempt)
    else if attempt < env.retryAttempts then LandingPass(env, url, attempt + 1)
    else None
  }

  /** The pages left on disk by passes `a..b-1` that wrote their page and
      then failed to log it, in pass order. */
  function Stray(env: Env, url: string, a: nat, b: nat): (s: seq<Artifact>)
    ensures a <= b ==> |s| <= b - a
    ensures (forall c :: a <= c < b ==> env.logFault(url, c).None?) ==> s == []
    ensures forall i :: 0 <= i < |s| ==> s[i].text != ""
    decreases b - a
  {
    if a >= b then []
    else
      (if Written(env, url, a) && !Lands(env, url, a) then [SavedArtifact(env, url, a)] else [])
      + Stray(env, url, a + 1, b)
  }

  /** No pass from `a` to `b` has its log append raise. */
  predicate LogsFine(env: Env, url: string, a: nat, b: int) {
    forall c :: a <= c <= b ==> env.logFault(url, c).None?
  }

  /** Passes `attempt..retryAttempts` of the loop: the landing pass's entry and
      file, or the last pass's failure record when none lands; either way the
      pages of earlier passes whose append raised stay written. */
  function Attempts(env: Env, url: string, attempt: nat): (r: Outcome)
    requires 1 <= attempt <= env.retryAttempts
    ensures |r.appended| <= 1 && |r.appended| <= |r.saved|
    ensures IsSuccess(r.record) <==> r.appended == [r.record]
    ensures !IsSuccess(r.record) <==> r.appended == []
    ensures IsSuccess(r.record) ==> |r.saved| >= 1 && Get(r.record, "html_path") == Str(r.saved[|r.saved| - 1].path)
    ensures LogsFine(env, url, attempt, env.retryAttempts) ==> |r.saved| == |r.appended|
    ensures Get(r.record, "url") == Str(url)
  {
    match LandingPass(env, url, attempt)
    case Some(b) =>
      var e := SuccessEntry(env, url, b);
      Outcome(e, [e], Stray(env, url, attempt, b) + [SavedArtifact(env, url, b)])
    case None =>
      Outcome(FailureRecord(env, url, env.retryAttempts), [], Stray(env, url, attempt, env.retryAttempts + 1))
  }

  /** The loop's outcome together with the events it went through. */
  function WithTrace(o: Outcome, t: seq<Event>): Run {
    Run(o.record, o.appended, o.saved, t)
  }

  /** `run_single_scrape(url, ...)`; `Raised` is the `ValueError` of `urlparse`,
      which is not caught. */
  function RunSingleScrape(env: Env, url: string): (r: Result<Run>)
    ensures r.Raised? <==> UrlSplit(url, env.nfkc).Raised?
    ensures var parsed := UrlSplit(url, env.nfkc);
            parsed.Ok? && (parsed.value.scheme == "" || parsed.value.netloc == "")
            ==> r == Ok(Run(InvalidRecord(url), [], [], []))
    ensures r.Ok? && env.retryAttempts < 1 ==> r.value.appended == [] && r.value.trace == []
    ensures r.Ok? ==> |r.value.appended| <= 1
    ensures r.Ok? ==> Get(r.value.record, "url") == Str(url)
  {
    match UrlSplit(url, env.nfkc)
    case Raised(m) => Raised(m)
    case Ok(p) =>
      if p.scheme == "" || p.netloc == "" then Ok(Run(InvalidRecord(url), [], [], []))
      else if env.retryAttempts < 1 then Ok(Run(FallbackRecord(env, url), [], [], []))
      else Ok(WithTrace(Attempts(env, url, 1), Trace(env, url, 1)))
  }

  // ---------------------------------------------------------------
  // Properties
  // ---------------------------------------------------------------

  /** The backoff delays of a trace, in order. */
  function Backoffs(t: seq<Event>): (b: seq<nat>)
    ensures |b| <= |t|
    decreases |t|
  {
    if |t| == 0 then []
    else Backoffs(t[..|t| - 1]) + (if t[|t| - 1].Backoff? then [t[|t| - 1].seconds] else [])
  }

  lemma {:induction false} BackoffsConcat(x: seq<Event>, y: seq<Event>)
    ensures Backoffs(x + y) == Backoffs(x) + Backoffs(y)
    decreases |y|
  {
    if |y| > 0 {
      assert (x + y)[..|x + y| - 1] == x + y[..|y| - 1];
      BackoffsConcat(x, y[..|y| - 1]);
    } else {
      assert x + y == x;
    }
  }

  lemma PassHasNoBackoff(env: Env, url: string, attempt: nat)
    ensures Backoffs(PassTrace(env, url, attempt)) == []
    ensures |PassTrace(env, url, attempt)| > 0
    ensures EndsWithTry(PassTrace(env, url, attempt))
  {
    var t := PassTrace(env, url, attempt);
    NoBackoffs(t);
  }

  lemma {:induction false} NoBackoffs(t: seq<Event>)
    requires forall i :: 0 <= i < |t| ==> !t[i].Backoff?
    ensures Backoffs(t) == []
    decreases |t|
  {
    if |t| > 0 {
      NoBackoffs(t[..|t| - 1]);
    }
  }

  /** `[a, a+1, ..., b-1]` */
  function Range(a: nat, b: nat): (r: seq<nat>)
    requires a <= b
    ensures |r| == b - a
    ensures forall i :: 0 <= i < |r| ==> r[i] == a + i
  {
    seq(b - a, i => a + i)
  }

  /** `b` is the first pass at or after `a` that lands. */
  predicate FirstLanding(env: Env, url: string, a: nat, b: nat) {
    a <= b <= env.retryAttempts && Lands(env, url, b)
    && forall c :: a <= c < b ==> !Lands(env, url, c)
  }

  /** The loop returned pass `b`'s entry and logged exactly it, after the
      stray pages of passes `a..b-1` it wrote its own file. */
  predicate LandedAt(env: Env, url: string, r: Outcome, a: nat, b: nat) {
    && Win(env, url, b).Some?
    && r.record == SuccessEntry(env, url, b)
    && r.appended == [r.record]
    && r.saved == Stray(env, url, a, b) + [SavedArtifact(env, url, b)]
  }

  /** When pass `b` is the first to land from `a` on, the loop from `a` returns
      that pass's entry, logs exactly it and writes its file after the pages of
      earlier passes whose append raised. */
  lemma AttemptsLand(env: Env, url: string, a: nat, b: nat)
    requires 1 <= a
    requires FirstLanding(env, url, a, b)
    ensures LandedAt(env, url, Attempts(env, url, a), a, b)
  {
    LandingPassFinds(env, url, a, b);
  }

  /** The loop returns in the first pass that lands. */
  lemma LandingPassFinds(env: Env, url: string, a: nat, b: nat)
    requires 1 <= a
    requires FirstLanding(env, url, a, b)
    ensures LandingPass(env, url, a) == Some(b)
  {
    match LandingPass(env, url, a)
    case Some(c) => FirstLandingUnique(env, url, a, b, c);
    case None =>
  }

  /** At most one pass is the first to land. */
  lemma FirstLandingUnique(env: Env, url: string, a: nat, b: nat, c: nat)
    requires FirstLanding(env, url, a, b) && FirstLanding(env, url, a, c)
    ensures b == c
  {
  }

  /** ... and its trace backs off `a, ..., b - 1` seconds and ends with the
      layers of pass `b` up to the winner: no later layer and no later pass runs. */
  lemma {:induction false} AttemptsLandTrace(env: Env, url: string, a: nat, b: nat)
    requires 1 <= a
    requires FirstLanding(env, url, a, b)
    ensures Backoffs(Trace(env, url, a)) == Range(a, b)
    ensures EndsWithTries(Trace(env, url, a), b, Win(env, url, b).value)
    decreases b - a
  {
    PassHasNoBackoff(env, url, a);
    if a == b {
      LandingPassEnds(env, url, a);
    } else {
      assert !Lands(env, url, a);
      AttemptsLandTrace(env, url, a + 1, b);
      TraceStep(env, url, a);
      BackoffStep(PassTrace(env, url, a), a, Trace(env, url, a + 1), b);
      TriesSuffix(PassTrace(env, url, a) + [Backoff(a)], Trace(env, url, a + 1), b, Win(env, url, b).value);
    }
  }

  /** The pass that lands ends with the layers up to the winner. */
  lemma LandingPassEnds(env: Env, url: string, a: nat)
    requires 1 <= a <= env.retryAttempts && Lands(env, url, a)
    ensures Trace(env, url, a) == PassTrace(env, url, a)
    ensures EndsWithTries(Trace(env, url, a), a, Win(env, url, a).value)
  {
    var pass := PassTrace(env, url, a);
    var w := Win(env, url, a).value;
    assert pass[|pass| - (w + 1)..] == Tries(a, w);
  }

  /** A pass that does not land, with passes left, is followed by its backoff and the rest. */
  lemma TraceStep(env: Env, url: string, a: nat)
    requires 1 <= a < env.retryAttempts && !Lands(env, url, a)
    ensures Trace(env, url, a) == PassTrace(env, url, a) + [Backoff(a)] + Trace(env, url, a + 1)
  {
  }

  /** The backoffs after a pass and its backoff of `a` seconds extend to start at `a`. */
  lemma BackoffStep(pass: seq<Event>, a: nat, rest: seq<Event>, b: nat)
    requires Backoffs(pass) == [] && a < b
    requires Backoffs(rest) == Range(a + 1, b)
    ensures Backoffs(pass + [Backoff(a)] + rest) == Range(a, b)
  {
    BackoffAfterPass(pass, a, rest);
    assert [a] + Range(a + 1, b) == Range(a, b);
  }

  /** When no pass from `a` on lands, the loop returns the last pass's failure
      record and logs nothing; the only pages left written are those of passes
      whose append raised, so none when no append raised. */
  lemma AttemptsFail(env: Env, url: string, a: nat)
    requires 1 <= a <= env.retryAttempts
    requires forall c :: a <= c <= env.retryAttempts ==> !Lands(env, url, c)
    ensures var r := Attempts(env, url, a);
      && r.record == FailureRecord(env, url, env.retryAttempts)
      && r.appended == [] && r.saved == Stray(env, url, a, env.retryAttempts + 1)
      && (LogsFine(env, url, a, env.retryAttempts) ==> r.saved == [])
  {
    if LandingPass(env, url, a).Some? {
      assert false;
    }
  }


  /** ... after backing off `a, ..., n - 1` seconds, and not ending with a backoff. */
  lemma {:induction false} AttemptsFailTrace(env: Env, url: string, a: nat)
    requires 1 <= a <= env.retryAttempts
    requires forall c :: a <= c <= env.retryAttempts ==> !Lands(env, url, c)
    ensures Backoffs(Trace(env, url, a)) == Range(a, env.retryAttempts)
    ensures EndsWithTry(Trace(env, url, a))
    decreases env.retryAttempts - a
  {
    PassHasNoBackoff(env, url, a);
    if a < env.retryAttempts {
      AttemptsFailTrace(env, url, a + 1);
      TraceStep(env, url, a);
      BackoffStep(PassTrace(env, url, a), a, Trace(env, url, a + 1), env.retryAttempts);
      EndsWithTrySuffix(PassTrace(env, url, a) + [Backoff(a)], Trace(env, url, a + 1));
    } else {
      LastPassTrace(env, url, a);
    }
  }

  lemma LastPassTrace(env: Env, url: string, a: nat)
    requires 1 <= a == env.retryAttempts
    ensures Trace(env, url, a) == PassTrace(env, url, a)
  {
  }

  /** The last event is a layer being tried. */
  predicate EndsWithTry(t: seq<Event>) {
    |t| > 0 && t[|t| - 1].Try?
  }

  lemma EndsWithTrySuffix(x: seq<Event>, y: seq<Event>)
    requires EndsWithTry(y)
    ensures EndsWithTry(x + y)
  {
    assert (x + y)[|x + y| - 1] == y[|y| - 1];
  }

  /** The backoffs of a pass, its backoff, and the rest. */
  lemma BackoffAfterPass(pass: seq<Event>, a: nat, rest: seq<Event>)
    requires Backoffs(pass) == []
    ensures Backoffs(pass + [Backoff(a)] + rest) == [a] + Backoffs(rest)
  {
    BackoffsConcat(pass, [Backoff(a)]);
    BackoffsConcat(pass + [Backoff(a)], rest);
    assert Backoffs([Backoff(a)]) == [a] by {
      assert [Backoff(a)][..0] == [];
    }
  }

  /** If some pass from `a` on lands, a first one does. */
  lemma {:induction false} FirstLandingExists(env: Env, url: string, a: nat, b: nat)
    requires a <= b <= env.retryAttempts && Lands(env, url, b)
    ensures exists c :: FirstLanding(env, url, a, c)
    decreases b - a
  {
    if Lands(env, url, a) {
      assert FirstLanding(env, url, a, a);
    } else {
      FirstLandingExists(env, url, a + 1, b);
      var c :| FirstLanding(env, url, a + 1, c);
      assert FirstLanding(env, url, a, c);
    }
  }

  /** The loop succeeds exactly when some pass within the budget lands. */
  lemma AttemptsSucceedIff(env: Env, url: string)
    requires 1 <= env.retryAttempts
    ensures IsSuccess(Attempts(env, url, 1).record)
            <==> exists b :: 1 <= b <= env.retryAttempts && Lands(env, url, b)
  {
    if b :| 1 <= b <= env.retryAttempts && Lands(env, url, b) {
      FirstLandingExists(env, url, 1, b);
      var c :| FirstLanding(env, url, 1, c);
      AttemptsLand(env, url, 1, c);
    } else {
      AttemptsFail(env, url, 1);
    }
  }

  /** The trace ends with the tries of pass `b` up to layer `w`. */
  predicate EndsWithTries(t: seq<Event>, b: nat, w: nat) {
    |t| >= w + 1 && t[|t| - (w + 1)..] == Tries(b, w)
  }

  lemma TriesSuffix(x: seq<Event>, y: seq<Event>, b: nat, w: nat)
    requires EndsWithTries(y, b, w)
    ensures EndsWithTries(x + y, b, w)
  {
    assert (x + y)[|x + y| - (w + 1)..] == y[|y| - (w + 1)..];
  }

  /** The fetch cascade end to end: an invalid URL short-circuits; otherwise
      the run succeeds exactly when some pass within the attempt budget lands,
      and then it appended exactly the returned entry; a failed run appends
      nothing. */
  lemma RunSingleScrapeSpec(env: Env, url: string)
    requires UrlSplit(url, env.nfkc).Ok?
    ensures var r := RunSingleScrape(env, url).value;
      && (IsSuccess(r.record) <==>
            && UrlSplit(url, env.nfkc).value.scheme != "" && UrlSplit(url, env.nfkc).value.netloc != ""
            && exists b :: 1 <= b <= env.retryAttempts && Lands(env, url, b))
      && (IsSuccess(r.record) ==> r.appended == [r.record] && |r.saved| >= 1)
      && (!IsSuccess(r.record) ==> r.appended == [])
  {
    var p := UrlSplit(url, env.nfkc).value;
    if p.scheme != "" && p.netloc != "" {
      if env.retryAttempts >= 1 {
        RunIsLoop(env, url);
        AttemptsSucceedIff(env, url);
      } else {
        assert RunSingleScrape(env, url).value.record == FallbackRecord(env, url);
        FallbackFails(env, url);
      }
    } else {
      InvalidFails(url);
    }
  }

  /** When no log append fails, every page the run kept on disk belongs to the one
      entry it appended: nothing is left behind without a log line. */
  lemma RunKeepsNoStray(env: Env, url: string)
    requires UrlSplit(url, env.nfkc).Ok?
    requires LogsFine(env, url, 1, env.retryAttempts)
    ensures var r := RunSingleScrape(env, url).value;
            |r.saved| == |r.appended|
  {
    var p := UrlSplit(url, env.nfkc).value;
    if p.scheme != "" && p.netloc != "" && env.retryAttempts >= 1 {
      RunIsLoop(env, url);
    }
  }

  lemma RunIsLoop(env: Env, url: string)
    requires UrlSplit(url, env.nfkc).Ok? && UrlSplit(url, env.nfkc).value.scheme != "" && UrlSplit(url, env.nfkc).value.netloc != ""
    requires env.retryAttempts >= 1
    ensures RunSingleScrape(env, url) == Ok(WithTrace(Attempts(env, url, 1), Trace(env, url, 1)))
  {
  }

  lemma FallbackFails(env: Env, url: string)
    ensures !IsSuccess(FallbackRecord(env, url))
  {
    assert Get(FallbackRecord(env, url), "status") == Str("failed");
  }

  lemma InvalidFails(url: string)
    ensures !IsSuccess(InvalidRecord(url))
  {
  }

  /** The placeholder layer never wins, and the cloud layer never wins without a key. */
  lemma WinnerIsRealLayer(env: Env, url: string, attempt: nat)
    requires Win(env, url, attempt).Some?
    ensures Win(env, url, attempt).value < AiLayer
    ensures env.cloudKey == "" ==> Win(env, url, attempt).value != CloudLayer
  {
  }

  /** Every delay is one second longer than the one before, so delays strictly increase. */
  lemma BackoffsIncrease(env: Env, url: string)
    requires 1 <= env.retryAttempts
    ensures var b := Backoffs(Trace(env, url, 1));
            && (forall i :: 0 <= i < |b| ==> b[i] == i + 1)
            && |b| < env.retryAttempts
  {
    if b :| 1 <= b <= env.retryAttempts && Lands(env, url, b) {
      FirstLandingExists(env, url, 1, b);
      var c :| FirstLanding(env, url, 1, c);
      AttemptsLandTrace(env, url, 1, c);
    } else {
      AttemptsFailTrace(env, url, 1);
    }
  }
}

=== FILE: content_store.dfy ===
/** `save_log` in `pages/5_Data.py`: a scrape log that refuses to record the
    same page content twice. Content is identified by its hash (SHA-256 in
    the source, the uninterpreted `hash` here); a page whose hash is already
    logged is neither written again nor logged again. */
module ContentStore {

  import opened Wrappers
  import opened Json
  import opened Artifacts

  const HashKey: string := "html_hash"

  /** The position of the first entry carrying hash `h`, if any. */
  function FindHash(log: seq<Obj>, h: string): (r: Option<nat>)
    ensures r.Some? ==> r.value < |log| && Get(log[r.value], HashKey) == Str(h)
    ensures r.Some? ==> forall k :: 0 <= k < r.value ==> Get(log[k], HashKey) != Str(h)
    ensures r.None? <==> forall k :: 0 <= k < |log| ==> Get(log[k], HashKey) != Str(h)
    decreases |log|
  {
    if |log| == 0 then None
    else if Get(log[0], HashKey) == Str(h) then Some(0)
    else
      assert forall k :: 1 <= k < |log| ==> log[k] == log[1..][k - 1];
      match FindHash(log[1..], h)
      case None => None
      case Some(k) => Some(k + 1)
  }

  /** The entry returned, the log afterwards, and the files written. */
  datatype Saved = Saved(entry: Obj, log: seq<Obj>, written: seq<Artifact>)

  /** The entry a fresh page is logged with. */
  function NewEntry(url: string, methodName: string, now: string, path: string, h: string): (e: Obj)
    ensures Get(e, HashKey) == Str(h) && Get(e, "url") == Str(url) && Get(e, "html_path") == Str(path)
  {
    map["url" := Str(url), "method" := Str(methodName), "timestamp" := Str(now),
        "html_path" := Str(path), HashKey := Str(h)]
  }

  /** `save_log(url, method, html_content)` against the current log. */
  function SaveLog(log: seq<Obj>, url: string, methodName: string, html: string,
                   hash: string -> string, now: string): (r: Saved)
    ensures Get(r.entry, HashKey) == Str(hash(html))
    ensures FindHash(log, hash(html)).Some? ==>
              r.entry == log[FindHash(log, hash(html)).value] && r.log == log && r.written == []
    ensures FindHash(log, hash(html)).None? ==>
              && r.log == log + [r.entry]
              && r.written == [Artifact(DownloadArtifact(now, methodName, url), html)]
              && Get(r.entry, "html_path") == Str(DownloadArtifact(now, methodName, url))
              && Get(r.entry, "url") == Str(url)
  {
    var h := hash(html);
    match FindHash(log, h)
    case Some(k) => Saved(log[k], log, [])
    case None =>
      var path := DownloadArtifact(now, methodName, url);
      var e := NewEntry(url, methodName, now, path, h);
      Saved(e, log + [e], [Artifact(path, html)])
  }

  /** No two entries of the log carry the same hash. */
  predicate HashesUnique(log: seq<Obj>) {
    forall i, j :: 0 <= i < j < |log| && Get(log[i], HashKey).Str? ==> Get(log[i], HashKey) != Get(log[j], HashKey)
  }

  /** `save_log` keeps hashes unique: the log never holds the same content twice. */
  lemma SaveLogKeepsHashesUnique(log: seq<Obj>, url: string, methodName: string, html: string,
                                 hash: string -> string, now: string)
    requires HashesUnique(log)
    ensures HashesUnique(SaveLog(log, url, methodName, html, hash, now).log)
  {
    var r := SaveLog(log, url, methodName, html, hash, now);
    if FindHash(log, hash(html)).None? {
      forall i, j | 0 <= i < j < |r.log| && Get(r.log[i], HashKey).Str?
        ensures Get(r.log[i], HashKey) != Get(r.log[j], HashKey)
      {
        if j == |log| {
          assert r.log[i] == log[i];
        } else {
          assert r.log[i] == log[i] && r.log[j] == log[j];
        }
      }
    }
  }

  /** Saving the same content again, from any URL, with any method, at any
      time, returns the entry of the first save and changes nothing. */
  lemma SaveLogIdempotent(log: seq<Obj>, url: string, methodName: string, html: string,
                          url2: string, method2: string, now: string, now2: string,
                          hash: string -> string)
    ensures var first := SaveLog(log, url, methodName, html, hash, now);
            var second := SaveLog(first.log, url2, method2, html, hash, now2);
            second.log == first.log && second.written == [] && second.entry == first.entry
  {
    var first := SaveLog(log, url, methodName, html, hash, now);
    var h := hash(html);
    if FindHash(log, h).None? {
      var k := FindHash(first.log, h);
      assert Get(first.log[|log|], HashKey) == Str(h);
      assert k.Some? && k.value == |log| by {
        assert forall i :: 0 <= i < |log| ==> first.log[i] == log[i];
      }
    } else {
      assert FindHash(first.log, h) == FindHash(log, h);
    }
  }
}

=== FILE: data16.dfy ===
/** `pages/16_Data.py`: a parser output file read back as a metadata row and
    as a list of text blocks, the blocks ticked per file, and the ticked
    blocks laid out as `content_1..content_k` of one row per file.

    A parser output is the dict loaded from JSON (`Loaded`); its top-level
    values are scalars, lists of dicts or dicts (`Field`). Loading itself,
    the Streamlit widgets, the transposed tables and the CSV export are
    outside the model. */
module Data16 {

  import opened Wrappers
  import opened Text
  import opened Json
  import opened Seqs
  import opened Selection
  import opened StringOrder

  // ---------------------------------------------------------------
  // File names
  // ---------------------------------------------------------------

  /** `s.rfind(c)`: the last position of `c`, or -1. */
  function RFind(s: string, c: char): (i: int)
    ensures -1 <= i < |s|
    ensures i >= 0 ==> s[i] == c
    ensures forall j :: i < j < |s| ==> s[j] != c
    decreases |s|
  {
    if |s| == 0 then -1
    else if s[|s| - 1] == c then |s| - 1
    else RFind(s[..|s| - 1], c)
  }

  /** `os.path.splitext(p)[0]` on POSIX: everything before the last ".", unless
      that dot is in a directory name or only dots precede it in the last
      path component. */
  function SplitExtRoot(p: string): (root: string)
    ensures StartsWith(p, root)
    ensures root != p ==> p[|root|] == '.' && '.' !in p[|root| + 1..] && '/' !in p[|root|..]
  {
    var sep := RFind(p, '/');
    var dot := RFind(p, '.');
    if dot > sep && exists k :: sep + 1 <= k < dot && p[k] != '.' then
      assert forall j :: dot < j < |p| ==> p[j] != '.' && p[j] != '/';
      p[..dot]
    else p
  }

  /** `extract_filename_metadata(filename)`: the name without its extension is
      split at its first "_"; the timestamp is the part before it with only
      its first two "-" turned into ":", the opportunity is the whole rest. A
      name whose root has no "_" gives `("", "")` (the unpacking raises and
      the bare `except` keeps the defaults). */
  function FilenameMetadata(name: string): (r: (string, string))
    ensures var root := SplitExtRoot(name);
            '_' !in root ==> r == ("", "")
    ensures var root := SplitExtRoot(name);
            var i := IndexOf(root, '_');
            '_' in root ==> r.1 == root[i + 1..] && |r.0| == i
    ensures var root := SplitExtRoot(name);
            var i := IndexOf(root, '_');
            '_' in root && ':' !in root[..i] ==> ReplaceChar(r.0, ':', '-') == root[..i]
  {
    match SplitOnce(SplitExtRoot(name), '_')
    case None => ("", "")
    case Some(parts) =>
      var tsPart := parts.0;
      assert ':' !in tsPart ==> ReplaceChar(ReplaceCharN(tsPart, '-', ':', 2), ':', '-') == tsPart by {
        if ':' !in tsPart { ReplaceCharNUndo(tsPart, '-', ':', 2); }
      }
      (ReplaceCharN(tsPart, '-', ':', 2), parts.1)
  }

  /** For the names the parsers write, `<stamp>_<rest>.json` with no "." in
      stamp or rest and no "_" in the stamp: the opportunity is `rest`, and
      the timestamp is the stamp with exactly the "-" that have fewer than two
      "-" before them turned into ":". */
  lemma FilenameMetadataOf(stamp: string, rest: string)
    requires '_' !in stamp && '.' !in stamp && '.' !in rest && '/' !in stamp && '/' !in rest
    ensures var r := FilenameMetadata(stamp + "_" + rest + ".json");
            && r.1 == rest
            && |r.0| == |stamp|
            && forall i :: 0 <= i < |stamp| ==>
                 r.0[i] == if stamp[i] == '-' && CountChar(stamp[..i], '-') < 2 then ':' else stamp[i]
  {
    var name := stamp + "_" + rest + ".json";
    var base := stamp + "_" + rest;
    var dot := |base|;
    assert name == base + ".json";
    assert name[dot] == '.';
    assert forall j :: dot < j < |name| ==> name[j] != '.';
    assert forall j :: 0 <= j < dot ==> name[j] != '.' by {
      forall j | 0 <= j < dot ensures name[j] != '.' {
        assert name[j] == base[j];
        if j < |stamp| { assert base[j] == stamp[j]; }
        else if j > |stamp| { assert base[j] == rest[j - |stamp| - 1]; }
      }
    }
    assert forall j :: 0 <= j < |name| ==> name[j] != '/' by {
      forall j | 0 <= j < |name| ensures name[j] != '/' {
        if j < |stamp| { assert name[j] == stamp[j]; }
        else if |stamp| < j < dot { assert name[j] == rest[j - |stamp| - 1]; }
      }
    }
    assert RFind(name, '.') == dot;
    assert RFind(name, '/') == -1;
    assert name[|stamp|] == '_';
    assert SplitExtRoot(name) == base;
    assert base[|stamp|] == '_' && base[..|stamp|] == stamp && base[|stamp| + 1..] == rest;
    assert IndexOf(base, '_') == |stamp|;
    forall i | 0 <= i < |stamp|
      ensures FilenameMetadata(name).0[i] == if stamp[i] == '-' && CountChar(stamp[..i], '-') < 2 then ':' else stamp[i]
    {
      if stamp[i] == '-' { ReplaceCharNFirst(stamp, '-', ':', 2, i); }
    }
  }

  // ---------------------------------------------------------------
  // Parser output documents
  // ---------------------------------------------------------------

  /** A top-level value of the loaded JSON. */
  datatype Field = Absent | Scalar(v: Value) | Items(items: seq<Obj>) | Dict(d: Obj)

  /** What `json.load` returned: a dict, or something else (a list, a scalar). */
  datatype Loaded = Object(fields: map<string, Field>) | NotObject

  /** `data.get(k)` */
  function FieldOf(fields: map<string, Field>, k: string): Field {
    if k in fields then fields[k] else Absent
  }

  /** `data.get(k, "").strip()` */
  function StrippedField(f: Field): (r: Result<string>)
    ensures r.Ok? <==> f.Absent? || (f.Scalar? && f.v.Str?)
    ensures f.Scalar? && f.v.Str? ==> r == Ok(Strip(f.v.s))
  {
    match f
    case Absent => Ok("")
    case Scalar(Str(s)) => Ok(Strip(s))
    case _ => Raised("AttributeError")
  }

  /** `meta.get(k, "").strip()` */
  function StrippedValue(meta: Obj, k: string): (r: Result<string>)
    ensures r.Ok? <==> k !in meta || meta[k].Str?
  {
    if k !in meta then Ok("")
    else match meta[k]
      case Str(s) => Ok(Strip(s))
      case _ => Raised("AttributeError")
  }

  /** `meta.get(k, "")` */
  function ValueOr(meta: Obj, k: string): Value {
    if k in meta then meta[k] else Str("")
  }

  /** `len(data.get(k, []))`: strings count characters, dicts keys; other
      scalars raise `TypeError`. */
  function Length(f: Field): (r: Result<nat>)
    ensures f.Absent? ==> r == Ok(0)
    ensures f.Items? ==> r == Ok(|f.items|)
    ensures f.Scalar? && f.v.Str? ==> r == Ok(|f.v.s|)
    ensures r.Raised? <==> f.Scalar? && !f.v.Str?
  {
    match f
    case Absent => Ok(0)
    case Scalar(Str(s)) => Ok(|s|)
    case Scalar(_) => Raised("TypeError")
    case Items(xs) => Ok(|xs|)
    case Dict(d) => Ok(|d|)
  }

  /** The elements of `data.get("structured_content", [])` that the page then
      calls `.get` on: iterating a scalar raises `TypeError`, and the
      elements of a non-empty string or dict have no `.get`. */
  function Iterated(f: Field): (r: Result<seq<Obj>>)
    ensures f.Items? ==> r == Ok(f.items)
    ensures f.Absent? ==> r == Ok([])
  {
    match f
    case Absent => Ok([])
    case Items(xs) => Ok(xs)
    case Scalar(Str(s)) => if s == "" then Ok([]) else Raised("AttributeError")
    case Scalar(_) => Raised("TypeError")
    case Dict(d) => if |d| == 0 then Ok([]) else Raised("AttributeError")
  }

  /** `{}` when absent; anything but a dict has no `.get`. */
  function MetaOf(f: Field): (r: Result<Obj>)
    ensures r.Ok? <==> f.Absent? || f.Dict?
  {
    match f
    case Absent => Ok(map[])
    case Dict(d) => Ok(d)
    case _ => Raised("AttributeError")
  }

  /** The row `extract_metadata_row` returns. */
  datatype MetaRow = MetaRow(
    jsonFile: string, timestamp: string, opportunityId: string,
    title: string, description: string,
    ogTitle: Value, ogDescription: Value, ogUrl: Value, siteName: Value, generator: Value,
    numLinks: nat, numImages: nat, numBlocks: nat, numHeadings: nat, numParagraphs: nat,
    textLength: nat)

  predicate IsParagraph(b: Obj) { Get(b, "type") == Str("paragraph") }
  predicate IsHeading(b: Obj) { Get(b, "type") == Str("heading") }

  /** Every value the row reads has a shape Python accepts. */
  predicate Readable(fields: map<string, Field>) {
    && Iterated(FieldOf(fields, "structured_content")).Ok?
    && StrippedField(FieldOf(fields, "title")).Ok?
    && (FieldOf(fields, "metadata").Absent? || FieldOf(fields, "metadata").Dict?)
    && (FieldOf(fields, "metadata").Dict? ==>
          "description" !in FieldOf(fields, "metadata").d || FieldOf(fields, "metadata").d["description"].Str?)
    && Length(FieldOf(fields, "links")).Ok?
    && Length(FieldOf(fields, "images")).Ok?
    && Length(FieldOf(fields, "all_text")).Ok?
  }

  /** `extract_metadata_row(json_file, data)`; any exception is reported and
      the file gets no row. */
  function MetadataRow(name: string, data: Loaded): (r: Result<MetaRow>)
    ensures r.Ok? <==> data.Object? && Readable(data.fields)
    ensures r.Ok? ==> r.value.numHeadings + r.value.numParagraphs <= r.value.numBlocks
    ensures r.Ok? && FieldOf(data.fields, "all_text").Scalar? ==> r.value.textLength == |FieldOf(data.fields, "all_text").v.s|
    ensures r.Ok? ==> (r.value.timestamp, r.value.opportunityId) == FilenameMetadata(name)
    ensures r.Ok? ==> r.value.jsonFile == name
  {
    match data
    case NotObject => Raised("AttributeError")
    case Object(fields) =>
      match Iterated(FieldOf(fields, "structured_content"))
      case Raised(e) => Raised(e)
      case Ok(blocks) =>
        var paragraphs := Filter(blocks, IsParagraph);
        var headings := Filter(blocks, IsHeading);
        FilterDisjoint(blocks, IsHeading, IsParagraph);
        var names := FilenameMetadata(name);
        match StrippedField(FieldOf(fields, "title"))
        case Raised(e) => Raised(e)
        case Ok(title) =>
          match MetaOf(FieldOf(fields, "metadata"))
          case Raised(e) => Raised(e)
          case Ok(meta) =>
            match StrippedValue(meta, "description")
            case Raised(e) => Raised(e)
            case Ok(description) =>
              match Length(FieldOf(fields, "links"))
              case Raised(e) => Raised(e)
              case Ok(links) =>
                match Length(FieldOf(fields, "images"))
                case Raised(e) => Raised(e)
                case Ok(images) =>
                  match Length(FieldOf(fields, "all_text"))
                  case Raised(e) => Raised(e)
                  case Ok(textLength) =>
                    Ok(MetaRow(name, names.0, names.1, title, description,
                               ValueOr(meta, "og:title"), ValueOr(meta, "og:description"),
                               ValueOr(meta, "og:url"), ValueOr(meta, "og:site_name"),
                               ValueOr(meta, "Generator"),
                               links, images, |blocks|, |headings|, |paragraphs|, textLength))
  }

  // ---------------------------------------------------------------
  // Content blocks
  // ---------------------------------------------------------------

  /** The item at `k` carries text that is not blank after stripping. */
  predicate HasText(xs: seq<Obj>, k: int) {
    0 <= k < |xs| && Get(xs[k], "content").Str? && !Blank(Get(xs[k], "content").s)
  }

  /** The `content` of every item is falsy or a string (else `.strip` raises). */
  predicate ContentsReadable(xs: seq<Obj>) {
    forall k :: 0 <= k < |xs| ==> !Truthy(Get(xs[k], "content")) || Get(xs[k], "content").Str?
  }

  /** Every block is non-empty and already stripped. */
  predicate StrippedBlocks(bs: seq<string>) {
    forall k :: 0 <= k < |bs| ==> bs[k] != "" && Strip(bs[k]) == bs[k]
  }

  lemma StrippedBlocksSnoc(bs: seq<string>, b: string)
    requires StrippedBlocks(bs) && b != "" && Strip(b) == b
    ensures StrippedBlocks(bs + [b])
  {
  }

  /** The loop over `structured_content`: the stripped text of every item
      whose content is not blank, in order. */
  function ContentBlocks(xs: seq<Obj>): (r: Result<seq<string>>)
    ensures r.Ok? <==> ContentsReadable(xs)
    ensures r.Ok? ==> |r.value| <= |xs| && StrippedBlocks(r.value)
    decreases |xs|
  {
    if |xs| == 0 then Ok([])
    else
      var n := |xs| - 1;
      var init := xs[..n];
      ReadableStep(xs);
      match ContentBlocks(init)
      case Raised(e) => Raised(e)
      case Ok(bs) =>
        var txt := Get(xs[n], "content");
        if !Truthy(txt) then Ok(bs)
        else if !txt.Str? then Raised("AttributeError")
        else if Blank(txt.s) then Ok(bs)
        else
          BlankIsStripEmpty(txt.s);
          StripIdempotent(txt.s);
          StrippedBlocksSnoc(bs, Strip(txt.s));
          Ok(bs + [Strip(txt.s)])
  }

  /** The contents are readable exactly when those of all but the last item
      are and the last one's is. */
  lemma ReadableStep(xs: seq<Obj>)
    requires |xs| > 0
    ensures ContentsReadable(xs) <==>
              ContentsReadable(xs[..|xs| - 1])
              && (!Truthy(Get(xs[|xs| - 1], "content")) || Get(xs[|xs| - 1], "content").Str?)
  {
    var n := |xs| - 1;
    assert forall k :: 0 <= k < n ==> xs[k] == xs[..n][k];
  }

  /** The positions of the items with text, in ascending order. */
  function TextItems(xs: seq<Obj>): (ks: seq<nat>)
    ensures forall i :: 0 <= i < |ks| ==> HasText(xs, ks[i])
    ensures forall i, j :: 0 <= i < j < |ks| ==> ks[i] < ks[j]
    ensures forall k :: HasText(xs, k) ==> k in ks
    decreases |xs|
  {
    if |xs| == 0 then []
    else
      var n := |xs| - 1;
      var init := xs[..n];
      assert forall k :: 0 <= k < n ==> xs[k] == init[k];
      TextItems(init) + (if HasText(xs, n) then [n] else [])
  }

  /** Block `i` is the stripped text of item `ks[i]`. */
  predicate InOrder(xs: seq<Obj>, bs: seq<string>, ks: seq<nat>) {
    |bs| == |ks|
    && forall i :: 0 <= i < |ks| ==>
         ks[i] < |xs| && Get(xs[ks[i]], "content").Str? && bs[i] == Strip(Get(xs[ks[i]], "content").s)
  }

  /** Block `i` is the stripped text of the `i`-th item with text: the
      blocks are exactly those texts, in item order. */
  lemma {:induction false} ContentBlocksInOrder(xs: seq<Obj>)
    requires ContentsReadable(xs)
    ensures InOrder(xs, ContentBlocks(xs).value, TextItems(xs))
    decreases |xs|
  {
    if |xs| > 0 {
      ReadableStep(xs);
      ContentBlocksInOrder(xs[..|xs| - 1]);
      InOrderExtend(xs);
    }
  }

  /** The induction step: the order holds for all items once it holds for all but the last. */
  lemma InOrderExtend(xs: seq<Obj>)
    requires |xs| > 0 && ContentsReadable(xs) && ContentsReadable(xs[..|xs| - 1])
    requires InOrder(xs[..|xs| - 1], ContentBlocks(xs[..|xs| - 1]).value, TextItems(xs[..|xs| - 1]))
    ensures InOrder(xs, ContentBlocks(xs).value, TextItems(xs))
  {
    var init := xs[..|xs| - 1];
    ContentBlocksStep(xs);
    TextItemsStep(xs);
    InOrderSnoc(xs, ContentBlocks(init).value, TextItems(init), ContentBlocks(xs).value, TextItems(xs));
  }

  /** One more item adds its position when it has text. */
  lemma TextItemsStep(xs: seq<Obj>)
    requires |xs| > 0
    ensures TextItems(xs) == TextItems(xs[..|xs| - 1]) + (if HasText(xs, |xs| - 1) then [|xs| - 1] else [])
  {
  }

  /** Appending an item extends both the blocks and the positions by its text, if any. */
  lemma InOrderSnoc(xs: seq<Obj>, bs: seq<string>, ks: seq<nat>, bs': seq<string>, ks': seq<nat>)
    requires |xs| > 0 && InOrder(xs[..|xs| - 1], bs, ks)
    requires var n := |xs| - 1;
             && bs' == bs + (if HasText(xs, n) then [Strip(Get(xs[n], "content").s)] else [])
             && ks' == ks + (if HasText(xs, n) then [n] else [])
    ensures InOrder(xs, bs', ks')
  {
    var n := |xs| - 1;
    forall i | 0 <= i < |ks|
      ensures ks[i] < |xs| && xs[ks[i]] == xs[..n][ks[i]]
    {
    }
  }

  /** One more item adds its stripped text when it is not blank. */
  lemma ContentBlocksStep(xs: seq<Obj>)
    requires |xs| > 0 && ContentsReadable(xs)
    ensures ContentsReadable(xs[..|xs| - 1])
    ensures ContentBlocks(xs).value
         == ContentBlocks(xs[..|xs| - 1]).value
          + (if HasText(xs, |xs| - 1) then [Strip(Get(xs[|xs| - 1], "content").s)] else [])
  {
    var n := |xs| - 1;
    assert forall k :: 0 <= k < n ==> xs[k] == xs[..n][k];
  }

  /** `elif data.get("all_text", "").strip(): blocks.append(data["all_text"].strip())` */
  function AllTextBlock(f: Field): (r: Result<seq<string>>)
    ensures r.Ok? <==> f.Absent? || (f.Scalar? && f.v.Str?)
    ensures r.Ok? ==> |r.value| <= 1
    ensures f.Scalar? && f.v.Str? ==> (r == Ok([]) <==> Strip(f.v.s) == "")
    ensures r.Ok? && |r.value| == 1 ==> f.Scalar? && r.value[0] == Strip(f.v.s)
  {
    match StrippedField(f)
    case Raised(e) => Raised(e)
    case Ok(t) => if t != "" then Ok([t]) else Ok([])
  }

  /** The block extraction of the page: the list's texts when
      `structured_content` is a list, otherwise the stripped `all_text`. */
  function Blocks(data: Loaded): (r: Result<seq<string>>)
    ensures data.NotObject? ==> r == Ok([])
    ensures data.Object? && FieldOf(data.fields, "structured_content").Items? ==>
              r == ContentBlocks(FieldOf(data.fields, "structured_content").items)
    ensures data.Object? && !FieldOf(data.fields, "structured_content").Items? ==>
              r == AllTextBlock(FieldOf(data.fields, "all_text"))
  {
    match data
    case NotObject => Ok([])
    case Object(fields) =>
      match FieldOf(fields, "structured_content")
      case Items(xs) => ContentBlocks(xs)
      case _ => AllTextBlock(FieldOf(fields, "all_text"))
  }

  /** A list under `structured_content` wins even when it yields no block:
      `all_text` is then never read. */
  lemma NoFallback(fields: map<string, Field>, other: Field)
    requires FieldOf(fields, "structured_content").Items?
    ensures Blocks(Object(fields)) == Blocks(Object(fields["all_text" := other]))
  {
    assert FieldOf(fields["all_text" := other], "structured_content") == FieldOf(fields, "structured_content");
  }

  // ---------------------------------------------------------------
  // The content row
  // ---------------------------------------------------------------

  /** The blocks as JSON strings. */
  function Strs(blocks: seq<string>): (vs: seq<Value>)
    ensures |vs| == |blocks| && forall k :: 0 <= k < |blocks| ==> vs[k] == Str(blocks[k])
  {
    seq(|blocks|, k requires 0 <= k < |blocks| => Str(blocks[k]))
  }

  /** The row's fixed part. */
  function RowBase(name: string): (base: Obj)
    ensures forall key :: key in base ==> !StartsWith(key, ContentPrefix)
    ensures base.Keys == {"json_file", "opportunity_id", "timestamp"}
    ensures base["json_file"] == Str(name)
  {
    var names := FilenameMetadata(name);
    var base := map["json_file" := Str(name), "opportunity_id" := Str(names.1), "timestamp" := Str(names.0)];
    assert !StartsWith("json_file", ContentPrefix) by { assert "json_file"[0] != ContentPrefix[0]; }
    assert !StartsWith("opportunity_id", ContentPrefix) by { assert "opportunity_id"[0] != ContentPrefix[0]; }
    assert !StartsWith("timestamp", ContentPrefix) by { assert "timestamp"[0] != ContentPrefix[0]; }
    base
  }

  /** The row of one file: `checks[i]` for each block (a missing index raises
      `KeyError`), the ticked blocks under `content_1, content_2, …`. */
  function ContentRow(name: string, blocks: seq<string>, checks: Checks): (r: Result<Obj>)
    ensures r.Ok? <==> Covers(checks, 0, |blocks|)
  {
    match StrictPicked(checks, 0, |blocks|)
    case Raised(e) => Raised(e)
    case Ok(picked) => Ok(Fill(RowBase(name), ContentPrefix, ContentValues(Strs(blocks), picked, 0)))
  }

  /** The state key of a file on page 16, `checks_<file>`: the key page 15
      also uses for the same file. */
  function DataKey(name: string): string {
    "checks_" + name
  }

  /** One pass of page 16's loop over a file whose state is kept under `key`.
      A file without blocks is skipped with a warning before any state is
      made: the session is unchanged and there is no row (`None`). Otherwise
      the state is created with the indices `0..N-1` when the key is missing,
      and the row is read from the state stored under the key. */
  function PageStep(session: Session, key: string, name: string, blocks: seq<string>): (r: (Session, Option<Result<Obj>>))
    ensures blocks == [] ==> r == (session, None)
    ensures blocks != [] ==> r.0 == InitChecks(session, key, 0, |blocks|) && r.1.Some?
    ensures blocks != [] ==> (r.1.value.Ok? <==> Covers(r.0[key], 0, |blocks|))
    ensures blocks != [] && key !in session ==> r.1.Some? && r.1.value.Ok?
  {
    if blocks == [] then (session, None)
    else
      var s := InitChecks(session, key, 0, |blocks|);
      (s, Some(ContentRow(name, blocks, s[key])))
  }

  /** Page 16's step as written, under `checks_<file>`. */
  function DataStep(session: Session, name: string, blocks: seq<string>): (r: (Session, Option<Result<Obj>>))
    ensures blocks == [] ==> r == (session, None)
    ensures blocks != [] ==> r.0 == InitChecks(session, DataKey(name), 0, |blocks|) && r.1.Some?
    ensures blocks != [] ==> (r.1.value.Ok? <==> Covers(r.0[DataKey(name)], 0, |blocks|))
    ensures blocks != [] && DataKey(name) !in session ==> r.1.Some? && r.1.value.Ok?
  {
    PageStep(session, DataKey(name), name, blocks)
  }

  /** A key of page 16's own for a file, which no page-15 key equals. */
  function OwnKey(name: string): string {
    "data_checks_" + name
  }

  /** Page 16's step with the state kept under `OwnKey`. */
  function OwnStep(session: Session, name: string, blocks: seq<string>): (r: (Session, Option<Result<Obj>>))
    ensures blocks == [] ==> r == (session, None)
    ensures blocks != [] ==> r.0 == InitChecks(session, OwnKey(name), 0, |blocks|) && r.1.Some?
    ensures blocks != [] ==> (r.1.value.Ok? <==> Covers(r.0[OwnKey(name)], 0, |blocks|))
    ensures blocks != [] && OwnKey(name) !in session ==> r.1.Some? && r.1.value.Ok?
  {
    PageStep(session, OwnKey(name), name, blocks)
  }

  /** `content_k` holds the k-th ticked block in index order, for k from 1 to
      the number of ticked blocks, with no gaps and no other content column. */
  lemma ContentRowColumns(name: string, blocks: seq<string>, checks: Checks)
    requires Covers(checks, 0, |blocks|)
    ensures var row := ContentRow(name, blocks, checks).value;
            var picked := Picked(checks, 0, |blocks|);
            && |picked| == CountTicked(checks, 0, |blocks|)
            && "json_file" in row && row["json_file"] == Str(name)
            && Holds(row, ContentValues(Strs(blocks), picked, 0))
            && OnlyContent(row, RowBase(name), |picked|)
  {
    var picked := Picked(checks, 0, |blocks|);
    var values := ContentValues(Strs(blocks), picked, 0);
    var base := RowBase(name);
    assert ContentRow(name, blocks, checks) == Ok(Fill(base, ContentPrefix, values));
    PickedCount(checks, 0, |blocks|);
    FillColumns(base, ContentPrefix, values);
  }

  /** All blocks start ticked: the first row holds every block, in order,
      under `content_1, content_2, …`. */
  lemma FreshRowHoldsAll(name: string, blocks: seq<string>)
    ensures ContentRow(name, blocks, Uniform(0, |blocks|, true)).Ok?
    ensures Holds(ContentRow(name, blocks, Uniform(0, |blocks|, true)).value, Strs(blocks))
  {
    var n := |blocks|;
    PickedAll(0, n);
    ContentValuesAll(Strs(blocks), 0);
    assert ContentRow(name, blocks, Uniform(0, n, true))
        == Ok(Fill(RowBase(name), ContentPrefix, Strs(blocks)));
    FillColumns(RowBase(name), ContentPrefix, Strs(blocks));
  }

  /** The final column order: the fixed columns present in the frame, then
      the content columns in string order. */
  function ContentTableColumns(columns: seq<string>): (r: seq<string>)
    ensures forall c :: c in r <==> c in columns && (c in RowBase("").Keys || IsContentColumn(c))
    ensures forall i, j :: 0 <= i < j < |r| && IsContentColumn(r[i]) ==> IsContentColumn(r[j]) && LessEq(r[i], r[j])
  {
    var meta := ["json_file", "opportunity_id", "timestamp"];
    var present := Filter(meta, c => c in columns);
    forall c ensures c in present <==> c in meta && c in columns {
      FilterMembers(meta, c => c in columns, c);
    }
    var base := RowBase("");
    forall k | 0 <= k < |present| ensures !IsContentColumn(present[k]) {
      assert present[k] in present;
      assert present[k] in base;
    }
    MetaThenContent(present, columns)
  }
}

=== FILE: dataset_service.dfy ===
/** `services/dataset_service.py`: the in-memory dataset, merged through
    `dedupe_by_key` on the default key `"id"` and handed to storage after
    every merge. Storage is modelled as the last sequence it was given. */
module DatasetService {

  import opened Wrappers
  import opened Json
  import opened Merger

  /** The field `merge` deduplicates on (the default of `dedupe_by_key`). */
  const IdKey: string := "id"

  /** The provenance field `has_url` looks at. */
  const SourceUrlKey: string := "_source_url"

  /** `self.records`, and what storage last received through `save`. */
  datatype Service = Service(records: seq<Obj>, stored: seq<Obj>)

  /** `__init__`: the records are whatever storage loads. */
  function Open(loaded: seq<Obj>): (s: Service)
    ensures s.records == loaded && s.stored == loaded
  {
    Service(loaded, loaded)
  }

  /** The argument of `merge`: a single dict or a list of dicts. */
  datatype NewData = One(record: Obj) | Many(records: seq<Obj>)

  /** `if isinstance(new_data, dict): new_data = [new_data]` */
  function AsList(d: NewData): (l: seq<Obj>)
    ensures d.One? ==> l == [d.record]
    ensures d.Many? ==> l == d.records
  {
    match d
    case One(r) => [r]
    case Many(rs) => rs
  }

  /** The `{"added": ..., "deduped": ...}` dict `merge` returns. */
  datatype Counts = Counts(added: nat, deduped: nat)

  /** `merge(new_data)`: the records become the deduplicated merge, that same
      sequence is saved, and the dedupe counters are returned. */
  function Merge(s: Service, d: NewData): (r: (Service, Counts))
    ensures var m := DedupeByKey(s.records, AsList(d), IdKey);
            r.0.records == m.merged && r.1 == Counts(m.added, m.deduped)
    ensures r.0.stored == r.0.records
    ensures r.1.added + r.1.deduped == |AsList(d)|
    ensures r.0.records[..|s.records|] == s.records
    ensures |r.0.records| == |s.records| + r.1.added
  {
    var m := DedupeByKey(s.records, AsList(d), IdKey);
    (Service(m.merged, m.merged), Counts(m.added, m.deduped))
  }

  /** `has_url(url)`: some record's `_source_url` equals `url`. */
  function HasUrl(s: Service, url: string): bool {
    AnyFromUrl(s.records, url)
  }

  function AnyFromUrl(records: seq<Obj>, url: string): bool
    decreases |records|
  {
    |records| > 0 && (Get(records[0], SourceUrlKey) == Str(url) || AnyFromUrl(records[1..], url))
  }

  /** `has_url` is true exactly when some record carries the URL as its provenance. */
  lemma {:induction false} AnyFromUrlIff(records: seq<Obj>, url: string)
    ensures AnyFromUrl(records, url) <==>
      exists i :: 0 <= i < |records| && Get(records[i], SourceUrlKey) == Str(url)
    decreases |records|
  {
    if |records| > 0 {
      AnyFromUrlIff(records[1..], url);
      if exists i :: 0 <= i < |records| && Get(records[i], SourceUrlKey) == Str(url) {
        var i :| 0 <= i < |records| && Get(records[i], SourceUrlKey) == Str(url);
        if i > 0 {
          assert records[1..][i - 1] == records[i];
        }
      }
      if exists i :: 0 <= i < |records[1..]| && Get(records[1..][i], SourceUrlKey) == Str(url) {
        var i :| 0 <= i < |records[1..]| && Get(records[1..][i], SourceUrlKey) == Str(url);
        assert records[i + 1] == records[1..][i];
      }
    }
  }

  /** `get()`: the current records. */
  function Records(s: Service): (rs: seq<Obj>)
    ensures |rs| == |s.records|
    ensures forall i :: 0 <= i < |rs| ==> rs[i] == s.records[i]
  {
    s.records
  }

  /** A URL found before a merge is still found after it. */
  lemma MergeKeepsUrls(s: Service, d: NewData, url: string)
    requires HasUrl(s, url)
    ensures HasUrl(Merge(s, d).0, url)
  {
    var after := Merge(s, d).0.records;
    AnyFromUrlIff(s.records, url);
    AnyFromUrlIff(after, url);
    var i :| 0 <= i < |s.records| && Get(s.records[i], SourceUrlKey) == Str(url);
    assert after[..|s.records|][i] == after[i];
  }

  /** A record without an `"id"` is never added, so a URL whose only record lacks
      `"id"` is still unknown after merging it. */
  lemma RecordWithoutIdNotAdded(s: Service, rec: Obj, url: string)
    requires KeyOf(rec, IdKey).None?
    requires !HasUrl(s, url)
    ensures var r := Merge(s, One(rec));
            r.1 == Counts(0, 1) && r.0.records == s.records && !HasUrl(r.0, url)
  {
    NoKeyNeverAdded(s.records, [rec], IdKey);
  }

  /** Merging the same data twice: the second merge adds nothing, deduplicates
      everything, and leaves the records as they were. */
  lemma MergeTwice(s: Service, d: NewData)
    ensures var r1 := Merge(s, d);
            var r2 := Merge(r1.0, d);
            r2.1 == Counts(0, |AsList(d)|) && r2.0.records == r1.0.records
  {
    DedupeIdempotent(s.records, AsList(d), IdKey);
  }

  function Item(id: string, v: string): Obj {
    map["id" := Str(id), "v" := Str(v)]
  }

  /** The first-write-wins scenario: ids 1,2 then 2,3 give 2+0 then 1+1, and
      the id 2 record keeps its original value. */
  lemma FirstWriteWinsScenario()
    ensures var r1 := Merge(Open([]), Many([Item("1", "a"), Item("2", "b")]));
            var r2 := Merge(r1.0, Many([Item("2", "c"), Item("3", "d")]));
            && r1.1 == Counts(2, 0)
            && r2.1 == Counts(1, 1)
            && r2.0.records == [Item("1", "a"), Item("2", "b"), Item("3", "d")]
  {
    ScenarioFirstMerge();
    ScenarioSecondMerge();
  }

  lemma ScenarioFirstMerge()
    ensures DedupeByKey([], [Item("1", "a"), Item("2", "b")], IdKey)
            == MergeResult([Item("1", "a"), Item("2", "b")], 2, 0)
  {
    var a, b := Item("1", "a"), Item("2", "b");
    var k1, k2 := Str("1"), Str("2");
    assert KeyOf(a, IdKey) == Some(k1);
    assert KeyOf(b, IdKey) == Some(k2);
    assert k1 != k2;
    assert [a, b][1..] == [b];
    assert Scan({k1}, [b], IdKey) == Tally([b], 1, 0);
    assert Scan({}, [a, b], IdKey) == Tally([a, b], 2, 0);
  }

  lemma ScenarioSecondMerge()
    ensures DedupeByKey([Item("1", "a"), Item("2", "b")], [Item("2", "c"), Item("3", "d")], IdKey)
            == MergeResult([Item("1", "a"), Item("2", "b"), Item("3", "d")], 1, 1)
  {
    var a, b, c, d := Item("1", "a"), Item("2", "b"), Item("2", "c"), Item("3", "d");
    var k1, k2, k3 := Str("1"), Str("2"), Str("3");
    assert KeyOf(a, IdKey) == Some(k1);
    assert KeyOf(b, IdKey) == Some(k2);
    assert KeyOf(c, IdKey) == Some(k2);
    assert KeyOf(d, IdKey) == Some(k3);
    assert k2 != k3 && k1 != k3;
    assert [c, d][1..] == [d];
    assert KeySet([a, b], IdKey) == {k1, k2} by {
      assert [a, b][..1] == [a] && [a][..0] == [];
      assert KeySet([a], IdKey) == {k1};
    }
    assert Scan({k1, k2}, [d], IdKey) == Tally([d], 1, 0);
    assert Scan({k1, k2}, [c, d], IdKey) == Tally([d], 1, 1);
  }
}

=== FILE: download_parser.dfy ===
/** `pages/4_Download_Parser.py`: batch-aware scraping with one strategy.
    A batch gets a fresh `batch_<n>` id one above every id already in the
    log; every URL with a scheme is fetched once and logs exactly one entry
    tagged with the batch id; the page is stored under a name carrying the
    batch id and a content-hash prefix. Neither the page write nor the log
    append is guarded, so an exception of either stops the batch.

    `try_requests` is the oracle `fetch` (`None` when the request fails or
    raises), SHA-256 is the uninterpreted `hash`, the clock is `now`, and the
    exceptions of the page write and of the log append are the oracles
    `writeFault` and `logFault`. */
module DownloadParser {

  import opened Wrappers
  import opened Text
  import opened Json
  import opened Validator
  import opened Artifacts
  import opened Intake

  // ---------------------------------------------------------------
  // Batch ids
  // ---------------------------------------------------------------

  const BatchPrefix: string := "batch_"
  const BatchKey: string := "batch_id"

  /** `batch_(\d+)` can match at `i`: the prefix, then at least one digit. */
  predicate BatchAt(s: string, i: int) {
    OccursAt(s, BatchPrefix, i) && i + |BatchPrefix| < |s| && IsDigit(s[i + |BatchPrefix|])
  }

  /** The leftmost match at or after `i`. */
  function BatchSearch(s: string, i: nat): (r: Option<nat>)
    requires i <= |s|
    ensures r.Some? ==> i <= r.value && BatchAt(s, r.value)
    ensures r.Some? ==> forall a :: i <= a < r.value ==> !BatchAt(s, a)
    ensures r.None? ==> forall a :: i <= a ==> !BatchAt(s, a)
    decreases |s| - i
  {
    if BatchAt(s, i) then Some(i)
    else if i == |s| then None
    else BatchSearch(s, i + 1)
  }

  /** `int(re.search(r"batch_(\d+)", bid).group(1))`, when it matches. */
  function BatchNumber(bid: string): (r: Option<nat>)
    ensures r.Some? <==> exists i :: BatchAt(bid, i)
  {
    match BatchSearch(bid, 0)
    case None => None
    case Some(i) => Some(ParseNat(DigitRun(bid, i + |BatchPrefix|)))
  }

  /** `l.get("batch_id", "")` handed to `re.search`: a missing id reads as "",
      and anything but a string makes `re.search` raise. */
  function BatchField(l: Obj): (r: Result<string>)
    ensures r.Ok? <==> BatchKey !in l || l[BatchKey].Str?
    ensures r.Ok? && BatchKey in l ==> r.value == l[BatchKey].s
  {
    if BatchKey !in l then Ok("")
    else if l[BatchKey].Str? then Ok(l[BatchKey].s)
    else Raised("expected string or bytes-like object")
  }

  /** `batch_nums`: the number of every entry whose id matches, in log order. */
  function BatchNums(logs: seq<Obj>): (r: Result<seq<nat>>)
    ensures r.Ok? <==> forall k :: 0 <= k < |logs| ==> BatchField(logs[k]).Ok?
    ensures r.Ok? ==> forall k :: 0 <= k < |logs| ==>
              BatchNumber(BatchField(logs[k]).value).Some? ==> BatchNumber(BatchField(logs[k]).value).value in r.value
    ensures r.Ok? ==> forall n :: n in r.value ==>
              (exists k :: 0 <= k < |logs| && BatchNumber(BatchField(logs[k]).value) == Some(n))
    decreases |logs|
  {
    if |logs| == 0 then Ok([])
    else
      assert forall k :: 1 <= k < |logs| ==> logs[k] == logs[1..][k - 1];
      match BatchField(logs[0])
      case Raised(m) => Raised(m)
      case Ok(bid) =>
        match BatchNums(logs[1..])
        case Raised(m) => Raised(m)
        case Ok(rest) =>
          var here := BatchNumber(bid);
          Ok((if here.Some? then [here.value] else []) + rest)
  }

  /** `max(batch_nums)` */
  function MaxNum(nums: seq<nat>): (m: nat)
    requires |nums| > 0
    ensures m in nums
    ensures forall n :: n in nums ==> n <= m
    decreases |nums|
  {
    if |nums| == 1 then nums[0]
    else
      var rest := MaxNum(nums[1..]);
      assert forall n :: n in nums ==> n == nums[0] || n in nums[1..];
      if nums[0] >= rest then nums[0] else rest
  }

  /** `max(batch_nums) + 1 if batch_nums else 1` */
  function NextNumber(nums: seq<nat>): (n: nat)
    ensures n >= 1
    ensures forall m :: m in nums ==> m < n
    ensures |nums| > 0 ==> n - 1 in nums
  {
    if |nums| == 0 then 1 else MaxNum(nums) + 1
  }

  /** `create_new_batch_id()`: `batch_` and the next number, zero-padded to three digits. */
  function CreateNewBatchId(logs: seq<Obj>): (r: Result<string>)
    ensures r.Raised? <==> exists k :: 0 <= k < |logs| && !BatchField(logs[k]).Ok?
    ensures r.Ok? ==> StartsWith(r.value, BatchPrefix)
  {
    match BatchNums(logs)
    case Raised(m) => Raised(m)
    case Ok(nums) => Ok(BatchPrefix + PadNat(NextNumber(nums), 3))
  }

  /** The id of a new batch carries a number above every number already used
      in the log, and is never an id the log already holds. */
  lemma NewBatchIdIsFresh(logs: seq<Obj>)
    requires forall k :: 0 <= k < |logs| ==> BatchField(logs[k]).Ok?
    ensures var id := CreateNewBatchId(logs).value;
      && BatchNumber(id).Some?
      && (forall k :: 0 <= k < |logs| && BatchNumber(BatchField(logs[k]).value).Some? ==>
            BatchNumber(BatchField(logs[k]).value).value < BatchNumber(id).value)
      && (forall k :: 0 <= k < |logs| ==> Get(logs[k], BatchKey) != Str(id))
  {
    var nums := BatchNums(logs).value;
    var n := NextNumber(nums);
    BatchIdNumber(n);
  }

  /** `batch_<n padded>` reads back as `n`. */
  lemma BatchIdNumber(n: nat)
    ensures BatchNumber(BatchPrefix + PadNat(n, 3)) == Some(n)
  {
    var id := BatchPrefix + PadNat(n, 3);
    var d := PadNat(n, 3);
    assert id[..|BatchPrefix|] == BatchPrefix;
    assert id[|BatchPrefix|] == d[0];
    assert BatchAt(id, 0);
    assert id[|BatchPrefix|..] == d + "";
    DigitRunOf(id, |BatchPrefix|, d, "");
    PadNatValue(n, 3);
  }

  /** With no id in the log matching, the first batch is `batch_001`. */
  lemma FirstBatchId(logs: seq<Obj>)
    requires forall k :: 0 <= k < |logs| ==> BatchField(logs[k]).Ok? && BatchNumber(BatchField(logs[k]).value).None?
    ensures CreateNewBatchId(logs) == Ok("batch_001")
  {
    assert NatToString(1) == "1";
    assert PadNat(1, 3) == "001";
    assert BatchPrefix + "001" == "batch_001";
  }

  // ---------------------------------------------------------------
  // One URL
  // ---------------------------------------------------------------

  /** Everything a scrape depends on besides the URL and the batch.
      `writeFault(url)` is the exception `save_html_file` raises for the page
      of `url`, and `logFault(url)` the one `append_log` raises for its entry
      (reading or rewriting the log); `None` when the call returns. */
  datatype ParserEnv = ParserEnv(
    fetch: string -> Option<string>, now: string, hash: string -> string, nfkc: string -> string,
    writeFault: string -> Option<string>, logFault: string -> Option<string>)

  /** The exception that ends storing what was fetched for `url`: the page
      write's when a page came back and its write raises, else the log
      append's. */
  function StoreFault(env: ParserEnv, url: string): Option<string> {
    if env.fetch(url).Some? && env.writeFault(url).Some? then env.writeFault(url) else env.logFault(url)
  }

  /** The only method this page reports. */
  const RequestsMethod: string := "Requests"

  /** How a scrape ended: the scheme check failed, the request failed, or the
      page was fetched and stored at `path`. */
  datatype Kind = InvalidUrl | RequestFailed | Fetched(path: string)

  /** The returned entry, the log entries appended, and the files written. */
  datatype Scrape = Scrape(kind: Kind, entry: Obj, appended: seq<Obj>, saved: seq<Artifact>)

  /** The dict `run_single_scrape` builds for each outcome. */
  function EntryFor(kind: Kind, batchId: string, now: string, url: string): (e: Obj)
    ensures Get(e, BatchKey) == Str(batchId) && Get(e, "url") == Str(url)
    ensures Get(e, "status") == Str(if kind.Fetched? then "success" else "failed")
    ensures kind.Fetched? ==> Get(e, "html_path") == Str(kind.path) && Get(e, "method") == Str(RequestsMethod)
    ensures !kind.Fetched? ==> Get(e, "reason") == Str(if kind.InvalidUrl? then "invalid_url" else "request_failed")
  {
    match kind
    case InvalidUrl =>
      map[BatchKey := Str(batchId), "url" := Str(url), "status" := Str("failed"), "reason" := Str("invalid_url")]
    case RequestFailed =>
      map[BatchKey := Str(batchId), "timestamp" := Str(now), "url" := Str(url), "status" := Str("failed"),
          "reason" := Str("request_failed")]
    case Fetched(path) =>
      map[BatchKey := Str(batchId), "timestamp" := Str(now), "url" := Str(url), "method" := Str(RequestsMethod),
          "status" := Str("success"), "html_path" := Str(path)]
  }

  /** `run_single_scrape(url, batch_id)`; `Raised` is the `ValueError` of
      `urlparse` or the exception of the page write or the log append, none of
      which is caught. Only a missing scheme is invalid; a URL with a scheme is
      logged whatever the request does, unless storing raises. */
  function ScrapeOne(env: ParserEnv, url: string, batchId: string): (r: Result<Scrape>)
    ensures var parsed := UrlSplit(url, env.nfkc);
            r.Raised? <==> parsed.Raised? || (parsed.value.scheme != "" && StoreFault(env, url).Some?)
    ensures var parsed := UrlSplit(url, env.nfkc);
            r.Raised? && parsed.Ok? ==> r.message == StoreFault(env, url).value
    ensures var parsed := UrlSplit(url, env.nfkc);
            r.Ok? ==> parsed.Ok? && (r.value.kind.InvalidUrl? <==> parsed.value.scheme == "")
    ensures var parsed := UrlSplit(url, env.nfkc);
            r.Ok? ==> parsed.Ok? && (r.value.kind.Fetched? <==> parsed.value.scheme != "" && env.fetch(url).Some?)
    ensures r.Ok? ==> r.value.entry == EntryFor(r.value.kind, batchId, env.now, url)
    ensures r.Ok? ==> r.value.appended == (if r.value.kind.InvalidUrl? then [] else [r.value.entry])
    ensures r.Ok? && r.value.kind.Fetched? ==>
              && r.value.kind.path == BatchArtifact(env.now, batchId, RequestsMethod, url, env.fetch(url).value, env.hash)
              && r.value.saved == [Artifact(r.value.kind.path, env.fetch(url).value)]
    ensures r.Ok? && !r.value.kind.Fetched? ==> r.value.saved == []
  {
    match UrlSplit(url, env.nfkc)
    case Raised(m) => Raised(m)
    case Ok(p) =>
      if p.scheme == "" then
        Ok(Scrape(InvalidUrl, EntryFor(InvalidUrl, batchId, env.now, url), [], []))
      else Store(env, url, batchId)
  }

  /** The part of `run_single_scrape` after the scheme check: fetch, write
      the page if one came back, and append the entry. */
  function Store(env: ParserEnv, url: string, batchId: string): (r: Result<Scrape>)
    ensures r.Raised? <==> StoreFault(env, url).Some?
    ensures r.Raised? ==> r.message == StoreFault(env, url).value
    ensures r.Ok? ==> !r.value.kind.InvalidUrl? && (r.value.kind.Fetched? <==> env.fetch(url).Some?)
    ensures r.Ok? ==> r.value.entry == EntryFor(r.value.kind, batchId, env.now, url)
    ensures r.Ok? ==> r.value.appended == [r.value.entry]
    ensures r.Ok? && r.value.kind.Fetched? ==>
              && r.value.kind.path == BatchArtifact(env.now, batchId, RequestsMethod, url, env.fetch(url).value, env.hash)
              && r.value.saved == [Artifact(r.value.kind.path, env.fetch(url).value)]
    ensures r.Ok? && !r.value.kind.Fetched? ==> r.value.saved == []
  {
    match env.fetch(url)
    case None =>
      var e := EntryFor(RequestFailed, batchId, env.now, url);
      if env.logFault(url).Some? then Raised(env.logFault(url).value)
      else Ok(Scrape(RequestFailed, e, [e], []))
    case Some(html) =>
      if env.writeFault(url).Some? then Raised(env.writeFault(url).value)
      else
        var k := Fetched(BatchArtifact(env.now, batchId, RequestsMethod, url, html, env.hash));
        var e := EntryFor(k, batchId, env.now, url);
        if env.logFault(url).Some? then Raised(env.logFault(url).value)
        else Ok(Scrape(k, e, [e], [Artifact(k.path, html)]))
  }

  /** With no write or append raising, a scrape raises exactly when `urlparse`
      does, and a URL with a scheme is always logged. */
  lemma FaultFreeScrape(env: ParserEnv, url: string, batchId: string)
    requires env.writeFault(url).None? && env.logFault(url).None?
    ensures ScrapeOne(env, url, batchId).Raised? <==> UrlSplit(url, env.nfkc).Raised?
    ensures ScrapeOne(env, url, batchId).Ok? && UrlSplit(url, env.nfkc).value.scheme != "" ==>
              |ScrapeOne(env, url, batchId).value.appended| == 1
  {
  }

  // ---------------------------------------------------------------
  // The batch
  // ---------------------------------------------------------------

  /** What the button does: nothing without URLs; the exception of
      `create_new_batch_id` or of a worker; or the batch id, one result per
      line, and the log afterwards. The log also receives the entries of the
      workers that finished when another one raised. */
  datatype Outcome =
    | NoUrls
    | Crashed(message: string, log: seq<Obj>)
    | Done(batchId: string, results: seq<Obj>, log: seq<Obj>)

  /** The workers for `urls`, in order (completion order is left out). */
  function ScrapeAll(env: ParserEnv, urls: seq<string>, batchId: string): (rs: seq<Result<Scrape>>)
    ensures |rs| == |urls|
    ensures forall i :: 0 <= i < |urls| ==> rs[i] == ScrapeOne(env, urls[i], batchId)
  {
    seq(|urls|, i requires 0 <= i < |urls| => ScrapeOne(env, urls[i], batchId))
  }

  /** The log entries the workers append, in order. */
  function Appended(rs: seq<Result<Scrape>>): (a: seq<Obj>)
    decreases |rs|
  {
    if |rs| == 0 then []
    else Appended(rs[..|rs| - 1]) + (if rs[|rs| - 1].Ok? then rs[|rs| - 1].value.appended else [])
  }

  /** The first exception among the workers, if any. */
  function FirstRaised(rs: seq<Result<Scrape>>): (r: Option<string>)
    ensures r.None? <==> forall i :: 0 <= i < |rs| ==> rs[i].Ok?
    decreases |rs|
  {
    if |rs| == 0 then None
    else if rs[0].Raised? then Some(rs[0].message)
    else
      assert forall i :: 1 <= i < |rs| ==> rs[i] == rs[1..][i - 1];
      FirstRaised(rs[1..])
  }

  /** Every worker returns: `urlparse` accepts its URL, and when the URL has
      a scheme neither the page write nor the log append raises. */
  predicate WorkersOk(env: ParserEnv, urls: seq<string>) {
    forall i :: 0 <= i < |urls| ==>
      UrlSplit(urls[i], env.nfkc).Ok? &&
      (UrlSplit(urls[i], env.nfkc).value.scheme != "" ==> StoreFault(env, urls[i]).None?)
  }

  /** A batch runs to the end when URLs were pasted, every log entry's id is
      a string or missing, and every worker returns. */
  predicate Finishes(env: ParserEnv, log: seq<Obj>, urls: seq<string>) {
    && urls != []
    && (forall k :: 0 <= k < |log| ==> BatchField(log[k]).Ok?)
    && WorkersOk(env, urls)
  }

  /** The button's handler over the pasted lines. */
  function RunBatch(env: ParserEnv, log: seq<Obj>, lines: seq<string>): (o: Outcome)
    ensures o.NoUrls? <==> PastedUrls(lines) == []
    ensures o.Done? <==> Finishes(env, log, PastedUrls(lines))
    ensures o.Done? ==> |o.results| == |PastedUrls(lines)|
    ensures o.Done? ==> |log| <= |o.log| && o.log[..|log|] == log
  {
    RunUrls(env, log, PastedUrls(lines))
  }

  /** The handler once the URLs are read off the text area. */
  function RunUrls(env: ParserEnv, log: seq<Obj>, urls: seq<string>): (o: Outcome)
    ensures o.NoUrls? <==> urls == []
    ensures o.Done? <==> Finishes(env, log, urls)
    ensures o.Done? ==> |o.results| == |urls|
    ensures o.Done? ==> |log| <= |o.log| && o.log[..|log|] == log
  {
    if urls == [] then NoUrls
    else match CreateNewBatchId(log)
      case Raised(m) => Crashed(m, log)
      case Ok(bid) =>
        var rs := ScrapeAll(env, urls, bid);
        WorkersSucceed(env, urls, bid);
        var after := log + Appended(rs);
        assert after[..|log|] == log;
        match FirstRaised(rs)
        case Some(m) => Crashed(m, after)
        case None =>
          Done(bid, Entries(rs), after)
  }

  /** No worker raises exactly when every worker returns. */
  lemma WorkersSucceed(env: ParserEnv, urls: seq<string>, batchId: string)
    ensures (forall i :: 0 <= i < |urls| ==> ScrapeAll(env, urls, batchId)[i].Ok?) <==> WorkersOk(env, urls)
  {
    var rs := ScrapeAll(env, urls, batchId);
    assert forall i :: 0 <= i < |urls| ==>
      (rs[i].Ok? <==> UrlSplit(urls[i], env.nfkc).Ok? &&
                      (UrlSplit(urls[i], env.nfkc).value.scheme != "" ==> StoreFault(env, urls[i]).None?));
  }

  /** The entries the workers return, in order. */
  function Entries(rs: seq<Result<Scrape>>): (es: seq<Obj>)
    requires forall i :: 0 <= i < |rs| ==> rs[i].Ok?
    ensures |es| == |rs| && forall i :: 0 <= i < |rs| ==> es[i] == rs[i].value.entry
  {
    seq(|rs|, i requires 0 <= i < |rs| => rs[i].value.entry)
  }

  /** Every result of a finished batch carries the batch's id and its URL. */
  lemma DoneTagged(env: ParserEnv, log: seq<Obj>, urls: seq<string>)
    requires Finishes(env, log, urls)
    ensures var o := RunUrls(env, log, urls);
            forall i :: 0 <= i < |o.results| ==>
              Get(o.results[i], BatchKey) == Str(o.batchId) && Get(o.results[i], "url") == Str(urls[i])
  {
    var o := RunUrls(env, log, urls);
    var rs := ScrapeAll(env, urls, o.batchId);
    assert o.results == Entries(rs);
    forall i | 0 <= i < |o.results|
      ensures Get(o.results[i], BatchKey) == Str(o.batchId) && Get(o.results[i], "url") == Str(urls[i])
    {
      assert o.results[i] == ScrapeOne(env, urls[i], o.batchId).value.entry;
    }
  }

  /** Each URL that has a scheme logs exactly one entry and each one without
      logs none: the log grows by the number of URLs with a scheme. */
  lemma {:induction false} AppendedCount(env: ParserEnv, urls: seq<string>, batchId: string)
    requires WorkersOk(env, urls)
    ensures |Appended(ScrapeAll(env, urls, batchId))| == WithScheme(urls, env.nfkc)
    decreases |urls|
  {
    if |urls| > 0 {
      var init := urls[..|urls| - 1];
      AppendedCount(env, init, batchId);
      assert ScrapeAll(env, urls, batchId)[..|urls| - 1] == ScrapeAll(env, init, batchId);
    }
  }

  /** Every entry a batch appends carries the batch's id. */
  lemma {:induction false} AppendedTagged(env: ParserEnv, urls: seq<string>, batchId: string)
    ensures forall e :: e in Appended(ScrapeAll(env, urls, batchId)) ==> Get(e, BatchKey) == Str(batchId)
    decreases |urls|
  {
    if |urls| > 0 {
      var init := urls[..|urls| - 1];
      AppendedTagged(env, init, batchId);
      assert ScrapeAll(env, urls, batchId)[..|urls| - 1] == ScrapeAll(env, init, batchId);
    }
  }

  /** A finished batch used the id made from the log it started with, and
      the log afterwards is that log and the workers' entries. */
  lemma DoneShape(env: ParserEnv, log: seq<Obj>, urls: seq<string>)
    requires Finishes(env, log, urls)
    ensures var o := RunUrls(env, log, urls);
      && CreateNewBatchId(log) == Ok(o.batchId)
      && o.log == log + Appended(ScrapeAll(env, urls, o.batchId))
  {
  }

  /** The number of URLs `urlparse` finds a scheme in. */
  function WithScheme(urls: seq<string>, nfkc: string -> string): (n: nat)
    requires forall i :: 0 <= i < |urls| ==> UrlSplit(urls[i], nfkc).Ok?
    ensures n <= |urls|
    decreases |urls|
  {
    if |urls| == 0 then 0
    else WithScheme(urls[..|urls| - 1], nfkc) + (if UrlSplit(urls[|urls| - 1], nfkc).value.scheme != "" then 1 else 0)
  }

  /** Batch ids keep growing: after a batch that logged something, the next
      batch's number is above this one's. */
  lemma NextBatchExceeds(env: ParserEnv, log: seq<Obj>, urls: seq<string>)
    requires Finishes(env, log, urls)
    requires WithScheme(urls, env.nfkc) > 0
    ensures var o := RunUrls(env, log, urls);
      && CreateNewBatchId(o.log).Ok?
      && BatchNumber(CreateNewBatchId(o.log).value).Some? && BatchNumber(o.batchId).Some?
      && BatchNumber(CreateNewBatchId(o.log).value).value > BatchNumber(o.batchId).value
  {
    var o := RunUrls(env, log, urls);
    DoneShape(env, log, urls);
    AppendedCount(env, urls, o.batchId);
    AppendedTagged(env, urls, o.batchId);
    NextIdExceeds(log, Appended(ScrapeAll(env, urls, o.batchId)), o.batchId);
  }

  /** Once entries tagged with a batch's id are in the log, the next id is above it. */
  lemma NextIdExceeds(log: seq<Obj>, added: seq<Obj>, bid: string)
    requires CreateNewBatchId(log) == Ok(bid)
    requires |added| > 0
    requires forall e :: e in added ==> Get(e, BatchKey) == Str(bid)
    ensures CreateNewBatchId(log + added).Ok?
    ensures BatchNumber(CreateNewBatchId(log + added).value).Some? && BatchNumber(bid).Some?
    ensures BatchNumber(CreateNewBatchId(log + added).value).value > BatchNumber(bid).value
  {
    NewBatchIdIsFresh(log);
    var after := log + added;
    assert after[|log|] == added[0];
    assert added[0] in added;
    LogFieldsOk(log, added, bid);
    assert BatchField(after[|log|]) == Ok(bid);
    NewBatchIdIsFresh(after);
  }

  /** Appending entries tagged with a string id keeps every id readable. */
  lemma LogFieldsOk(log: seq<Obj>, added: seq<Obj>, bid: string)
    requires forall k :: 0 <= k < |log| ==> BatchField(log[k]).Ok?
    requires forall e :: e in added ==> Get(e, BatchKey) == Str(bid)
    ensures forall k :: 0 <= k < |log + added| ==> BatchField((log + added)[k]).Ok?
  {
    forall k | 0 <= k < |log + added|
      ensures BatchField((log + added)[k]).Ok?
    {
      if k >= |log| {
        assert (log + added)[k] in added;
      }
    }
  }
}

=== FILE: intake.dfy ===
/** The batch page of `pages/4_Download.py`: pasted lines are stripped, each
    line is kept, kept with `https://` in front, or listed as invalid; the
    valid URLs are deduplicated in first-seen order and each is handed to
    `run_single_scrape`, one result per URL.

    `is_valid_url` defers to the `validators` library, which is not part of
    this model; it is the parameter `valid`. */
module Intake {

  import opened Wrappers
  import opened Seqs
  import opened Text
  import opened Json
  import opened Validator
  import opened Cascade

  // ---------------------------------------------------------------
  // Lines
  // ---------------------------------------------------------------

  /** `[u.strip() for u in text.splitlines() if u.strip()]` */
  function PastedUrls(lines: seq<string>): (urls: seq<string>)
    ensures |urls| <= |lines|
    ensures forall i :: 0 <= i < |urls| ==> urls[i] != "" && urls[i] == Strip(urls[i])
    decreases |lines|
  {
    if |lines| == 0 then []
    else
      var rest := PastedUrls(lines[..|lines| - 1]);
      var u := Strip(lines[|lines| - 1]);
      if u == "" then rest else (StripIdempotent(lines[|lines| - 1]); rest + [u])
  }

  /** A stripped line that is not blank is kept, blank ones are dropped. */
  lemma {:induction false} PastedUrlsKeep(lines: seq<string>, x: string)
    ensures x in PastedUrls(lines) <==> StripsTo(lines, x)
    decreases |lines|
  {
    if |lines| > 0 {
      var init := lines[..|lines| - 1];
      PastedUrlsKeep(init, x);
      PastedUrlsStep(lines, x);
      StripsToStep(lines, x);
    }
  }

  /** Every line stripped, in order. */
  function Stripped(lines: seq<string>): (r: seq<string>)
    ensures |r| == |lines| && forall i :: 0 <= i < |lines| ==> r[i] == Strip(lines[i])
  {
    seq(|lines|, i requires 0 <= i < |lines| => Strip(lines[i]))
  }

  /** Some line strips to `x`, and `x` is not blank. */
  predicate StripsTo(lines: seq<string>, x: string) {
    x != "" && x in Stripped(lines)
  }

  lemma StripsToStep(lines: seq<string>, x: string)
    requires |lines| > 0
    ensures StripsTo(lines, x) <==>
              StripsTo(lines[..|lines| - 1], x) || (x == Strip(lines[|lines| - 1]) && x != "")
  {
    var init := lines[..|lines| - 1];
    var a, b := Stripped(lines), Stripped(init);
    forall i | 0 <= i < |init| ensures a[i] == b[i] {
      assert init[i] == lines[i];
    }
    assert a == b + [a[|a| - 1]];
  }

  lemma PastedUrlsStep(lines: seq<string>, x: string)
    requires |lines| > 0
    ensures x in PastedUrls(lines) <==>
              x in PastedUrls(lines[..|lines| - 1]) || (x == Strip(lines[|lines| - 1]) && x != "")
  {
    var rest := PastedUrls(lines[..|lines| - 1]);
    var u := Strip(lines[|lines| - 1]);
    assert PastedUrls(lines) == if u == "" then rest else rest + [u];
  }

  // ---------------------------------------------------------------
  // Classification
  // ---------------------------------------------------------------

  const HttpsPrefix: string := "https://"

  /** What the loop makes of one line: itself when valid, the line with
      `https://` in front when that is valid, nothing otherwise. */
  function Normalise(valid: string -> bool, u: string): (r: Option<string>)
    ensures r.Some? <==> valid(u) || valid(HttpsPrefix + u)
    ensures r.Some? ==> valid(r.value)
    ensures valid(u) ==> r == Some(u)
    ensures !valid(u) && r.Some? ==> r.value == HttpsPrefix + u
  {
    if valid(u) then Some(u)
    else if valid(HttpsPrefix + u) then Some(HttpsPrefix + u)
    else None
  }

  /** `valid_urls` and `invalid_urls`. */
  datatype Sorted = Sorted(validUrls: seq<string>, invalidUrls: seq<string>)

  /** The classification loop over the lines, in order. */
  function Classify(valid: string -> bool, urls: seq<string>): (s: Sorted)
    ensures |s.validUrls| + |s.invalidUrls| == |urls|
    ensures forall i :: 0 <= i < |s.validUrls| ==> valid(s.validUrls[i])
    ensures forall i :: 0 <= i < |s.invalidUrls| ==>
              s.invalidUrls[i] in urls && !valid(s.invalidUrls[i]) && !valid(HttpsPrefix + s.invalidUrls[i])
    decreases |urls|
  {
    if |urls| == 0 then Sorted([], [])
    else
      var s := Classify(valid, urls[..|urls| - 1]);
      var u := urls[|urls| - 1];
      match Normalise(valid, u)
      case Some(v) => Sorted(s.validUrls + [v], s.invalidUrls)
      case None => Sorted(s.validUrls, s.invalidUrls + [u])
  }

  /** The valid list is exactly the normalised lines, in line order. */
  function Normalised(valid: string -> bool, urls: seq<string>): seq<string>
    decreases |urls|
  {
    if |urls| == 0 then []
    else
      var u := urls[|urls| - 1];
      Normalised(valid, urls[..|urls| - 1])
      + (if Normalise(valid, u).Some? then [Normalise(valid, u).value] else [])
  }

  /** Every line is accounted for exactly once: its normalised form joins the
      valid list, or the line itself joins the invalid list. */
  lemma {:induction false} ClassifyPartition(valid: string -> bool, urls: seq<string>)
    ensures Classify(valid, urls).validUrls == Normalised(valid, urls)
    ensures forall x :: x in Classify(valid, urls).invalidUrls <==>
              x in urls && Normalise(valid, x).None?
    decreases |urls|
  {
    if |urls| > 0 {
      var init := urls[..|urls| - 1];
      ClassifyPartition(valid, init);
      forall x
        ensures x in Classify(valid, urls).invalidUrls <==> x in urls && Normalise(valid, x).None?
      {
        assert x in urls <==> x in init || x == urls[|urls| - 1] by {
          assert urls == init + [urls[|urls| - 1]];
        }
      }
    }
  }

  // ---------------------------------------------------------------
  // Order-preserving dedupe
  // ---------------------------------------------------------------

  /** The `seen`/`unique_urls` loop. */
  method UniqueUrls(v: seq<string>) returns (u: seq<string>)
    ensures u == Distinct(v)
    ensures forall x :: x in u <==> x in v
    ensures forall i, j :: 0 <= i < j < |u| ==> u[i] != u[j]
  {
    var seen: set<string> := {};
    u := [];
    var k := 0;
    while k < |v|
      invariant 0 <= k <= |v|
      invariant u == Distinct(v[..k])
      invariant seen == set x | x in u
    {
      assert v[..k + 1][..k] == v[..k];
      if v[k] !in seen {
        seen := seen + {v[k]};
        u := u + [v[k]];
      }
      k := k + 1;
    }
    assert v[..k] == v;
    DistinctElements(v);
    DistinctNoRepeats(v);
  }

  /** The batch page's input handling end to end: strip, classify, dedupe. */
  method Intake(valid: string -> bool, lines: seq<string>) returns (unique: seq<string>, invalid: seq<string>)
    ensures var s := Classify(valid, PastedUrls(lines));
            unique == Distinct(s.validUrls) && invalid == s.invalidUrls
    ensures forall i :: 0 <= i < |unique| ==> valid(unique[i])
    ensures forall i, j :: 0 <= i < j < |unique| ==> unique[i] != unique[j]
  {
    var s := Classify(valid, PastedUrls(lines));
    unique := UniqueUrls(s.validUrls);
    invalid := s.invalidUrls;
    forall i | 0 <= i < |unique|
      ensures valid(unique[i])
    {
      assert unique[i] in s.validUrls;
      var k :| 0 <= k < |s.validUrls| && s.validUrls[k] == unique[i];
    }
  }

  // ---------------------------------------------------------------
  // The batch
  // ---------------------------------------------------------------

  /** What one worker yields: its run's record, or the failed record the
      batch loop builds from the exception. */
  function WorkerResult(env: Env, url: string): (r: Obj)
    ensures Get(r, "url") == Str(url)
    ensures IsSuccess(r) ==> RunSingleScrape(env, url).Ok?
  {
    match RunSingleScrape(env, url)
    case Ok(run) => run.record
    case Raised(m) =>
      map["timestamp" := Str(env.now), "url" := Str(url), "status" := Str("failed"), "error" := Str(m)]
  }

  /** `results`, one per unique URL; completion order is left out, so the
      results follow the URL order. */
  function BatchResults(env: Env, urls: seq<string>): (rs: seq<Obj>)
    ensures |rs| == |urls|
    ensures forall i :: 0 <= i < |rs| ==> rs[i] == WorkerResult(env, urls[i])
  {
    seq(|urls|, i requires 0 <= i < |urls| => WorkerResult(env, urls[i]))
  }

  /** `success_count`. */
  function SuccessCount(rs: seq<Obj>): (n: nat)
    ensures n <= |rs|
    decreases |rs|
  {
    if |rs| == 0 then 0
    else SuccessCount(rs[..|rs| - 1]) + (if IsSuccess(rs[|rs| - 1]) then 1 else 0)
  }

  /** `Success: n; Failed: total - n` */
  datatype Summary = Summary(total: nat, success: nat, failed: nat)

  function Summarise(rs: seq<Obj>): (s: Summary)
    ensures s.success + s.failed == s.total == |rs|
  {
    var n := SuccessCount(rs);
    Summary(|rs|, n, |rs| - n)
  }

  /** Success is counted per URL: the count is the number of URLs whose run
      succeeds, and it is the whole batch exactly when every record succeeds. */
  lemma {:induction false} SuccessCountIff(rs: seq<Obj>)
    ensures SuccessCount(rs) == |rs| <==> forall i :: 0 <= i < |rs| ==> IsSuccess(rs[i])
    ensures SuccessCount(rs) == 0 <==> forall i :: 0 <= i < |rs| ==> !IsSuccess(rs[i])
    decreases |rs|
  {
    if |rs| > 0 {
      var init := rs[..|rs| - 1];
      SuccessCountIff(init);
      assert forall i :: 0 <= i < |init| ==> init[i] == rs[i];
    }
  }

  /** A URL that `urlparse` rejects fails its slot in the batch with the
      exception's message, without touching the log. */
  lemma RaisingWorkerFails(env: Env, url: string)
    requires UrlSplit(url, env.nfkc).Raised?
    ensures !IsSuccess(WorkerResult(env, url))
    ensures Get(WorkerResult(env, url), "error") == Str(UrlSplit(url, env.nfkc).message)
  {
  }
}

=== FILE: ipaddress.dfy ===
/** The text forms Python's `ipaddress.ip_address` accepts, as `urlsplit` uses
    it on a bracketed host: a dotted-quad IPv4 address (`IPv4Address`) and a
    colon-separated IPv6 address with an optional "::" and an optional IPv4
    suffix (`IPv6Address`, the text form of section 2.2 of RFC 4291), with an
    optional "%" scope. Only whether the text parses matters here, not the
    number it denotes. */
module IpAddress {

  import opened Wrappers
  import opened Text

  // ---------------------------------------------------------------
  // IPv4
  // ---------------------------------------------------------------

  /** `_parse_octet` accepts `s`: one to three ASCII digits, no leading zero,
      at most 255. */
  predicate IsOctet(s: string) {
    && 1 <= |s| <= 3 && AllDigits(s)
    && (s[0] == '0' ==> s == "0")
    && ParseNat(s) <= 255
  }

  /** `IPv4Address(s)` parses: no "/", and exactly four octets between dots. */
  predicate IsIPv4(s: string) {
    var parts := SplitOn(s, '.');
    '/' !in s && |parts| == 4 && forall k :: 0 <= k < 4 ==> IsOctet(parts[k])
  }

  // ---------------------------------------------------------------
  // IPv6
  // ---------------------------------------------------------------

  predicate IsHexDigit(c: char) {
    '0' <= c <= '9' || 'a' <= c <= 'f' || 'A' <= c <= 'F'
  }

  /** `_parse_hextet` accepts `s`: one to four hex digits. */
  predicate IsHextet(s: string) {
    1 <= |s| <= 4 && forall i :: 0 <= i < |s| ==> IsHexDigit(s[i])
  }

  /** `_split_scope_id`: the address before the first "%", or `None` when the
      scope after it is empty or holds another "%". */
  function ScopeSplit(s: string): (r: Option<string>)
    ensures '%' !in s ==> r == Some(s)
    ensures r.Some? ==> '%' !in r.value && StartsWith(s, r.value)
  {
    match SplitOnce(s, '%')
    case None => Some(s)
    case Some((addr, scope)) => if scope == "" || '%' in scope then None else Some(addr)
  }

  /** The loop that looks for the one empty field strictly inside `parts`,
      from index `i` on, having seen `found` so far: `Some(None)` when there is
      none, `Some(Some(k))` when `k` is the only one, `None` for a second "::". */
  function FindSkip(parts: seq<string>, i: nat, found: Option<nat>): (r: Option<Option<nat>>)
    requires 1 <= i
    requires found.Some? ==> 1 <= found.value < i && found.value < |parts| - 1 && parts[found.value] == ""
    ensures r == Some(None) <==>
              found.None? && forall j :: i <= j < |parts| - 1 ==> parts[j] != ""
    ensures r.Some? && r.value.Some? ==>
              && 1 <= r.value.value < |parts| - 1 && parts[r.value.value] == ""
              && forall j :: i <= j < |parts| - 1 && j != r.value.value ==> parts[j] != ""
    ensures found.Some? && r.Some? ==> r.value == found
    decreases |parts| - i
  {
    if i + 1 >= |parts| then Some(found)
    else if parts[i] == "" then
      if found.Some? then None else FindSkip(parts, i + 1, Some(i))
    else FindSkip(parts, i + 1, found)
  }

  /** The fields of `_ip_int_from_string` (at least three of them) give an
      address: at most nine fields, at most one "::", the fields around it
      leaving room for one or more skipped hextets, and every field it reads a
      hextet. */
  predicate IsIPv6Fields(parts: seq<string>)
    requires |parts| >= 3
  {
    var n := |parts|;
    n <= 9 &&
    match FindSkip(parts, 1, None)
    case None => false
    case Some(None) =>
      n == 8 && forall i :: 0 <= i < n ==> IsHextet(parts[i])
    case Some(Some(k)) =>
      var hi := if parts[0] == "" then k - 1 else k;
      var lo := if parts[n - 1] == "" then n - k - 2 else n - k - 1;
      && (parts[0] == "" ==> hi == 0)
      && (parts[n - 1] == "" ==> lo == 0)
      && hi + lo <= 7
      && (forall i :: 0 <= i < hi ==> IsHextet(parts[i]))
      && (forall i :: n - lo <= i < n ==> IsHextet(parts[i]))
  }

  /** `IPv6Address(s)` parses. An IPv4 suffix stands for two hextets; which
      two does not matter for whether the text parses, so "0" stands for both. */
  predicate IsIPv6(s: string) {
    '/' !in s &&
    match ScopeSplit(s)
    case None => false
    case Some(addr) =>
      var parts := SplitOn(addr, ':');
      && addr != ""
      && |parts| >= 3
      && var last := parts[|parts| - 1];
         if '.' in last then IsIPv4(last) && IsIPv6Fields(parts[..|parts| - 1] + ["0", "0"])
         else IsIPv6Fields(parts)
  }

  /** The version `ip_address` returns. */
  datatype Version = V4 | V6

  /** `ip_address(s)`: IPv4 is tried first, then IPv6; `None` is the
      `ValueError` raised when neither parses. */
  function Parse(s: string): (r: Option<Version>)
    ensures r == Some(V4) <==> IsIPv4(s)
    ensures r == Some(V6) <==> IsIPv6(s)
    ensures r.None? <==> !IsIPv4(s) && !IsIPv6(s)
  {
    Ipv4NotIpv6(s);
    if IsIPv4(s) then Some(V4) else if IsIPv6(s) then Some(V6) else None
  }

  // ---------------------------------------------------------------
  // Properties
  // ---------------------------------------------------------------

  /** An IPv4 address starts with a digit. */
  lemma Ipv4StartsWithDigit(s: string)
    ensures IsIPv4(s) ==> |s| > 0 && IsDigit(s[0])
  {
    if IsIPv4(s) {
      var i := IndexOf(s, '.');
      assert SplitOn(s, '.')[0] == s[..i];
    }
  }

  /** Splitting text without the separator gives the text as the one field. */
  lemma SplitOnAbsent(s: string, sep: char)
    requires sep !in s
    ensures SplitOn(s, sep) == [s]
  {
  }

  /** An IPv4 address has no ":", so it is never also an IPv6 address. */
  lemma Ipv4NotIpv6(s: string)
    ensures IsIPv4(s) ==> !IsIPv6(s)
  {
    if IsIPv4(s) {
      var parts := SplitOn(s, '.');
      Text.SplitOnJoin(s, '.');
      NoColonInJoin(parts);
      assert ScopeSplit(s) == Some(s);
      SplitOnAbsent(s, ':');
    }
  }

  /** Joining four octets with dots gives text without ":" or "%". */
  lemma NoColonInJoin(parts: seq<string>)
    requires |parts| == 4 && forall k :: 0 <= k < 4 ==> IsOctet(parts[k])
    ensures ':' !in Join(parts, '.') && '%' !in Join(parts, '.')
  {
    forall k | 0 <= k < 4 ensures ':' !in parts[k] && '%' !in parts[k] {
      assert forall i :: 0 <= i < |parts[k]| ==> IsDigit(parts[k][i]);
    }
    JoinAvoids(parts, '.', ':');
    JoinAvoids(parts, '.', '%');
  }

  /** Splitting the join of fields that do not contain the separator gives
      the fields back. */
  lemma {:induction false} SplitOnOfJoin(parts: seq<string>, sep: char)
    requires |parts| >= 1
    requires forall k :: 0 <= k < |parts| ==> sep !in parts[k]
    ensures SplitOn(Join(parts, sep), sep) == parts
    decreases |parts|
  {
    if |parts| == 1 {
      SplitOnAbsent(parts[0], sep);
    } else {
      var tail := Join(parts[1..], sep);
      assert Join(parts, sep) == parts[0] + [sep] + tail;
      SplitFirst(parts[0], sep, tail);
      SplitOnOfJoin(parts[1..], sep);
      assert parts == [parts[0]] + parts[1..];
    }
  }

  /** The first field of `a + [sep] + b` is `a` when `a` has no separator. */
  lemma SplitFirst(a: string, sep: char, b: string)
    requires sep !in a
    ensures SplitOn(a + [sep] + b, sep) == [a] + SplitOn(b, sep)
  {
    var s := a + [sep] + b;
    assert s[|a|] == sep;
    assert forall j :: 0 <= j < |a| ==> s[j] == a[j];
    assert IndexOf(s, sep) == |a|;
    assert s[..|a|] == a;
    assert s[|a| + 1..] == b;
  }

  /** No field of a join holds a character that neither the fields nor the
      separator hold. */
  lemma {:induction false} JoinAvoids(parts: seq<string>, sep: char, c: char)
    requires c != sep
    requires forall k :: 0 <= k < |parts| ==> c !in parts[k]
    ensures c !in Join(parts, sep)
    decreases |parts|
  {
    if |parts| > 1 {
      JoinAvoids(parts[1..], sep, c);
    }
  }

  /** Every character of a join satisfies `p` when the separator and every
      character of every field do. */
  lemma {:induction false} JoinKeeps(parts: seq<string>, sep: char, p: char -> bool)
    requires p(sep)
    requires forall k, i :: 0 <= k < |parts| && 0 <= i < |parts[k]| ==> p(parts[k][i])
    ensures forall i :: 0 <= i < |Join(parts, sep)| ==> p(Join(parts, sep)[i])
    decreases |parts|
  {
    if |parts| > 1 {
      JoinKeeps(parts[1..], sep, p);
      var s := Join(parts, sep);
      var t := Join(parts[1..], sep);
      assert s == parts[0] + [sep] + t;
      forall i | 0 <= i < |s| ensures p(s[i]) {
        if i < |parts[0]| {
          assert s[i] == parts[0][i];
        } else if i > |parts[0]| {
          assert s[i] == t[i - |parts[0]| - 1];
        }
      }
    } else if |parts| == 1 {
      assert Join(parts, sep) == parts[0];
    }
  }

  /** An IPv4 address is made of digits and dots only. */
  lemma Ipv4Chars(s: string)
    requires IsIPv4(s)
    ensures forall i :: 0 <= i < |s| ==> IsDigit(s[i]) || s[i] == '.'
  {
    var parts := SplitOn(s, '.');
    Text.SplitOnJoin(s, '.');
    JoinKeeps(parts, '.', c => IsDigit(c) || c == '.');
  }

  /** `str(n)` has at most three digits below 1000. */
  lemma NatToStringShort(n: nat)
    requires n < 1000
    ensures |NatToString(n)| <= 3
  {
    if n >= 10 {
      assert NatToString(n) == NatToString(n / 10) + ['0' + (n % 10) as char];
      if n / 10 >= 10 {
        assert NatToString(n / 10) == NatToString(n / 100) + ['0' + ((n / 10) % 10) as char];
      }
    }
  }

  /** The decimal form of a byte is an octet. */
  lemma ByteIsOctet(n: nat)
    requires n <= 255
    ensures IsOctet(NatToString(n))
  {
    NatToStringShort(n);
    Text.ParseNatToString(n);
  }

  /** The dotted quad of four bytes, as `str(IPv4Address(...))` writes it. */
  function DottedQuad(a: nat, b: nat, c: nat, d: nat): string {
    Join([NatToString(a), NatToString(b), NatToString(c), NatToString(d)], '.')
  }

  /** Every dotted quad of four bytes parses as IPv4. */
  lemma DottedQuadIsIPv4(a: nat, b: nat, c: nat, d: nat)
    requires a <= 255 && b <= 255 && c <= 255 && d <= 255
    ensures IsIPv4(DottedQuad(a, b, c, d))
  {
    var parts := [NatToString(a), NatToString(b), NatToString(c), NatToString(d)];
    ByteIsOctet(a);
    ByteIsOctet(b);
    ByteIsOctet(c);
    ByteIsOctet(d);
    forall k | 0 <= k < 4 ensures '.' !in parts[k] && '/' !in parts[k] {
      assert forall i :: 0 <= i < |parts[k]| ==> IsDigit(parts[k][i]);
    }
    SplitOnOfJoin(parts, '.');
    JoinAvoids(parts, '.', '/');
  }

  /** The full form: eight hextets joined with ":" parse as IPv6. */
  lemma FullFormIsIPv6(hs: seq<string>)
    requires |hs| == 8 && forall k :: 0 <= k < 8 ==> IsHextet(hs[k])
    ensures IsIPv6(Join(hs, ':'))
  {
    var s := Join(hs, ':');
    forall k, c | 0 <= k < 8 && c in "/%:." ensures c !in hs[k] {
      assert forall i :: 0 <= i < |hs[k]| ==> IsHexDigit(hs[k][i]);
    }
    JoinAvoids(hs, ':', '/');
    JoinAvoids(hs, ':', '%');
    SplitOnOfJoin(hs, ':');
    assert ScopeSplit(s) == Some(s);
    assert hs[0] != "";
    assert '.' !in hs[7];
    assert FindSkip(hs, 1, None) == Some(None);
  }

  /** The one-hextet loopback "::1" parses as IPv6. */
  lemma LoopbackIsIPv6(s: string)
    requires s == "::1"
    ensures IsIPv6(s)
  {
    assert '%' !in s && '/' !in s;
    assert s == "" + [':'] + (":1") && ":1" == "" + [':'] + "1";
    SplitFirst("", ':', ":1");
    SplitFirst("", ':', "1");
    SplitOnAbsent("1", ':');
    var parts := SplitOn(s, ':');
    assert parts == ["", "", "1"];
    assert FindSkip(parts, 1, None) == Some(Some(1));
    assert IsHextet(parts[2]);
  }

  /** A word without ":" or "." such as "abc" is neither version. */
  lemma WordIsNeither(s: string)
    requires ':' !in s && '.' !in s
    ensures Parse(s).None?
  {
    SplitOnAbsent(s, '.');
    if '%' !in s {
      assert ScopeSplit(s) == Some(s);
      SplitOnAbsent(s, ':');
    } else {
      match ScopeSplit(s)
      case None =>
      case Some(addr) =>
        assert ':' !in addr by {
          assert forall i :: 0 <= i < |addr| ==> addr[i] == s[i];
        }
        SplitOnAbsent(addr, ':');
    }
  }
}

=== FILE: json.dfy ===
/** JSON values as the dashboard reads and writes them: scalar values and
    objects (Python dicts with string keys). */
module Json {

  import opened Wrappers

  /** A scalar JSON value (`null`, `true`/`false`, an integer, a string). */
  datatype Value = Null | Bool(b: bool) | Int(i: int) | Str(s: string)

  /** A JSON object / Python dict. */
  type Obj = map<string, Value>

  /** Python truthiness of a value: `None`, `False`, `0` and `""` are false. */
  predicate Truthy(v: Value) {
    match v
    case Null => false
    case Bool(b) => b
    case Int(i) => i != 0
    case Str(s) => s != ""
  }

  /** `d.get(k)`: the value, or `None` when the key is missing. */
  function Get(d: Obj, k: string): Value {
    if k in d then d[k] else Null
  }

  /** `d.get(k)` where the caller needs a string: `Some` only for a string value. */
  function GetStr(d: Obj, k: string): Option<string> {
    if k in d && d[k].Str? then Some(d[k].s) else None
  }

  /** An optional string as the JSON value Python would store (`None` or the text). */
  function OptStr(o: Option<string>): Value {
    match o
    case Some(s) => Str(s)
    case None => Null
  }
}

=== FILE: json_viewer.dfy ===
/** `pages/2_JSON_Data_Viewer.py`: every raw JSON file is read once and mapped
    to the URL it was scraped from; the URLs, sorted and without repeats, feed
    a drop-down, and choosing one lists the files scraped from it. */
module JsonViewer {

  import opened Wrappers
  import opened Text
  import opened Json
  import opened Seqs
  import opened StringOrder

  /** The URL of a readable file without `_source_url`. */
  const UnknownUrl: string := "Unknown URL"

  /** The URL of a file that cannot be read as a JSON object. */
  const CorruptedJson: string := "Corrupted JSON"

  /** One `file_map` entry: `file_map[name] = (url, obj)`. */
  datatype FileEntry = FileEntry(name: string, url: Value, content: Obj)

  /** What `file_map[name]` is set to. `read(name)` is the object
      `json.loads` returns; `None` covers an unreadable file, invalid JSON and
      a JSON value that is not an object (whose `.get` raises), all caught by
      the bare `except`. `obj.get("_source_url", "Unknown URL")` keeps a
      stored `null`. */
  function Describe(read: string -> Option<Obj>, name: string): (e: FileEntry)
    ensures e.name == name
    ensures read(name).None? ==> e.url == Str(CorruptedJson) && e.content == map[]
    ensures read(name).Some? ==> e.content == read(name).value
    ensures read(name).Some? && "_source_url" in read(name).value ==> e.url == read(name).value["_source_url"]
    ensures read(name).Some? && "_source_url" !in read(name).value ==> e.url == Str(UnknownUrl)
  {
    match read(name)
    case None => FileEntry(name, Str(CorruptedJson), map[])
    case Some(obj) =>
      FileEntry(name, if "_source_url" in obj then obj["_source_url"] else Str(UnknownUrl), obj)
  }

  /** The keys of the map, in insertion order. */
  function Names(fm: seq<FileEntry>): (r: seq<string>)
    ensures |r| == |fm|
    ensures forall k :: 0 <= k < |fm| ==> r[k] == fm[k].name
  {
    seq(|fm|, k requires 0 <= k < |fm| => fm[k].name)
  }

  /** The position of the entry for `name`, or `|fm|` when there is none. */
  function Lookup(fm: seq<FileEntry>, name: string): (j: nat)
    ensures j <= |fm|
    ensures j < |fm| ==> fm[j].name == name
    ensures j == |fm| ==> forall k :: 0 <= k < |fm| ==> fm[k].name != name
    decreases |fm|
  {
    if |fm| == 0 then 0
    else if fm[0].name == name then 0
    else 1 + Lookup(fm[1..], name)
  }

  /** The loop that fills `file_map`: a name seen before keeps its place and
      gets its value again; a new name is appended. */
  method BuildFileMap(read: string -> Option<Obj>, files: seq<string>) returns (fm: seq<FileEntry>)
    ensures Names(fm) == Distinct(files)
    ensures forall k :: 0 <= k < |fm| ==> fm[k] == Describe(read, fm[k].name)
  {
    fm := [];
    var i := 0;
    while i < |files|
      invariant 0 <= i <= |files|
      invariant Names(fm) == Distinct(files[..i])
      invariant forall k :: 0 <= k < |fm| ==> fm[k] == Describe(read, fm[k].name)
    {
      var f := files[i];
      assert files[..i + 1][..i] == files[..i];
      var j := Lookup(fm, f);
      if j < |fm| {
        assert f in Names(fm);
        fm := fm[j := Describe(read, f)];
      } else {
        assert f !in Names(fm);
        fm := fm + [Describe(read, f)];
      }
      i := i + 1;
    }
    assert files[..|files|] == files;
  }

  /** `[url for (url, _) in file_map.values()]` */
  function Urls(fm: seq<FileEntry>): (r: seq<Value>)
    ensures |r| == |fm|
    ensures forall k :: 0 <= k < |fm| ==> r[k] == fm[k].url
  {
    seq(|fm|, k requires 0 <= k < |fm| => fm[k].url)
  }

  /** Every URL is a string. */
  predicate AllText(fm: seq<FileEntry>) {
    forall k :: 0 <= k < |fm| ==> fm[k].url.Str?
  }

  /** Every URL is the same value. */
  predicate AllSame(fm: seq<FileEntry>) {
    forall k :: 0 <= k < |fm| ==> fm[k].url == fm[0].url
  }

  /** The URLs as text, when they all are. */
  function UrlTexts(fm: seq<FileEntry>): (r: seq<string>)
    requires AllText(fm)
    ensures |r| == |fm|
    ensures forall k :: 0 <= k < |fm| ==> Str(r[k]) == fm[k].url
  {
    seq(|fm|, k requires 0 <= k < |fm| => fm[k].url.s)
  }

  /** Strings as JSON values. */
  function AsValues(xs: seq<string>): (r: seq<Value>)
    ensures |r| == |xs|
    ensures forall k :: 0 <= k < |xs| ==> r[k] == Str(xs[k])
  {
    seq(|xs|, k requires 0 <= k < |xs| => Str(xs[k]))
  }

  /** `sorted({url for each file})`: sorting a set of strings, or a set with
      one element, succeeds; comparing a string with `None` or a number
      raises `TypeError`. */
  function UniqueUrls(fm: seq<FileEntry>): (r: Result<seq<Value>>)
    ensures r.Raised? <==> !AllText(fm) && !AllSame(fm)
  {
    if AllText(fm) then Ok(AsValues(Sort(Distinct(UrlTexts(fm)))))
    else if AllSame(fm) then Ok(if |fm| == 0 then [] else [fm[0].url])
    else Raised("TypeError")
  }

  /** `[fname for fname, (url, _) in file_map.items() if url == selected_url]` */
  function MatchingFiles(fm: seq<FileEntry>, selected: Value): (r: seq<string>)
    ensures |r| <= |fm|
  {
    Names(Filter(fm, (e: FileEntry) => e.url == selected))
  }

  /** `source_url and source_url.startswith("http")`: a falsy URL shows no
      preview; a truthy value that is not a string has no `startswith`. */
  function Preview(url: Value): (r: Result<bool>)
    ensures !Truthy(url) ==> r == Ok(false)
    ensures url.Str? ==> r == Ok(StartsWith(url.s, "http"))
    ensures r.Raised? <==> Truthy(url) && !url.Str?
  {
    if !Truthy(url) then Ok(false)
    else if url.Str? then Ok(StartsWith(url.s, "http"))
    else Raised("AttributeError")
  }

  // ---------------------------------------------------------------
  // Properties
  // ---------------------------------------------------------------

  /** The drop-down lists each URL once, in ascending order. */
  lemma UniqueUrlsSorted(fm: seq<FileEntry>)
    requires AllText(fm)
    ensures var u := Sort(Distinct(UrlTexts(fm)));
      && UniqueUrls(fm) == Ok(AsValues(u))
      && Sorted(u)
      && forall i, j :: 0 <= i < j < |u| ==> u[i] != u[j]
  {
    var d := Distinct(UrlTexts(fm));
    var u := Sort(d);
    DistinctNoRepeats(UrlTexts(fm));
    forall i, j | 0 <= i < j < |u| ensures u[i] != u[j] {
      if u[i] == u[j] {
        assert multiset(u)[u[i]] >= 2 by {
          assert u == u[..j] + [u[j]] + u[j + 1..];
          assert u[i] in u[..j];
        }
        NoRepeatsOnce(d, u[i]);
      }
    }
  }

  /** In a list without repeats every element occurs once. */
  lemma {:induction false} NoRepeatsOnce(d: seq<string>, x: string)
    requires forall i, j :: 0 <= i < j < |d| ==> d[i] != d[j]
    ensures multiset(d)[x] <= 1
    decreases |d|
  {
    if |d| > 0 {
      var init := d[..|d| - 1];
      assert d == init + [d[|d| - 1]];
      NoRepeatsOnce(init, x);
      if x == d[|d| - 1] {
        assert x !in init;
      }
    }
  }

  /** A URL is in the drop-down exactly when some file maps to it. */
  lemma UniqueUrlsExact(fm: seq<FileEntry>, v: Value)
    requires UniqueUrls(fm).Ok?
    ensures v in UniqueUrls(fm).value <==> exists k :: 0 <= k < |fm| && fm[k].url == v
  {
    if AllText(fm) {
      var t := UrlTexts(fm);
      var u := Sort(Distinct(t));
      DistinctElements(t);
      if v in UniqueUrls(fm).value {
        var i :| 0 <= i < |u| && Str(u[i]) == v;
        assert u[i] in multiset(u);
        assert u[i] in Distinct(t);
        var k :| 0 <= k < |t| && t[k] == u[i];
        assert fm[k].url == v;
      }
      if k :| 0 <= k < |fm| && fm[k].url == v {
        assert t[k] in Distinct(t);
        assert t[k] in multiset(u);
        var i :| 0 <= i < |u| && u[i] == t[k];
        assert AsValues(u)[i] == v;
      }
    }
  }

  /** A file is listed for a URL exactly when it maps to that URL. */
  lemma MatchingFilesExact(fm: seq<FileEntry>, selected: Value, name: string)
    ensures name in MatchingFiles(fm, selected)
            <==> exists k :: 0 <= k < |fm| && fm[k].name == name && fm[k].url == selected
  {
    var p := (e: FileEntry) => e.url == selected;
    var f := Filter(fm, p);
    if name in MatchingFiles(fm, selected) {
      var i :| 0 <= i < |f| && Names(f)[i] == name;
      FilterMembers(fm, p, f[i]);
      var k :| 0 <= k < |fm| && fm[k] == f[i];
    }
    if k :| 0 <= k < |fm| && fm[k].name == name && fm[k].url == selected {
      FilterMembers(fm, p, fm[k]);
      var i :| 0 <= i < |f| && f[i] == fm[k];
      assert Names(f)[i] == name;
    }
  }

  /** With distinct names, every file falls in exactly one URL group: the
      group of its own URL, which the drop-down offers. */
  lemma ExactlyOneGroup(fm: seq<FileEntry>, k: nat, u: Value)
    requires k < |fm|
    requires forall i, j :: 0 <= i < j < |fm| ==> fm[i].name != fm[j].name
    requires AllText(fm) || AllSame(fm)
    ensures fm[k].url in UniqueUrls(fm).value
    ensures fm[k].name in MatchingFiles(fm, u) <==> u == fm[k].url
  {
    UniqueUrlsExact(fm, fm[k].url);
    MatchingFilesExact(fm, u, fm[k].name);
    if fm[k].name in MatchingFiles(fm, u) {
      var j :| 0 <= j < |fm| && fm[j].name == fm[k].name && fm[j].url == u;
      assert j == k;
    }
  }

  /** Every URL of the drop-down lists at least one file, so the second
      drop-down is never empty. */
  lemma EveryUrlHasFiles(fm: seq<FileEntry>, v: Value)
    requires UniqueUrls(fm).Ok? && v in UniqueUrls(fm).value
    ensures |MatchingFiles(fm, v)| > 0
  {
    UniqueUrlsExact(fm, v);
    var k :| 0 <= k < |fm| && fm[k].url == v;
    MatchingFilesExact(fm, v, fm[k].name);
  }

  /** The names of a built map have no repeats. */
  lemma FileMapNamesDistinct(files: seq<string>, fm: seq<FileEntry>)
    requires Names(fm) == Distinct(files)
    ensures forall i, j :: 0 <= i < j < |fm| ==> fm[i].name != fm[j].name
  {
    DistinctNoRepeats(files);
  }
}

=== FILE: log_join.dfy ===
/** What the table and matrix pages (`pages/11_…` to `pages/15_…`) share:
    the opportunity id read from a file name with `re.search(r"_(\d+)", name)`,
    the timestamp read from the part before the first "_", and the pandas
    lookup `df[df[col].str.contains(id, na=False)].iloc[0]` that joins a file
    to the first log entry mentioning its id.

    A log is the list of dicts loaded from its JSON file. `pd.DataFrame(log)`
    has a column for every key of some entry; it is "empty" when it has no
    row or no column; `df[col]` on a missing column raises `KeyError`; a
    non-string cell never matches (`na=False`). */
module LogJoin {

  import opened Wrappers
  import opened Text
  import opened Json
  import opened Artifacts

  // ---------------------------------------------------------------
  // The id in a file name
  // ---------------------------------------------------------------

  /** An underscore directly followed by a digit starts at `j`. */
  predicate IdAt(s: string, j: int) {
    0 <= j && j + 1 < |s| && s[j] == '_' && IsDigit(s[j + 1])
  }

  /** The leftmost match of `_\d` at or after `i`. */
  function IdStart(s: string, i: nat): (r: Option<nat>)
    ensures r.Some? ==> i <= r.value && IdAt(s, r.value)
    ensures r.Some? ==> forall j :: i <= j < r.value ==> !IdAt(s, j)
    ensures r.None? ==> forall j :: i <= j ==> !IdAt(s, j)
    decreases |s| - i
  {
    if i + 1 >= |s| then None
    else if IdAt(s, i) then Some(i)
    else IdStart(s, i + 1)
  }

  /** `m = re.search(r"_(\d+)", name); m.group(1) if m else None` */
  function IdSearch(name: string): (r: Option<string>)
    ensures r.Some? ==> |r.value| > 0 && AllDigits(r.value)
    ensures r.None? <==> forall j :: !IdAt(name, j)
  {
    match IdStart(name, 0)
    case None => None
    case Some(j) => Some(DigitRun(name, j + 1))
  }

  /** The group is the whole digit run after the leftmost `_<digit>`. */
  lemma IdSearchFinds(name: string, j: nat, d: string, rest: string)
    requires j < |name| && name[j..] == "_" + d + rest
    requires forall i :: 0 <= i < j ==> !IdAt(name, i)
    requires |d| > 0 && AllDigits(d)
    requires |rest| == 0 || !IsDigit(rest[0])
    ensures IdSearch(name) == Some(d)
  {
    assert name[j + 1] == name[j..][1] == d[0];
    assert IdAt(name, j);
    assert name[j + 1..] == d + rest;
    DigitRunOf(name, j + 1, d, rest);
  }

  /** A page saved by `pages/4_Download.py`, `<stamp>_<method>_<id>.html`, and
      the parser output next to it, `<stamp>_<method>_<id>_<module>.json`,
      give back the numeric opportunity id. */
  lemma IdOfDownloadName(stamp: string, methodName: string, id: string, rest: string)
    requires '_' !in stamp && '_' !in methodName
    requires |methodName| > 0 && !IsDigit(methodName[0])
    requires |id| > 0 && AllDigits(id)
    requires |rest| == 0 || !IsDigit(rest[0])
    ensures IdSearch(stamp + "_" + methodName + "_" + id + rest) == Some(id)
  {
    var name := stamp + "_" + methodName + "_" + id + rest;
    var j := |stamp| + 1 + |methodName|;
    assert name[j..] == "_" + id + rest;
    forall i | 0 <= i < j ensures !IdAt(name, i) {
      if i < |stamp| {
        assert name[i] == stamp[i];
      } else if i == |stamp| {
        assert name[i + 1] == methodName[0];
      } else {
        assert name[i] == methodName[i - |stamp| - 1];
      }
    }
    IdSearchFinds(name, j, id, rest);
  }

  /** A page saved by `pages/4_Download_Parser.py` starts
      `<stamp>_batch_<number>_…`: the id search finds the batch number, not
      the opportunity id. */
  lemma IdOfBatchName(stamp: string, number: string, rest: string)
    requires '_' !in stamp
    requires |number| > 0 && AllDigits(number)
    requires |rest| == 0 || !IsDigit(rest[0])
    ensures IdSearch(stamp + "_" + "batch" + "_" + number + rest) == Some(number)
  {
    var b := "batch";
    assert '_' !in b && !IsDigit(b[0]);
    IdOfDownloadName(stamp, b, number, rest);
  }

  /** `extract_meta(filename)`: the timestamp parsed from the text before the
      first "_" (`None` when `strptime` fails), and the id. */
  function ExtractMeta(stampDate: string -> Option<string>, name: string): (r: (Option<string>, Option<string>))
    ensures r.0 == stampDate(BeforeFirst(name, '_'))
    ensures r.1 == IdSearch(name)
  {
    (stampDate(BeforeFirst(name, '_')), IdSearch(name))
  }

  // ---------------------------------------------------------------
  // The pandas join
  // ---------------------------------------------------------------

  /** `pd.DataFrame(log).empty`: no rows, or no key in any entry. */
  predicate FrameEmpty(log: seq<Obj>) {
    forall k :: 0 <= k < |log| ==> |log[k]| == 0
  }

  /** The frame has column `col`. */
  predicate HasColumn(log: seq<Obj>, col: string) {
    exists k :: 0 <= k < |log| && col in log[k]
  }

  /** The cell `col` of an entry is a string containing `pat`. */
  predicate Mentions(e: Obj, col: string, pat: string) {
    Get(e, col).Str? && Contains(Get(e, col).s, pat)
  }

  /** The position of the first entry mentioning `pat` in `col`. */
  function FirstMention(log: seq<Obj>, col: string, pat: string): (r: Option<nat>)
    ensures r.Some? ==> r.value < |log| && Mentions(log[r.value], col, pat)
    ensures r.Some? ==> forall k :: 0 <= k < r.value ==> !Mentions(log[k], col, pat)
    ensures r.None? <==> forall k :: 0 <= k < |log| ==> !Mentions(log[k], col, pat)
    decreases |log|
  {
    if |log| == 0 then None
    else if Mentions(log[0], col, pat) then Some(0)
    else
      assert forall k :: 1 <= k < |log| ==> log[k] == log[1..][k - 1];
      match FirstMention(log[1..], col, pat)
      case None => None
      case Some(k) => Some(k + 1)
  }

  /** `m = df[df[col].str.contains(pat, na=False)]; m.iloc[0] if len(m) > 0 else None`:
      `KeyError` without the column. */
  function Matches(log: seq<Obj>, col: string, pat: string): (r: Result<Option<Obj>>)
    ensures r.Raised? <==> !HasColumn(log, col)
    ensures r.Ok? && r.value.Some? ==>
              exists k :: 0 <= k < |log| && r.value.value == log[k] && Mentions(log[k], col, pat)
                          && forall j :: 0 <= j < k ==> !Mentions(log[j], col, pat)
    ensures r.Ok? && r.value.None? ==> forall k :: 0 <= k < |log| ==> !Mentions(log[k], col, pat)
  {
    if !HasColumn(log, col) then Raised("KeyError")
    else match FirstMention(log, col, pat)
      case None => Ok(None)
      case Some(k) => Ok(Some(log[k]))
  }

  /** The join of pages 12, 13 and 15: only with a non-empty log and an id. */
  function GuardedMatch(log: seq<Obj>, col: string, id: Option<string>): (r: Result<Option<Obj>>)
    ensures FrameEmpty(log) || id.None? ==> r == Ok(None)
    ensures !FrameEmpty(log) && id.Some? ==> r == Matches(log, col, id.value)
  {
    if !FrameEmpty(log) && id.Some? then Matches(log, col, id.value) else Ok(None)
  }

  /** `row["url"] if row is not None else None` */
  function UrlOf(m: Option<Obj>): (v: Value)
    ensures m.None? ==> v == Null
    ensures m.Some? ==> v == Get(m.value, "url")
  {
    match m
    case None => Null
    case Some(e) => Get(e, "url")
  }
}

=== FILE: logs_dashboard.dfy ===
/** `pages/1_Logs_Dashboard.py`: the scraper log is split into lines, blank
    lines are dropped, and the lines are filtered by the chosen status. */
module LogsDashboard {

  import opened Text
  import opened Seqs

  /** The marker a log line carries for `status`: `| SUCCESS |` and so on. */
  function Marker(status: string): string {
    "| " + status + " |"
  }

  /** `l.strip()` is not empty. */
  predicate HasText(l: string) {
    !Blank(l)
  }

  /** `[l for l in text.split("\n") if l.strip()]` */
  function Entries(text: string): (r: seq<string>)
    ensures |r| <= |SplitOn(text, '\n')|
    ensures forall k :: 0 <= k < |r| ==> Strip(r[k]) != "" && '\n' !in r[k]
  {
    var r := Filter(SplitOn(text, '\n'), HasText);
    forall k | 0 <= k < |r| ensures Strip(r[k]) != "" && '\n' !in r[k] {
      BlankIsStripEmpty(r[k]);
    }
    r
  }

  /** The line passes the status filter. */
  predicate Keep(status: string, line: string) {
    status == "ALL" || ContainsText(line, Marker(status))
  }

  /** `[l for l in logs if status == "ALL" or f"| {status} |" in l]` */
  function Shown(logs: seq<string>, status: string): (r: seq<string>)
    ensures |r| <= |logs|
    ensures forall k :: 0 <= k < |r| ==> r[k] in logs && Keep(status, r[k])
  {
    Filter(logs, l => Keep(status, l))
  }

  /** The loop that builds `filtered`: "ALL" keeps a line, any other status
      keeps it only when it carries that status's marker. */
  method FilterByStatus(logs: seq<string>, status: string) returns (filtered: seq<string>)
    ensures filtered == Shown(logs, status)
  {
    filtered := [];
    var i := 0;
    while i < |logs|
      invariant 0 <= i <= |logs|
      invariant filtered == Filter(logs[..i], l => Keep(status, l))
    {
      var line := logs[i];
      assert logs[..i + 1] == logs[..i] + [line];
      if status != "ALL" && !ContainsText(line, Marker(status)) {
        i := i + 1;
        continue;
      }
      filtered := filtered + [line];
      i := i + 1;
    }
    assert logs[..|logs|] == logs;
  }

  // ---------------------------------------------------------------
  // Properties
  // ---------------------------------------------------------------

  /** A line is an entry exactly when it is a line of the file with some
      non-space character. */
  lemma EntriesExact(text: string, l: string)
    ensures l in Entries(text) <==> l in SplitOn(text, '\n') && Strip(l) != ""
  {
    FilterMembers(SplitOn(text, '\n'), HasText, l);
    BlankIsStripEmpty(l);
  }

  /** Every line of the file is either an entry or blank, as often as it occurs. */
  lemma EntriesCount(text: string)
    ensures |Entries(text)| + |Filter(SplitOn(text, '\n'), Blank)| == |SplitOn(text, '\n')|
    ensures multiset(Entries(text)) <= multiset(SplitOn(text, '\n'))
  {
    FilterPartition(SplitOn(text, '\n'), HasText, Blank);
  }

  /** "ALL" shows every entry. */
  lemma AllKeepsEverything(logs: seq<string>)
    ensures Shown(logs, "ALL") == logs
  {
    FilterAll(logs, l => Keep("ALL", l));
  }

  /** With a status chosen, a line is shown exactly when it is an entry
      carrying that status's marker. */
  lemma StatusShowsMarked(logs: seq<string>, status: string, l: string)
    requires status != "ALL"
    ensures l in Shown(logs, status) <==> l in logs && Contains(l, Marker(status))
  {
    FilterMembers(logs, x => Keep(status, x), l);
    assert Shown(logs, status) == Filter(logs, x => Keep(status, x));
  }

  /** The filter never adds a line or a copy of one, and keeps the log's
      order: the lines shown from an earlier stretch of the log come first. */
  lemma FilterKeepsOrder(xs: seq<string>, ys: seq<string>, status: string)
    ensures Shown(xs + ys, status) == Shown(xs, status) + Shown(ys, status)
    ensures multiset(Shown(xs + ys, status)) <= multiset(xs + ys)
  {
    FilterConcat(xs, ys, l => Keep(status, l));
    FilterPartition(xs + ys, l => Keep(status, l), l => !Keep(status, l));
  }

  // ---------------------------------------------------------------
  // The status marker against the logger's line format
  // ---------------------------------------------------------------

  /** A line of the application logger, `%(asctime)s %(levelname)s %(message)s`
      (`utils/logger.py`). */
  function LoggerLine(stamp: string, level: string, message: string): string {
    stamp + " " + level + " " + message
  }

  /** The messages `app.py` logs: `SKIPPED | url`, `SUCCESS | url → path`,
      `ERROR | url | error`, the status first. */
  function StatusMessage(status: string, rest: string): string {
    status + " | " + rest
  }

  /** The only '|' of a logged line whose parts carry none is the one after the status. */
  lemma OnlyBar(stamp: string, level: string, status: string, rest: string, k: int)
    requires '|' !in stamp && '|' !in level && '|' !in status && '|' !in rest
    requires 0 <= k < |LoggerLine(stamp, level, StatusMessage(status, rest))|
    requires LoggerLine(stamp, level, StatusMessage(status, rest))[k] == '|'
    ensures k == |stamp| + |level| + |status| + 3
  {
    var head := stamp + " " + level + " " + status;
    var line := LoggerLine(stamp, level, StatusMessage(status, rest));
    assert line == head + " | " + rest;
    assert '|' !in head;
    assert forall j :: 0 <= j < |head| ==> line[j] == head[j];
    assert forall j :: |head| + 3 <= j < |line| ==> line[j] == rest[j - |head| - 3];
  }

  /** As written, the status filter looks for `| SUCCESS |` and the like, but the
      logger puts the status first in the message, so a logged line with a
      single '|' is never shown under any status but "ALL". */
  lemma LoggedLineNeverMatches(stamp: string, level: string, logged: string, rest: string, status: string)
    requires '|' !in stamp && '|' !in level && '|' !in logged && '|' !in rest
    requires status != "ALL"
    ensures Shown([LoggerLine(stamp, level, StatusMessage(logged, rest))], status) == []
  {
    var line := LoggerLine(stamp, level, StatusMessage(logged, rest));
    var m := Marker(status);
    if Contains(line, m) {
      var i :| 0 <= i <= |line| && OccursAt(line, m, i);
      assert line[i] == m[0] == '|';
      assert line[i + |m| - 1] == m[|m| - 1] == '|';
      OnlyBar(stamp, level, logged, rest, i);
      OnlyBar(stamp, level, logged, rest, i + |m| - 1);
      assert false;
    }
    assert !Keep(status, line);
    assert Shown([line], status) == Filter([line][..0], l => Keep(status, l));
  }

  /** The two '|' of a logged `ERROR | url | error` line whose parts carry
      none: the one after the status and the one after the URL. */
  lemma TwoBars(stamp: string, level: string, status: string, url: string, err: string, k: int)
    requires '|' !in stamp && '|' !in level && '|' !in status && '|' !in url && '|' !in err
    requires 0 <= k < |LoggerLine(stamp, level, StatusMessage(status, url + " | " + err))|
    requires LoggerLine(stamp, level, StatusMessage(status, url + " | " + err))[k] == '|'
    ensures k == |stamp| + |level| + |status| + 3 || k == |stamp| + |level| + |status| + |url| + 6
  {
    var head := stamp + " " + level + " " + status;
    var line := LoggerLine(stamp, level, StatusMessage(status, url + " | " + err));
    var p := |head| + 3 + |url|;
    assert line == head + " | " + url + " | " + err;
    assert '|' !in head;
    assert forall j :: 0 <= j < |head| ==> line[j] == head[j];
    assert forall j :: |head| + 3 <= j < p ==> line[j] == url[j - |head| - 3];
    assert forall j :: p + 3 <= j < |line| ==> line[j] == err[j - p - 3];
  }

  /** The error lines fare no better: `ERROR | url | error` holds a marker
      only between its two bars, so it is shown under a status other than
      "ALL" exactly when that status is the URL itself, never under the
      statuses the page offers for a real URL. */
  lemma ErrorLineShownUnderUrlOnly(stamp: string, level: string, logged: string, url: string, err: string, status: string)
    requires '|' !in stamp && '|' !in level && '|' !in logged && '|' !in url && '|' !in err
    requires status != "ALL"
    ensures var line := LoggerLine(stamp, level, StatusMessage(logged, url + " | " + err));
            Shown([line], status) == if status == url then [line] else []
  {
    var line := LoggerLine(stamp, level, StatusMessage(logged, url + " | " + err));
    if status == url {
      ErrorLineHoldsUrlMarker(stamp, level, logged, url, err);
    } else if Contains(line, Marker(status)) {
      ErrorLineMarkerIsUrl(stamp, level, logged, url, err, status);
    }
    assert Shown([line], status) == Filter([line][..0], l => Keep(status, l)) + (if Keep(status, line) then [line] else []);
  }

  /** The marker of the URL stands between the two bars of an error line. */
  lemma ErrorLineHoldsUrlMarker(stamp: string, level: string, logged: string, url: string, err: string)
    ensures Contains(LoggerLine(stamp, level, StatusMessage(logged, url + " | " + err)), Marker(url))
  {
    var line := LoggerLine(stamp, level, StatusMessage(logged, url + " | " + err));
    var m := Marker(url);
    var head := stamp + " " + level + " " + logged + " ";
    assert line == head + m + " " + err;
    assert line[|head|..|head| + |m|] == m;
    assert OccursAt(line, m, |head|);
  }

  /** Any marker an error line holds is the URL's. */
  lemma ErrorLineMarkerIsUrl(stamp: string, level: string, logged: string, url: string, err: string, status: string)
    requires '|' !in stamp && '|' !in level && '|' !in logged && '|' !in url && '|' !in err
    requires Contains(LoggerLine(stamp, level, StatusMessage(logged, url + " | " + err)), Marker(status))
    ensures status == url
  {
    var line := LoggerLine(stamp, level, StatusMessage(logged, url + " | " + err));
    var p1 := |stamp| + |level| + |logged| + 3;
    var m := Marker(status);
    var i :| 0 <= i <= |line| && OccursAt(line, m, i);
    assert line[i] == m[0] == '|';
    assert line[i + |m| - 1] == m[|m| - 1] == '|';
    TwoBars(stamp, level, logged, url, err, i);
    TwoBars(stamp, level, logged, url, err, i + |m| - 1);
    assert i == p1 && |status| == |url|;
    UrlAt(stamp, level, logged, url, err);
    assert forall j :: 0 <= j < |url| ==> status[j] == m[j + 2] == line[p1 + 2 + j];
  }

  /** Where the URL stands in an error line. */
  lemma UrlAt(stamp: string, level: string, logged: string, url: string, err: string)
    ensures var line := LoggerLine(stamp, level, StatusMessage(logged, url + " | " + err));
            var p1 := |stamp| + |level| + |logged| + 3;
            p1 + 2 + |url| <= |line| && line[p1 + 2..p1 + 2 + |url|] == url
  {
    var line := LoggerLine(stamp, level, StatusMessage(logged, url + " | " + err));
    var head := stamp + " " + level + " " + logged + " | ";
    assert line == head + url + " | " + err;
  }

  /** The marker the filter evidently means: the status as the message starts it. */
  function IntendedMarker(status: string): string {
    " " + status + " | "
  }

  predicate IntendedKeep(status: string, line: string) {
    status == "ALL" || ContainsText(line, IntendedMarker(status))
  }

  /** The status filter matching the logger's format. */
  function IntendedShown(logs: seq<string>, status: string): (r: seq<string>)
    ensures |r| <= |logs|
    ensures forall k :: 0 <= k < |r| ==> r[k] in logs && IntendedKeep(status, r[k])
  {
    Filter(logs, l => IntendedKeep(status, l))
  }

  /** With the intended marker, every logged line is shown under its own status. */
  lemma IntendedShowsLoggedStatus(stamp: string, level: string, logged: string, rest: string)
    ensures var line := LoggerLine(stamp, level, StatusMessage(logged, rest));
            line in IntendedShown([line], logged)
  {
    var line := LoggerLine(stamp, level, StatusMessage(logged, rest));
    var m := IntendedMarker(logged);
    var i := |stamp| + 1 + |level|;
    assert line == stamp + " " + level + m + rest;
    assert OccursAt(line, m, i);
    assert IntendedKeep(logged, line);
    FilterMembers([line], l => IntendedKeep(logged, l), line);
  }
}

=== FILE: long_table.dfy ===
/** `pages/11_Table.py`: one row per item of every selected JSON file, the
    item's `type`, `level` and `content` next to the file's metadata, the
    scrape-log entry whose `html_path` mentions the file's id and the
    parser-log entry whose `html_file_path` mentions it. */
module LongTable {

  import opened Wrappers
  import opened Text
  import opened Json
  import opened Seqs
  import opened LogJoin

  /** The keys of every row. */
  const RowKeys: set<string> := {"json_file", "opportunity_id", "timestamp", "type", "level", "content",
                                 "scrape_method", "scrape_url", "parser_name", "parser_status"}

  /** What the page reads: `load(f)` is the list of items parsed from
      `scraped_html/f` (`None` when opening or parsing raises), `stampDate`
      is the `strptime` of a timestamp, and the two logs. */
  datatype Inputs = Inputs(load: string -> Option<seq<Obj>>, stampDate: string -> Option<string>,
                           scrapeLog: seq<Obj>, parserLog: seq<Obj>)

  /** `m.get(key) if m else None` on the matched log row: a column the row
      lacks reads as `None` (pandas fills it with NaN). */
  function Field(m: Option<Obj>, key: string): (v: Value)
    ensures m.None? ==> v == Null
    ensures m.Some? && key in m.value ==> v == m.value[key]
    ensures m.Some? && key !in m.value ==> v == Null
  {
    match m
    case None => Null
    case Some(e) => Get(e, key)
  }

  /** A row carries the file's metadata and the item's fields under the keys
      of the dict literal. */
  predicate CarriesItem(row: Obj, f: string, stamp: Option<string>, id: Option<string>, item: Obj) {
    && row.Keys == RowKeys
    && Get(row, "json_file") == Str(f)
    && Get(row, "opportunity_id") == OptStr(id)
    && Get(row, "timestamp") == OptStr(stamp)
    && Get(row, "type") == Get(item, "type")
    && Get(row, "level") == Get(item, "level")
    && Get(row, "content") == Get(item, "content")
  }

  /** The row for one item. */
  function LongRow(f: string, stamp: Option<string>, id: Option<string>, item: Obj,
                   scrape: Option<Obj>, parser: Option<Obj>): (r: Obj)
    ensures CarriesItem(r, f, stamp, id, item)
    ensures Get(r, "scrape_method") == Field(scrape, "method") && Get(r, "scrape_url") == Field(scrape, "url")
    ensures Get(r, "parser_name") == Field(parser, "parser_name") && Get(r, "parser_status") == Field(parser, "status")
  {
    map["json_file" := Str(f), "opportunity_id" := OptStr(id), "timestamp" := OptStr(stamp),
        "type" := Get(item, "type"), "level" := Get(item, "level"), "content" := Get(item, "content"),
        "scrape_method" := Field(scrape, "method"), "scrape_url" := Field(scrape, "url"),
        "parser_name" := Field(parser, "parser_name"), "parser_status" := Field(parser, "status")]
  }

  // ---------------------------------------------------------------
  // The two joins
  // ---------------------------------------------------------------

  /** The lookup as the page writes it, guarded only by `not df.empty`:
      `df[col]` raises `KeyError` without the column, and
      `str.contains(None)` raises `TypeError` for a name without an id. */
  function PageMatch(log: seq<Obj>, col: string, id: Option<string>): (r: Result<Option<Obj>>)
    ensures r.Raised? <==> !FrameEmpty(log) && (!HasColumn(log, col) || id.None?)
    ensures id.Some? ==> r == GuardedMatch(log, col, id)
  {
    if FrameEmpty(log) then Ok(None)
    else if !HasColumn(log, col) then Raised("KeyError")
    else match id
      case None => Raised("TypeError")
      case Some(d) => Matches(log, col, d)
  }

  /** Which guard the lookups use: the page's, or the one pages 12, 13 and 15
      put on the same lookup (`if opp_id and not df.empty`). */
  datatype Join = AsWritten | Guarded

  function Lookup(j: Join, log: seq<Obj>, col: string, id: Option<string>): (r: Result<Option<Obj>>)
    ensures j == Guarded ==> r == GuardedMatch(log, col, id)
    ensures j == AsWritten ==> r == PageMatch(log, col, id)
  {
    match j
    case AsWritten => PageMatch(log, col, id)
    case Guarded => GuardedMatch(log, col, id)
  }

  /** The lookup of a join raises. */
  predicate LookupFails(j: Join, log: seq<Obj>, col: string, id: Option<string>) {
    Lookup(j, log, col, id).Raised?
  }

  // ---------------------------------------------------------------
  // The rows
  // ---------------------------------------------------------------

  /** The scrape-log row joined to a file. */
  function ScrapeMatch(inp: Inputs, f: string, j: Join): Result<Option<Obj>> {
    Lookup(j, inp.scrapeLog, "html_path", IdSearch(f))
  }

  /** The parser-log row joined to a file. */
  function ParserMatch(inp: Inputs, f: string, j: Join): Result<Option<Obj>> {
    Lookup(j, inp.parserLog, "html_file_path", IdSearch(f))
  }

  /** The rows of one file that loaded: both lookups first (the scrape log,
      then the parser log), then one row per item. */
  function FileRows(inp: Inputs, f: string, j: Join): (r: Result<seq<Obj>>)
    requires inp.load(f).Some?
    ensures r.Raised? <==> ScrapeMatch(inp, f, j).Raised? || ParserMatch(inp, f, j).Raised?
    ensures r.Ok? ==> |r.value| == |inp.load(f).value|
    ensures r.Ok? ==> forall i :: 0 <= i < |r.value| ==>
              r.value[i] == LongRow(f, inp.stampDate(BeforeFirst(f, '_')), IdSearch(f), inp.load(f).value[i],
                                    ScrapeMatch(inp, f, j).value, ParserMatch(inp, f, j).value)
  {
    var (stamp, id) := ExtractMeta(inp.stampDate, f);
    var items := inp.load(f).value;
    match ScrapeMatch(inp, f, j)
    case Raised(m) => Raised(m)
    case Ok(scrape) =>
      match ParserMatch(inp, f, j)
      case Raised(m) => Raised(m)
      case Ok(parser) =>
        Ok(seq(|items|, i requires 0 <= i < |items| => LongRow(f, stamp, id, items[i], scrape, parser)))
  }

  /** How many rows the files that load give. */
  function Total(inp: Inputs, sel: seq<string>): nat
    decreases |sel|
  {
    if |sel| == 0 then 0
    else
      var f := sel[|sel| - 1];
      Total(inp, sel[..|sel| - 1]) + if inp.load(f).Some? then |inp.load(f).value| else 0
  }

  /** The rows the results add up to. */
  function Sizes(results: seq<Result<seq<Obj>>>): nat
    decreases |results|
  {
    if |results| == 0 then 0
    else
      var last := results[|results| - 1];
      Sizes(results[..|results| - 1]) + if last.Ok? then |last.value| else 0
  }

  /** The per-file results one after the other; the first failure wins. */
  function Gather(results: seq<Result<seq<Obj>>>): (r: Result<seq<Obj>>)
    ensures r.Raised? <==> exists k :: 0 <= k < |results| && results[k].Raised?
    ensures r.Ok? ==> |r.value| == Sizes(results)
    decreases |results|
  {
    if |results| == 0 then Ok([])
    else
      var init := results[..|results| - 1];
      assert forall k :: 0 <= k < |init| ==> init[k] == results[k];
      match Gather(init)
      case Raised(m) => Raised(m)
      case Ok(rows) =>
        match results[|results| - 1]
        case Raised(m) => Raised(m)
        case Ok(more) => Ok(rows + more)
  }

  /** Row `i` of the `k`-th result comes after the rows of the results before it. */
  lemma {:induction false} GatherAt(results: seq<Result<seq<Obj>>>, k: nat, i: nat)
    requires Gather(results).Ok?
    requires k < |results| && results[k].Ok? && i < |results[k].value|
    ensures Sizes(results[..k]) + i < |Gather(results).value|
    ensures Gather(results).value[Sizes(results[..k]) + i] == results[k].value[i]
    decreases |results|
  {
    var init := results[..|results| - 1];
    var rows := Gather(results).value;
    assert rows == Gather(init).value + results[|results| - 1].value;
    if k < |results| - 1 {
      assert init[..k] == results[..k] && init[k] == results[k];
      GatherAt(init, k, i);
      SizesPrefix(init, k);
    } else {
      assert init == results[..k];
    }
  }

  /** The rows of the first `k` results are no more than all of them. */
  lemma {:induction false} SizesPrefix(results: seq<Result<seq<Obj>>>, k: nat)
    requires k <= |results|
    ensures Sizes(results[..k]) <= Sizes(results)
    decreases |results|
  {
    if k < |results| {
      var init := results[..|results| - 1];
      assert init[..k] == results[..k];
      SizesPrefix(init, k);
    } else {
      assert results[..k] == results;
    }
  }

  /** What each selected file gives: no rows when it does not load. */
  function PerFile(inp: Inputs, sel: seq<string>, j: Join): (r: seq<Result<seq<Obj>>>)
    ensures |r| == |sel|
    ensures forall k :: 0 <= k < |sel| ==> r[k] == if inp.load(sel[k]).Some? then FileRows(inp, sel[k], j) else Ok([])
  {
    seq(|sel|, k requires 0 <= k < |sel| => if inp.load(sel[k]).Some? then FileRows(inp, sel[k], j) else Ok([]))
  }

  /** When every file that loads gives its rows, they add up to its items. */
  lemma {:induction false} SizesTotal(inp: Inputs, sel: seq<string>, j: Join)
    requires forall k :: 0 <= k < |sel| ==> PerFile(inp, sel, j)[k].Ok?
    ensures Sizes(PerFile(inp, sel, j)) == Total(inp, sel)
    decreases |sel|
  {
    if |sel| > 0 {
      var init := sel[..|sel| - 1];
      assert PerFile(inp, sel, j)[..|sel| - 1] == PerFile(inp, init, j);
      SizesTotal(inp, init, j);
    }
  }

  /** The loop over the selected files: a file that does not load is skipped
      with an error message; a lookup that raises ends the page. */
  function LongRows(inp: Inputs, sel: seq<string>, j: Join): (r: Result<seq<Obj>>)
    ensures r.Raised? <==> exists k :: 0 <= k < |sel| && inp.load(sel[k]).Some? && FileRows(inp, sel[k], j).Raised?
    ensures r.Ok? ==> |r.value| == Total(inp, sel)
  {
    var results := PerFile(inp, sel, j);
    if forall k :: 0 <= k < |sel| ==> results[k].Ok? then
      SizesTotal(inp, sel, j);
      Gather(results)
    else Gather(results)
  }

  /** Item `i` of the `k`-th selected file, when it loads, gives the row after
      the rows of the files before it: files in selection order, items in
      file order. */
  lemma LongRowAt(inp: Inputs, sel: seq<string>, j: Join, k: nat, i: nat)
    requires LongRows(inp, sel, j).Ok?
    requires k < |sel| && inp.load(sel[k]).Some? && i < |inp.load(sel[k]).value|
    ensures var file := FileRows(inp, sel[k], j);
      file.Ok? && i < |file.value|
    ensures var rows := LongRows(inp, sel, j).value; var at := Total(inp, sel[..k]) + i;
      at < |rows| && rows[at] == FileRows(inp, sel[k], j).value[i]
  {
    var results := PerFile(inp, sel, j);
    RowsAreGathered(inp, sel, j);
    var file := FileRows(inp, sel[k], j);
    assert results[k] == file;
    GatherAt(results, k, i);
    PrefixTotal(inp, sel, j, k);
  }

  /** The page's rows are the gathered rows of its files. */
  lemma RowsAreGathered(inp: Inputs, sel: seq<string>, j: Join)
    ensures LongRows(inp, sel, j) == Gather(PerFile(inp, sel, j))
  {
  }

  /** The rows of the first `k` files, when every file that loads gives its rows. */
  lemma PrefixTotal(inp: Inputs, sel: seq<string>, j: Join, k: nat)
    requires k <= |sel| && Gather(PerFile(inp, sel, j)).Ok?
    ensures Sizes(PerFile(inp, sel, j)[..k]) == Total(inp, sel[..k])
  {
    assert PerFile(inp, sel, j)[..k] == PerFile(inp, sel[..k], j);
    SizesTotal(inp, sel[..k], j);
  }

  /** Every row holds its file's metadata and its item's fields. */
  lemma RowsCarryItems(inp: Inputs, sel: seq<string>, j: Join, k: nat, i: nat)
    requires LongRows(inp, sel, j).Ok?
    requires k < |sel| && inp.load(sel[k]).Some? && i < |inp.load(sel[k]).value|
    ensures Total(inp, sel[..k]) + i < |LongRows(inp, sel, j).value|
    ensures CarriesItem(LongRows(inp, sel, j).value[Total(inp, sel[..k]) + i], sel[k],
                        inp.stampDate(BeforeFirst(sel[k], '_')), IdSearch(sel[k]), inp.load(sel[k]).value[i])
  {
    LongRowAt(inp, sel, j, k, i);
  }

  /** A row's scrape columns come from the first scrape-log entry whose
      `html_path` contains the file's id, and are `None` when there is none,
      when the log is empty and when the name has no id. */
  lemma ScrapeColumns(inp: Inputs, sel: seq<string>, k: nat, i: nat)
    requires LongRows(inp, sel, Guarded).Ok?
    requires k < |sel| && inp.load(sel[k]).Some? && i < |inp.load(sel[k]).value|
    ensures Total(inp, sel[..k]) + i < |LongRows(inp, sel, Guarded).value|
    ensures var row := LongRows(inp, sel, Guarded).value[Total(inp, sel[..k]) + i];
      var id := IdSearch(sel[k]);
      var e := if FrameEmpty(inp.scrapeLog) || id.None? then None else FirstMention(inp.scrapeLog, "html_path", id.value);
      && (e.None? ==> Get(row, "scrape_method") == Null && Get(row, "scrape_url") == Null)
      && (e.Some? ==> Get(row, "scrape_method") == Get(inp.scrapeLog[e.value], "method")
                      && Get(row, "scrape_url") == Get(inp.scrapeLog[e.value], "url"))
  {
    LongRowAt(inp, sel, Guarded, k, i);
  }

  /** A row's parser columns come from the first parser-log entry whose
      `html_file_path` contains the file's id, and are `None` when there is
      none, when the log is empty and when the name has no id. */
  lemma ParserColumns(inp: Inputs, sel: seq<string>, k: nat, i: nat)
    requires LongRows(inp, sel, Guarded).Ok?
    requires k < |sel| && inp.load(sel[k]).Some? && i < |inp.load(sel[k]).value|
    ensures Total(inp, sel[..k]) + i < |LongRows(inp, sel, Guarded).value|
    ensures var row := LongRows(inp, sel, Guarded).value[Total(inp, sel[..k]) + i];
      var id := IdSearch(sel[k]);
      var e := if FrameEmpty(inp.parserLog) || id.None? then None else FirstMention(inp.parserLog, "html_file_path", id.value);
      && (e.None? ==> Get(row, "parser_name") == Null && Get(row, "parser_status") == Null)
      && (e.Some? ==> Get(row, "parser_name") == Get(inp.parserLog[e.value], "parser_name")
                      && Get(row, "parser_status") == Get(inp.parserLog[e.value], "status"))
  {
    LongRowAt(inp, sel, Guarded, k, i);
  }

  // ---------------------------------------------------------------
  // A file name without an id
  // ---------------------------------------------------------------

  /** As written, a selected file whose name has no `_<digits>` ends the page
      with `TypeError` as soon as the scrape log has an entry; with the guard
      of the other pages its rows are built with empty log columns. */
  lemma NoIdRaises(inp: Inputs, f: string)
    requires inp.load(f).Some? && IdSearch(f).None? && !FrameEmpty(inp.scrapeLog)
    ensures FileRows(inp, f, AsWritten).Raised?
    ensures FileRows(inp, f, Guarded).Ok?
  {
  }

  /** With the guard, the page stops only on a log that has entries but not
      the column joined on, and only for a file name with an id. */
  lemma GuardedRaisesOnlyWithoutColumn(inp: Inputs, f: string)
    requires inp.load(f).Some?
    ensures FileRows(inp, f, Guarded).Raised? <==>
              IdSearch(f).Some?
              && ((!FrameEmpty(inp.scrapeLog) && !HasColumn(inp.scrapeLog, "html_path"))
                  || (!FrameEmpty(inp.parserLog) && !HasColumn(inp.parserLog, "html_file_path")))
  {
  }

  /** The two joins agree on every file name with an id. */
  lemma JoinsAgreeWithId(inp: Inputs, f: string)
    requires inp.load(f).Some? && IdSearch(f).Some?
    ensures FileRows(inp, f, AsWritten) == FileRows(inp, f, Guarded)
  {
  }

  /** A concrete case: `notes.json`, holding an empty list, selected while the
      scrape log has one entry. */
  lemma NotesExample()
    ensures var inp := Inputs(f => Some([]), s => None, [map["html_path" := Str("scraped_html/a_1.html")]], []);
      && LongRows(inp, ["notes.json"], AsWritten).Raised?
      && LongRows(inp, ["notes.json"], Guarded) == Ok([])
  {
    var inp := Inputs(f => Some([]), s => None, [map["html_path" := Str("scraped_html/a_1.html")]], []);
    var name := "notes.json";
    assert forall j :: !IdAt(name, j);
    assert !FrameEmpty(inp.scrapeLog) by { assert |inp.scrapeLog[0]| == 1; }
    NoIdRaises(inp, name);
    assert ["notes.json"][..0] == [];
  }
}

=== FILE: matrix.dfy ===
/** The two matrix pages: `pages/14_Select_Columns_Matrix.py` (one parsed
    file) and `pages/15_Select_Columns_Matrix_Multi.py` (several). The parsed
    file is a list of items; each item has a tick box numbered from 1, and
    the ticked items' `content` values become the columns `content_1`,
    `content_2`, … of one wide row per file, next to the file name, the
    opportunity id and the scrape URL found in the scrape log.

    The scrape log is `None` when its file does not exist; the parsed files
    are given as lists of objects; `strptime` is the abstract `stampDate`. */
module Matrix {

  import opened Wrappers
  import opened Text
  import opened Json
  import opened Seqs
  import opened StringOrder
  import opened Selection
  import opened LogJoin

  /** The `content` value of every item, `None` where it has none. */
  function Contents(data: seq<Obj>): (vs: seq<Value>)
    ensures |vs| == |data| && forall k :: 0 <= k < |data| ==> vs[k] == Get(data[k], "content")
  {
    seq(|data|, k requires 0 <= k < |data| => Get(data[k], "content"))
  }

  /** The fixed keys of a row never look like content columns. */
  predicate NoContentKey(base: Obj) {
    forall key :: key in base ==> !StartsWith(key, ContentPrefix)
  }

  /** The contents of the picked items (numbered from 1), in order. */
  function PickedContents(data: seq<Obj>, picked: seq<int>): (vs: seq<Value>)
    requires forall k :: 0 <= k < |picked| ==> 1 <= picked[k] <= |data|
    ensures |vs| == |picked| && forall k :: 0 <= k < |picked| ==> vs[k] == Get(data[picked[k] - 1], "content")
  {
    ContentValues(Contents(data), picked, 1)
  }

  /** Picking every item picks every content. */
  lemma PickedAllContents(data: seq<Obj>)
    ensures PickedContents(data, Range(1, |data|)) == Contents(data)
  {
    ContentValuesAll(Contents(data), 1);
  }

  /** Picking every item puts item k's content under `content_k`. */
  lemma WideRowAll(base: Obj, data: seq<Obj>)
    requires NoContentKey(base)
    ensures Holds(WideRow(base, data, Range(1, |data|)), Contents(data))
  {
    PickedAllContents(data);
    WideRowColumns(base, data, Range(1, |data|));
  }

  /** The row of a file: the fixed part, then the content of the picked items
      under `content_1, content_2, …`. */
  function WideRow(base: Obj, data: seq<Obj>, picked: seq<int>): Obj
    requires forall k :: 0 <= k < |picked| ==> 1 <= picked[k] <= |data|
  {
    Fill(base, ContentPrefix, PickedContents(data, picked))
  }

  /** `content_k` holds the content of the k-th picked item, the fixed part is
      kept, and there is no other column. */
  lemma WideRowColumns(base: Obj, data: seq<Obj>, picked: seq<int>)
    requires NoContentKey(base)
    requires forall k :: 0 <= k < |picked| ==> 1 <= picked[k] <= |data|
    ensures var row := WideRow(base, data, picked);
            && (forall key :: key in base ==> key in row && row[key] == base[key])
            && Holds(row, PickedContents(data, picked))
            && OnlyContent(row, base, |picked|)
  {
    FillColumns(base, ContentPrefix, PickedContents(data, picked));
  }

  // ---------------------------------------------------------------
  // Page 14: one file
  // ---------------------------------------------------------------

  /** What the scrape log gives page 14 about a file. */
  datatype Found = Found(opId: Option<string>, url: Value)

  /** The lookup of page 14 as written: the id is only read when the log file
      exists, and the match runs on any frame, so `logs_df["url"]` raises
      `KeyError` on a log without a "url" column, the empty log `[]`
      included. */
  function SingleLookup(log: Option<seq<Obj>>, name: string): (r: Result<Found>)
    ensures log.None? ==> r == Ok(Found(None, Null))
    ensures log.Some? ==> (r.Raised? <==> IdSearch(name).Some? && !HasColumn(log.value, "url"))
    ensures r.Ok? && log.Some? ==> r.value.opId == IdSearch(name)
    ensures r.Ok? && r.value.url != Null ==>
              r.value.opId.Some? && r.value.url.Str? && Contains(r.value.url.s, r.value.opId.value)
  {
    match log
    case None => Ok(Found(None, Null))
    case Some(entries) =>
      var id := IdSearch(name);
      if id.None? then Ok(Found(None, Null))
      else match Matches(entries, "url", id.value)
        case Raised(e) => Raised(e)
        case Ok(m) => Ok(Found(id, UrlOf(m)))
  }

  /** The output of a page saved by the download page, as an example name. */
  const SampleStamp: string := "2025-12-11T07-59-18"
  const SampleName: string := SampleStamp + "_" + "Requests" + "_" + "123" + ".json"

  lemma SampleNameId()
    ensures IdSearch(SampleName) == Some("123")
  {
    SampleStampPlain();
    var methodName, id, rest := "Requests", "123", ".json";
    assert !IsDigit(methodName[0]) && '_' !in methodName;
    assert AllDigits(id) && !IsDigit(rest[0]);
    IdOfDownloadName(SampleStamp, methodName, id, rest);
  }

  lemma SampleStampPlain()
    ensures '_' !in SampleStamp
  {
    var t := SampleStamp;
    assert forall i :: 0 <= i < |t| ==> t[i] != '_';
  }

  /** An empty scrape log makes page 14 fail on a downloaded page's output. */
  lemma SingleLookupEmptyLog()
    ensures SingleLookup(Some([]), SampleName).Raised?
  {
    SampleNameId();
    assert !HasColumn([], "url");
  }

  /** The lookup with the empty-frame guard the other table pages use:
      an empty log finds no URL instead of raising. */
  function GuardedSingleLookup(log: Option<seq<Obj>>, name: string): (r: Result<Found>)
    ensures log.None? ==> r == Ok(Found(None, Null))
    ensures log.Some? && FrameEmpty(log.value) ==> r == Ok(Found(IdSearch(name), Null))
    ensures log.Some? && !FrameEmpty(log.value) ==> r == SingleLookup(log, name)
    ensures r.Ok? && r.value.url != Null ==>
              r.value.opId.Some? && r.value.url.Str? && Contains(r.value.url.s, r.value.opId.value)
  {
    match log
    case None => Ok(Found(None, Null))
    case Some(entries) =>
      if FrameEmpty(entries) then Ok(Found(IdSearch(name), Null))
      else SingleLookup(log, name)
  }

  /** The state key of page 14. */
  function SingleKey(name: string): string {
    "matrix_checks_" + name
  }

  /** The fixed part of the page 14 row. */
  function SingleBase(name: string, found: Found): (base: Obj)
    ensures NoContentKey(base)
    ensures base.Keys == {"json_file", "opportunity_id", "scrape_url"}
    ensures base["json_file"] == Str(name) && base["opportunity_id"] == OptStr(found.opId)
    ensures base["scrape_url"] == found.url
  {
    var base := map["json_file" := Str(name), "opportunity_id" := OptStr(found.opId), "scrape_url" := found.url];
    assert !StartsWith("json_file", ContentPrefix) by { assert "json_file"[0] != ContentPrefix[0]; }
    assert !StartsWith("opportunity_id", ContentPrefix) by { assert "opportunity_id"[0] != ContentPrefix[0]; }
    assert !StartsWith("scrape_url", ContentPrefix) by { assert "scrape_url"[0] != ContentPrefix[0]; }
    base
  }

  /** The wide row of page 14: the items ticked by `checks.get(i, False)`;
      with none ticked the page stops ("No items selected."). */
  function SingleRow(name: string, data: seq<Obj>, checks: Checks, found: Found): (r: Option<Obj>)
    ensures r.None? <==> forall i :: 1 <= i <= |data| ==> !Ticked(checks, i)
  {
    var picked := Picked(checks, 1, |data|);
    if |picked| == 0 then None else Some(WideRow(SingleBase(name, found), data, picked))
  }

  /** The row holds the file, the id and the URL found, and under `content_k`
      the content of the k-th ticked item, counting in item order; there are
      as many content columns as ticked items. */
  lemma SingleRowColumns(name: string, data: seq<Obj>, checks: Checks, found: Found)
    requires exists i :: 1 <= i <= |data| && Ticked(checks, i)
    ensures var row := SingleRow(name, data, checks, found).value;
            var picked := Picked(checks, 1, |data|);
            && |picked| == CountTicked(checks, 1, |data|)
            && "json_file" in row && row["json_file"] == Str(name)
            && "scrape_url" in row && row["scrape_url"] == found.url
            && Holds(row, PickedContents(data, picked))
            && OnlyContent(row, SingleBase(name, found), |picked|)
  {
    var picked := Picked(checks, 1, |data|);
    var i :| 1 <= i <= |data| && Ticked(checks, i);
    assert i in picked;
    PickedCount(checks, 1, |data|);
    WideRowColumns(SingleBase(name, found), data, picked);
  }

  /** On a first visit every item is ticked (`InitChecks` stores
      `Uniform(1, n, true)`): `content_k` is item k's content for every item. */
  lemma FreshSingleRow(name: string, data: seq<Obj>, found: Found)
    requires |data| > 0
    ensures var row := SingleRow(name, data, Uniform(1, |data|, true), found);
            row.Some? && Holds(row.value, Contents(data))
  {
    SingleRowAll(name, data, found);
    WideRowAll(SingleBase(name, found), data);
  }

  lemma SingleRowAll(name: string, data: seq<Obj>, found: Found)
    requires |data| > 0
    ensures SingleRow(name, data, Uniform(1, |data|, true), found) == Some(WideRow(SingleBase(name, found), data, Range(1, |data|)))
  {
    PickedAll(1, |data|);
  }

  // ---------------------------------------------------------------
  // Page 15: several files
  // ---------------------------------------------------------------

  /** `scrape_url_map`: for every listed file, the URL of the first log
      entry mentioning its id, looked up only with an id and a non-empty
      log; no entry at all without a log file. */
  function UrlMap(log: Option<seq<Obj>>, files: seq<string>): (r: Result<map<string, Value>>)
    ensures log.None? ==> r == Ok(map[])
    ensures log.Some? ==> (r.Raised? <==>
              !FrameEmpty(log.value) && !HasColumn(log.value, "url") && exists k :: 0 <= k < |files| && IdSearch(files[k]).Some?)
    ensures r.Ok? && log.Some? ==> forall f :: f in r.value <==> f in files
    ensures r.Ok? ==> forall f :: f in r.value ==>
              r.value[f] == Null || (IdSearch(f).Some? && r.value[f].Str? && Contains(r.value[f].s, IdSearch(f).value))
  {
    match log
    case None => Ok(map[])
    case Some(entries) => UrlMapOf(entries, files)
  }

  /** Some file name carries an id. */
  predicate AnyId(files: seq<string>) {
    exists k :: 0 <= k < |files| && IdSearch(files[k]).Some?
  }

  /** Every URL found for a file is a string mentioning that file's id. */
  predicate UrlsMention(m: map<string, Value>) {
    forall f :: f in m ==> m[f] == Null || (IdSearch(f).Some? && m[f].Str? && Contains(m[f].s, IdSearch(f).value))
  }

  lemma AnyIdSnoc(files: seq<string>)
    requires |files| > 0
    ensures AnyId(files) <==> AnyId(files[..|files| - 1]) || IdSearch(files[|files| - 1]).Some?
  {
    var n := |files| - 1;
    assert forall k :: 0 <= k < n ==> files[k] == files[..n][k];
  }

  lemma UrlsMentionPut(m: map<string, Value>, f: string, found: Option<Obj>)
    requires UrlsMention(m)
    requires found.Some? ==> IdSearch(f).Some? && Mentions(found.value, "url", IdSearch(f).value)
    ensures UrlsMention(m[f := UrlOf(found)])
  {
  }

  /** The loop of `scrape_url_map` over the files, in order. */
  function UrlMapOf(entries: seq<Obj>, files: seq<string>): (r: Result<map<string, Value>>)
    ensures r.Raised? <==> !FrameEmpty(entries) && !HasColumn(entries, "url") && AnyId(files)
    ensures r.Ok? ==> (forall f :: f in r.value <==> f in files) && UrlsMention(r.value)
    decreases |files|
  {
    if |files| == 0 then Ok(map[])
    else
      var n := |files| - 1;
      var f := files[n];
      AnyIdSnoc(files);
      assert forall g :: g in files <==> g in files[..n] || g == f by {
        assert files == files[..n] + [f];
      }
      match UrlMapOf(entries, files[..n])
      case Raised(e) => Raised(e)
      case Ok(m) =>
        match GuardedMatch(entries, "url", IdSearch(f))
        case Raised(e) => Raised(e)
        case Ok(found) =>
          UrlsMentionPut(m, f, found);
          Ok(m[f := UrlOf(found)])
  }

  /** `scrape_url_map.get(json_file)` */
  function UrlFor(urls: map<string, Value>, name: string): (v: Value)
    ensures name !in urls ==> v == Null
    ensures name in urls ==> v == urls[name]
  {
    if name in urls then urls[name] else Null
  }

  /** The fixed part of the page 15 row. */
  function MultiBase(name: string, stampDate: string -> Option<string>, urls: map<string, Value>): (base: Obj)
    ensures NoContentKey(base)
    ensures base.Keys == {"json_file", "opportunity_id", "scrape_url", "timestamp"}
    ensures base["json_file"] == Str(name)
    ensures base["opportunity_id"] == OptStr(IdSearch(name))
    ensures base["timestamp"] == OptStr(stampDate(BeforeFirst(name, '_')))
    ensures base["scrape_url"] == UrlFor(urls, name)
  {
    var meta := ExtractMeta(stampDate, name);
    var base := map["json_file" := Str(name), "opportunity_id" := OptStr(meta.1),
                    "scrape_url" := UrlFor(urls, name), "timestamp" := OptStr(meta.0)];
    assert !StartsWith("json_file", ContentPrefix) by { assert "json_file"[0] != ContentPrefix[0]; }
    assert !StartsWith("opportunity_id", ContentPrefix) by { assert "opportunity_id"[0] != ContentPrefix[0]; }
    assert !StartsWith("scrape_url", ContentPrefix) by { assert "scrape_url"[0] != ContentPrefix[0]; }
    assert !StartsWith("timestamp", ContentPrefix) by { assert "timestamp"[0] != ContentPrefix[0]; }
    base
  }

  /** The row of one file on page 15: every box is read with `checks[idx]`,
      so a state without some index raises `KeyError`. */
  function MultiRow(name: string, data: seq<Obj>, checks: Checks,
                    stampDate: string -> Option<string>, urls: map<string, Value>): (r: Result<Obj>)
    ensures r.Ok? <==> Covers(checks, 1, |data|)
  {
    match StrictPicked(checks, 1, |data|)
    case Raised(e) => Raised(e)
    case Ok(picked) => Ok(WideRow(MultiBase(name, stampDate, urls), data, picked))
  }

  /** `content_k` holds the content of the k-th ticked item, with no gaps and
      no other content column; the fixed columns are all there. */
  lemma MultiRowColumns(name: string, data: seq<Obj>, checks: Checks,
                        stampDate: string -> Option<string>, urls: map<string, Value>)
    requires Covers(checks, 1, |data|)
    ensures var row := MultiRow(name, data, checks, stampDate, urls).value;
            var picked := Picked(checks, 1, |data|);
            var base := MultiBase(name, stampDate, urls);
            && |picked| == CountTicked(checks, 1, |data|)
            && (forall key :: key in base ==> key in row && row[key] == base[key])
            && Holds(row, PickedContents(data, picked))
            && OnlyContent(row, base, |picked|)
  {
    PickedCount(checks, 1, |data|);
    WideRowColumns(MultiBase(name, stampDate, urls), data, Picked(checks, 1, |data|));
  }

  /** The state key of a file on page 15. */
  function MultiKey(name: string): string {
    "checks_" + name
  }

  /** Different files keep their states apart. */
  lemma MultiKeyInjective(a: string, b: string)
    requires MultiKey(a) == MultiKey(b)
    ensures a == b
  {
    assert MultiKey(a)[7..] == a;
    assert MultiKey(b)[7..] == b;
  }

  /** One pass of the loop of page 15 over a file: its state is created when
      missing, then its row is built from it. */
  function MultiStep(session: Session, name: string, data: seq<Obj>,
                     stampDate: string -> Option<string>, urls: map<string, Value>): (r: (Session, Result<Obj>))
    ensures r.0 == InitChecks(session, MultiKey(name), 1, |data|)
    ensures r.1 == MultiRow(name, data, r.0[MultiKey(name)], stampDate, urls)
  {
    var s := InitChecks(session, MultiKey(name), 1, |data|);
    (s, MultiRow(name, data, s[MultiKey(name)], stampDate, urls))
  }

  /** The rows of the chosen files in order; the first `KeyError` stops the
      page. */
  function MultiRows(session: Session, files: seq<string>, load: string -> seq<Obj>,
                     stampDate: string -> Option<string>, urls: map<string, Value>): (r: Result<seq<Obj>>)
    ensures r.Ok? ==> |r.value| == |files|
    decreases |files|
  {
    if |files| == 0 then Ok([])
    else
      var step := MultiStep(session, files[0], load(files[0]), stampDate, urls);
      match step.1
      case Raised(e) => Raised(e)
      case Ok(row) =>
        match MultiRows(step.0, files[1..], load, stampDate, urls)
        case Raised(e) => Raised(e)
        case Ok(rows) => Ok([row] + rows)
  }

  /** Every state stored for a file ticks all of that file's items. */
  ghost predicate AllTicked(session: Session, load: string -> seq<Obj>) {
    forall f :: MultiKey(f) in session ==> session[MultiKey(f)] == Uniform(1, |load(f)|, true)
  }

  /** Creating a missing state keeps `AllTicked`. */
  lemma InitKeepsAllTicked(session: Session, name: string, load: string -> seq<Obj>)
    requires AllTicked(session, load)
    ensures AllTicked(InitChecks(session, MultiKey(name), 1, |load(name)|), load)
  {
    var s := InitChecks(session, MultiKey(name), 1, |load(name)|);
    forall f | MultiKey(f) in s
      ensures s[MultiKey(f)] == Uniform(1, |load(f)|, true)
    {
      if MultiKey(f) == MultiKey(name) {
        MultiKeyInjective(f, name);
      }
    }
  }

  /** With every box ticked a file's row is built, holding every item's
      content in order. */
  lemma FreshMultiRow(name: string, data: seq<Obj>, stampDate: string -> Option<string>, urls: map<string, Value>)
    ensures var r := MultiRow(name, data, Uniform(1, |data|, true), stampDate, urls);
            r.Ok? && Holds(r.value, Contents(data))
  {
    PickedAll(1, |data|);
    PickedAllContents(data);
    WideRowColumns(MultiBase(name, stampDate, urls), data, Range(1, |data|));
  }

  /** The row of file `k` holds all its items' contents in order. */
  ghost predicate HoldsAll(rows: seq<Obj>, files: seq<string>, load: string -> seq<Obj>, k: int)
    requires |rows| == |files|
  {
    0 <= k < |files| && Holds(rows[k], Contents(load(files[k])))
  }

  lemma {:induction false} FreshMultiRows(session: Session, files: seq<string>, load: string -> seq<Obj>,
                                          stampDate: string -> Option<string>, urls: map<string, Value>)
    requires AllTicked(session, load)
    ensures var r := MultiRows(session, files, load, stampDate, urls);
            r.Ok? && forall k :: 0 <= k < |files| ==> HoldsAll(r.value, files, load, k)
    decreases |files|
  {
    if |files| > 0 {
      var f := files[0];
      var step := MultiStep(session, f, load(f), stampDate, urls);
      InitKeepsAllTicked(session, f, load);
      FreshMultiRow(f, load(f), stampDate, urls);
      FreshMultiRows(step.0, files[1..], load, stampDate, urls);
      var rest := MultiRows(step.0, files[1..], load, stampDate, urls).value;
      assert MultiRows(session, files, load, stampDate, urls) == Ok([step.1.value] + rest);
      HoldsAllCons(step.1.value, rest, files, load);
    }
  }

  /** A row holding all of the first file's contents in front of rows that
      hold all of the other files' contents. */
  lemma HoldsAllCons(row: Obj, rest: seq<Obj>, files: seq<string>, load: string -> seq<Obj>)
    requires |files| > 0 && |rest| == |files| - 1
    requires Holds(row, Contents(load(files[0])))
    requires forall k :: 0 <= k < |rest| ==> HoldsAll(rest, files[1..], load, k)
    ensures forall k :: 0 <= k < |files| ==> HoldsAll([row] + rest, files, load, k)
  {
    var rows := [row] + rest;
    forall k | 0 <= k < |files| ensures HoldsAll(rows, files, load, k) {
      if k > 0 {
        assert HoldsAll(rest, files[1..], load, k - 1);
        assert files[k] == files[1..][k - 1] && rows[k] == rest[k - 1];
      }
    }
  }

  /** `meta_cols + content_cols`: the four fixed columns, then every content
      column of the frame in string order. */
  function MultiColumns(columns: seq<string>): (r: seq<string>)
    ensures |r| >= 4 && r[..4] == ["json_file", "opportunity_id", "scrape_url", "timestamp"]
    ensures forall c :: c in r[4..] <==> c in columns && IsContentColumn(c)
    ensures forall i, j :: 4 <= i < j < |r| ==> LessEq(r[i], r[j])
  {
    var meta := ["json_file", "opportunity_id", "scrape_url", "timestamp"];
    var sorted := SortedContentColumns(columns);
    assert (meta + sorted)[4..] == sorted;
    meta + sorted
  }
}

=== FILE: merger.dfy ===
/** The keyed first-write-wins merge of `core/merger.py` (`dedupe_by_key`). */
module Merger {

  import opened Wrappers
  import opened Json

  /** The identity of `item` under field `key`: `None` when the field is
      missing or falsy (`if k` fails), otherwise the value, with Python's
      `True == 1` folded so that equal keys compare equal. */
  function KeyOf(item: Obj, key: string): Option<Value> {
    var v := Get(item, key);
    if !Truthy(v) then None
    else if v == Bool(true) then Some(Int(1))
    else Some(v)
  }

  /** `{item.get(key) for item in items if item.get(key)}` */
  function KeySet(items: seq<Obj>, key: string): set<Value>
    decreases |items|
  {
    if |items| == 0 then {}
    else
      var last := KeyOf(items[|items| - 1], key);
      KeySet(items[..|items| - 1], key) + (if last.Some? then {last.value} else {})
  }

  /** A value is in the key set exactly when some item carries it as its key. */
  lemma {:induction false} KeySetMember(items: seq<Obj>, key: string, v: Value)
    ensures v in KeySet(items, key) <==> exists i :: 0 <= i < |items| && KeyOf(items[i], key) == Some(v)
    decreases |items|
  {
    if |items| > 0 {
      var init := items[..|items| - 1];
      KeySetMember(init, key, v);
      if exists i :: 0 <= i < |items| && KeyOf(items[i], key) == Some(v) {
        var i :| 0 <= i < |items| && KeyOf(items[i], key) == Some(v);
        if i < |items| - 1 {
          assert init[i] == items[i];
        }
      }
      if exists i :: 0 <= i < |init| && KeyOf(init[i], key) == Some(v) {
        var i :| 0 <= i < |init| && KeyOf(init[i], key) == Some(v);
        assert items[i] == init[i];
      }
    }
  }

  /** The key set of a concatenation is the union of the key sets. */
  lemma KeySetConcat(a: seq<Obj>, b: seq<Obj>, key: string)
    ensures KeySet(a + b, key) == KeySet(a, key) + KeySet(b, key)
  {
    forall v ensures v in KeySet(a + b, key) <==> v in KeySet(a, key) + KeySet(b, key) {
      KeySetMember(a + b, key, v);
      KeySetMember(a, key, v);
      KeySetMember(b, key, v);
      if exists i :: 0 <= i < |a + b| && KeyOf((a + b)[i], key) == Some(v) {
        var i :| 0 <= i < |a + b| && KeyOf((a + b)[i], key) == Some(v);
        if i >= |a| {
          assert (a + b)[i] == b[i - |a|];
        } else {
          assert (a + b)[i] == a[i];
        }
      }
      if exists i :: 0 <= i < |a| && KeyOf(a[i], key) == Some(v) {
        var i :| 0 <= i < |a| && KeyOf(a[i], key) == Some(v);
        assert (a + b)[i] == a[i];
      }
      if exists i :: 0 <= i < |b| && KeyOf(b[i], key) == Some(v) {
        var i :| 0 <= i < |b| && KeyOf(b[i], key) == Some(v);
        assert (a + b)[|a| + i] == b[i];
      }
    }
  }

  /** What the loop of `dedupe_by_key` accumulates: the appended items and its two counters. */
  datatype Tally = Tally(appended: seq<Obj>, added: nat, deduped: nat)

  /** The loop over `new_list`, given the keys `seen` so far: an item is
      appended (and its key added to `seen`) when its key is truthy and
      unseen; otherwise it is counted as deduplicated. */
  function Scan(seen: set<Value>, items: seq<Obj>, key: string): (t: Tally)
    ensures t.added + t.deduped == |items|
    ensures |t.appended| == t.added
    ensures forall i :: 0 <= i < |t.appended| ==>
      KeyOf(t.appended[i], key).Some? && KeyOf(t.appended[i], key).value !in seen
    ensures forall i, j :: 0 <= i < j < |t.appended| ==>
      KeyOf(t.appended[i], key) != KeyOf(t.appended[j], key)
    decreases |items|
  {
    if |items| == 0 then Tally([], 0, 0)
    else
      var k := KeyOf(items[0], key);
      if k.Some? && k.value !in seen then
        var t := Scan(seen + {k.value}, items[1..], key);
        Tally([items[0]] + t.appended, t.added + 1, t.deduped)
      else
        var t := Scan(seen, items[1..], key);
        Tally(t.appended, t.added, t.deduped + 1)
  }

  /** The triple `(merged, added, deduped)` that `dedupe_by_key` returns. */
  datatype MergeResult = MergeResult(merged: seq<Obj>, added: nat, deduped: nat)

  /** `dedupe_by_key(existing, new_list, key)`: `existing` followed by the
      appended items; the existing records are never deduplicated themselves. */
  function DedupeByKey(existing: seq<Obj>, newList: seq<Obj>, key: string): (r: MergeResult)
    ensures r.added + r.deduped == |newList|
    ensures |r.merged| == |existing| + r.added
    ensures r.merged[..|existing|] == existing
    ensures forall i :: |existing| <= i < |r.merged| ==>
      KeyOf(r.merged[i], key).Some? && KeyOf(r.merged[i], key).value !in KeySet(existing, key)
    ensures forall i, j :: |existing| <= i < j < |r.merged| ==>
      KeyOf(r.merged[i], key) != KeyOf(r.merged[j], key)
  {
    var t := Scan(KeySet(existing, key), newList, key);
    var merged := existing + t.appended;
    assert forall i :: |existing| <= i < |merged| ==> merged[i] == t.appended[i - |existing|];
    MergeResult(merged, t.added, t.deduped)
  }

  // ---------------------------------------------------------------
  // Reference definition: first write wins
  // ---------------------------------------------------------------

  /** `new_list[i]` is the first item of `new_list` carrying its (truthy) key,
      and that key is not among the keys of `existing`. */
  predicate FirstFresh(existing: seq<Obj>, newList: seq<Obj>, key: string, i: nat)
    requires i < |newList|
  {
    var k := KeyOf(newList[i], key);
    && k.Some?
    && k.value !in KeySet(existing, key)
    && forall j :: 0 <= j < i ==> KeyOf(newList[j], key) != k
  }

  /** The items of `new_list[i..]` that are first-fresh, in input order. */
  function KeptFrom(existing: seq<Obj>, newList: seq<Obj>, key: string, i: nat): seq<Obj>
    requires i <= |newList|
    decreases |newList| - i
  {
    if i == |newList| then []
    else (if FirstFresh(existing, newList, key, i) then [newList[i]] else [])
         + KeptFrom(existing, newList, key, i + 1)
  }

  /** The loop from position `i` on, with the keys seen so far, keeps exactly the first-fresh items. */
  lemma {:induction false} ScanKeepsFirstFresh(existing: seq<Obj>, newList: seq<Obj>, key: string, i: nat)
    requires i <= |newList|
    ensures Scan(KeySet(existing, key) + KeySet(newList[..i], key), newList[i..], key).appended
            == KeptFrom(existing, newList, key, i)
    decreases |newList| - i
  {
    if i < |newList| {
      var seen := KeySet(existing, key) + KeySet(newList[..i], key);
      var k := KeyOf(newList[i], key);
      assert newList[i..][0] == newList[i];
      assert newList[i..][1..] == newList[i + 1..];
      assert newList[..i + 1][..i] == newList[..i];
      assert KeySet(newList[..i + 1], key) == KeySet(newList[..i], key) + (if k.Some? then {k.value} else {});
      ScanKeepsFirstFresh(existing, newList, key, i + 1);
      var seen' := KeySet(existing, key) + KeySet(newList[..i + 1], key);
      if k.None? {
        assert seen' == seen;
      } else {
        KeySetMember(newList[..i], key, k.value);
        if k.value in KeySet(newList[..i], key) {
          var j :| 0 <= j < i && KeyOf(newList[..i][j], key) == k;
          assert newList[..i][j] == newList[j];
          assert !FirstFresh(existing, newList, key, i);
          assert seen' == seen;
        } else {
          forall j | 0 <= j < i ensures KeyOf(newList[j], key) != k {
            assert newList[..i][j] == newList[j];
          }
          if k.value in KeySet(existing, key) {
            assert seen' == seen;
          } else {
            assert FirstFresh(existing, newList, key, i);
            assert seen' == seen + {k.value};
          }
        }
      }
    }
  }

  /** `dedupe_by_key` returns `existing` followed by exactly the first-fresh items of `new_list`. */
  lemma DedupeIsFirstWriteWins(existing: seq<Obj>, newList: seq<Obj>, key: string)
    ensures DedupeByKey(existing, newList, key).merged == existing + KeptFrom(existing, newList, key, 0)
  {
    assert newList[..0] == [];
    assert newList[0..] == newList;
    assert KeySet(existing, key) + KeySet(newList[..0], key) == KeySet(existing, key);
    ScanKeepsFirstFresh(existing, newList, key, 0);
  }

  /** Every first-fresh item at or after `i` contributes its key to the kept items. */
  lemma {:induction false} KeptFromKeys(existing: seq<Obj>, newList: seq<Obj>, key: string, i: nat, j: nat)
    requires i <= j < |newList|
    requires FirstFresh(existing, newList, key, j)
    ensures KeyOf(newList[j], key).value in KeySet(KeptFrom(existing, newList, key, i), key)
    decreases j - i
  {
    var head := if FirstFresh(existing, newList, key, i) then [newList[i]] else [];
    KeySetConcat(head, KeptFrom(existing, newList, key, i + 1), key);
    if i == j {
      KeySetMember(head, key, KeyOf(newList[j], key).value);
      assert head[0] == newList[j];
    } else {
      KeptFromKeys(existing, newList, key, i + 1, j);
    }
  }

  /** After a merge, every truthy key of `new_list` is a key of the merged dataset. */
  lemma MergedCoversIncoming(existing: seq<Obj>, newList: seq<Obj>, key: string, i: nat)
    requires i < |newList| && KeyOf(newList[i], key).Some?
    ensures KeyOf(newList[i], key).value in KeySet(DedupeByKey(existing, newList, key).merged, key)
  {
    var k := KeyOf(newList[i], key);
    var kept := KeptFrom(existing, newList, key, 0);
    DedupeIsFirstWriteWins(existing, newList, key);
    KeySetConcat(existing, kept, key);
    if k.value !in KeySet(existing, key) {
      // the first item carrying this key is first-fresh
      var j := FirstWith(newList, key, k, i);
      KeptFromKeys(existing, newList, key, 0, j);
    }
  }

  /** The first index at or below `i` whose item carries key `k`. */
  function FirstWith(newList: seq<Obj>, key: string, k: Option<Value>, i: nat): (j: nat)
    requires i < |newList| && KeyOf(newList[i], key) == k
    ensures j <= i && KeyOf(newList[j], key) == k
    ensures forall m :: 0 <= m < j ==> KeyOf(newList[m], key) != k
    decreases i
  {
    if exists m :: 0 <= m < i && KeyOf(newList[m], key) == k then
      var m :| 0 <= m < i && KeyOf(newList[m], key) == k;
      FirstWith(newList, key, k, m)
    else i
  }

  /** When every key of `items` has been seen, the loop appends nothing. */
  lemma {:induction false} ScanAllSeen(seen: set<Value>, items: seq<Obj>, key: string)
    requires forall i :: 0 <= i < |items| && KeyOf(items[i], key).Some? ==> KeyOf(items[i], key).value in seen
    ensures Scan(seen, items, key).added == 0
    decreases |items|
  {
    if |items| > 0 {
      ScanAllSeen(seen, items[1..], key);
    }
  }

  /** Merging the same `new_list` a second time adds nothing, deduplicates
      every item and leaves the dataset unchanged. */
  lemma DedupeIdempotent(existing: seq<Obj>, newList: seq<Obj>, key: string)
    ensures var r := DedupeByKey(existing, newList, key);
            var r2 := DedupeByKey(r.merged, newList, key);
            r2.added == 0 && r2.deduped == |newList| && r2.merged == r.merged
  {
    var r := DedupeByKey(existing, newList, key);
    forall i | 0 <= i < |newList| && KeyOf(newList[i], key).Some?
      ensures KeyOf(newList[i], key).value in KeySet(r.merged, key)
    {
      MergedCoversIncoming(existing, newList, key, i);
    }
    ScanAllSeen(KeySet(r.merged, key), newList, key);
  }

  /** Items with a missing or falsy key are never appended, even into an empty dataset. */
  lemma NoKeyNeverAdded(existing: seq<Obj>, newList: seq<Obj>, key: string)
    requires forall i :: 0 <= i < |newList| ==> KeyOf(newList[i], key).None?
    ensures var r := DedupeByKey(existing, newList, key);
            r.added == 0 && r.deduped == |newList| && r.merged == existing
  {
    ScanAllSeen(KeySet(existing, key), newList, key);
  }

  /** At most one record per truthy key. */
  predicate UniqueKeys(records: seq<Obj>, key: string) {
    forall i, j :: 0 <= i < j < |records| && KeyOf(records[i], key).Some? ==>
      KeyOf(records[i], key) != KeyOf(records[j], key)
  }

  /** Merging preserves "at most one record per key". */
  lemma DedupePreservesUniqueKeys(existing: seq<Obj>, newList: seq<Obj>, key: string)
    requires UniqueKeys(existing, key)
    ensures UniqueKeys(DedupeByKey(existing, newList, key).merged, key)
  {
    var m := DedupeByKey(existing, newList, key).merged;
    forall i, j | 0 <= i < j < |m| && KeyOf(m[i], key).Some?
      ensures KeyOf(m[i], key) != KeyOf(m[j], key)
    {
      if i < |existing| && j >= |existing| {
        assert m[i] == existing[i];
        KeySetMember(existing, key, KeyOf(m[i], key).value);
      } else if i < |existing| {
        assert m[i] == existing[i] && m[j] == existing[j];
      }
    }
  }

  function Rec(id: string, x: int): Obj {
    map["id" := Str(id), "x" := Int(x)]
  }

  /** The repository's unit test: `[{id:1}]` merged with `[{id:1},{id:2}]` adds one and deduplicates one. */
  lemma UnitTestDedupe()
    ensures var r := DedupeByKey([Rec("1", 1)], [Rec("1", 1), Rec("2", 2)], "id");
            r.added == 1 && r.deduped == 1 && r.merged == [Rec("1", 1), Rec("2", 2)]
  {
    assert KeyOf(Rec("1", 1), "id") == Some(Str("1"));
    assert KeyOf(Rec("2", 2), "id") == Some(Str("2"));
    assert KeySet([Rec("1", 1)], "id") == {Str("1")} by {
      assert [Rec("1", 1)][..0] == [];
    }
  }
}

=== FILE: order.dfy ===
/** Python's ordering of strings (code point by code point, a proper prefix
    first) and `sorted()` on a list of strings. */
module StringOrder {

  /** `a < b` on Python strings. */
  predicate Less(a: string, b: string)
    decreases |a|
  {
    if |a| == 0 then |b| > 0
    else if |b| == 0 then false
    else a[0] < b[0] || (a[0] == b[0] && Less(a[1..], b[1..]))
  }

  predicate LessEq(a: string, b: string) {
    a == b || Less(a, b)
  }

  lemma {:induction false} LessIrreflexive(a: string)
    ensures !Less(a, a)
    decreases |a|
  {
    if |a| > 0 {
      LessIrreflexive(a[1..]);
    }
  }

  lemma {:induction false} LessTotal(a: string, b: string)
    ensures Less(a, b) || a == b || Less(b, a)
    decreases |a|
  {
    if |a| > 0 && |b| > 0 && a[0] == b[0] {
      LessTotal(a[1..], b[1..]);
      if a[1..] == b[1..] {
        assert a == [a[0]] + a[1..] && b == [b[0]] + b[1..];
      }
    }
  }

  lemma {:induction false} LessAsymmetric(a: string, b: string)
    requires Less(a, b)
    ensures !Less(b, a)
    decreases |a|
  {
    if |a| > 0 && a[0] == b[0] {
      LessAsymmetric(a[1..], b[1..]);
    }
  }

  lemma {:induction false} LessTransitive(a: string, b: string, c: string)
    requires Less(a, b) && Less(b, c)
    ensures Less(a, c)
    decreases |a|
  {
    if |a| > 0 && a[0] == b[0] && b[0] == c[0] {
      LessTransitive(a[1..], b[1..], c[1..]);
    }
  }

  /** Ascending order. */
  predicate Sorted(xs: seq<string>) {
    forall i, j :: 0 <= i < j < |xs| ==> LessEq(xs[i], xs[j])
  }

  /** `LessEq` is transitive. */
  lemma LessEqTransitive(a: string, b: string, c: string)
    requires LessEq(a, b) && LessEq(b, c)
    ensures LessEq(a, c)
  {
    if a != b && b != c { LessTransitive(a, b, c); }
  }

  /** A sorted list stays sorted with an element in front that is not above its head. */
  lemma SortedCons(x: string, xs: seq<string>)
    requires Sorted(xs)
    requires |xs| == 0 || LessEq(x, xs[0])
    ensures Sorted([x] + xs)
  {
    forall j | 0 <= j < |xs| ensures LessEq(x, xs[j]) {
      if j > 0 { LessEqTransitive(x, xs[0], xs[j]); }
    }
  }

  /** Insert `x` into a sorted list before the first element above it. */
  function Insert(x: string, xs: seq<string>): (r: seq<string>)
    requires Sorted(xs)
    ensures multiset(r) == multiset(xs) + multiset{x}
    ensures Sorted(r)
    decreases |xs|
  {
    if |xs| == 0 then [x]
    else if LessEq(x, xs[0]) then
      SortedCons(x, xs);
      [x] + xs
    else
      var rest := Insert(x, xs[1..]);
      InsertHead(x, xs, rest);
      assert xs == [xs[0]] + xs[1..];
      [xs[0]] + rest
  }

  /** The step of `Insert` past the head: the head stays first. */
  lemma InsertHead(x: string, xs: seq<string>, rest: seq<string>)
    requires |xs| > 0 && Sorted(xs) && !LessEq(x, xs[0])
    requires Sorted(rest) && multiset(rest) == multiset(xs[1..]) + multiset{x}
    ensures Sorted([xs[0]] + rest)
  {
    LessTotal(x, xs[0]);
    if |rest| > 0 {
      assert rest[0] in multiset(rest);
      if rest[0] != x {
        assert rest[0] in multiset(xs[1..]);
        assert rest[0] in xs[1..];
      }
    }
    SortedCons(xs[0], rest);
  }

  /** `sorted(xs)` */
  function Sort(xs: seq<string>): (r: seq<string>)
    ensures multiset(r) == multiset(xs)
    ensures Sorted(r)
    decreases |xs|
  {
    if |xs| == 0 then []
    else
      assert xs == xs[..|xs| - 1] + [xs[|xs| - 1]];
      Insert(xs[|xs| - 1], Sort(xs[..|xs| - 1]))
  }
}

=== FILE: parser_bulk.dfy ===
/** `pages/8_Parser_Bulk.py`: running a parser module over stored pages.
    A page is "parsed" once some JSON file in the directory starts with its
    name minus ".html"; the parser writes its output next to the page under
    the page's name with ".html" replaced by `_<module>.json`, and every run
    appends one entry to the parser run log.

    The parser modules (the files under `parsers/`) are the oracle `runParser`; the
    directory listing is a sequence of names; `strptime` and `.date()` are
    the abstract `stampDate`. */
module ParserBulk {

  import opened Wrappers
  import opened Text
  import opened Json
  import opened Seqs
  import opened Artifacts

  const HtmlExt: string := ".html"
  const JsonExt: string := ".json"

  function IsHtml(f: string): bool { EndsWith(f, HtmlExt) }
  function IsJson(f: string): bool { EndsWith(f, JsonExt) }

  /** `html.replace(".html", "")` */
  function Base(html: string): string {
    ReplaceAll(html, HtmlExt, "")
  }

  /** `[j for j in json_files if j.startswith(base)]` is not empty. */
  function HasOutput(html: string, jsons: seq<string>): (b: bool)
    ensures b <==> exists k :: 0 <= k < |jsons| && StartsWith(jsons[k], Base(html))
    decreases |jsons|
  {
    if |jsons| == 0 then false
    else
      assert forall k :: 1 <= k < |jsons| ==> jsons[k] == jsons[1..][k - 1];
      StartsWith(jsons[0], Base(html)) || HasOutput(html, jsons[1..])
  }

  /** The "Manage Duplication" tab: html files with and without output. */
  datatype Split = Split(parsed: seq<string>, unparsed: seq<string>)

  /** Every html file of the listing is on exactly one side, as often as it is
      listed: on the parsed side exactly when some JSON file of the listing
      starts with its base name. Each side keeps the listing's order: see
      `PartitionIsLoop` and `SidesKeepOrder`. */
  function Partition(listing: seq<string>): (s: Split)
    ensures multiset(s.parsed) + multiset(s.unparsed) == multiset(Filter(listing, IsHtml))
    ensures forall f :: f in s.parsed <==> f in listing && IsHtml(f) && HasOutput(f, Filter(listing, IsJson))
    ensures forall f :: f in s.unparsed <==> f in listing && IsHtml(f) && !HasOutput(f, Filter(listing, IsJson))
  {
    var htmls := Filter(listing, IsHtml);
    var jsons := Filter(listing, IsJson);
    var parsed := Filter(htmls, OutputIn(jsons));
    var unparsed := Filter(htmls, NoOutputIn(jsons));
    FilterPartition(htmls, OutputIn(jsons), NoOutputIn(jsons));
    forall f
      ensures f in parsed <==> f in listing && IsHtml(f) && HasOutput(f, jsons)
      ensures f in unparsed <==> f in listing && IsHtml(f) && !HasOutput(f, jsons)
    {
      FilterMembers(listing, IsHtml, f);
      FilterMembers(htmls, OutputIn(jsons), f);
      FilterMembers(htmls, NoOutputIn(jsons), f);
    }
    Split(parsed, unparsed)
  }

  function OutputIn(jsons: seq<string>): string -> bool { f => HasOutput(f, jsons) }
  function NoOutputIn(jsons: seq<string>): string -> bool { f => !HasOutput(f, jsons) }

  /** The tab's loop as written: each html file, in turn, is appended to the
      parsed side when `jsons` holds an output for it and to the unparsed side
      otherwise. */
  function Sides(htmls: seq<string>, jsons: seq<string>): Split
    decreases |htmls|
  {
    if |htmls| == 0 then Split([], [])
    else
      var s := Sides(htmls[..|htmls| - 1], jsons);
      var f := htmls[|htmls| - 1];
      if HasOutput(f, jsons) then Split(s.parsed + [f], s.unparsed)
      else Split(s.parsed, s.unparsed + [f])
  }

  /** The loop's two sides are the two filters of the html files. */
  lemma {:induction false} SidesAreFilters(htmls: seq<string>, jsons: seq<string>)
    ensures Sides(htmls, jsons) == Split(Filter(htmls, OutputIn(jsons)), Filter(htmls, NoOutputIn(jsons)))
    decreases |htmls|
  {
    if |htmls| > 0 {
      SidesAreFilters(htmls[..|htmls| - 1], jsons);
    }
  }

  /** `Partition` builds the sides the tab's loop builds over the listing. */
  lemma PartitionIsLoop(listing: seq<string>)
    ensures Partition(listing) == Sides(Filter(listing, IsHtml), Filter(listing, IsJson))
  {
    SidesAreFilters(Filter(listing, IsHtml), Filter(listing, IsJson));
  }

  /** Each side keeps the listing's order: with the JSON files held fixed, the
      sides of `xs + ys` are the sides of `xs` followed by those of `ys`. */
  lemma SidesKeepOrder(xs: seq<string>, ys: seq<string>, jsons: seq<string>)
    ensures Sides(xs + ys, jsons).parsed == Sides(xs, jsons).parsed + Sides(ys, jsons).parsed
    ensures Sides(xs + ys, jsons).unparsed == Sides(xs, jsons).unparsed + Sides(ys, jsons).unparsed
  {
    SidesAreFilters(xs + ys, jsons);
    SidesAreFilters(xs, jsons);
    SidesAreFilters(ys, jsons);
    FilterConcat(xs, ys, OutputIn(jsons));
    FilterConcat(xs, ys, NoOutputIn(jsons));
  }

  /** The "Unparsed" tab's all-done message: nothing is left unparsed exactly
      when every listed html file has some JSON output. */
  lemma AllParsedIff(listing: seq<string>)
    ensures Partition(listing).unparsed == [] <==>
              forall k :: 0 <= k < |listing| && IsHtml(listing[k]) ==> HasOutput(listing[k], Filter(listing, IsJson))
  {
    var s := Partition(listing);
    if s.unparsed != [] {
      assert s.unparsed[0] in s.unparsed;
    }
  }

  // ---------------------------------------------------------------
  // Output paths
  // ---------------------------------------------------------------

  /** `html_path.replace(".html", f"_{module_name}.json")` */
  function OutputPath(htmlPath: string, moduleName: string): string {
    ReplaceAll(htmlPath, HtmlExt, "_" + moduleName + JsonExt)
  }

  /** For a page named `<stem>.html` with no "." in the stem, the output is
      `<stem>_<module>.json` in the same directory, and once it exists the page
      counts as parsed. */
  lemma ParsedAfterRun(stem: string, moduleName: string, listing: seq<string>)
    requires '.' !in stem
    ensures OutputPath(InHtmlDir(stem + HtmlExt), moduleName) == InHtmlDir(stem + "_" + moduleName + JsonExt)
    ensures Base(stem + HtmlExt) == stem
    ensures HasOutput(stem + HtmlExt, Filter(listing + [stem + "_" + moduleName + JsonExt], IsJson))
  {
    OutputPathOf(stem, moduleName);
    ReplaceAllPrefix(stem, HtmlExt, HtmlExt, "");
    assert ReplaceAll(HtmlExt, HtmlExt, "") == "" + ReplaceAll("", HtmlExt, "");
    var out := stem + "_" + moduleName + JsonExt;
    assert IsJson(out) by {
      assert out[|out| - |JsonExt|..] == JsonExt;
    }
    var jsons := Filter(listing + [out], IsJson);
    FilterMembers(listing + [out], IsJson, out);
    var k :| 0 <= k < |jsons| && jsons[k] == out;
    assert StartsWith(jsons[k], stem);
  }

  /** The output of `scraped_html/<stem>.html` is `scraped_html/<stem>_<module>.json`. */
  lemma OutputPathOf(stem: string, moduleName: string)
    requires '.' !in stem
    ensures OutputPath(InHtmlDir(stem + HtmlExt), moduleName) == InHtmlDir(stem + "_" + moduleName + JsonExt)
  {
    var rep := "_" + moduleName + JsonExt;
    var pre := HtmlDir + "/" + stem;
    var path := InHtmlDir(stem + HtmlExt);
    assert path == pre + HtmlExt by {
      assert path[..|HtmlDir| + 1] == HtmlDir + "/";
      assert path == path[..|HtmlDir| + 1] + path[|HtmlDir| + 1..];
    }
    assert forall i :: 0 <= i < |pre| ==> pre[i] != '.' by {
      forall i | 0 <= i < |pre| ensures pre[i] != '.' {
        if i >= |HtmlDir| + 1 {
          assert pre[i] == stem[i - |HtmlDir| - 1];
        }
      }
    }
    ReplaceAllPrefix(pre, HtmlExt, HtmlExt, rep);
    assert ReplaceAll(HtmlExt, HtmlExt, rep) == rep + ReplaceAll("", HtmlExt, rep);
    var target := InHtmlDir(stem + rep);
    assert target == pre + rep by {
      assert target[..|HtmlDir| + 1] == HtmlDir + "/";
      assert target == target[..|HtmlDir| + 1] + target[|HtmlDir| + 1..];
    }
    assert stem + rep == stem + "_" + moduleName + JsonExt;
  }

  // ---------------------------------------------------------------
  // Bulk runs and the run log
  // ---------------------------------------------------------------

  /** What `run_parser` hands back besides the success flag: a list of some
      length, or anything else. */
  datatype Output = ListOf(count: nat) | Other

  /** `len(result) if success and isinstance(result, list) else None` */
  function ItemsExtracted(success: bool, result: Output): (v: Value)
    ensures v.Int? <==> success && result.ListOf?
    ensures v.Int? ==> v.i == result.count
    ensures !v.Int? ==> v == Null
  {
    if success && result.ListOf? then Int(result.count) else Null
  }

  /** The log entry of one file. */
  function RunEntry(now: string, moduleName: string, htmlPath: string, success: bool, result: Output): (e: Obj)
    ensures Get(e, "status") == Str(if success then "success" else "failed")
    ensures Get(e, "html_file_path") == Str(htmlPath)
    ensures Get(e, "output_json_path") == Str(OutputPath(htmlPath, moduleName))
    ensures Get(e, "items_extracted") == ItemsExtracted(success, result)
    ensures Get(e, "parser_name") == Str(moduleName)
  {
    map["timestamp" := Str(now), "parser_name" := Str(moduleName),
        "status" := Str(if success then "success" else "failed"),
        "html_file_path" := Str(htmlPath), "output_json_path" := Str(OutputPath(htmlPath, moduleName)),
        "items_extracted" := ItemsExtracted(success, result)]
  }

  /** Whether the parser reports success for the stored page `file`. */
  function ParsesOk(runParser: (string, string) -> (bool, Output), moduleName: string, file: string): bool {
    var path := InHtmlDir(file);
    runParser(path, OutputPath(path, moduleName)).0
  }

  /** The loop of both bulk buttons over the chosen files, one entry per file,
      each also appended to the run log: entry k is about the page `files[k]`
      in the html directory and its output next to it, says "success" exactly
      when the parser succeeded on that page, and counts the items only then. */
  function BulkRun(files: seq<string>, moduleName: string,
                   runParser: (string, string) -> (bool, Output), now: string): (entries: seq<Obj>)
    ensures |entries| == |files|
    ensures forall k :: 0 <= k < |files| ==>
              && Get(entries[k], "html_file_path") == Str(InHtmlDir(files[k]))
              && Get(entries[k], "output_json_path") == Str(OutputPath(InHtmlDir(files[k]), moduleName))
              && (Get(entries[k], "status") == Str("success") <==> ParsesOk(runParser, moduleName, files[k]))
              && (Get(entries[k], "items_extracted").Int? ==> ParsesOk(runParser, moduleName, files[k]))
              && Get(entries[k], "parser_name") == Str(moduleName)
  {
    var entries := seq(|files|, k requires 0 <= k < |files| =>
      var path := InHtmlDir(files[k]);
      var res := runParser(path, OutputPath(path, moduleName));
      RunEntry(now, moduleName, path, res.0, res.1));
    forall k | 0 <= k < |files|
      ensures && Get(entries[k], "html_file_path") == Str(InHtmlDir(files[k]))
              && Get(entries[k], "output_json_path") == Str(OutputPath(InHtmlDir(files[k]), moduleName))
              && (Get(entries[k], "status") == Str("success") <==> ParsesOk(runParser, moduleName, files[k]))
              && (Get(entries[k], "items_extracted").Int? ==> ParsesOk(runParser, moduleName, files[k]))
              && Get(entries[k], "parser_name") == Str(moduleName)
    {
      var path := InHtmlDir(files[k]);
      var res := runParser(path, OutputPath(path, moduleName));
      assert entries[k] == RunEntry(now, moduleName, path, res.0, res.1);
    }
    entries
  }

  predicate IsSuccessEntry(e: Obj) {
    Get(e, "status") == Str("success")
  }

  /** The summary table shows as many "success" rows as there are chosen pages
      the parser succeeds on. */
  lemma {:induction false} BulkRunSuccesses(files: seq<string>, moduleName: string,
                                             runParser: (string, string) -> (bool, Output), now: string)
    ensures |Filter(BulkRun(files, moduleName, runParser, now), IsSuccessEntry)|
            == |Filter(files, f => ParsesOk(runParser, moduleName, f))|
    decreases |files|
  {
    var entries := BulkRun(files, moduleName, runParser, now);
    if |files| > 0 {
      var n := |files| - 1;
      BulkRunSuccesses(files[..n], moduleName, runParser, now);
      assert entries[..n] == BulkRun(files[..n], moduleName, runParser, now);
      assert IsSuccessEntry(entries[n]) == ParsesOk(runParser, moduleName, files[n]);
    }
  }

  // ---------------------------------------------------------------
  // The date filter
  // ---------------------------------------------------------------

  /** `extract_datetime(f).date() == selected_date`, where the prefix before
      the first "_" must parse. */
  function OnDate(stampDate: string -> Option<string>, selected: string, f: string): bool {
    var d := stampDate(BeforeFirst(f, '_'));
    d.Some? && d.value == selected
  }

  /** Both lists filtered by the chosen date; no date leaves them as they are. */
  function DateFiltered(s: Split, stampDate: string -> Option<string>, selected: Option<string>): (r: Split)
    ensures selected.None? ==> r == s
    ensures selected.Some? ==>
              && (forall f :: f in r.parsed <==> f in s.parsed && OnDate(stampDate, selected.value, f))
              && (forall f :: f in r.unparsed <==> f in s.unparsed && OnDate(stampDate, selected.value, f))
    ensures |r.parsed| <= |s.parsed| && |r.unparsed| <= |s.unparsed|
  {
    match selected
    case None => s
    case Some(day) =>
      var p := f => OnDate(stampDate, day, f);
      forall f ensures f in Filter(s.parsed, p) <==> f in s.parsed && p(f) {
        FilterMembers(s.parsed, p, f);
      }
      forall f ensures f in Filter(s.unparsed, p) <==> f in s.unparsed && p(f) {
        FilterMembers(s.unparsed, p, f);
      }
      Split(Filter(s.parsed, p), Filter(s.unparsed, p))
  }

  /** The date filter never moves a file between the two lists: after it, the
      parsed side is still exactly the dated html files with output. */
  lemma DateFilterKeepsSides(listing: seq<string>, stampDate: string -> Option<string>, day: string)
    ensures var r := DateFiltered(Partition(listing), stampDate, Some(day));
            var jsons := Filter(listing, IsJson);
            r.parsed == Filter(Filter(listing, IsHtml), f => HasOutput(f, jsons) && OnDate(stampDate, day, f))
  {
    var jsons := Filter(listing, IsJson);
    FilterFilter(Filter(listing, IsHtml), f => HasOutput(f, jsons), f => OnDate(stampDate, day, f),
                 f => HasOutput(f, jsons) && OnDate(stampDate, day, f));
  }
}

=== FILE: sections.dfy ===
/** The keyword-section parsers of `pages/5_Data.py`: `extract_section_by_keywords`
    and the parser types 1, 3, 4 and 5 built on it.

    The parsed page is abstract. Every heading `find_all` reports comes with
    its tag, its stripped text and its following siblings; a sibling is a bare
    string or an element with a tag name and its stripped text. */
module Sections {

  import opened Text
  import opened Json

  // ---------------------------------------------------------------
  // The page
  // ---------------------------------------------------------------

  /** A sibling node: a bare string, or an element with its `get_text(strip=True)`. */
  datatype Sib = Bare(s: string) | Elem(name: string, text: string)

  /** A heading element, with the siblings that follow it. */
  datatype Heading = Heading(name: string, text: string, siblings: seq<Sib>)

  /** `{"heading": ..., "items": [...]}` */
  datatype Section = Section(heading: string, items: seq<string>)

  const HeadingTags: seq<string> := ["h1", "h2", "h3", "h4", "h5", "h6"]
  const ItemTags: seq<string> := ["p", "li", "div", "span"]

  /** The default of `max_nodes`. */
  const MaxNodes: int := 50

  /** A sibling that stops the collection: the next heading. */
  predicate Stops(s: Sib) {
    s.Elem? && s.name in HeadingTags
  }

  /** A sibling that contributes an item: a p/li/div/span with text. */
  predicate Contributes(s: Sib) {
    s.Elem? && s.name in ItemTags && s.text != ""
  }

  // ---------------------------------------------------------------
  // Collecting the items under one heading
  // ---------------------------------------------------------------

  /** The sibling loop, continuing with `items` collected so far. */
  function CollectFrom(sibs: seq<Sib>, maxNodes: int, items: seq<string>): (r: seq<string>)
    ensures |items| <= |r| && r[..|items|] == items
    ensures forall k :: |items| <= k < |r| ==> r[k] != ""
    decreases |sibs|
  {
    if |sibs| == 0 then items
    else
      var s := sibs[0];
      if s.Bare? then CollectFrom(sibs[1..], maxNodes, items)
      else if Stops(s) then items
      else
        var next := if Contributes(s) then items + [s.text] else items;
        if |next| >= maxNodes then next
        else CollectFrom(sibs[1..], maxNodes, next)
  }

  /** The items collected under a heading. */
  function Collect(sibs: seq<Sib>, maxNodes: int): (r: seq<string>)
    ensures forall k :: 0 <= k < |r| ==> r[k] != ""
  {
    CollectFrom(sibs, maxNodes, [])
  }

  /** Reference definition: the siblings before the first heading among them. */
  function BeforeStop(sibs: seq<Sib>): (r: seq<Sib>)
    ensures |r| <= |sibs| && r == sibs[..|r|]
    ensures forall k :: 0 <= k < |r| ==> !Stops(r[k])
    ensures |r| < |sibs| ==> Stops(sibs[|r|])
    decreases |sibs|
  {
    if |sibs| == 0 || Stops(sibs[0]) then []
    else [sibs[0]] + BeforeStop(sibs[1..])
  }

  /** Reference definition: the texts of the contributing siblings, in order. */
  function Candidates(sibs: seq<Sib>): (r: seq<string>)
    ensures forall k :: 0 <= k < |r| ==> r[k] != ""
    decreases |sibs|
  {
    if |sibs| == 0 then []
    else (if Contributes(sibs[0]) then [sibs[0].text] else []) + Candidates(sibs[1..])
  }

  /** `xs[:n]` */
  function Prefix(xs: seq<string>, n: int): (r: seq<string>)
    ensures |r| == if n <= 0 then 0 else if n < |xs| then n else |xs|
    ensures r == xs[..|r|]
  {
    if n <= 0 then [] else if n < |xs| then xs[..n] else xs
  }

  /** With a positive limit the loop takes the first `max_nodes` contributing
      siblings before the next heading. */
  lemma {:induction false} CollectFromIsPrefix(sibs: seq<Sib>, maxNodes: int, items: seq<string>)
    requires |items| < maxNodes
    ensures CollectFrom(sibs, maxNodes, items) == items + Prefix(Candidates(BeforeStop(sibs)), maxNodes - |items|)
    decreases |sibs|
  {
    if |sibs| > 0 {
      var s := sibs[0];
      if s.Bare? {
        CollectFromIsPrefix(sibs[1..], maxNodes, items);
        BareStep(sibs, maxNodes, items);
      } else if !Stops(s) {
        var next := if Contributes(s) then items + [s.text] else items;
        if |next| < maxNodes {
          CollectFromIsPrefix(sibs[1..], maxNodes, next);
        }
        ElemStep(sibs, maxNodes, items);
      }
    }
  }

  /** The candidates of a non-stopping first sibling followed by the rest. */
  lemma CandidatesCons(sibs: seq<Sib>)
    requires |sibs| > 0 && !Stops(sibs[0])
    ensures Candidates(BeforeStop(sibs))
         == (if Contributes(sibs[0]) then [sibs[0].text] else []) + Candidates(BeforeStop(sibs[1..]))
  {
    var rest := BeforeStop(sibs[1..]);
    assert BeforeStop(sibs) == [sibs[0]] + rest;
    assert ([sibs[0]] + rest)[1..] == rest;
  }

  /** A bare string is skipped. */
  lemma BareStep(sibs: seq<Sib>, maxNodes: int, items: seq<string>)
    requires |sibs| > 0 && sibs[0].Bare? && |items| < maxNodes
    requires CollectFrom(sibs[1..], maxNodes, items)
          == items + Prefix(Candidates(BeforeStop(sibs[1..])), maxNodes - |items|)
    ensures CollectFrom(sibs, maxNodes, items) == items + Prefix(Candidates(BeforeStop(sibs)), maxNodes - |items|)
  {
    CandidatesCons(sibs);
    assert Candidates(BeforeStop(sibs)) == [] + Candidates(BeforeStop(sibs[1..]));
  }

  /** An element that is not a heading contributes its text, if any, and the
      loop stops once the limit is reached. */
  lemma ElemStep(sibs: seq<Sib>, maxNodes: int, items: seq<string>)
    requires |sibs| > 0 && sibs[0].Elem? && !Stops(sibs[0]) && |items| < maxNodes
    requires var s := sibs[0];
             var next := if Contributes(s) then items + [s.text] else items;
             |next| < maxNodes ==>
               CollectFrom(sibs[1..], maxNodes, next)
               == next + Prefix(Candidates(BeforeStop(sibs[1..])), maxNodes - |next|)
    ensures CollectFrom(sibs, maxNodes, items) == items + Prefix(Candidates(BeforeStop(sibs)), maxNodes - |items|)
  {
    var s := sibs[0];
    var c := if Contributes(s) then [s.text] else [];
    var cs := Candidates(BeforeStop(sibs[1..]));
    var next := items + c;
    assert next == if Contributes(s) then items + [s.text] else items;
    CollectFromElem(sibs, maxNodes, items, next);
    CandidatesCons(sibs);
    PrefixCons(c, cs, maxNodes - |items|);
    if |next| < maxNodes {
      var p := Prefix(cs, maxNodes - |next|);
      assert CollectFrom(sibs, maxNodes, items) == (items + c) + p;
      AppendAssoc(items, c, p);
    } else {
      assert CollectFrom(sibs, maxNodes, items) == items + c;
    }
  }

  lemma AppendAssoc(a: seq<string>, b: seq<string>, c: seq<string>)
    ensures (a + b) + c == a + (b + c)
  {
  }

  /** One step of the loop at an element that is not a heading. */
  lemma CollectFromElem(sibs: seq<Sib>, maxNodes: int, items: seq<string>, next: seq<string>)
    requires |sibs| > 0 && sibs[0].Elem? && !Stops(sibs[0])
    requires next == if Contributes(sibs[0]) then items + [sibs[0].text] else items
    ensures CollectFrom(sibs, maxNodes, items)
         == if |next| >= maxNodes then next else CollectFrom(sibs[1..], maxNodes, next)
  {
  }

  /** Taking `n` from `c + cs`, with `c` shorter than `n`, is `c` and then `n - |c|` from `cs`. */
  lemma PrefixCons(c: seq<string>, cs: seq<string>, n: int)
    requires |c| <= 1 && 0 < n
    ensures |c| < n ==> Prefix(c + cs, n) == c + Prefix(cs, n - |c|)
    ensures |c| == n ==> Prefix(c + cs, n) == c
  {
    if |c| < n {
      var p := Prefix(cs, n - |c|);
      assert (c + cs)[..|c| + |p|] == c + p;
    } else {
      assert (c + cs)[..n] == c;
    }
  }

  /** The loop collects at most `max_nodes` items, or one when the limit is not positive. */
  lemma CollectBound(sibs: seq<Sib>, maxNodes: int)
    ensures |Collect(sibs, maxNodes)| <= if maxNodes >= 1 then maxNodes else 1
  {
    if maxNodes >= 1 {
      CollectFromIsPrefix(sibs, maxNodes, []);
    } else {
      CollectNonPositive(sibs, maxNodes);
    }
  }

  lemma {:induction false} CollectNonPositive(sibs: seq<Sib>, maxNodes: int)
    requires maxNodes < 1
    ensures |CollectFrom(sibs, maxNodes, [])| <= 1
    decreases |sibs|
  {
    if |sibs| > 0 && sibs[0].Bare? {
      CollectNonPositive(sibs[1..], maxNodes);
    }
  }

  // ---------------------------------------------------------------
  // Sections
  // ---------------------------------------------------------------

  /** `any(k in text for k in lowered_keywords)` on the lowercased heading text. */
  function Selected(text: string, keywords: seq<string>): (b: bool)
    ensures b <==> exists k :: 0 <= k < |keywords| && Contains(Lower(text), Lower(keywords[k]))
    decreases |keywords|
  {
    if |keywords| == 0 then false
    else
      assert forall k :: 1 <= k < |keywords| ==> keywords[k] == keywords[1..][k - 1];
      ContainsText(Lower(text), Lower(keywords[0])) || Selected(text, keywords[1..])
  }

  /** `extract_section_by_keywords(soup, keywords, max_nodes)` */
  function ExtractSections(hs: seq<Heading>, keywords: seq<string>, maxNodes: int): (r: seq<Section>)
    ensures |r| <= |hs|
    ensures forall j :: 0 <= j < |r| ==> r[j].items != [] && Selected(r[j].heading, keywords)
    decreases |hs|
  {
    if |hs| == 0 then []
    else
      var init := ExtractSections(hs[..|hs| - 1], keywords, maxNodes);
      var h := hs[|hs| - 1];
      var items := Collect(h.siblings, maxNodes);
      if Selected(h.text, keywords) && items != [] then init + [Section(h.text, items)] else init
  }

  /** Headings are handled one by one: a heading adds a section exactly when
      its text matches a keyword and some p/li/div/span sibling with text
      comes before the next heading, and the section holds the first
      `max_nodes` of those. */
  lemma YieldsSection(hs: seq<Heading>, h: Heading, keywords: seq<string>, maxNodes: int)
    requires maxNodes >= 1
    ensures var c := Candidates(BeforeStop(h.siblings));
            ExtractSections(hs + [h], keywords, maxNodes)
              == ExtractSections(hs, keywords, maxNodes)
                 + (if Selected(h.text, keywords) && c != [] then [Section(h.text, Prefix(c, maxNodes))] else [])
  {
    var c := Candidates(BeforeStop(h.siblings));
    var items := Collect(h.siblings, maxNodes);
    CollectFromIsPrefix(h.siblings, maxNodes, []);
    assert items == Prefix(c, maxNodes) by {
      assert [] + Prefix(c, maxNodes) == Prefix(c, maxNodes);
    }
    assert items != [] <==> c != [];
    assert (hs + [h])[..|hs|] == hs;
    assert (hs + [h])[|hs|] == h;
  }

  // ---------------------------------------------------------------
  // Parser types 3, 4, 5: one record per section item
  // ---------------------------------------------------------------

  const JobKeywords: seq<string> :=
    ["job description", "role description", "main activities", "responsibilities", "what will you do"]
  const SkillKeywords: seq<string> := ["skills", "competencies", "backgrounds", "preferred skills"]
  const EligibilityKeywords: seq<string> := ["eligibility", "requirements", "profile", "who can apply", "criteria"]

  /** `{"type": kind, "section_heading": heading, "content": item}` */
  function ItemRecord(kind: string, heading: string, item: string): (o: Obj)
    ensures Get(o, "type") == Str(kind) && Get(o, "section_heading") == Str(heading)
    ensures Get(o, "content") == Str(item)
  {
    map["type" := Str(kind), "section_heading" := Str(heading), "content" := Str(item)]
  }

  /** The records of one section, item by item. */
  function SectionRecords(kind: string, sec: Section): (r: seq<Obj>)
    ensures |r| == |sec.items|
    ensures forall k :: 0 <= k < |r| ==> r[k] == ItemRecord(kind, sec.heading, sec.items[k])
  {
    seq(|sec.items|, k requires 0 <= k < |sec.items| => ItemRecord(kind, sec.heading, sec.items[k]))
  }

  /** The nested loops of the three parser types. */
  function Flatten(kind: string, secs: seq<Section>): (r: seq<Obj>)
    decreases |secs|
  {
    if |secs| == 0 then [] else Flatten(kind, secs[..|secs| - 1]) + SectionRecords(kind, secs[|secs| - 1])
  }

  /** All items of all sections, section by section. */
  function AllItems(secs: seq<Section>): seq<string>
    decreases |secs|
  {
    if |secs| == 0 then [] else AllItems(secs[..|secs| - 1]) + secs[|secs| - 1].items
  }

  /** All headings, one per item. */
  function ItemHeadings(secs: seq<Section>): (r: seq<string>)
    ensures |r| == |AllItems(secs)|
    decreases |secs|
  {
    if |secs| == 0 then []
    else ItemHeadings(secs[..|secs| - 1]) + seq(|secs[|secs| - 1].items|, _ => secs[|secs| - 1].heading)
  }

  /** One record per item, in section-then-item order, each tagged with its
      type and with the heading of the section the item came from. */
  lemma {:induction false} FlattenRecords(kind: string, secs: seq<Section>)
    ensures |Flatten(kind, secs)| == |AllItems(secs)|
    ensures forall k :: 0 <= k < |AllItems(secs)| ==>
              Flatten(kind, secs)[k] == ItemRecord(kind, ItemHeadings(secs)[k], AllItems(secs)[k])
    decreases |secs|
  {
    if |secs| > 0 {
      FlattenRecords(kind, secs[..|secs| - 1]);
    }
  }

  function ParserType3(hs: seq<Heading>): seq<Obj> {
    Flatten("job_description", ExtractSections(hs, JobKeywords, MaxNodes))
  }

  function ParserType4(hs: seq<Heading>): seq<Obj> {
    Flatten("skill", ExtractSections(hs, SkillKeywords, MaxNodes))
  }

  function ParserType5(hs: seq<Heading>): seq<Obj> {
    Flatten("eligibility", ExtractSections(hs, EligibilityKeywords, MaxNodes))
  }

  /** Every record of the three section parsers carries its type and a
      non-empty content. */
  lemma SectionParsersTagged(hs: seq<Heading>)
    ensures forall k :: 0 <= k < |ParserType3(hs)| ==>
              Get(ParserType3(hs)[k], "type") == Str("job_description")
    ensures forall k :: 0 <= k < |ParserType4(hs)| ==> Get(ParserType4(hs)[k], "type") == Str("skill")
    ensures forall k :: 0 <= k < |ParserType5(hs)| ==> Get(ParserType5(hs)[k], "type") == Str("eligibility")
  {
    FlattenRecords("job_description", ExtractSections(hs, JobKeywords, MaxNodes));
    FlattenRecords("skill", ExtractSections(hs, SkillKeywords, MaxNodes));
    FlattenRecords("eligibility", ExtractSections(hs, EligibilityKeywords, MaxNodes));
  }

  // ---------------------------------------------------------------
  // Parser type 1: paragraphs, then headings
  // ---------------------------------------------------------------

  /** The texts that are not empty, in order. */
  function NonEmpty(texts: seq<string>): (r: seq<string>)
    ensures |r| <= |texts|
    ensures forall k :: 0 <= k < |r| ==> r[k] != "" && r[k] in texts
    ensures forall t :: t in texts && t != "" ==> t in r
    decreases |texts|
  {
    if |texts| == 0 then []
    else
      var init := NonEmpty(texts[..|texts| - 1]);
      assert forall t :: t in texts ==> t in texts[..|texts| - 1] || t == texts[|texts| - 1];
      if texts[|texts| - 1] != "" then init + [texts[|texts| - 1]] else init
  }

  function Paragraph(t: string): (o: Obj)
    ensures Get(o, "type") == Str("paragraph") && Get(o, "content") == Str(t)
  {
    map["type" := Str("paragraph"), "content" := Str(t)]
  }

  function HeadingRecord(level: string, t: string): (o: Obj)
    ensures Get(o, "type") == Str("heading") && Get(o, "content") == Str(t) && Get(o, "level") == Str(level)
  {
    map["type" := Str("heading"), "level" := Str(level), "content" := Str(t)]
  }

  /** The headings with text, in order. */
  function HeadingRecords(hs: seq<Heading>): (r: seq<Obj>)
    ensures |r| <= |hs|
    ensures forall k :: 0 <= k < |r| ==> Get(r[k], "type") == Str("heading") && Get(r[k], "content") != Str("")
    decreases |hs|
  {
    if |hs| == 0 then []
    else
      var h := hs[|hs| - 1];
      HeadingRecords(hs[..|hs| - 1]) + (if h.text != "" then [HeadingRecord(h.name, h.text)] else [])
  }

  /** `parser_type_1`: the texts of every `p` in document order, then every heading. */
  function ParserType1(paragraphs: seq<string>, hs: seq<Heading>): (r: seq<Obj>)
    ensures |r| == |NonEmpty(paragraphs)| + |HeadingRecords(hs)|
    ensures forall k :: 0 <= k < |NonEmpty(paragraphs)| ==> r[k] == Paragraph(NonEmpty(paragraphs)[k])
    ensures forall k :: |NonEmpty(paragraphs)| <= k < |r| ==> Get(r[k], "type") == Str("heading")
  {
    seq(|NonEmpty(paragraphs)|, k requires 0 <= k < |NonEmpty(paragraphs)| => Paragraph(NonEmpty(paragraphs)[k]))
    + HeadingRecords(hs)
  }

  /** Every paragraph record precedes every heading record. */
  lemma ParagraphsFirst(paragraphs: seq<string>, hs: seq<Heading>, i: nat, j: nat)
    requires i < j < |ParserType1(paragraphs, hs)|
    requires Get(ParserType1(paragraphs, hs)[j], "type") == Str("paragraph")
    ensures Get(ParserType1(paragraphs, hs)[i], "type") == Str("paragraph")
  {
  }
}

=== FILE: selection.dfy ===
/** What the matrix pages (`pages/14_…`, `pages/15_…`, `pages/16_Data.py`)
    share: per-item tick boxes kept in a dict from item index to bool, the
    ascending list of ticked indices, numbered columns `content_1..content_k`
    filled from that list, and the string-sorted order of those columns. */
module Selection {

  import opened Wrappers
  import opened Text
  import opened Json
  import opened Seqs
  import opened StringOrder

  // ---------------------------------------------------------------
  // Tick-box state
  // ---------------------------------------------------------------

  /** The session-state dict `{index: ticked}`. */
  type Checks = map<int, bool>

  /** The indices `range(lo, lo + n)` hold a value. */
  predicate Covers(c: Checks, lo: int, n: nat) {
    forall i :: lo <= i < lo + n ==> i in c
  }

  /** `{i: v for i in range(lo, lo + n)}`: the initial state (all ticked) and
      the Select All / Unselect All buttons. */
  function Uniform(lo: int, n: nat, v: bool): (c: Checks)
    ensures forall i :: i in c <==> lo <= i < lo + n
    ensures forall i :: i in c ==> c[i] == v
    decreases n
  {
    if n == 0 then map[] else Uniform(lo, n - 1, v)[lo + n - 1 := v]
  }

  /** The Invert button, `{i: not checks[i] for i in range(lo, lo + n)}`;
      an index without a value raises `KeyError`. */
  function Invert(c: Checks, lo: int, n: nat): (r: Result<Checks>)
    ensures r.Ok? <==> Covers(c, lo, n)
    ensures r.Ok? ==> forall i :: i in r.value <==> lo <= i < lo + n
    ensures r.Ok? ==> forall i :: i in r.value ==> r.value[i] == !c[i]
  {
    if Covers(c, lo, n) then Ok(Negated(c, lo, n)) else Raised("KeyError")
  }

  /** The comprehension of `Invert` over the first `n` indices. */
  function Negated(c: Checks, lo: int, n: nat): (r: Checks)
    requires Covers(c, lo, n)
    ensures forall i :: i in r <==> lo <= i < lo + n
    ensures forall i :: i in r ==> r[i] == !c[i]
    decreases n
  {
    if n == 0 then map[] else Negated(c, lo, n - 1)[lo + n - 1 := !c[lo + n - 1]]
  }

  /** Inverting twice gives back the state, when it holds exactly the indices. */
  lemma InvertTwice(c: Checks, lo: int, n: nat)
    requires forall i :: i in c <==> lo <= i < lo + n
    ensures Invert(c, lo, n).Ok?
    ensures Invert(Invert(c, lo, n).value, lo, n) == Ok(c)
  {
    var once := Invert(c, lo, n).value;
    var twice := Invert(once, lo, n).value;
    forall i | i in c ensures i in twice && twice[i] == c[i] {
      assert once[i] == !c[i];
    }
    assert twice.Keys == c.Keys;
    assert twice == c;
    assert Invert(once, lo, n) == Ok(twice);
  }

  /** Inverting "all ticked" gives "none ticked" and the other way round. */
  lemma InvertUniform(lo: int, n: nat, v: bool)
    ensures Invert(Uniform(lo, n, v), lo, n) == Ok(Uniform(lo, n, !v))
  {
    var r := Invert(Uniform(lo, n, v), lo, n).value;
    var u := Uniform(lo, n, !v);
    forall i | i in u ensures i in r && r[i] == u[i] {
      assert i in Uniform(lo, n, v);
    }
    assert r.Keys == u.Keys;
    assert r == u;
    assert Invert(Uniform(lo, n, v), lo, n) == Ok(r);
  }

  /** A tick box's `on_change`, `checks.update({i: value})`: only index `i` changes. */
  function Toggle(c: Checks, i: int, v: bool): (r: Checks)
    ensures i in r && r[i] == v
    ensures forall j :: j != i ==> (j in r <==> j in c) && (j in c ==> r[j] == c[j])
  {
    c[i := v]
  }

  /** `st.session_state` as far as the tick boxes go: a state per key. */
  type Session = map<string, Checks>

  /** `if key not in st.session_state: st.session_state[key] = {i: True for i in range(lo, lo + n)}`:
      a state already stored under the key is kept as it is. */
  function InitChecks(session: Session, key: string, lo: int, n: nat): (r: Session)
    ensures key in r
    ensures key in session ==> r == session
    ensures key !in session ==> r[key] == Uniform(lo, n, true)
    ensures forall other :: other != key ==> (other in r <==> other in session) && (other in session ==> r[other] == session[other])
  {
    if key in session then session else session[key := Uniform(lo, n, true)]
  }

  /** The three quick-selection buttons of the matrix pages. */
  datatype Button = SelectAll | UnselectAll | InvertAll

  /** The state after a button: Select All picks every index in order,
      Unselect All picks none, Invert flips every box and raises `KeyError`
      when some index has no state. */
  function Press(b: Button, c: Checks, lo: int, n: nat): (r: Result<Checks>)
    ensures r.Raised? <==> b.InvertAll? && !Covers(c, lo, n)
    ensures r.Ok? ==> forall i :: i in r.value <==> lo <= i < lo + n
    ensures r.Ok? && b.SelectAll? ==> Picked(r.value, lo, n) == Range(lo, n)
    ensures r.Ok? && b.UnselectAll? ==> Picked(r.value, lo, n) == []
    ensures r.Ok? && b.InvertAll? ==> forall i :: lo <= i < lo + n ==> (Ticked(r.value, i) <==> !c[i])
  {
    match b
    case SelectAll => PickedAll(lo, n); Ok(Uniform(lo, n, true))
    case UnselectAll => PickedNone(lo, n); Ok(Uniform(lo, n, false))
    case InvertAll => Invert(c, lo, n)
  }

  /** `checks.get(i, False)` */
  predicate Ticked(c: Checks, i: int) {
    i in c && c[i]
  }

  /** `[i for i in range(lo, lo + n) if checks.get(i, False)]` */
  function Picked(c: Checks, lo: int, n: nat): (r: seq<int>)
    ensures |r| <= n
    ensures forall k :: 0 <= k < |r| ==> lo <= r[k] < lo + n && Ticked(c, r[k])
    ensures forall k, l :: 0 <= k < l < |r| ==> r[k] < r[l]
    ensures forall i :: lo <= i < lo + n && Ticked(c, i) ==> i in r
    decreases n
  {
    if n == 0 then []
    else
      var init := Picked(c, lo, n - 1);
      if Ticked(c, lo + n - 1) then init + [lo + n - 1] else init
  }

  /** `[i for i in range(lo, lo + n) if checks[i]]`: raises `KeyError` on an
      index without a value. */
  function StrictPicked(c: Checks, lo: int, n: nat): (r: Result<seq<int>>)
    ensures r.Ok? <==> Covers(c, lo, n)
    ensures r.Ok? ==> r.value == Picked(c, lo, n)
  {
    if Covers(c, lo, n) then Ok(Picked(c, lo, n)) else Raised("KeyError")
  }

  /** `list(range(lo, lo + n))` */
  function Range(lo: int, n: nat): (r: seq<int>)
    ensures |r| == n && forall k :: 0 <= k < n ==> r[k] == lo + k
    decreases n
  {
    if n == 0 then [] else Range(lo, n - 1) + [lo + n - 1]
  }

  /** With everything ticked every index is picked, in order; with nothing
      ticked none is. */
  lemma PickedAll(lo: int, n: nat)
    ensures Picked(Uniform(lo, n, true), lo, n) == Range(lo, n)
  {
    PickedEvery(Uniform(lo, n, true), lo, n);
  }

  /** With every index of the range ticked, the whole range is picked. */
  lemma {:induction false} PickedEvery(c: Checks, lo: int, n: nat)
    requires forall i :: lo <= i < lo + n ==> Ticked(c, i)
    ensures Picked(c, lo, n) == Range(lo, n)
    decreases n
  {
    if n > 0 {
      assert Ticked(c, lo + n - 1);
      PickedEvery(c, lo, n - 1);
    }
  }

  lemma {:induction false} PickedNone(lo: int, n: nat)
    ensures Picked(Uniform(lo, n, false), lo, n) == []
    decreases n
  {
    if n > 0 {
      PickedPrefix(Uniform(lo, n, false), Uniform(lo, n - 1, false), lo, n - 1);
      PickedNone(lo, n - 1);
    }
  }

  /** Picking from the first `n` indices only looks at those indices. */
  lemma {:induction false} PickedPrefix(c: Checks, d: Checks, lo: int, n: nat)
    requires forall i :: lo <= i < lo + n ==> (Ticked(c, i) <==> Ticked(d, i))
    ensures Picked(c, lo, n) == Picked(d, lo, n)
    decreases n
  {
    if n > 0 {
      PickedPrefix(c, d, lo, n - 1);
    }
  }

  /** The number of ticked indices among `range(lo, lo + n)`. */
  function CountTicked(c: Checks, lo: int, n: nat): nat
    decreases n
  {
    if n == 0 then 0 else CountTicked(c, lo, n - 1) + (if Ticked(c, lo + n - 1) then 1 else 0)
  }

  /** Exactly the ticked indices are picked, each once: as many as are ticked. */
  lemma {:induction false} PickedCount(c: Checks, lo: int, n: nat)
    ensures |Picked(c, lo, n)| == CountTicked(c, lo, n)
    ensures forall i :: i in Picked(c, lo, n) <==> lo <= i < lo + n && Ticked(c, i)
    decreases n
  {
    if n > 0 {
      PickedCount(c, lo, n - 1);
    }
  }

  // ---------------------------------------------------------------
  // Numbered columns
  // ---------------------------------------------------------------

  /** `f"{prefix}{k}"` */
  function ColumnKey(prefix: string, k: nat): (key: string)
    ensures StartsWith(key, prefix)
  {
    prefix + NatToString(k)
  }

  /** Different numbers give different column names. */
  lemma ColumnKeyInjective(prefix: string, a: nat, b: nat)
    requires ColumnKey(prefix, a) == ColumnKey(prefix, b)
    ensures a == b
  {
    assert ColumnKey(prefix, a)[|prefix|..] == NatToString(a);
    assert ColumnKey(prefix, b)[|prefix|..] == NatToString(b);
    NatToStringInjective(a, b);
  }

  /** The loop `col = 1; for v in values: row[f"{prefix}{col}"] = v; col += 1`. */
  function Fill(base: Obj, prefix: string, values: seq<Value>): Obj
    decreases |values|
  {
    if |values| == 0 then base
    else Fill(base, prefix, values[..|values| - 1])[ColumnKey(prefix, |values|) := values[|values| - 1]]
  }

  /** The filled row keeps the other keys, holds `values[k-1]` under column
      `k` for each `k` from 1 to the number of values, and nothing more. */
  lemma FillColumns(base: Obj, prefix: string, values: seq<Value>)
    requires forall key :: key in base ==> !StartsWith(key, prefix)
    ensures var row := Fill(base, prefix, values);
            && (forall key :: key in base ==> key in row && row[key] == base[key])
            && (forall k :: 1 <= k <= |values| ==> ColumnKey(prefix, k) in row && row[ColumnKey(prefix, k)] == values[k - 1])
            && (forall key :: key in row ==> key in base || exists k :: 1 <= k <= |values| && key == ColumnKey(prefix, k))
  {
    FillKeepsBase(base, prefix, values);
    FillHoldsValues(base, prefix, values);
    FillAddsOnlyColumns(base, prefix, values);
  }

  /** The fixed keys are never overwritten: none starts with the prefix. */
  lemma {:induction false} FillKeepsBase(base: Obj, prefix: string, values: seq<Value>)
    requires forall key :: key in base ==> !StartsWith(key, prefix)
    ensures forall key :: key in base ==> key in Fill(base, prefix, values) && Fill(base, prefix, values)[key] == base[key]
    decreases |values|
  {
    if |values| > 0 {
      FillKeepsBase(base, prefix, values[..|values| - 1]);
    }
  }

  /** Column `k` holds `values[k-1]`: later columns have other names. */
  lemma {:induction false} FillHoldsValues(base: Obj, prefix: string, values: seq<Value>)
    ensures var row := Fill(base, prefix, values);
            forall k :: 1 <= k <= |values| ==> ColumnKey(prefix, k) in row && row[ColumnKey(prefix, k)] == values[k - 1]
    decreases |values|
  {
    if |values| > 0 {
      var n := |values|;
      var init := values[..n - 1];
      FillHoldsValues(base, prefix, init);
      forall k | 1 <= k < n
        ensures ColumnKey(prefix, k) != ColumnKey(prefix, n) && values[k - 1] == init[k - 1]
      {
        if ColumnKey(prefix, k) == ColumnKey(prefix, n) { ColumnKeyInjective(prefix, k, n); }
      }
    }
  }

  /** Every key added is one of the numbered columns. */
  lemma {:induction false} FillAddsOnlyColumns(base: Obj, prefix: string, values: seq<Value>)
    ensures forall key :: key in Fill(base, prefix, values) ==>
              key in base || exists k :: 1 <= k <= |values| && key == ColumnKey(prefix, k)
    decreases |values|
  {
    if |values| > 0 {
      var n := |values|;
      FillAddsOnlyColumns(base, prefix, values[..n - 1]);
      forall key | key in Fill(base, prefix, values)
        ensures key in base || exists k :: 1 <= k <= n && key == ColumnKey(prefix, k)
      {
        if key != ColumnKey(prefix, n) && key !in base {
          assert key in Fill(base, prefix, values[..n - 1]);
          var k :| 1 <= k <= n - 1 && key == ColumnKey(prefix, k);
        }
      }
    }
  }

  /** `content_k` holds `values[k-1]` for every k from 1 to `|values|`. */
  predicate Holds(row: Obj, values: seq<Value>) {
    forall k :: 1 <= k <= |values| ==> ColumnKey(ContentPrefix, k) in row && row[ColumnKey(ContentPrefix, k)] == values[k - 1]
  }

  /** Every key of the row is a fixed key or one of `content_1` to `content_n`. */
  predicate OnlyContent(row: Obj, base: Obj, n: nat) {
    forall key :: key in row ==> key in base || exists k :: 1 <= k <= n && key == ColumnKey(ContentPrefix, k)
  }

  /** Picking every index from `lo` picks every item, in order. */
  lemma ContentValuesAll(items: seq<Value>, lo: int)
    ensures ContentValues(items, Range(lo, |items|), lo) == items
  {
    ValuesOfConsecutive(items, Range(lo, |items|), lo);
  }

  /** Consecutive indices from `lo` pick the items themselves. */
  lemma ValuesOfConsecutive(items: seq<Value>, all: seq<int>, lo: int)
    requires |all| == |items| && forall k :: 0 <= k < |all| ==> all[k] == lo + k
    ensures ContentValues(items, all, lo) == items
  {
    var vs := ContentValues(items, all, lo);
    forall k | 0 <= k < |items| ensures vs[k] == items[k] {
      assert vs[k] == items[all[k] - lo];
    }
  }

  /** The content row of the ticked items: their values under
      `content_1..content_k` in ascending index order, no gaps, `k` being the
      number of ticked items. */
  function ContentValues(items: seq<Value>, picked: seq<int>, lo: int): (vs: seq<Value>)
    requires forall k :: 0 <= k < |picked| ==> lo <= picked[k] < lo + |items|
    ensures |vs| == |picked|
    ensures forall k :: 0 <= k < |picked| ==> vs[k] == items[picked[k] - lo]
  {
    seq(|picked|, k requires 0 <= k < |picked| => items[picked[k] - lo])
  }

  // ---------------------------------------------------------------
  // Column order of the final table
  // ---------------------------------------------------------------

  const ContentPrefix: string := "content_"

  predicate IsContentColumn(c: string) {
    StartsWith(c, ContentPrefix)
  }

  /** `sorted([c for c in columns if c.startswith("content_")])` */
  function SortedContentColumns(columns: seq<string>): (r: seq<string>)
    ensures Sorted(r)
    ensures multiset(r) == multiset(Filter(columns, IsContentColumn))
    ensures forall c :: c in r <==> c in columns && IsContentColumn(c)
  {
    var f := Filter(columns, IsContentColumn);
    var r := Sort(f);
    forall c ensures c in r <==> c in columns && IsContentColumn(c) {
      FilterMembers(columns, IsContentColumn, c);
      assert c in r <==> c in multiset(r);
      assert c in f <==> c in multiset(f);
    }
    r
  }

  /** `meta_cols + sorted(content columns)`: the fixed columns first, then
      every content column of the frame in string order. */
  function MetaThenContent(meta: seq<string>, columns: seq<string>): (r: seq<string>)
    ensures forall c :: c in r <==> c in meta || (c in columns && IsContentColumn(c))
    ensures (forall k :: 0 <= k < |meta| ==> !IsContentColumn(meta[k])) ==>
              forall i, j :: 0 <= i < j < |r| && IsContentColumn(r[i]) ==> IsContentColumn(r[j]) && LessEq(r[i], r[j])
  {
    var sorted := SortedContentColumns(columns);
    var r := meta + sorted;
    assert forall k :: 0 <= k < |sorted| ==> IsContentColumn(sorted[k]) by {
      forall k | 0 <= k < |sorted| ensures IsContentColumn(sorted[k]) {
        assert sorted[k] in sorted;
      }
    }
    assert forall k :: |meta| <= k < |r| ==> r[k] == sorted[k - |meta|];
    r
  }

  /** Two names with a common prefix compare like what follows it. */
  lemma {:induction false} LessCommonPrefix(p: string, x: string, y: string)
    ensures Less(p + x, p + y) <==> Less(x, y)
    decreases |p|
  {
    if |p| > 0 {
      LessCommonPrefix(p[1..], x, y);
      assert (p + x)[0] == p[0] == (p + y)[0];
      assert (p + x)[1..] == p[1..] + x;
      assert (p + y)[1..] == p[1..] + y;
      assert Less(p + x, p + y) == Less((p + x)[1..], (p + y)[1..]);
    } else {
      assert p + x == x && p + y == y;
    }
  }

  /** Content columns are ordered by the text of their numbers, not their
      value: column 10 comes before column 2. */
  lemma ContentColumnOrder(columns: seq<string>, i: nat, j: nat)
    requires i < |SortedContentColumns(columns)| && j < |SortedContentColumns(columns)|
    requires SortedContentColumns(columns)[i] == ColumnKey(ContentPrefix, 10)
    requires SortedContentColumns(columns)[j] == ColumnKey(ContentPrefix, 2)
    ensures i < j
  {
    var r := SortedContentColumns(columns);
    assert NatToString(10) == "10" && NatToString(2) == "2";
    assert Less("10", "2");
    LessCommonPrefix(ContentPrefix, "10", "2");
    if j < i {
      LessAsymmetric(r[i], r[j]);
    }
  }
}

=== FILE: seqs.dfy ===
/** List comprehensions with a condition, `[x for x in xs if p(x)]`, and the
    facts about them the pages rely on. */
module Seqs {

  /** `[x for x in xs if p(x)]` */
  function Filter<T>(xs: seq<T>, p: T -> bool): (r: seq<T>)
    ensures |r| <= |xs|
    ensures forall k :: 0 <= k < |r| ==> p(r[k]) && r[k] in xs
    decreases |xs|
  {
    if |xs| == 0 then []
    else
      var init := Filter(xs[..|xs| - 1], p);
      assert forall x :: x in xs[..|xs| - 1] ==> x in xs;
      if p(xs[|xs| - 1]) then init + [xs[|xs| - 1]] else init
  }

  /** An element survives the filter exactly when it is in the list and passes. */
  lemma {:induction false} FilterMembers<T>(xs: seq<T>, p: T -> bool, x: T)
    ensures x in Filter(xs, p) <==> x in xs && p(x)
    decreases |xs|
  {
    if |xs| > 0 {
      FilterMembers(xs[..|xs| - 1], p, x);
      assert xs == xs[..|xs| - 1] + [xs[|xs| - 1]];
    }
  }

  /** Filtering by a condition and by its negation splits the list: every
      element lands on exactly one side, as often as it occurs. */
  lemma {:induction false} FilterPartition<T>(xs: seq<T>, p: T -> bool, q: T -> bool)
    requires forall x :: q(x) == !p(x)
    ensures multiset(Filter(xs, p)) + multiset(Filter(xs, q)) == multiset(xs)
    ensures |Filter(xs, p)| + |Filter(xs, q)| == |xs|
    decreases |xs|
  {
    if |xs| > 0 {
      FilterPartition(xs[..|xs| - 1], p, q);
      assert xs == xs[..|xs| - 1] + [xs[|xs| - 1]];
    }
  }

  /** Filtering twice keeps what passes both conditions, in order. */
  lemma {:induction false} FilterFilter<T>(xs: seq<T>, p: T -> bool, q: T -> bool, pq: T -> bool)
    requires forall x :: pq(x) == (p(x) && q(x))
    ensures Filter(Filter(xs, p), q) == Filter(xs, pq)
    decreases |xs|
  {
    if |xs| > 0 {
      var init := xs[..|xs| - 1];
      FilterFilter(init, p, q, pq);
      var f := Filter(xs, p);
      if p(xs[|xs| - 1]) {
        assert f[..|f| - 1] == Filter(init, p);
      }
    }
  }

  /** Two conditions that never hold together pick at most the whole list between them. */
  lemma {:induction false} FilterDisjoint<T>(xs: seq<T>, p: T -> bool, q: T -> bool)
    requires forall x :: !(p(x) && q(x))
    ensures |Filter(xs, p)| + |Filter(xs, q)| <= |xs|
    decreases |xs|
  {
    if |xs| > 0 {
      FilterDisjoint(xs[..|xs| - 1], p, q);
    }
  }

  /** The filter with an always-true condition is the identity. */
  lemma {:induction false} FilterAll<T>(xs: seq<T>, p: T -> bool)
    requires forall x :: p(x)
    ensures Filter(xs, p) == xs
    decreases |xs|
  {
    if |xs| > 0 {
      FilterAll(xs[..|xs| - 1], p);
    }
  }

  /** A filter that every element passes keeps the list. */
  lemma {:induction false} FilterKeepsAll<T>(xs: seq<T>, p: T -> bool)
    requires forall k :: 0 <= k < |xs| ==> p(xs[k])
    ensures Filter(xs, p) == xs
    decreases |xs|
  {
    if |xs| > 0 {
      FilterKeepsAll(xs[..|xs| - 1], p);
    }
  }

  /** A filter that no element passes leaves nothing. */
  lemma {:induction false} FilterDropsAll<T>(xs: seq<T>, p: T -> bool)
    requires forall k :: 0 <= k < |xs| ==> !p(xs[k])
    ensures Filter(xs, p) == []
    decreases |xs|
  {
    if |xs| > 0 {
      FilterDropsAll(xs[..|xs| - 1], p);
    }
  }

  /** Filtering keeps the order: what passes from an earlier part of the
      list comes before what passes from a later part. */
  lemma {:induction false} FilterConcat<T>(xs: seq<T>, ys: seq<T>, p: T -> bool)
    ensures Filter(xs + ys, p) == Filter(xs, p) + Filter(ys, p)
    decreases |ys|
  {
    if |ys| > 0 {
      var ys' := ys[..|ys| - 1];
      assert (xs + ys)[..|xs + ys| - 1] == xs + ys';
      FilterConcat(xs, ys', p);
    } else {
      assert xs + ys == xs;
    }
  }

  // ---------------------------------------------------------------
  // Order-preserving dedupe
  // ---------------------------------------------------------------

  /** Reference definition: the first occurrence of each string, in order. */
  function Distinct(v: seq<string>): (u: seq<string>)
    decreases |v|
  {
    if |v| == 0 then []
    else
      var d := Distinct(v[..|v| - 1]);
      if v[|v| - 1] in d then d else d + [v[|v| - 1]]
  }

  lemma {:induction false} DistinctElements(v: seq<string>)
    ensures forall x :: x in Distinct(v) <==> x in v
    decreases |v|
  {
    if |v| > 0 {
      DistinctElements(v[..|v| - 1]);
      assert v == v[..|v| - 1] + [v[|v| - 1]];
    }
  }

  lemma {:induction false} DistinctNoRepeats(v: seq<string>)
    ensures forall i, j :: 0 <= i < j < |Distinct(v)| ==> Distinct(v)[i] != Distinct(v)[j]
    decreases |v|
  {
    if |v| > 0 {
      DistinctNoRepeats(v[..|v| - 1]);
    }
  }

  /** The index of the first occurrence of `x` in `v`. */
  function FirstIndex(v: seq<string>, x: string): (i: nat)
    requires x in v
    ensures i < |v| && v[i] == x && x !in v[..i]
    decreases |v|
  {
    if v[0] == x then 0
    else
      assert x in v[1..];
      var j := FirstIndex(v[1..], x);
      assert v[..j + 1] == [v[0]] + v[1..][..j];
      j + 1
  }

  /** First-seen order: strings appear in the order of their first occurrence. */
  lemma {:induction false} DistinctKeepsFirstSeenOrder(v: seq<string>, i: nat, j: nat)
    requires i < j < |Distinct(v)|
    ensures Distinct(v)[i] in v && Distinct(v)[j] in v
    ensures FirstIndex(v, Distinct(v)[i]) < FirstIndex(v, Distinct(v)[j])
    decreases |v|
  {
    DistinctElements(v);
    var init := v[..|v| - 1];
    var d := Distinct(init);
    DistinctElements(init);
    if j < |d| {
      DistinctKeepsFirstSeenOrder(init, i, j);
      FirstIndexPrefix(v, d[i]);
      FirstIndexPrefix(v, d[j]);
    } else {
      var x := v[|v| - 1];
      assert Distinct(v)[j] == x && x !in init;
      FirstIndexPrefix(v, d[i]);
      assert FirstIndex(v, x) == |v| - 1 by {
        FirstIndexLast(v);
      }
    }
  }

  /** An element of `v[..|v| - 1]` is first found inside it. */
  lemma FirstIndexPrefix(v: seq<string>, x: string)
    requires |v| > 0 && x in v[..|v| - 1]
    ensures FirstIndex(v, x) == FirstIndex(v[..|v| - 1], x) < |v| - 1
  {
    var init := v[..|v| - 1];
    var i, k := FirstIndex(v, x), FirstIndex(init, x);
    forall m | 0 <= m < i
      ensures v[m] != x
    {
      assert v[..i][m] == v[m];
    }
    forall m | 0 <= m < k
      ensures init[m] != x
    {
      assert init[..k][m] == init[m];
    }
    assert v[k] == init[k];
  }

  /** The last element, when it occurs nowhere before, is first found last. */
  lemma FirstIndexLast(v: seq<string>)
    requires |v| > 0 && v[|v| - 1] !in v[..|v| - 1]
    ensures FirstIndex(v, v[|v| - 1]) == |v| - 1
  {
  }

  // ---------------------------------------------------------------
  // Concatenation and the union of prefixes
  // ---------------------------------------------------------------

  /** No string occurs twice. */
  predicate NoRepeats(p: seq<string>) {
    forall i, j :: 0 <= i < j < |p| ==> p[i] != p[j]
  }

  /** The blocks one after the other. */
  function Concat(blocks: seq<seq<string>>): (r: seq<string>)
    decreases |blocks|
  {
    if |blocks| == 0 then [] else Concat(blocks[..|blocks| - 1]) + blocks[|blocks| - 1]
  }

  /** The length of the longest block, 0 when there is none. */
  function MaxLen(blocks: seq<seq<string>>): (m: nat)
    ensures forall k :: 0 <= k < |blocks| ==> |blocks[k]| <= m
    ensures |blocks| > 0 ==> exists k :: 0 <= k < |blocks| && |blocks[k]| == m
    decreases |blocks|
  {
    if |blocks| == 0 then 0
    else
      var m := MaxLen(blocks[..|blocks| - 1]);
      var n := |blocks[|blocks| - 1]|;
      assert forall k :: 0 <= k < |blocks| - 1 ==> blocks[k] == blocks[..|blocks| - 1][k];
      if n > m then n else m
  }

  /** `p[..j]` appended to a list whose first occurrences are `p[..m]`: the
      first occurrences become `p[..max(m, j)]`. */
  lemma {:induction false} DistinctExtend(a: seq<string>, p: seq<string>, m: nat, j: nat)
    requires NoRepeats(p) && m <= |p| && j <= |p|
    requires Distinct(a) == p[..m]
    ensures Distinct(a + p[..j]) == p[..if m < j then j else m]
    decreases j
  {
    if j == 0 {
      assert a + p[..j] == a;
    } else {
      DistinctExtend(a, p, m, j - 1);
      assert a + p[..j] == (a + p[..j - 1]) + [p[j - 1]];
      if j - 1 < m {
        assert p[j - 1] in p[..m];
      } else {
        assert p[j - 1] !in p[..j - 1];
        assert p[..j - 1] + [p[j - 1]] == p[..j];
      }
    }
  }

  /** The union, in first-seen order, of blocks that are all prefixes of one
      list without repeats is its longest block. */
  lemma {:induction false} DistinctOfPrefixes(blocks: seq<seq<string>>, p: seq<string>)
    requires NoRepeats(p)
    requires forall k :: 0 <= k < |blocks| ==> |blocks[k]| <= |p| && blocks[k] == p[..|blocks[k]|]
    ensures Distinct(Concat(blocks)) == p[..MaxLen(blocks)]
    decreases |blocks|
  {
    if |blocks| > 0 {
      var init := blocks[..|blocks| - 1];
      var last := blocks[|blocks| - 1];
      assert forall k :: 0 <= k < |init| ==> init[k] == blocks[k];
      DistinctOfPrefixes(init, p);
      DistinctExtend(Concat(init), p, MaxLen(init), |last|);
    } else {
      assert p[..0] == [];
    }
  }
}

=== FILE: shared_session.dfy ===
/** The tick-box state pages 15 and 16 keep in the one `st.session_state`
    of the app. Both pages store a file's state under `checks_<file>`, page 15
    with the indices `1..N` and page 16 with `0..N-1`, so the state one page
    stored is the one the other page reads. Page 16 makes no state for a
    file without blocks, and page 15 stores its state before it reads the
    file's items. */
module SharedSession {

  import opened Wrappers
  import opened Json
  import opened Selection
  import opened Matrix
  import opened Data16

  /** Page 15 first, then page 16, on the same file. Page 15 stores the
      state `{1..n}` for a file of length `n` before it reads any item, so it
      does so even for a file it then fails on, such as a dict, whose first
      item lookup raises `KeyError`. Page 16 then finds that state, which has
      no index 0, and for a file with a block `checks[0]` raises `KeyError`. */
  lemma MatrixThenDataRaises(session: Session, name: string, n: nat, blocks: seq<string>)
    requires MultiKey(name) !in session
    requires blocks != []
    ensures var r := DataStep(InitChecks(session, MultiKey(name), 1, n), name, blocks).1;
            r.Some? && r.value.Raised?
  {
    var s := InitChecks(session, MultiKey(name), 1, n);
    assert s[DataKey(name)] == Uniform(1, n, true);
    assert 0 !in s[DataKey(name)];
  }

  /** The state page 15 stores is the state its step leaves, so the same
      holds after a whole pass of page 15 over a list. */
  lemma MatrixStepThenDataRaises(session: Session, name: string, data: seq<Obj>, blocks: seq<string>,
                                 stampDate: string -> Option<string>, urls: map<string, Value>)
    requires MultiKey(name) !in session
    requires blocks != []
    ensures var r := DataStep(MultiStep(session, name, data, stampDate, urls).0, name, blocks).1;
            r.Some? && r.value.Raised?
  {
    MatrixThenDataRaises(session, name, |data|, blocks);
  }

  /** A page-15 key never equals a page-16 key of its own. */
  lemma OwnKeyApart(a: string, b: string)
    ensures OwnKey(a) != MultiKey(b)
  {
    assert OwnKey(a)[0] != MultiKey(b)[0];
  }

  /** With page 16's state under a key of its own, each page's row is the
      same whether or not the other page ran first, whatever state page 15
      stored for a file of length `n`. */
  lemma OwnKeysKeepPagesApart(session: Session, name: string, n: nat, data: seq<Obj>, blocks: seq<string>,
                              stampDate: string -> Option<string>, urls: map<string, Value>)
    ensures OwnStep(InitChecks(session, MultiKey(name), 1, n), name, blocks).1
            == OwnStep(session, name, blocks).1
    ensures MultiStep(OwnStep(session, name, blocks).0, name, data, stampDate, urls).1
            == MultiStep(session, name, data, stampDate, urls).1
  {
    OwnKeyApart(name, name);
  }

  /** With its own key, page 16 always has a row for a file with blocks that
      it has not shown before, whatever state page 15 stored. */
  lemma OwnKeyFreshRow(session: Session, name: string, n: nat, blocks: seq<string>)
    requires OwnKey(name) !in session
    ensures var r := OwnStep(InitChecks(session, MultiKey(name), 1, n), name, blocks).1;
            r.Some? <==> blocks != []
    ensures var r := OwnStep(InitChecks(session, MultiKey(name), 1, n), name, blocks).1;
            r.Some? ==> r.value.Ok?
  {
    OwnKeyApart(name, name);
  }
}

=== FILE: text.dfy ===
/** String operations of Python's `str` type that the dashboard relies on,
    written out over `seq<char>`: prefix/suffix/substring tests, `replace`,
    `split`, `strip`, `lower`, and decimal digits. */
module Text {

  import opened Wrappers

  // ---------------------------------------------------------------
  // Prefixes, suffixes, occurrences
  // ---------------------------------------------------------------

  /** `s.startswith(p)` */
  predicate StartsWith(s: string, p: string) {
    |p| <= |s| && s[..|p|] == p
  }

  /** `s.endswith(p)` */
  predicate EndsWith(s: string, p: string) {
    |p| <= |s| && s[|s| - |p|..] == p
  }

  /** `p` occurs in `s` starting at index `i`. */
  predicate OccursAt(s: string, p: string, i: int) {
    0 <= i && i + |p| <= |s| && s[i..i + |p|] == p
  }

  /** `p in s` (substring test). */
  predicate Contains(s: string, p: string) {
    exists i :: 0 <= i <= |s| && OccursAt(s, p, i)
  }

  /** Search for `p` in `s` from index `from` on: the first occurrence, if any. */
  function FindFrom(s: string, p: string, from: nat): (r: int)
    requires from <= |s|
    ensures r == -1 || (from <= r <= |s| && OccursAt(s, p, r))
    ensures r == -1 ==> forall i :: from <= i <= |s| ==> !OccursAt(s, p, i)
    ensures r != -1 ==> forall i :: from <= i < r ==> !OccursAt(s, p, i)
    decreases |s| - from
  {
    if OccursAt(s, p, from) then from
    else if from == |s| then -1
    else FindFrom(s, p, from + 1)
  }

  /** Executable substring test, agreeing with `Contains`. */
  function ContainsText(s: string, p: string): (b: bool)
    ensures b <==> Contains(s, p)
  {
    FindFrom(s, p, 0) != -1
  }

  // ---------------------------------------------------------------
  // str.replace
  // ---------------------------------------------------------------

  /** `s.replace(pat, rep)`: every non-overlapping occurrence, scanning left to right. */
  function ReplaceAll(s: string, pat: string, rep: string): string
    requires |pat| > 0
    decreases |s|
  {
    if |s| < |pat| then s
    else if s[..|pat|] == pat then rep + ReplaceAll(s[|pat|..], pat, rep)
    else [s[0]] + ReplaceAll(s[1..], pat, rep)
  }

  /** Replacing in a text that has no occurrence of `pat` changes nothing. */
  lemma {:induction false} ReplaceAllAbsent(s: string, pat: string, rep: string)
    requires |pat| > 0
    requires forall i :: 0 <= i <= |s| ==> !OccursAt(s, pat, i)
    ensures ReplaceAll(s, pat, rep) == s
    decreases |s|
  {
    if |s| < |pat| {
    } else {
      assert !OccursAt(s, pat, 0);
      assert s[..|pat|] != pat;
      forall i | 0 <= i <= |s[1..]|
        ensures !OccursAt(s[1..], pat, i)
      {
        assert !OccursAt(s, pat, i + 1);
      }
      ReplaceAllAbsent(s[1..], pat, rep);
      assert s == [s[0]] + s[1..];
    }
  }

  /** A prefix none of whose characters starts `pat` is copied unchanged by `replace`. */
  lemma {:induction false} ReplaceAllPrefix(pre: string, s: string, pat: string, rep: string)
    requires |pat| > 0
    requires forall i :: 0 <= i < |pre| ==> pre[i] != pat[0]
    ensures ReplaceAll(pre + s, pat, rep) == pre + ReplaceAll(s, pat, rep)
    decreases |pre|
  {
    if |pre| == 0 {
      assert pre + s == s;
    } else {
      var t := pre + s;
      assert t[0] == pre[0] && t[1..] == pre[1..] + s;
      ReplaceAllSkip(t, pat, rep);
      ReplaceAllPrefix(pre[1..], s, pat, rep);
      assert pre == [pre[0]] + pre[1..];
    }
  }

  /** A text not starting with `pat`'s first character keeps that character. */
  lemma ReplaceAllSkip(t: string, pat: string, rep: string)
    requires |pat| > 0 && |t| > 0 && t[0] != pat[0]
    ensures ReplaceAll(t, pat, rep) == [t[0]] + ReplaceAll(t[1..], pat, rep)
  {
    if |t| >= |pat| {
      assert t[..|pat|][0] == t[0];
    } else {
      assert t == [t[0]] + t[1..];
    }
  }

  /** `s.replace(oldc, newc)` for one-character arguments: every occurrence. */
  function ReplaceChar(s: string, oldc: char, newc: char): (r: string)
    ensures |r| == |s|
    ensures forall i :: 0 <= i < |s| ==> r[i] == (if s[i] == oldc then newc else s[i])
  {
    seq(|s|, i requires 0 <= i < |s| => if s[i] == oldc then newc else s[i])
  }

  /** `s.count(c)` for one character. */
  function CountChar(s: string, c: char): (k: nat)
    ensures k <= |s|
    ensures k == 0 <==> c !in s
    decreases |s|
  {
    if |s| == 0 then 0
    else
      assert forall x :: x in s <==> x == s[0] || x in s[1..];
      (if s[0] == c then 1 else 0) + CountChar(s[1..], c)
  }

  /** `s.replace(oldc, newc, n)` for a one-character `oldc`: only the first `n` occurrences. */
  function ReplaceCharN(s: string, oldc: char, newc: char, n: nat): (r: string)
    ensures |r| == |s|
    ensures forall i :: 0 <= i < |s| && s[i] != oldc ==> r[i] == s[i]
    decreases |s|
  {
    if |s| == 0 then s
    else if s[0] == oldc && n > 0 then [newc] + ReplaceCharN(s[1..], oldc, newc, n - 1)
    else [s[0]] + ReplaceCharN(s[1..], oldc, newc, n)
  }

  /** An occurrence of `oldc` is replaced exactly when fewer than `n`
      occurrences come before it. */
  lemma {:induction false} ReplaceCharNFirst(s: string, oldc: char, newc: char, n: nat, i: nat)
    requires i < |s| && s[i] == oldc
    ensures ReplaceCharN(s, oldc, newc, n)[i] == if CountChar(s[..i], oldc) < n then newc else oldc
    decreases |s|
  {
    if i > 0 {
      var m := if s[0] == oldc && n > 0 then n - 1 else n;
      ReplaceCharNFirst(s[1..], oldc, newc, m, i - 1);
      assert s[..i][1..] == s[1..][..i - 1];
      assert s[..i][0] == s[0];
    }
  }

  /** With no `newc` in `s`, turning every `newc` back into `oldc` undoes the replacement. */
  lemma ReplaceCharNUndo(s: string, oldc: char, newc: char, n: nat)
    requires newc !in s
    ensures ReplaceChar(ReplaceCharN(s, oldc, newc, n), newc, oldc) == s
  {
    var r := ReplaceCharN(s, oldc, newc, n);
    forall i | 0 <= i < |s| ensures ReplaceChar(r, newc, oldc)[i] == s[i] {
      if s[i] == oldc { ReplaceCharNFirst(s, oldc, newc, n, i); }
    }
  }

  // ---------------------------------------------------------------
  // str.split / str.partition
  // ---------------------------------------------------------------

  /** Index of the first `c` in `s`, or `|s|` when there is none. */
  function IndexOf(s: string, c: char): (i: nat)
    ensures i <= |s|
    ensures i < |s| ==> s[i] == c
    ensures forall j :: 0 <= j < i ==> s[j] != c
  {
    if |s| == 0 then 0
    else if s[0] == c then 0
    else 1 + IndexOf(s[1..], c)
  }

  /** `s[:n]`: at most the first `n` characters. */
  function Take(s: string, n: nat): (r: string)
    ensures |r| == if n < |s| then n else |s|
    ensures StartsWith(s, r)
  {
    if n < |s| then s[..n] else s
  }

  /** `s.split(c)[0]`: the text before the first `c`, or all of `s`. */
  function BeforeFirst(s: string, c: char): (r: string)
    ensures c !in r
    ensures StartsWith(s, r)
    ensures |r| < |s| ==> s[|r|] == c
  {
    s[..IndexOf(s, c)]
  }

  /** `a, b = s.split(c, 1)`: `None` when `c` does not occur (the unpacking raises). */
  function SplitOnce(s: string, c: char): (r: Option<(string, string)>)
    ensures r.None? <==> c !in s
    ensures r.Some? ==> s == r.value.0 + [c] + r.value.1 && c !in r.value.0
  {
    var i := IndexOf(s, c);
    if i == |s| then None else Some((s[..i], s[i + 1..]))
  }

  /** `s.split(sep)` for a one-character separator: all fields, separators removed. */
  function SplitOn(s: string, sep: char): (r: seq<string>)
    ensures |r| >= 1
    ensures forall k :: 0 <= k < |r| ==> sep !in r[k]
    decreases |s|
  {
    var i := IndexOf(s, sep);
    if i == |s| then [s] else [s[..i]] + SplitOn(s[i + 1..], sep)
  }

  /** Joining the fields of a split with the separator gives back the text. */
  lemma {:induction false} SplitOnJoin(s: string, sep: char)
    ensures Join(SplitOn(s, sep), sep) == s
    decreases |s|
  {
    var i := IndexOf(s, sep);
    if i < |s| {
      var rest := SplitOn(s[i + 1..], sep);
      var parts := [s[..i]] + rest;
      assert SplitOn(s, sep) == parts;
      assert parts[0] == s[..i] && parts[1..] == rest;
      assert Join(parts, sep) == s[..i] + [sep] + Join(rest, sep);
      SplitOnJoin(s[i + 1..], sep);
      assert s == s[..i] + [sep] + s[i + 1..];
    }
  }

  /** `sep.join(parts)` */
  function Join(parts: seq<string>, sep: char): string
    decreases |parts|
  {
    if |parts| == 0 then ""
    else if |parts| == 1 then parts[0]
    else parts[0] + [sep] + Join(parts[1..], sep)
  }

  // ---------------------------------------------------------------
  // str.strip / str.lower
  // ---------------------------------------------------------------

  /** `c.isspace()` as Python defines it for `str`. */
  predicate IsSpace(c: char) {
    c == ' ' || ('\t' <= c <= '\r') || ('\U{1c}' <= c <= '\U{1f}')
    || c == '\U{85}' || c == '\U{a0}' || c == '\U{1680}'
    || ('\U{2000}' <= c <= '\U{200a}') || c == '\U{2028}' || c == '\U{2029}'
    || c == '\U{202f}' || c == '\U{205f}' || c == '\U{3000}'
  }

  /** `s.lstrip()` */
  function StripLeft(s: string): (r: string)
    ensures |r| <= |s| && s[|s| - |r|..] == r
    ensures |r| > 0 ==> !IsSpace(r[0])
    ensures forall i :: 0 <= i < |s| - |r| ==> IsSpace(s[i])
  {
    if |s| == 0 || !IsSpace(s[0]) then s else StripLeft(s[1..])
  }

  /** `s.rstrip()` */
  function StripRight(s: string): (r: string)
    ensures |r| <= |s| && s[..|r|] == r
    ensures |r| > 0 ==> !IsSpace(r[|r| - 1])
    ensures forall i :: |r| <= i < |s| ==> IsSpace(s[i])
  {
    if |s| == 0 || !IsSpace(s[|s| - 1]) then s else StripRight(s[..|s| - 1])
  }

  /** `s.strip()` */
  function Strip(s: string): (r: string)
    ensures |r| <= |s|
    ensures |r| > 0 ==> !IsSpace(r[0]) && !IsSpace(r[|r| - 1])
  {
    StripRight(StripLeft(s))
  }

  /** `s.strip()` is empty exactly when every character of `s` is white space. */
  lemma StripEmpty(s: string)
    ensures Strip(s) == "" <==> forall i :: 0 <= i < |s| ==> IsSpace(s[i])
  {
    var l := StripLeft(s);
    if Strip(s) == "" {
      assert l == "";
    }
  }

  /** Stripping twice strips nothing more. */
  lemma StripIdempotent(s: string)
    ensures Strip(Strip(s)) == Strip(s)
  {
    var r := Strip(s);
    if |r| > 0 {
      assert StripLeft(r) == r;
      assert StripRight(r) == r;
    }
  }

  /** Every character is white space, so `s.strip()` is empty. */
  predicate Blank(s: string)
    decreases |s|
  {
    |s| == 0 || (IsSpace(s[0]) && Blank(s[1..]))
  }

  lemma {:induction false} BlankAllSpace(s: string)
    ensures Blank(s) <==> forall i :: 0 <= i < |s| ==> IsSpace(s[i])
    decreases |s|
  {
    if |s| > 0 {
      BlankAllSpace(s[1..]);
      assert forall i :: 1 <= i < |s| ==> s[i] == s[1..][i - 1];
    }
  }

  lemma BlankIsStripEmpty(s: string)
    ensures Blank(s) <==> Strip(s) == ""
  {
    BlankAllSpace(s);
    StripEmpty(s);
  }

  /** `c.lower()` on the ASCII letters. */
  function LowerChar(c: char): char {
    if 'A' <= c <= 'Z' then (c as int + 32) as char else c
  }

  /** `s.lower()` on the ASCII letters. */
  function Lower(s: string): (r: string)
    ensures |r| == |s|
    ensures forall i :: 0 <= i < |s| ==> r[i] == LowerChar(s[i])
  {
    seq(|s|, i requires 0 <= i < |s| => LowerChar(s[i]))
  }

  // ---------------------------------------------------------------
  // Decimal digits
  // ---------------------------------------------------------------

  predicate IsDigit(c: char) {
    '0' <= c <= '9'
  }

  predicate AllDigits(s: string) {
    forall i :: 0 <= i < |s| ==> IsDigit(s[i])
  }

  /** The longest run of digits starting at index `k` (the greedy `\d+`/`\d*`). */
  function DigitRun(s: string, k: nat): (r: string)
    requires k <= |s|
    ensures AllDigits(r)
    ensures k + |r| <= |s| && s[k..k + |r|] == r
    ensures k + |r| == |s| || !IsDigit(s[k + |r|])
    decreases |s| - k
  {
    if k == |s| || !IsDigit(s[k]) then ""
    else [s[k]] + DigitRun(s, k + 1)
  }

  /** The value of one digit. */
  function DigitValue(c: char): nat
    requires IsDigit(c)
  {
    c as int - '0' as int
  }

  /** `int(s)` for a string of decimal digits (leading zeros allowed). */
  function ParseNat(s: string): nat
    requires AllDigits(s)
    decreases |s|
  {
    if |s| == 0 then 0
    else 10 * ParseNat(s[..|s| - 1]) + DigitValue(s[|s| - 1])
  }

  /** `str(n)`: decimal digits of `n`, no leading zero. */
  function NatToString(n: nat): (r: string)
    ensures |r| > 0 && AllDigits(r)
    ensures |r| > 1 ==> r[0] != '0'
    decreases n
  {
    if n < 10 then ['0' + n as char]
    else NatToString(n / 10) + ['0' + (n % 10) as char]
  }

  /** Reading back the decimal digits of `n` gives `n`. */
  lemma {:induction false} ParseNatToString(n: nat)
    ensures ParseNat(NatToString(n)) == n
    decreases n
  {
    if n >= 10 {
      var s := NatToString(n);
      assert s[..|s| - 1] == NatToString(n / 10);
      ParseNatToString(n / 10);
    }
  }

  /** `str` is injective on naturals. */
  lemma NatToStringInjective(m: nat, n: nat)
    requires NatToString(m) == NatToString(n)
    ensures m == n
  {
    ParseNatToString(m);
    ParseNatToString(n);
  }

  /** `"0"*k + s` */
  function Zeros(k: nat): (r: string)
    ensures |r| == k && AllDigits(r)
    ensures forall i :: 0 <= i < k ==> r[i] == '0'
  {
    seq(k, i => '0')
  }

  /** Leading zeros do not change the value of a digit string. */
  lemma {:induction false} ParseNatLeadingZeros(k: nat, s: string)
    requires AllDigits(s)
    ensures AllDigits(Zeros(k) + s)
    ensures ParseNat(Zeros(k) + s) == ParseNat(s)
    decreases |s|
  {
    var t := Zeros(k) + s;
    assert AllDigits(t) by {
      forall i | 0 <= i < |t| ensures IsDigit(t[i]) {
        if i < k { assert t[i] == '0'; } else { assert t[i] == s[i - k]; }
      }
    }
    if |s| == 0 {
      assert t == Zeros(k);
      ZerosValue(k);
    } else {
      assert t[..|t| - 1] == Zeros(k) + s[..|s| - 1];
      ParseNatLeadingZeros(k, s[..|s| - 1]);
    }
  }

  /** A string of zeros has value 0. */
  lemma {:induction false} ZerosValue(k: nat)
    ensures ParseNat(Zeros(k)) == 0
    decreases k
  {
    if k > 0 {
      assert Zeros(k)[..k - 1] == Zeros(k - 1);
      ZerosValue(k - 1);
    }
  }

  /** `f"{n:0{w}d}"`: decimal digits of `n`, left-padded with zeros to width `w`. */
  function PadNat(n: nat, w: nat): (r: string)
    ensures AllDigits(r)
    ensures |r| == if |NatToString(n)| < w then w else |NatToString(n)|
  {
    var d := NatToString(n);
    if |d| < w then Zeros(w - |d|) + d else d
  }

  /** The padded form still reads back as `n`. */
  lemma PadNatValue(n: nat, w: nat)
    ensures ParseNat(PadNat(n, w)) == n
  {
    var d := NatToString(n);
    ParseNatToString(n);
    if |d| < w {
      ParseNatLeadingZeros(w - |d|, d);
    }
  }
}

=== FILE: validator.dfy ===
/** `core/validator.py` and the URL split it relies on.

    The split follows Python's `urllib.parse.urlsplit`, which realises the
    generic syntax of RFC 3986: a scheme (section 3.1: a letter followed by
    letters, digits, "+", "-" or "."; compared case-insensitively, so it is
    lower-cased) ends at the first ":", and when the remainder starts with
    two slashes the authority (section 3.2) runs up to the next "/", "?" or "#".
    Before splitting, leading C0 controls and spaces are stripped and every
    tab, CR and LF is removed. The netloc is then checked: an unmatched "["
    or "]", brackets placed other than as `[host]` or `[host]:port` after the
    last "@", a checked host that is neither an IPv6 address nor a well-formed
    IPvFuture address, and a non-ASCII netloc that NFKC normalisation turns
    into one holding a delimiter each raise `ValueError`. The bracket check
    is the one of Python 3.12.9 and later (and 3.13.2 and later). NFKC
    normalisation (`unicodedata.normalize`) is a parameter. */
module Validator {

  import opened Wrappers
  import opened Text
  import opened IpAddress

  // ---------------------------------------------------------------
  // The split
  // ---------------------------------------------------------------

  /** The parts of a split URL; `hasAuthority` records that the two slashes
      opening an authority were present. */
  datatype UrlParts = UrlParts(scheme: string, hasAuthority: bool, netloc: string, rest: string)

  /** The two slashes that open an authority. */
  const Slashes: string := ['/', '/']

  /** The end of a scheme followed by the opening of an authority. */
  const ColonSlashes: string := [':', '/', '/']

  predicate IsAsciiAlpha(c: char) {
    'a' <= c <= 'z' || 'A' <= c <= 'Z'
  }

  /** RFC 3986 section 3.1: ALPHA / DIGIT / "+" / "-" / "." */
  predicate IsSchemeChar(c: char) {
    IsAsciiAlpha(c) || IsDigit(c) || c == '+' || c == '-' || c == '.'
  }

  /** A scheme as RFC 3986 section 3.1 spells it. */
  predicate IsSchemeWord(w: string) {
    |w| > 0 && IsAsciiAlpha(w[0]) && forall i :: 0 <= i < |w| ==> IsSchemeChar(w[i])
  }

  /** Characters that `urlsplit` strips from the front: C0 controls and space. */
  predicate IsC0OrSpace(c: char) {
    c <= ' '
  }

  /** Characters that `urlsplit` deletes everywhere: tab, CR, LF. */
  predicate IsUnsafe(c: char) {
    c == '\t' || c == '\r' || c == '\n'
  }

  function StripC0Left(s: string): (r: string)
    ensures |r| <= |s| && s[|s| - |r|..] == r
    ensures |r| > 0 ==> !IsC0OrSpace(r[0])
    ensures (|s| == 0 || !IsC0OrSpace(s[0])) ==> r == s
  {
    if |s| == 0 || !IsC0OrSpace(s[0]) then s else StripC0Left(s[1..])
  }

  function RemoveUnsafe(s: string): (r: string)
    ensures forall i :: 0 <= i < |r| ==> !IsUnsafe(r[i])
    ensures (forall i :: 0 <= i < |s| ==> !IsUnsafe(s[i])) ==> r == s
  {
    if |s| == 0 then s
    else (if IsUnsafe(s[0]) then [] else [s[0]]) + RemoveUnsafe(s[1..])
  }

  /** An authority delimiter: "/", "?" or "#". */
  predicate IsAuthorityEnd(c: char) {
    c == '/' || c == '?' || c == '#'
  }

  /** The index of the first authority delimiter at or after `from`, or `|s|`. */
  function AuthorityEnd(s: string, from: nat): (d: nat)
    requires from <= |s|
    ensures from <= d <= |s|
    ensures d < |s| ==> IsAuthorityEnd(s[d])
    ensures forall i :: from <= i < d ==> !IsAuthorityEnd(s[i])
    decreases |s| - from
  {
    if from == |s| || IsAuthorityEnd(s[from]) then from else AuthorityEnd(s, from + 1)
  }

  /** The netloc's square brackets are unmatched (one present without the other). */
  predicate BracketsUnmatched(netloc: string) {
    ('[' in netloc) != (']' in netloc)
  }

  /** `s.rpartition(c)[2]`: the text after the last `c`, or all of `s`. */
  function AfterLast(s: string, c: char): (r: string)
    ensures c !in r
    ensures |r| <= |s| && s[|s| - |r|..] == r
    ensures |r| < |s| ==> s[|s| - |r| - 1] == c
  {
    if |s| == 0 then s
    else if s[|s| - 1] == c then ""
    else AfterLast(s[..|s| - 1], c) + [s[|s| - 1]]
  }

  /** `s.partition(c)[2]`: the text after the first `c`, or "" when there is none. */
  function AfterFirst(s: string, c: char): (r: string)
    ensures c in s ==> s == BeforeFirst(s, c) + [c] + r
    ensures c !in s ==> r == ""
  {
    var i := IndexOf(s, c);
    if i == |s| then "" else s[i + 1..]
  }

  /** The end of the run of hex digits that starts at index `k`. */
  function HexRunEnd(s: string, k: nat): (e: nat)
    requires k <= |s|
    ensures k <= e <= |s|
    ensures forall i :: k <= i < e ==> IsHexDigit(s[i])
    ensures e == |s| || !IsHexDigit(s[e])
    decreases |s| - k
  {
    if k == |s| || !IsHexDigit(s[k]) then k else HexRunEnd(s, k + 1)
  }

  /** `h` matches `\Av[a-fA-F0-9]+\..+\Z`: "v", one or more hex digits, ".",
      and one or more characters other than a newline. A hex digit is never
      ".", so the digits are the longest run after the "v". */
  predicate IsIPvFuture(h: string) {
    && |h| >= 1 && h[0] == 'v'
    && var e := HexRunEnd(h, 1);
       e >= 2 && e + 1 < |h| && h[e] == '.' && '\n' !in h[e + 1..]
  }

  const Ipv6Error: string := "Invalid IPv6 URL"
  const FutureError: string := "IPvFuture address is invalid"
  const BracketedIpv4Error: string := "An IPv4 address cannot be in brackets"

  /** `_check_bracketed_host(h)`: `None` when the host passes, or the message
      of the `ValueError`. A host starting with "v" must be an IPvFuture
      address; any other must parse with `ip_address`, and as IPv6. */
  function BracketedHostError(h: string): Option<string> {
    if StartsWith(h, "v") then (if IsIPvFuture(h) then None else Some(FutureError))
    else match Parse(h)
      case Some(V6) => None
      case Some(V4) => Some(BracketedIpv4Error)
      case None => Some("'" + h + "' does not appear to be an IPv4 or IPv6 address")
  }

  /** A bracketed host passes exactly when it is a well-formed IPvFuture
      address (starting with "v") or an IPv6 address (otherwise); an IPv4
      address, which never starts with "v", fails with its own message. */
  lemma HostErrorCases(h: string)
    ensures BracketedHostError(h).None? <==> if StartsWith(h, "v") then IsIPvFuture(h) else IsIPv6(h)
    ensures BracketedHostError(h) == Some(BracketedIpv4Error) <==> IsIPv4(h)
    ensures BracketedHostError(h) == Some(FutureError) <==> StartsWith(h, "v") && !IsIPvFuture(h)
  {
    Ipv4StartsWithDigit(h);
  }

  /** The host `_check_bracketed_netloc(netloc)` hands to
      `_check_bracketed_host`, or `None` when it raises "Invalid IPv6 URL"
      first. Only the host and port after the last "@" are looked at. */
  function CheckedHost(netloc: string): (h: Option<string>) {
    HostOf(AfterLast(netloc, '@'))
  }

  /** The host checked in the host and port: when they hold a "[", nothing may
      stand before it, and what follows the next "]" must be empty or start
      with ":"; the host is the text between. Otherwise (the brackets are all
      in the user information) the host is the text before the first ":". */
  function HostOf(hostPort: string): (h: Option<string>) {
    if '[' in hostPort then
      var i := IndexOf(hostPort, '[');
      var bracketed := hostPort[i + 1..];
      var port := AfterFirst(bracketed, ']');
      if i > 0 then None
      else if port != "" && port[0] != ':' then None
      else Some(BeforeFirst(bracketed, ']'))
    else Some(BeforeFirst(hostPort, ':'))
  }

  /** `_check_bracketed_netloc(netloc)`, which `urlsplit` calls when the netloc
      holds both brackets: `None` when it passes, or the message of the
      `ValueError`. */
  function BracketedNetlocError(netloc: string): (e: Option<string>)
  {
    match CheckedHost(netloc)
    case None => Some(Ipv6Error)
    case Some(h) => BracketedHostError(h)
  }

  /** The brackets of a netloc pass `urlsplit`: matched, and placed as
      `_check_bracketed_netloc` demands around a host `_check_bracketed_host`
      accepts. */
  predicate HostAccepted(netloc: string) {
    && !BracketsUnmatched(netloc)
    && ('[' in netloc ==> BracketedNetlocError(netloc).None?)
  }

  /** The message `urlsplit` raises for a netloc whose brackets fail. */
  function HostError(netloc: string): string {
    if BracketsUnmatched(netloc) then Ipv6Error
    else match BracketedNetlocError(netloc)
      case Some(m) => m
      case None => Ipv6Error
  }

  predicate IsAscii(s: string) {
    forall i :: 0 <= i < |s| ==> s[i] < '\U{80}'
  }

  /** `s.replace(c, '')` */
  function Without(s: string, c: char): (r: string)
    ensures c !in r
    ensures forall x :: x != c ==> (x in r <==> x in s)
  {
    if |s| == 0 then s
    else (if s[0] == c then [] else [s[0]]) + Without(s[1..], c)
  }

  /** The characters the normalised netloc must not gain. */
  const NetlocDelimiters: string := "/?#@:"

  /** `_checknetloc(netloc)`: `None` when it passes, or the message of the
      `ValueError`. An empty or ASCII netloc passes; otherwise "@", ":", "#"
      and "?" are removed and the rest normalised with `nfkc`, and it fails
      when normalising changed the text and the result holds a delimiter. */
  function NfkcError(netloc: string, nfkc: string -> string): (e: Option<string>)
    ensures IsAscii(netloc) ==> e.None?
    ensures e.Some? <==>
              var n := Without(Without(Without(Without(netloc, '@'), ':'), '#'), '?');
              && !IsAscii(netloc) && nfkc(n) != n
              && exists i :: 0 <= i < |nfkc(n)| && nfkc(n)[i] in NetlocDelimiters
  {
    if netloc == "" || IsAscii(netloc) then None
    else
      var n := Without(Without(Without(Without(netloc, '@'), ':'), '#'), '?');
      var n2 := nfkc(n);
      if n == n2 then None
      else if exists i :: 0 <= i < |n2| && n2[i] in NetlocDelimiters then
        Some("netloc '" + netloc + "' contains invalid characters under NFKC normalization")
      else None
  }

  /** Whether `urlsplit` lets a netloc through. */
  predicate NetlocAccepted(netloc: string, nfkc: string -> string) {
    HostAccepted(netloc) && NfkcError(netloc, nfkc).None?
  }

  /** What `urlsplit` does to its input before splitting. */
  function Clean(url: string): (u: string)
    ensures forall i :: 0 <= i < |u| ==> !IsUnsafe(u[i])
  {
    RemoveUnsafe(StripC0Left(url))
  }

  /** A URL that starts with a visible character and holds no tab, CR or LF is
      left as it is by the cleaning step. */
  lemma CleanIdentity(u: string)
    requires |u| == 0 || !IsC0OrSpace(u[0])
    requires forall i :: 0 <= i < |u| ==> !IsUnsafe(u[i])
    ensures Clean(u) == u
  {
    assert StripC0Left(u) == u;
  }

  /** The length of the scheme: the text before the first ":" when it is a scheme
      word, and 0 when there is none. */
  function SchemeLen(u: string): (n: nat)
    ensures n <= |u|
    ensures n > 0 ==> n < |u| && u[n] == ':' && IsSchemeWord(u[..n])
    ensures n == 0 ==> IndexOf(u, ':') == |u| || IndexOf(u, ':') == 0 || !IsSchemeWord(u[..IndexOf(u, ':')])
  {
    var i := IndexOf(u, ':');
    if 0 < i < |u| && IsSchemeWord(u[..i]) then i else 0
  }

  /** The scheme/remainder cut of a cleaned URL; the scheme is lower-cased. */
  function SplitScheme(u: string): (r: (string, string))
    ensures r.0 != "" ==> IsSchemeWord(r.0) && Lower(r.0) == r.0
    ensures r.0 == "" ==> r.1 == u
  {
    var n := SchemeLen(u);
    LowerSchemeWord(u[..n]);
    if n > 0 then (Lower(u[..n]), u[n + 1..]) else ("", u)
  }

  /** The authority cut of what follows the scheme, or the `ValueError` for
      its brackets. */
  function SplitAuthority(scheme: string, after: string): (r: Result<UrlParts>)
    ensures r.Ok? ==> r.value.scheme == scheme
    ensures r.Ok? ==> forall i :: 0 <= i < |r.value.netloc| ==> !IsAuthorityEnd(r.value.netloc[i])
    ensures r.Ok? ==> HostAccepted(r.value.netloc)
    ensures r.Raised? <==> StartsWith(after, Slashes) && !HostAccepted(after[2..AuthorityEnd(after, 2)])
    ensures r.Ok? && !r.value.hasAuthority ==> r.value.netloc == "" && r.value.rest == after
    ensures r.Ok? && r.value.hasAuthority ==>
      after == Slashes + r.value.netloc + r.value.rest && (|r.value.rest| == 0 || IsAuthorityEnd(r.value.rest[0]))
    ensures r.Raised? ==> StartsWith(after, Slashes)
  {
    if StartsWith(after, Slashes) then
      var d := AuthorityEnd(after, 2);
      var netloc := after[2..d];
      if !HostAccepted(netloc) then Raised(HostError(netloc))
      else
        assert after == Slashes + netloc + after[d..];
        Ok(UrlParts(scheme, true, netloc, after[d..]))
    else Ok(UrlParts(scheme, false, "", after))
  }

  /** `urlsplit(url)` restricted to scheme and authority, or the `ValueError`
      it raises; `nfkc` is NFKC normalisation. It raises exactly when the
      remainder after the scheme opens an authority that the netloc checks
      refuse. */
  function UrlSplit(url: string, nfkc: string -> string): (r: Result<UrlParts>)
    ensures r.Ok? && r.value.scheme != "" ==> IsSchemeWord(r.value.scheme) && Lower(r.value.scheme) == r.value.scheme
    ensures r.Ok? ==> forall i :: 0 <= i < |r.value.netloc| ==> !IsAuthorityEnd(r.value.netloc[i])
    ensures r.Ok? && !r.value.hasAuthority ==> r.value.netloc == ""
    ensures r.Ok? && r.value.hasAuthority ==> |r.value.rest| == 0 || IsAuthorityEnd(r.value.rest[0])
  {
    var (scheme, after) := SplitScheme(Clean(url));
    match SplitAuthority(scheme, after)
    case Raised(m) => Raised(m)
    case Ok(p) =>
      match NfkcError(p.netloc, nfkc)
      case Some(m) => Raised(m)
      case None => Ok(p)
  }

  /** The netloc checks of the split: a split that succeeds has a netloc all three
      checks accept, and the split raises exactly when the text after "//" up to the
      end of the authority fails one of them.  Kept apart from the split itself so
      that the address grammar is unfolded only where a proof asks for it. */
  lemma UrlSplitChecks(url: string, nfkc: string -> string)
    ensures var r := UrlSplit(url, nfkc);
            r.Ok? ==> NetlocAccepted(r.value.netloc, nfkc)
    ensures var after := SplitScheme(Clean(url)).1;
            UrlSplit(url, nfkc).Raised? <==> StartsWith(after, Slashes) && !NetlocAccepted(after[2..AuthorityEnd(after, 2)], nfkc)
  {
    var (scheme, after) := SplitScheme(Clean(url));
    match SplitAuthority(scheme, after)
    case Raised(m) =>
    case Ok(p) =>
      assert p.netloc == if StartsWith(after, Slashes) then after[2..AuthorityEnd(after, 2)] else "";
  }

  /** Lower-casing a scheme keeps it a scheme, and lower-casing is then idempotent. */
  lemma LowerSchemeWord(w: string)
    ensures IsSchemeWord(w) ==> IsSchemeWord(Lower(w)) && Lower(Lower(w)) == Lower(w)
  {
  }

  // ---------------------------------------------------------------
  // Reassembly: the partner of the split
  // ---------------------------------------------------------------

  /** `urlunsplit` for the parts kept here. */
  function Unsplit(p: UrlParts): string {
    (if p.scheme != "" then p.scheme + ":" else "")
    + (if p.hasAuthority then Slashes + p.netloc else "")
    + p.rest
  }

  /** A URL with nothing for the cleaning step to remove and no upper-case ASCII letter. */
  predicate CleanLower(u: string) {
    && (|u| == 0 || !IsC0OrSpace(u[0]))
    && (forall i :: 0 <= i < |u| ==> !IsUnsafe(u[i]))
    && (forall i :: 0 <= i < |u| ==> !('A' <= u[i] <= 'Z'))
  }

  /** Lower-casing text without upper-case ASCII letters changes nothing. */
  lemma LowerNoUpper(s: string)
    requires forall i :: 0 <= i < |s| ==> !('A' <= s[i] <= 'Z')
    ensures Lower(s) == s
  {
  }

  /** The scheme cut of a lower-case URL loses nothing: the scheme, ":" and the
      remainder give the URL back. */
  lemma SchemeRoundTrip(u: string)
    requires forall i :: 0 <= i < |u| ==> !('A' <= u[i] <= 'Z')
    ensures var cut := SplitScheme(u);
            (if cut.0 != "" then cut.0 + ":" else "") + cut.1 == u
  {
    var n := SchemeLen(u);
    if n > 0 {
      LowerNoUpper(u[..n]);
      assert u == u[..n] + ":" + u[n + 1..];
    }
  }

  /** The authority cut loses nothing either. */
  lemma AuthorityRoundTrip(scheme: string, after: string)
    requires SplitAuthority(scheme, after).Ok?
    ensures var p := SplitAuthority(scheme, after).value;
            (if p.hasAuthority then Slashes + p.netloc else "") + p.rest == after
  {
  }

  /** Splitting a clean URL and putting it back together gives the URL again. */
  lemma SplitRoundTrip(u: string, nfkc: string -> string)
    requires CleanLower(u)
    requires UrlSplit(u, nfkc).Ok?
    ensures Unsplit(UrlSplit(u, nfkc).value) == u
  {
    assert Clean(u) == u;
    var cut := SplitScheme(u);
    SchemeRoundTrip(u);
    AuthorityRoundTrip(cut.0, cut.1);
    assert SplitAuthority(cut.0, cut.1) == UrlSplit(u, nfkc);
    UnsplitLayers(u, UrlSplit(u, nfkc).value);
  }

  lemma UnsplitLayers(u: string, p: UrlParts)
    requires var cut := SplitScheme(u);
             (if cut.0 != "" then cut.0 + ":" else "") + cut.1 == u
    requires p.scheme == SplitScheme(u).0
    requires (if p.hasAuthority then Slashes + p.netloc else "") + p.rest == SplitScheme(u).1
    ensures Unsplit(p) == u
  {
  }

  /** The authority of `Slashes + a + r` ends where `a` does. */
  lemma AuthorityEndComposed(a: string, r: string)
    requires forall i :: 0 <= i < |a| ==> !IsAuthorityEnd(a[i])
    requires |r| == 0 || IsAuthorityEnd(r[0])
    ensures AuthorityEnd(Slashes + a + r, 2) == 2 + |a|
    ensures (Slashes + a + r)[2..2 + |a|] == a
  {
    var after := Slashes + a + r;
    assert after[2..2 + |a|] == a;
    assert forall i :: 2 <= i < 2 + |a| ==> after[i] == a[i - 2];
    assert |r| > 0 ==> after[2 + |a|] == r[0];
  }

  /** `w + ColonSlashes + a + r` is its own cleaned form when no part holds a tab, CR or LF. */
  lemma CleanComposed(w: string, a: string, r: string)
    requires IsSchemeWord(w)
    requires forall i :: 0 <= i < |a| ==> !IsUnsafe(a[i])
    requires forall i :: 0 <= i < |r| ==> !IsUnsafe(r[i])
    ensures Clean(w + ColonSlashes + a + r) == w + ColonSlashes + a + r
  {
    var u := w + ColonSlashes + a + r;
    assert u[0] == w[0];
    forall i | 0 <= i < |u| ensures !IsUnsafe(u[i]) {
      if i < |w| {
        assert u[i] == w[i];
      } else if i < |w| + 3 {
      } else if i < |w| + 3 + |a| {
        assert u[i] == a[i - |w| - 3];
      } else {
        assert u[i] == r[i - |w| - 3 - |a|];
      }
    }
  }

  /** The scheme of `w:rest` is `w` itself, lower-cased. */
  lemma SplitSchemeComposed(w: string, rest: string)
    requires IsSchemeWord(w)
    ensures SplitScheme(w + ":" + rest) == (Lower(w), rest)
  {
    var u := w + ":" + rest;
    assert u[|w|] == ':';
    forall j | 0 <= j < |w| ensures u[j] != ':' {
      assert u[j] == w[j] && IsSchemeChar(w[j]);
    }
    assert IndexOf(u, ':') == |w|;
    assert u[..|w|] == w;
    assert u[|w| + 1..] == rest;
  }

  /** The authority of `Slashes + a + r` is `a` and the remainder `r`. */
  lemma SplitAuthorityComposed(scheme: string, a: string, r: string)
    requires forall i :: 0 <= i < |a| ==> !IsAuthorityEnd(a[i])
    requires HostAccepted(a)
    requires |r| == 0 || IsAuthorityEnd(r[0])
    ensures SplitAuthority(scheme, Slashes + a + r) == Ok(UrlParts(scheme, true, a, r))
  {
    var after := Slashes + a + r;
    AuthorityEndComposed(a, r);
    assert after[..2] == Slashes;
    assert after[2..2 + |a|] == a;
    assert after[2 + |a|..] == r;
  }

  /** Cleaning and cutting the scheme off `w + ColonSlashes + a + r` leaves
      `Slashes + a + r`, whose authority is `a`. */
  lemma ComposedCut(w: string, a: string, r: string)
    requires IsSchemeWord(w)
    requires forall i :: 0 <= i < |a| ==> !IsAuthorityEnd(a[i]) && !IsUnsafe(a[i])
    requires forall i :: 0 <= i < |r| ==> !IsUnsafe(r[i])
    requires |r| == 0 || IsAuthorityEnd(r[0])
    ensures SplitScheme(Clean(w + ColonSlashes + a + r)) == (Lower(w), Slashes + a + r)
    ensures AuthorityEnd(Slashes + a + r, 2) == 2 + |a|
    ensures (Slashes + a + r)[2..2 + |a|] == a
  {
    SchemeCut(w, a, r);
    AuthorityEndComposed(a, r);
  }

  lemma SchemeCut(w: string, a: string, r: string)
    requires IsSchemeWord(w)
    requires forall i :: 0 <= i < |a| ==> !IsUnsafe(a[i])
    requires forall i :: 0 <= i < |r| ==> !IsUnsafe(r[i])
    ensures SplitScheme(Clean(w + ColonSlashes + a + r)) == (Lower(w), Slashes + a + r)
  {
    var u := w + ColonSlashes + a + r;
    var after := Slashes + a + r;
    assert u == w + ":" + after;
    CleanComposed(w, a, r);
    SplitSchemeComposed(w, after);
  }

  /** Splitting `w + ColonSlashes + a + r` gives back lower-cased `w`, authority `a` and remainder `r`
      whenever `w` is a scheme, `a` holds no delimiter and passes the netloc
      checks, and `r` is empty or starts with a delimiter. */
  lemma SplitComposed(w: string, a: string, r: string, nfkc: string -> string)
    requires IsSchemeWord(w)
    requires forall i :: 0 <= i < |a| ==> !IsAuthorityEnd(a[i]) && !IsUnsafe(a[i])
    requires NetlocAccepted(a, nfkc)
    requires forall i :: 0 <= i < |r| ==> !IsUnsafe(r[i])
    requires |r| == 0 || IsAuthorityEnd(r[0])
    ensures UrlSplit(w + ColonSlashes + a + r, nfkc) == Ok(UrlParts(Lower(w), true, a, r))
  {
    ComposedCut(w, a, r);
    SplitAuthorityComposed(Lower(w), a, r);
  }

  /** Conversely, when `a` fails the netloc checks the same URL raises. */
  lemma SplitComposedRaises(w: string, a: string, r: string, nfkc: string -> string)
    requires IsSchemeWord(w)
    requires forall i :: 0 <= i < |a| ==> !IsAuthorityEnd(a[i]) && !IsUnsafe(a[i])
    requires !NetlocAccepted(a, nfkc)
    requires forall i :: 0 <= i < |r| ==> !IsUnsafe(r[i])
    requires |r| == 0 || IsAuthorityEnd(r[0])
    ensures UrlSplit(w + ColonSlashes + a + r, nfkc).Raised?
  {
    ComposedCut(w, a, r);
  }

  // ---------------------------------------------------------------
  // validate_url
  // ---------------------------------------------------------------

  /** The dict `validate_url` returns: `{"ok": True}` or `{"ok": False, "error": ...}`. */
  datatype Verdict = Accepted | Rejected(error: string)

  const EmptyError: string := "URL is empty"
  const FormatError: string := "Invalid URL format"
  const ParseError: string := "Invalid URL"

  /** The schemes `validate_url` accepts. */
  predicate IsWebScheme(s: string) {
    s == "http" || s == "https"
  }

  /** `validate_url(url)`; `None` stands for Python's `None`, and `nfkc` is the
      NFKC normalisation `urlsplit` applies to a non-ASCII netloc. */
  function ValidateUrl(url: Option<string>, nfkc: string -> string): (v: Verdict)
    ensures (url.None? || url == Some("")) ==> v == Rejected(EmptyError)
    ensures v.Rejected? ==> v.error in {EmptyError, FormatError, ParseError}
    ensures url.Some? && url.value != "" ==> (v == Rejected(ParseError) <==> UrlSplit(url.value, nfkc).Raised?)
  {
    if url.None? || url.value == "" then Rejected(EmptyError)
    else
      match UrlSplit(url.value, nfkc)
      case Raised(_) => Rejected(ParseError)
      case Ok(p) =>
        if IsWebScheme(p.scheme) && p.netloc != "" then Accepted
        else Rejected(FormatError)
  }

  /** Every `http`/`https` URL with a non-empty authority that passes the
      netloc checks is accepted, whatever the case of its scheme. */
  lemma AcceptsWebUrls(w: string, a: string, r: string, nfkc: string -> string)
    requires IsSchemeWord(w) && IsWebScheme(Lower(w))
    requires |a| > 0
    requires forall i :: 0 <= i < |a| ==> !IsAuthorityEnd(a[i]) && !IsUnsafe(a[i])
    requires NetlocAccepted(a, nfkc)
    requires forall i :: 0 <= i < |r| ==> !IsUnsafe(r[i])
    requires |r| == 0 || IsAuthorityEnd(r[0])
    ensures ValidateUrl(Some(w + ColonSlashes + a + r), nfkc) == Accepted
  {
    SplitComposed(w, a, r, nfkc);
  }

  /** And every URL of that shape whose authority fails the netloc checks is
      rejected as unparsable, whatever its scheme. */
  lemma RejectsBadNetlocs(w: string, a: string, r: string, nfkc: string -> string)
    requires IsSchemeWord(w)
    requires forall i :: 0 <= i < |a| ==> !IsAuthorityEnd(a[i]) && !IsUnsafe(a[i])
    requires !NetlocAccepted(a, nfkc)
    requires forall i :: 0 <= i < |r| ==> !IsUnsafe(r[i])
    requires |r| == 0 || IsAuthorityEnd(r[0])
    ensures ValidateUrl(Some(w + ColonSlashes + a + r), nfkc) == Rejected(ParseError)
  {
    SplitComposedRaises(w, a, r, nfkc);
  }

  /** `u` is `s + ColonSlashes + a + r` with a web scheme `s`, a non-empty authority `a` free of
      delimiters, and a remainder `r` that is empty or starts with a delimiter. */
  predicate WebShape(u: string, s: string, a: string, r: string) {
    && u == s + ColonSlashes + a + r && IsWebScheme(s) && |a| > 0
    && (forall i :: 0 <= i < |a| ==> !IsAuthorityEnd(a[i]))
    && (|r| == 0 || IsAuthorityEnd(r[0]))
  }

  /** A URL whose cleaned form cuts into `p.scheme` and `Slashes + p.netloc`, and whose
      authority cut gives `p`, splits to `p`. */
  lemma SplitLayers(u: string, p: UrlParts, nfkc: string -> string)
    requires Clean(u) == u
    requires SplitScheme(u) == (p.scheme, Slashes + p.netloc)
    requires SplitAuthority(p.scheme, Slashes + p.netloc) == Ok(p)
    requires NfkcError(p.netloc, nfkc).None?
    ensures UrlSplit(u, nfkc) == Ok(p)
  {
  }

  /** A non-empty URL that splits into a web scheme and a non-empty netloc is accepted. */
  lemma AcceptedFromParts(u: string, p: UrlParts, nfkc: string -> string)
    requires u != ""
    requires UrlSplit(u, nfkc) == Ok(p)
    requires IsWebScheme(p.scheme) && p.netloc != ""
    ensures ValidateUrl(Some(u), nfkc) == Accepted
  {
  }

  /** An accepted URL splits into a web scheme and a non-empty netloc. */
  lemma AcceptedParts(u: string, nfkc: string -> string)
    requires ValidateUrl(Some(u), nfkc) == Accepted
    ensures UrlSplit(u, nfkc).Ok?
    ensures IsWebScheme(UrlSplit(u, nfkc).value.scheme) && UrlSplit(u, nfkc).value.netloc != ""
  {
  }

  /** Conversely, an accepted clean URL has the web shape. */
  lemma AcceptedShape(u: string, nfkc: string -> string)
    requires CleanLower(u)
    requires ValidateUrl(Some(u), nfkc) == Accepted
    ensures exists s, a, r :: WebShape(u, s, a, r)
  {
    AcceptedParts(u, nfkc);
    var p := UrlSplit(u, nfkc).value;
    assert p.hasAuthority && p.scheme != "";
    SplitRoundTrip(u, nfkc);
    assert u == p.scheme + ":" + (Slashes + p.netloc) + p.rest;
    ShapeConcat(p.scheme, p.netloc, p.rest);
    assert WebShape(u, p.scheme, p.netloc, p.rest);
  }

  lemma ShapeConcat(s: string, a: string, r: string)
    ensures s + ":" + (Slashes + a) + r == s + ColonSlashes + a + r
  {
    assert s + ":" + (Slashes + a) == s + ColonSlashes + a;
  }

  /** The repository's test, first half: a plain https URL passes. */
  lemma UnitTestAccepts(u: string, nfkc: string -> string)
    requires u == ExampleUrl
    ensures ValidateUrl(Some(u), nfkc) == Accepted
  {
    var p := UrlParts("https", true, "example.com", "");
    ExampleClean();
    ExampleScheme();
    ExampleAuthority();
    assert Slashes + p.netloc == ExampleRest;
    ExampleAscii(nfkc);
    SplitLayers(u, p, nfkc);
    AcceptedFromParts(u, p, nfkc);
  }

  /** Text free of `c` is its own `rpartition(c)[2]`. */
  lemma AfterLastAbsent(s: string, c: char)
    requires c !in s
    ensures AfterLast(s, c) == s
  {
  }

  /** Whatever stands before an "@" is no part of the host and port. */
  lemma AfterLastJoin(ui: string, hp: string)
    requires '@' !in hp
    ensures AfterLast(ui + "@" + hp, '@') == hp
  {
    var s := ui + "@" + hp;
    var r := AfterLast(s, '@');
    assert s[|ui|] == '@';
    assert r == s[|ui| + 1..];
  }

  /** The host checked in `x + "[" + h + "]" + y`, none of whose parts holds
      "@" or a bracket: `h` when nothing precedes the "[" and what follows the
      "]" is empty or a port after ":", and otherwise none, the netloc being
      refused before any host is checked. */
  lemma CheckedHostOf(x: string, h: string, y: string)
    requires '@' !in x && '[' !in x && ']' !in x
    requires '@' !in h && '[' !in h && ']' !in h
    requires '@' !in y && '[' !in y && ']' !in y
    ensures CheckedHost(x + "[" + h + "]" + y) ==
            if x == "" && (y == "" || y[0] == ':') then Some(h) else None
  {
    var a := x + "[" + h + "]" + y;
    var t := h + "]" + y;
    assert a == x + ['['] + t;
    NoAtIn(x, h, y);
    AfterLastAbsent(a, '@');
    CutAt(x, '[', t);
    CutAt(h, ']', y);
    assert t == h + [']'] + y;
  }

  /** The text around and between brackets holds no "@" when no part does. */
  lemma NoAtIn(x: string, h: string, y: string)
    requires '@' !in x && '@' !in h && '@' !in y
    ensures '@' !in x + "[" + h + "]" + y
  {
    var a := x + "[" + h + "]" + y;
    forall i | 0 <= i < |a| ensures a[i] != '@' {
      if i < |x| {
        assert a[i] == x[i];
      } else if |x| < i <= |x| + |h| {
        assert a[i] == h[i - |x| - 1];
      } else if i > |x| + |h| + 1 {
        assert a[i] == y[i - |x| - |h| - 2];
      }
    }
  }

  /** Cutting `p + [c] + q` at its first `c` gives back `p` and `q`. */
  lemma CutAt(p: string, c: char, q: string)
    requires c !in p
    ensures var s := p + [c] + q;
            && c in s && IndexOf(s, c) == |p| && BeforeFirst(s, c) == p
            && s[|p| + 1..] == q && AfterFirst(s, c) == q
  {
    var s := p + [c] + q;
    assert s[|p|] == c;
    assert forall j :: 0 <= j < |p| ==> s[j] == p[j];
    assert IndexOf(s, c) == |p|;
    assert s[..|p|] == p;
    assert s[|p| + 1..] == q;
  }

  /** With no "@" or bracket inside, the netloc `"[" + h + "]"` is checked on
      `h` itself. */
  lemma BracketedHostOf(h: string)
    requires '[' !in h && ']' !in h && '@' !in h
    ensures CheckedHost("[" + h + "]") == Some(h)
  {
    assert "" + "[" + h + "]" + "" == "[" + h + "]";
    CheckedHostOf("", h, "");
  }

  /** Where brackets stand matters: a netloc `x + "[" + h + "]" + y` without
      "@" passes exactly when nothing precedes the "[", what follows the "]"
      is empty or starts with ":", and `h` passes the host check. So
      `a[::1]` and `[::1]x` are refused and `[::1]:80` passes. */
  lemma BracketPlacement(x: string, h: string, y: string)
    requires '@' !in x && '[' !in x && ']' !in x
    requires '@' !in h && '[' !in h && ']' !in h
    requires '@' !in y && '[' !in y && ']' !in y
    ensures HostAccepted(x + "[" + h + "]" + y) <==>
            x == "" && (y == "" || y[0] == ':') && BracketedHostError(h).None?
  {
    var a := x + "[" + h + "]" + y;
    CheckedHostOf(x, h, y);
    assert a[|x|] == '[' && a[|x| + |h| + 1] == ']';
    HostAcceptedByHost(a);
  }

  /** A netloc holding both brackets passes them exactly when a host is
      checked and passes. */
  lemma HostAcceptedByHost(a: string)
    requires '[' in a && ']' in a
    ensures HostAccepted(a) <==> CheckedHost(a).Some? && BracketedHostError(CheckedHost(a).value).None?
  {
  }

  /** The user information is skipped: the host checked in `ui + "@" + hp` is
      the one checked in `hp`. */
  lemma UserinfoSkipped(ui: string, hp: string)
    requires '@' !in hp
    ensures CheckedHost(ui + "@" + hp) == CheckedHost(hp)
  {
    AfterLastJoin(ui, hp);
    AfterLastAbsent(hp, '@');
  }

  /** Brackets that stand only in the user information send the plain host
      before any ":" to the host check, so `u[x]@example.com` is refused
      because `example.com` is no IP address. */
  lemma UserinfoBracketsCheckHost(ui: string, host: string)
    requires '[' in ui && ']' in ui
    requires '@' !in host && '[' !in host
    ensures HostAccepted(ui + "@" + host) <==> BracketedHostError(BeforeFirst(host, ':')).None?
  {
    var a := ui + "@" + host;
    assert '[' in a && ']' in a by {
      var i := IndexOf(ui, '[');
      var j := IndexOf(ui, ']');
      assert a[i] == '[' && a[j] == ']';
    }
    AfterLastJoin(ui, host);
  }

  /** Text around brackets in a URL's authority: no "@", bracket, authority
      delimiter, tab, CR or LF. */
  predicate PlainPart(s: string) {
    forall i :: 0 <= i < |s| ==> PlainHostChar(s[i]) && s[i] != '@'
  }

  /** `x + "[" + h + "]" + y` built from plain parts holds no delimiter. */
  lemma PlainAssembled(x: string, h: string, y: string)
    requires PlainPart(x) && PlainPart(h) && PlainPart(y)
    ensures '@' !in x && '[' !in x && ']' !in x
    ensures '@' !in h && '[' !in h && ']' !in h
    ensures '@' !in y && '[' !in y && ']' !in y
    ensures var a := x + "[" + h + "]" + y;
            forall i :: 0 <= i < |a| ==> !IsAuthorityEnd(a[i]) && !IsUnsafe(a[i])
  {
    var a := x + "[" + h + "]" + y;
    forall i | 0 <= i < |a| ensures !IsAuthorityEnd(a[i]) && !IsUnsafe(a[i]) {
      if i < |x| {
        assert a[i] == x[i];
      } else if |x| < i <= |x| + |h| {
        assert a[i] == h[i - |x| - 1];
      } else if i > |x| + |h| + 1 {
        assert a[i] == y[i - |x| - |h| - 2];
      }
    }
  }

  /** A URL whose brackets are preceded by text, or followed by text that is
      not a port, is refused as unparsable whatever the host inside, as
      `http://a[::1]/` and `http://[::1]x/` are. */
  lemma MisplacedBracketsRejected(w: string, x: string, h: string, y: string, r: string, nfkc: string -> string)
    requires IsSchemeWord(w)
    requires PlainPart(x) && PlainPart(h) && PlainPart(y)
    requires x != "" || (y != "" && y[0] != ':')
    requires forall i :: 0 <= i < |r| ==> !IsUnsafe(r[i])
    requires |r| == 0 || IsAuthorityEnd(r[0])
    ensures ValidateUrl(Some(w + ColonSlashes + (x + "[" + h + "]" + y) + r), nfkc) == Rejected(ParseError)
  {
    PlainAssembled(x, h, y);
    BracketPlacement(x, h, y);
    RejectsBadNetlocs(w, x + "[" + h + "]" + y, r, nfkc);
  }

  /** The bracketed loopback after user information that holds a "[" of its
      own, as in `http://u[x@[::1]`, is accepted: only the text after the
      last "@" is checked. */
  lemma BracketedUserinfoAccepted(w: string, ui: string, r: string, nfkc: string -> string)
    requires IsSchemeWord(w) && IsWebScheme(Lower(w))
    requires IsAscii(ui)
    requires forall i :: 0 <= i < |ui| ==> !IsAuthorityEnd(ui[i]) && !IsUnsafe(ui[i])
    requires forall i :: 0 <= i < |r| ==> !IsUnsafe(r[i])
    requires |r| == 0 || IsAuthorityEnd(r[0])
    ensures ValidateUrl(Some(w + ColonSlashes + (ui + "@[::1]") + r), nfkc) == Accepted
  {
    var hp := "[::1]";
    var a := ui + "@" + hp;
    assert ui + "@[::1]" == a;
    LoopbackNetloc(ui);
    AcceptsWebUrls(w, a, r, nfkc);
  }

  /** `ui + "@[::1]"` passes every netloc check when `ui` is ASCII without
      delimiters. */
  lemma LoopbackNetloc(ui: string)
    requires IsAscii(ui)
    requires forall i :: 0 <= i < |ui| ==> !IsAuthorityEnd(ui[i]) && !IsUnsafe(ui[i])
    ensures var a := ui + "@" + "[::1]";
            && (forall i :: 0 <= i < |a| ==> !IsAuthorityEnd(a[i]) && !IsUnsafe(a[i]))
            && IsAscii(a) && HostAccepted(a)
  {
    var a := ui + "@" + "[::1]";
    LoopbackChars(ui);
    LoopbackHost(ui);
    HostAcceptedByHost(a);
  }

  lemma LoopbackChars(ui: string)
    requires IsAscii(ui)
    requires forall i :: 0 <= i < |ui| ==> !IsAuthorityEnd(ui[i]) && !IsUnsafe(ui[i])
    ensures var a := ui + "@" + "[::1]";
            && (forall i :: 0 <= i < |a| ==> !IsAuthorityEnd(a[i]) && !IsUnsafe(a[i]))
            && IsAscii(a) && '[' in a && ']' in a
  {
    var hp := "[::1]";
    var a := ui + "@" + hp;
    forall i | 0 <= i < |a| ensures !IsAuthorityEnd(a[i]) && !IsUnsafe(a[i]) && a[i] < '\U{80}' {
      if i < |ui| {
        assert a[i] == ui[i];
      } else if i > |ui| {
        assert a[i] == hp[i - |ui| - 1];
      }
    }
    assert a[|ui| + 1] == '[' && a[|ui| + 5] == ']';
  }

  /** The host checked in `ui + "@[::1]"` is the loopback address, which passes. */
  lemma LoopbackHost(ui: string)
    ensures CheckedHost(ui + "@" + "[::1]") == Some("::1")
    ensures BracketedHostError("::1").None?
  {
    BracketedHostOf("::1");
    assert "[" + "::1" + "]" == "[::1]";
    UserinfoSkipped(ui, "[::1]");
    LoopbackPasses();
  }

  lemma LoopbackPasses()
    ensures BracketedHostError("::1").None?
  {
    LoopbackIsIPv6("::1");
    assert !StartsWith("::1", "v") by {
      assert "::1"[..1][0] == ':';
    }
    HostErrorCases("::1");
  }

  /** Every host `CheckedHost` returns is made of characters of the netloc. */
  lemma CheckedHostWithin(a: string)
    ensures CheckedHost(a).Some? ==> forall c :: c in CheckedHost(a).value ==> c in a
  {
    var hostPort := AfterLast(a, '@');
    SliceWithin(a, |a| - |hostPort|, |a|);
    if '[' in hostPort {
      var i := IndexOf(hostPort, '[');
      var bracketed := hostPort[i + 1..];
      SliceWithin(hostPort, i + 1, |hostPort|);
      SliceWithin(bracketed, 0, IndexOf(bracketed, ']'));
    } else {
      SliceWithin(hostPort, 0, IndexOf(hostPort, ':'));
    }
  }

  lemma SliceWithin(s: string, i: nat, j: nat)
    requires i <= j <= |s|
    ensures forall c :: c in s[i..j] ==> c in s
  {
    forall c | c in s[i..j] ensures c in s {
      var k :| 0 <= k < j - i && s[i..j][k] == c;
      assert s[i + k] == c;
    }
  }

  /** An IPvFuture address holds a ".". */
  lemma FutureHasDot(h: string)
    ensures IsIPvFuture(h) ==> '.' in h
  {
    if IsIPvFuture(h) {
      assert h[HexRunEnd(h, 1)] == '.';
    }
  }

  /** A netloc holding "[" but neither ":" nor "." fails the bracket check:
      whichever host is checked holds neither, so it is no address. */
  lemma ColonDotFreeRefused(a: string)
    requires '[' in a && ':' !in a && '.' !in a
    ensures !HostAccepted(a)
  {
    CheckedHostWithin(a);
    match CheckedHost(a)
    case None =>
    case Some(h) =>
      WordIsNeither(h);
      FutureHasDot(h);
  }

  /** An IPv4 address in brackets is refused as unparsable, whatever the scheme
      and the remainder. */
  lemma BracketedIpv4Rejected(w: string, h: string, r: string, nfkc: string -> string)
    requires IsSchemeWord(w)
    requires IsIPv4(h)
    requires forall i :: 0 <= i < |r| ==> !IsUnsafe(r[i])
    requires |r| == 0 || IsAuthorityEnd(r[0])
    ensures ValidateUrl(Some(w + ColonSlashes + "[" + h + "]" + r), nfkc) == Rejected(ParseError)
  {
    BracketedIpv4Raises(w, h, r, nfkc);
  }

  /** The `ValueError` it raises is the one for an IPv4 address. */
  lemma BracketedIpv4Raises(w: string, h: string, r: string, nfkc: string -> string)
    requires IsSchemeWord(w)
    requires IsIPv4(h)
    requires forall i :: 0 <= i < |r| ==> !IsUnsafe(r[i])
    requires |r| == 0 || IsAuthorityEnd(r[0])
    ensures UrlSplit(w + ColonSlashes + "[" + h + "]" + r, nfkc) == Raised(BracketedIpv4Error)
  {
    var a := "[" + h + "]";
    BracketConcat(w, h, r);
    BracketedIpv4Netloc(h);
    ComposedCut(w, a, r);
    SplitAuthorityRaises(Lower(w), a, r);
  }

  /** The authority of `Slashes + a + r` that fails the bracket checks makes
      the cut raise the bracket check's message. */
  lemma SplitAuthorityRaises(scheme: string, a: string, r: string)
    requires forall i :: 0 <= i < |a| ==> !IsAuthorityEnd(a[i])
    requires !HostAccepted(a)
    requires |r| == 0 || IsAuthorityEnd(r[0])
    ensures SplitAuthority(scheme, Slashes + a + r) == Raised(HostError(a))
  {
    var after := Slashes + a + r;
    AuthorityEndComposed(a, r);
    assert after[..2] == Slashes;
  }

  /** A bracketed IPv4 address is a netloc free of delimiters that the host
      check refuses. */
  lemma BracketedIpv4Netloc(h: string)
    requires IsIPv4(h)
    ensures var a := "[" + h + "]";
            && (forall i :: 0 <= i < |a| ==> !IsAuthorityEnd(a[i]) && !IsUnsafe(a[i]))
            && !HostAccepted(a) && HostError(a) == BracketedIpv4Error
  {
    Ipv4Chars(h);
    assert '@' !in h by {
      forall i | 0 <= i < |h| ensures h[i] != '@' {
        assert IsDigit(h[i]) || h[i] == '.';
      }
    }
    BracketedNetloc(h);
    HostErrorCases(h);
  }

  /** A bracketed word (no ":" or ".", not starting with "v") is refused as
      unparsable, as `http://[abc]/` is: it is neither an IPv4 nor an IPv6
      address. */
  lemma BracketedWordRejected(w: string, h: string, r: string, nfkc: string -> string)
    requires IsSchemeWord(w)
    requires forall i :: 0 <= i < |h| ==> PlainHostChar(h[i]) && h[i] != ':' && h[i] != '.'
    requires forall i :: 0 <= i < |r| ==> !IsUnsafe(r[i])
    requires |r| == 0 || IsAuthorityEnd(r[0])
    ensures ValidateUrl(Some(w + ColonSlashes + "[" + h + "]" + r), nfkc) == Rejected(ParseError)
  {
    var a := "[" + h + "]";
    BracketConcat(w, h, r);
    BracketedNetloc(h);
    assert ':' !in a && '.' !in a by {
      forall i | 0 <= i < |a| ensures a[i] != ':' && a[i] != '.' {
        if 0 < i < |a| - 1 {
          assert a[i] == h[i - 1];
        }
      }
    }
    ColonDotFreeRefused(a);
    RejectsBadNetlocs(w, a, r, nfkc);
  }

  /** An IPv6 address written in full, eight hextets, is accepted in brackets
      after an `http` or `https` scheme. */
  lemma BracketedFullFormAccepted(w: string, hs: seq<string>, r: string, nfkc: string -> string)
    requires IsSchemeWord(w) && IsWebScheme(Lower(w))
    requires |hs| == 8 && forall k :: 0 <= k < 8 ==> IsHextet(hs[k])
    requires forall i :: 0 <= i < |r| ==> !IsUnsafe(r[i])
    requires |r| == 0 || IsAuthorityEnd(r[0])
    ensures ValidateUrl(Some(w + ColonSlashes + "[" + Join(hs, ':') + "]" + r), nfkc) == Accepted
  {
    var h := Join(hs, ':');
    var a := "[" + h + "]";
    BracketConcat(w, h, r);
    FullFormNetloc(hs, nfkc);
    AcceptsWebUrls(w, a, r, nfkc);
  }

  /** Eight hextets in brackets make a netloc that passes every check. */
  lemma FullFormNetloc(hs: seq<string>, nfkc: string -> string)
    requires |hs| == 8 && forall k :: 0 <= k < 8 ==> IsHextet(hs[k])
    ensures var a := "[" + Join(hs, ':') + "]";
            && |a| > 0
            && (forall i :: 0 <= i < |a| ==> !IsAuthorityEnd(a[i]) && !IsUnsafe(a[i]))
            && NetlocAccepted(a, nfkc)
  {
    var h := Join(hs, ':');
    forall k, i | 0 <= k < 8 && 0 <= i < |hs[k]| ensures IsHexDigit(hs[k][i]) || hs[k][i] == ':' {
    }
    JoinKeeps(hs, ':', c => IsHexDigit(c) || c == ':');
    FullFormIsIPv6(hs);
    HexColonNetloc(h);
    HostErrorCases(h);
  }

  /** Hex digits and colons in brackets make an ASCII netloc free of
      delimiters whose checked host is the text inside. */
  lemma HexColonNetloc(h: string)
    requires forall i :: 0 <= i < |h| ==> IsHexDigit(h[i]) || h[i] == ':'
    ensures var a := "[" + h + "]";
            && (forall i :: 0 <= i < |a| ==> !IsAuthorityEnd(a[i]) && !IsUnsafe(a[i]))
            && IsAscii(a) && '[' in a && !BracketsUnmatched(a)
            && CheckedHost(a) == Some(h) && !StartsWith(h, "v")
  {
    assert '@' !in h by {
      forall i | 0 <= i < |h| ensures h[i] != '@' {
        assert IsHexDigit(h[i]) || h[i] == ':';
      }
    }
    assert IsAscii(h);
    assert !StartsWith(h, "v") by {
      if |h| > 0 {
        assert h[..1][0] == h[0] != 'v';
      }
    }
    BracketedNetloc(h);
    BracketedAscii(h);
  }

  lemma BracketedAscii(h: string)
    requires IsAscii(h)
    ensures IsAscii("[" + h + "]")
  {
    var a := "[" + h + "]";
    forall i | 0 <= i < |a| ensures a[i] < '\U{80}' {
      if 0 < i < |a| - 1 {
        assert a[i] == h[i - 1];
      }
    }
  }

  lemma BracketConcat(w: string, h: string, r: string)
    ensures w + ColonSlashes + "[" + h + "]" + r == w + ColonSlashes + ("[" + h + "]") + r
  {
  }

  /** A character allowed in a bracketed host here: no bracket, authority
      delimiter, tab, CR or LF. */
  predicate PlainHostChar(c: char) {
    c != '[' && c != ']' && !IsAuthorityEnd(c) && !IsUnsafe(c)
  }

  /** `"[" + h + "]"` is a netloc with matched brackets around `h`. */
  lemma BracketedNetloc(h: string)
    requires forall i :: 0 <= i < |h| ==> PlainHostChar(h[i])
    ensures var a := "[" + h + "]";
            && (forall i :: 0 <= i < |a| ==> !IsAuthorityEnd(a[i]) && !IsUnsafe(a[i]))
            && '[' in a && !BracketsUnmatched(a)
            && ('@' !in h ==> CheckedHost(a) == Some(h))
  {
    var a := "[" + h + "]";
    if '@' !in h {
      BracketedHostOf(h);
    }
    forall i | 0 <= i < |a| ensures !IsAuthorityEnd(a[i]) && !IsUnsafe(a[i]) {
      if 0 < i < |a| - 1 {
        assert a[i] == h[i - 1];
      }
    }
    assert a[|a| - 1] == ']';
  }

  /** A non-ASCII netloc without "@" or ":" that NFKC normalisation changes
      into text holding a delimiter is refused as unparsable. U+2100 (ACCOUNT
      OF), which normalises to "a/c", makes such a netloc. */
  lemma NfkcDelimiterRejected(w: string, a: string, r: string, nfkc: string -> string)
    requires IsSchemeWord(w)
    requires forall i :: 0 <= i < |a| ==> !IsAuthorityEnd(a[i]) && !IsUnsafe(a[i]) && a[i] != '@' && a[i] != ':'
    requires !IsAscii(a)
    requires nfkc(a) != a
    requires exists i :: 0 <= i < |nfkc(a)| && nfkc(a)[i] in NetlocDelimiters
    ensures ValidateUrl(Some(w + ColonSlashes + a + r), nfkc) == Rejected(ParseError)
    requires forall i :: 0 <= i < |r| ==> !IsUnsafe(r[i])
    requires |r| == 0 || IsAuthorityEnd(r[0])
  {
    WithoutAbsent(a, '@');
    WithoutAbsent(a, ':');
    WithoutAbsent(a, '#');
    WithoutAbsent(a, '?');
    RejectsBadNetlocs(w, a, r, nfkc);
  }

  /** Removing a character the text does not hold changes nothing. */
  lemma {:induction false} WithoutAbsent(s: string, c: char)
    requires c !in s
    ensures Without(s, c) == s
    decreases |s|
  {
    if |s| > 0 {
      WithoutAbsent(s[1..], c);
      assert s == [s[0]] + s[1..];
    }
  }

  lemma HttpWord()
    ensures IsSchemeWord("http") && Lower("http") == "http" && IsWebScheme("http")
  {
    var w := "http";
    assert forall i :: 0 <= i < |w| ==> 'a' <= w[i] <= 'z';
    LowerNoUpper(w);
  }

  /** The URL of the repository's test and what follows its scheme. */
  const ExampleUrl: string := "https" + ColonSlashes + "example.com"
  const ExampleRest: string := Slashes + "example.com"

  lemma ExampleAscii(nfkc: string -> string)
    ensures NfkcError("example.com", nfkc).None?
  {
    var a := "example.com";
    assert forall i :: 0 <= i < |a| ==> a[i] < '\U{80}';
  }

  lemma ExampleClean()
    ensures Clean(ExampleUrl) == ExampleUrl
  {
    var u := ExampleUrl;
    assert !IsC0OrSpace(u[0]);
    assert forall i :: 0 <= i < |u| ==> !IsUnsafe(u[i]);
    CleanIdentity(u);
  }

  lemma ExampleScheme()
    ensures SplitScheme(ExampleUrl) == ("https", ExampleRest)
  {
    HttpsWord();
    SplitSchemeComposed("https", ExampleRest);
    assert "https" + ":" + ExampleRest == ExampleUrl;
  }

  lemma HttpsWord()
    ensures IsSchemeWord("https") && Lower("https") == "https"
  {
    var w := "https";
    assert forall i :: 0 <= i < |w| ==> 'a' <= w[i] <= 'z';
    LowerNoUpper(w);
  }

  lemma ExampleAuthority()
    ensures SplitAuthority("https", ExampleRest) == Ok(UrlParts("https", true, "example.com", ""))
  {
    var a := "example.com";
    assert forall i :: 0 <= i < |a| ==> a[i] == '.' || 'a' <= a[i] <= 'z';
    SplitAuthorityComposed("https", a, "");
    assert Slashes + a + "" == ExampleRest;
  }

  /** The repository's test, second half: a bare word fails on its format. */
  lemma UnitTestRejects(nfkc: string -> string)
    ensures ValidateUrl(Some("notaurl"), nfkc) == Rejected(FormatError)
  {
    var u := "notaurl";
    assert !IsC0OrSpace(u[0]) && u[1] != '/';
    assert forall i :: 0 <= i < |u| ==> !IsUnsafe(u[i]) && u[i] != ':';
    SchemelessRejected(u, nfkc);
  }

  /** A clean URL with no ":" that does not start with two slashes has no scheme and so is
      rejected on its format. */
  lemma SchemelessRejected(u: string, nfkc: string -> string)
    requires |u| > 0 && !IsC0OrSpace(u[0])
    requires forall i :: 0 <= i < |u| ==> !IsUnsafe(u[i]) && u[i] != ':'
    requires !StartsWith(u, Slashes)
    ensures ValidateUrl(Some(u), nfkc) == Rejected(FormatError)
  {
    CleanIdentity(u);
    assert IndexOf(u, ':') == |u|;
    assert SplitScheme(u) == ("", u);
    assert UrlSplit(u, nfkc) == Ok(UrlParts("", false, "", u));
  }
}

=== FILE: wide_table.dfy ===
/** `pages/12_Table_New.py` and `pages/13_Table_View.py`: one wide row per
    selected JSON file, holding the file's metadata and, for each item `i`,
    the columns `level_i`, `content_i` and `scrape_url_i`; page 13 then lets
    the user pick which item columns to show next to the metadata. */
module WideTable {

  import opened Wrappers
  import opened Text
  import opened Json
  import opened Seqs
  import opened Selection
  import opened LogJoin

  const LevelPrefix: string := "level_"
  const UrlPrefix: string := "scrape_url_"

  /** The three keys every row starts with, frozen on page 13. */
  const MetaColumns: seq<string> := ["json_file", "opportunity_id", "timestamp"]

  function Level(i: nat): string { ColumnKey(LevelPrefix, i) }
  function Content(i: nat): string { ColumnKey(ContentPrefix, i) }
  function ScrapeUrl(i: nat): string { ColumnKey(UrlPrefix, i) }

  // ---------------------------------------------------------------
  // Column names
  // ---------------------------------------------------------------

  /** The item columns of a row with `n` items, in the order the loop adds them. */
  function ItemColumns(n: nat): (r: seq<string>)
    ensures |r| == 3 * n
    decreases n
  {
    if n == 0 then [] else ItemColumns(n - 1) + [Level(n), Content(n), ScrapeUrl(n)]
  }

  /** The keys of a row with `n` items, in insertion order. */
  function RowColumns(n: nat): (r: seq<string>)
    ensures |r| == 3 + 3 * n
  {
    MetaColumns + ItemColumns(n)
  }

  /** The item columns are `level_i`, `content_i` and `scrape_url_i` for `i`
      from 1 to `n`, and nothing else. */
  lemma {:induction false} ItemColumnsMembers(n: nat, x: string)
    ensures x in ItemColumns(n) <==> exists i :: 1 <= i <= n && (x == Level(i) || x == Content(i) || x == ScrapeUrl(i))
    decreases n
  {
    if n > 0 {
      ItemColumnsMembers(n - 1, x);
    }
  }

  /** The three column families and the metadata keys differ in their first letter. */
  lemma FamiliesDiffer(i: nat, j: nat)
    ensures Level(i)[0] == 'l' && Content(j)[0] == 'c' && ScrapeUrl(j)[0] == 's'
    ensures Level(i) != Content(j) && Level(i) != ScrapeUrl(j) && Content(i) != ScrapeUrl(j)
    ensures Level(i) !in MetaColumns && Content(i) !in MetaColumns && ScrapeUrl(i) !in MetaColumns
  {
    assert Level(i)[0] == LevelPrefix[0];
    assert Content(i)[0] == ContentPrefix[0] && Content(j)[0] == ContentPrefix[0];
    assert ScrapeUrl(i)[0] == UrlPrefix[0] && ScrapeUrl(j)[0] == UrlPrefix[0];
  }

  /** The columns of an earlier item differ from those of item `n`. */
  lemma OlderColumnsDiffer(i: nat, n: nat)
    requires i < n
    ensures Level(i) != Level(n) && Level(i) != Content(n) && Level(i) != ScrapeUrl(n)
    ensures Content(i) != Level(n) && Content(i) != Content(n) && Content(i) != ScrapeUrl(n)
    ensures ScrapeUrl(i) != Level(n) && ScrapeUrl(i) != Content(n) && ScrapeUrl(i) != ScrapeUrl(n)
  {
    FamiliesDiffer(i, n);
    FamiliesDiffer(n, i);
    if Level(i) == Level(n) { ColumnKeyInjective(LevelPrefix, i, n); }
    if Content(i) == Content(n) { ColumnKeyInjective(ContentPrefix, i, n); }
    if ScrapeUrl(i) == ScrapeUrl(n) { ColumnKeyInjective(UrlPrefix, i, n); }
  }

  /** The columns added for item `n` are new to a row with fewer items. */
  lemma FreshColumns(n: nat)
    requires n > 0
    ensures Level(n) !in RowColumns(n - 1)
    ensures Content(n) !in RowColumns(n - 1) + [Level(n)]
    ensures ScrapeUrl(n) !in RowColumns(n - 1) + [Level(n), Content(n)]
  {
    FamiliesDiffer(n, n);
    var earlier := ItemColumns(n - 1);
    forall k | 0 <= k < |earlier|
      ensures earlier[k] != Level(n) && earlier[k] != Content(n) && earlier[k] != ScrapeUrl(n)
    {
      ItemColumnsMembers(n - 1, earlier[k]);
      var i :| 1 <= i <= n - 1 && (earlier[k] == Level(i) || earlier[k] == Content(i) || earlier[k] == ScrapeUrl(i));
      OlderColumnsDiffer(i, n);
    }
  }

  /** No column name occurs twice in a row. */
  lemma {:induction false} RowColumnsNoRepeats(n: nat)
    ensures NoRepeats(RowColumns(n))
    decreases n
  {
    if n > 0 {
      RowColumnsNoRepeats(n - 1);
      FreshColumns(n);
      var p := RowColumns(n - 1);
      assert RowColumns(n) == p + [Level(n), Content(n), ScrapeUrl(n)];
    }
  }

  /** A row with fewer items has a prefix of the columns of a row with more. */
  lemma {:induction false} RowColumnsPrefix(n: nat, m: nat)
    requires n <= m
    ensures RowColumns(n) == RowColumns(m)[..3 + 3 * n]
    decreases m
  {
    if n < m {
      RowColumnsPrefix(n, m - 1);
      assert RowColumns(m) == RowColumns(m - 1) + [Level(m), Content(m), ScrapeUrl(m)];
    }
  }

  // ---------------------------------------------------------------
  // The wide record
  // ---------------------------------------------------------------

  /** A Python dict: its keys in insertion order and its contents. */
  datatype Record = Record(columns: seq<string>, cells: Obj)

  /** `d[k] = v`: a new key goes last, an existing key keeps its place. */
  function Put(d: Record, k: string, v: Value): (r: Record)
    ensures r.cells == d.cells[k := v]
    ensures k !in d.cells ==> r.columns == d.columns + [k]
  {
    Record(if k in d.cells then d.columns else d.columns + [k], d.cells[k := v])
  }

  /** The dict literal with the three metadata keys. */
  function MetaRecord(name: string, stamp: Option<string>, id: Option<string>): (r: Record)
    ensures r.columns == MetaColumns
    ensures forall k :: k in r.cells <==> k in MetaColumns
    ensures r.cells["json_file"] == Str(name)
    ensures r.cells["opportunity_id"] == OptStr(id)
    ensures r.cells["timestamp"] == OptStr(stamp)
  {
    Record(MetaColumns, map["json_file" := Str(name), "opportunity_id" := OptStr(id), "timestamp" := OptStr(stamp)])
  }

  /** The three cells written for item `n`. */
  function PutItem(d: Record, n: nat, item: Obj, url: Value): (r: Record)
    ensures r.cells == d.cells[Level(n) := Get(item, "level")][Content(n) := Get(item, "content")][ScrapeUrl(n) := url]
  {
    Put(Put(Put(d, Level(n), Get(item, "level")), Content(n), Get(item, "content")), ScrapeUrl(n), url)
  }

  /** The record built for one file: the metadata, then for `idx` from 1 on
      `level_idx = item.get("level")`, `content_idx = item.get("content")`
      and `scrape_url_idx = scrape_url`. */
  function Wide(name: string, stamp: Option<string>, id: Option<string>, items: seq<Obj>, url: Value): (r: Record)
    decreases |items|
  {
    if |items| == 0 then MetaRecord(name, stamp, id)
    else PutItem(Wide(name, stamp, id, items[..|items| - 1], url), |items|, items[|items| - 1], url)
  }

  /** The keys of the record are exactly its columns. */
  ghost predicate Keyed(d: Record) {
    forall k :: k in d.cells <==> k in d.columns
  }

  /** The record's keys, in insertion order, are the metadata keys followed
      by `level_i`, `content_i`, `scrape_url_i` for each item in turn. */
  lemma {:induction false} WideColumns(name: string, stamp: Option<string>, id: Option<string>, items: seq<Obj>, url: Value)
    ensures Wide(name, stamp, id, items, url).columns == RowColumns(|items|)
    ensures Keyed(Wide(name, stamp, id, items, url))
    decreases |items|
  {
    if |items| > 0 {
      var n := |items|;
      WideColumns(name, stamp, id, items[..n - 1], url);
      PutItemColumns(Wide(name, stamp, id, items[..n - 1], url), n, items[n - 1], url);
    }
  }

  /** Writing item `n` into a record with the keys of `n - 1` items appends its
      three columns. */
  lemma PutItemColumns(d: Record, n: nat, item: Obj, url: Value)
    requires n > 0 && d.columns == RowColumns(n - 1) && Keyed(d)
    ensures PutItem(d, n, item, url).columns == RowColumns(n)
    ensures Keyed(PutItem(d, n, item, url))
  {
    FreshColumns(n);
    var d1 := Put(d, Level(n), Get(item, "level"));
    var d2 := Put(d1, Content(n), Get(item, "content"));
    assert d1.columns == RowColumns(n - 1) + [Level(n)];
    assert d2.columns == RowColumns(n - 1) + [Level(n), Content(n)];
    assert RowColumns(n) == RowColumns(n - 1) + [Level(n), Content(n), ScrapeUrl(n)];
  }

  /** Item `i` of `items` is held in `level_i` and `content_i`, and `url` in `scrape_url_i`. */
  predicate HoldsItems(cells: Obj, items: seq<Obj>, url: Value) {
    forall i :: 1 <= i <= |items| ==>
      && Level(i) in cells && cells[Level(i)] == Get(items[i - 1], "level")
      && Content(i) in cells && cells[Content(i)] == Get(items[i - 1], "content")
      && ScrapeUrl(i) in cells && cells[ScrapeUrl(i)] == url
  }

  /** The metadata cells. */
  predicate HoldsMeta(cells: Obj, name: string, stamp: Option<string>, id: Option<string>) {
    && "json_file" in cells && cells["json_file"] == Str(name)
    && "opportunity_id" in cells && cells["opportunity_id"] == OptStr(id)
    && "timestamp" in cells && cells["timestamp"] == OptStr(stamp)
  }

  /** The record holds the file's metadata and, for every item, its level and
      content and the one scrape URL. */
  lemma {:induction false} WideCells(name: string, stamp: Option<string>, id: Option<string>, items: seq<Obj>, url: Value)
    ensures HoldsMeta(Wide(name, stamp, id, items, url).cells, name, stamp, id)
    ensures HoldsItems(Wide(name, stamp, id, items, url).cells, items, url)
    decreases |items|
  {
    if |items| > 0 {
      var n := |items|;
      var d := Wide(name, stamp, id, items[..n - 1], url);
      WideCells(name, stamp, id, items[..n - 1], url);
      PutItemHolds(d.cells, name, stamp, id, items, url);
    }
  }

  /** Writing the cells of the last item keeps the metadata and the cells of
      the earlier items. */
  lemma PutItemHolds(c: Obj, name: string, stamp: Option<string>, id: Option<string>, items: seq<Obj>, url: Value)
    requires |items| > 0
    requires HoldsMeta(c, name, stamp, id) && HoldsItems(c, items[..|items| - 1], url)
    ensures var n := |items|;
      var c' := c[Level(n) := Get(items[n - 1], "level")][Content(n) := Get(items[n - 1], "content")][ScrapeUrl(n) := url];
      HoldsMeta(c', name, stamp, id) && HoldsItems(c', items, url)
  {
    var n := |items|;
    var init := items[..n - 1];
    var c' := c[Level(n) := Get(items[n - 1], "level")][Content(n) := Get(items[n - 1], "content")][ScrapeUrl(n) := url];
    FamiliesDiffer(n, n);
    forall i | 1 <= i <= n
      ensures Level(i) in c' && c'[Level(i)] == Get(items[i - 1], "level")
      ensures Content(i) in c' && c'[Content(i)] == Get(items[i - 1], "content")
      ensures ScrapeUrl(i) in c' && c'[ScrapeUrl(i)] == url
    {
      if i < n {
        OlderColumnsDiffer(i, n);
        assert items[i - 1] == init[i - 1];
      }
    }
  }

  /** Every `scrape_url_i` of a record holds the same value. */
  lemma WideSameUrl(name: string, stamp: Option<string>, id: Option<string>, items: seq<Obj>, url: Value, i: nat, j: nat)
    requires 1 <= i <= |items| && 1 <= j <= |items|
    ensures var c := Wide(name, stamp, id, items, url).cells;
      ScrapeUrl(i) in c && ScrapeUrl(j) in c && c[ScrapeUrl(i)] == c[ScrapeUrl(j)]
  {
    WideCells(name, stamp, id, items, url);
  }

  // ---------------------------------------------------------------
  // One row per selected file
  // ---------------------------------------------------------------

  /** What the pages read: `load(f)` is the list of items parsed from
      `scraped_html/f` (`None` when `json.load` raises), `stampDate` is the
      `strptime` of a timestamp and `log` is the scrape log. */
  datatype Inputs = Inputs(load: string -> Option<seq<Obj>>, stampDate: string -> Option<string>, log: seq<Obj>)

  /** The scrape URL a file should get: `None` unless the log is not empty and
      the name carries an id, else the `url` of the first entry whose `url`
      contains the id. */
  function UrlFor(log: seq<Obj>, id: Option<string>): Value {
    if FrameEmpty(log) || id.None? then Null
    else match FirstMention(log, "url", id.value)
      case None => Null
      case Some(k) => Get(log[k], "url")
  }

  /** The record for a file that loaded; `KeyError` when the lookup runs on a
      log without a `url` column. */
  function WideRow(inp: Inputs, f: string): (r: Result<Record>)
    requires inp.load(f).Some?
    ensures r.Raised? <==> !FrameEmpty(inp.log) && IdSearch(f).Some? && !HasColumn(inp.log, "url")
    ensures r.Ok? ==> r.value == Wide(f, inp.stampDate(BeforeFirst(f, '_')), IdSearch(f), inp.load(f).value, UrlFor(inp.log, IdSearch(f)))
  {
    var (stamp, id) := ExtractMeta(inp.stampDate, f);
    match GuardedMatch(inp.log, "url", id)
    case Raised(m) => Raised(m)
    case Ok(m) => Ok(Wide(f, stamp, id, inp.load(f).value, UrlOf(m)))
  }

  /** How many of the files load. */
  function NumLoaded(inp: Inputs, sel: seq<string>): (n: nat)
    ensures n <= |sel|
    decreases |sel|
  {
    if |sel| == 0 then 0
    else NumLoaded(inp, sel[..|sel| - 1]) + if inp.load(sel[|sel| - 1]).Some? then 1 else 0
  }

  /** The most items any loading file has, 0 when none loads. */
  function MostItems(inp: Inputs, sel: seq<string>): (m: nat)
    ensures NumLoaded(inp, sel) == 0 ==> m == 0
    decreases |sel|
  {
    if |sel| == 0 then 0
    else
      var m := MostItems(inp, sel[..|sel| - 1]);
      var f := sel[|sel| - 1];
      if inp.load(f).Some? && |inp.load(f).value| > m then |inp.load(f).value| else m
  }

  /** The loop over the selected files: a file that does not load is skipped
      with an error message; the first lookup that raises ends the page. */
  function WideRows(inp: Inputs, sel: seq<string>): (r: Result<seq<Record>>)
    ensures r.Raised? <==> !FrameEmpty(inp.log) && !HasColumn(inp.log, "url")
                           && exists k :: 0 <= k < |sel| && inp.load(sel[k]).Some? && IdSearch(sel[k]).Some?
    ensures r.Ok? ==> |r.value| == NumLoaded(inp, sel)
    decreases |sel|
  {
    if |sel| == 0 then Ok([])
    else
      var init := sel[..|sel| - 1];
      var f := sel[|sel| - 1];
      assert forall k :: 0 <= k < |init| ==> init[k] == sel[k];
      match WideRows(inp, init)
      case Raised(m) => Raised(m)
      case Ok(rows) =>
        if inp.load(f).None? then Ok(rows)
        else match WideRow(inp, f)
          case Raised(m) => Raised(m)
          case Ok(d) => Ok(rows + [d])
  }

  /** The row of the `j`-th selected file, when it loads, comes after the rows
      of the loading files before it. */
  lemma {:induction false} WideRowAt(inp: Inputs, sel: seq<string>, j: nat)
    requires WideRows(inp, sel).Ok?
    requires j < |sel| && inp.load(sel[j]).Some?
    ensures NumLoaded(inp, sel[..j]) < |WideRows(inp, sel).value|
    ensures WideRow(inp, sel[j]) == Ok(WideRows(inp, sel).value[NumLoaded(inp, sel[..j])])
    decreases |sel|
  {
    var init := sel[..|sel| - 1];
    if j < |sel| - 1 {
      assert init[..j] == sel[..j] && init[j] == sel[j];
      WideRowAt(inp, init, j);
    } else {
      assert init == sel[..j];
    }
  }

  // ---------------------------------------------------------------
  // Page 13: the columns of the frame and the view
  // ---------------------------------------------------------------

  /** The keys of each row, in order. */
  function ColumnLists(rows: seq<Record>): (r: seq<seq<string>>)
    ensures |r| == |rows|
    ensures forall k :: 0 <= k < |rows| ==> r[k] == rows[k].columns
  {
    seq(|rows|, k requires 0 <= k < |rows| => rows[k].columns)
  }

  /** `pd.DataFrame(rows).columns`: every key of some row, in first-seen order. */
  function FrameColumns(rows: seq<Record>): seq<string> {
    Distinct(Concat(ColumnLists(rows)))
  }

  /** The frame has the columns of the file with the most items: the metadata
      and then `level_i`, `content_i`, `scrape_url_i` for each `i` in turn. */
  lemma {:induction false} TableColumns(inp: Inputs, sel: seq<string>)
    requires WideRows(inp, sel).Ok?
    ensures FrameColumns(WideRows(inp, sel).value)
            == if NumLoaded(inp, sel) == 0 then [] else RowColumns(MostItems(inp, sel))
    decreases |sel|
  {
    if |sel| == 0 {
      assert Concat(ColumnLists([])) == [];
    } else {
      var init := sel[..|sel| - 1];
      var f := sel[|sel| - 1];
      TableColumns(inp, init);
      if inp.load(f).Some? {
        var items := inp.load(f).value;
        WideColumns(f, inp.stampDate(BeforeFirst(f, '_')), IdSearch(f), items, UrlFor(inp.log, IdSearch(f)));
        assert WideRows(inp, sel).value == WideRows(inp, init).value + [WideRow(inp, f).value];
        ColumnsStep(WideRows(inp, init).value, WideRow(inp, f).value, NumLoaded(inp, init) > 0,
                    MostItems(inp, init), |items|);
        assert NumLoaded(inp, sel) > 0;
        assert MostItems(inp, sel) == if MostItems(inp, init) > |items| then MostItems(inp, init) else |items|;
      } else {
        assert WideRows(inp, sel) == WideRows(inp, init);
        assert NumLoaded(inp, sel) == NumLoaded(inp, init);
        assert MostItems(inp, sel) == MostItems(inp, init);
      }
    }
  }

  /** The keys of rows and one more row, one after the other. */
  lemma ConcatColumnsSnoc(rows0: seq<Record>, d: Record)
    ensures Concat(ColumnLists(rows0 + [d])) == Concat(ColumnLists(rows0)) + d.columns
  {
    var c := ColumnLists(rows0 + [d]);
    assert c[..|rows0|] == ColumnLists(rows0);
  }

  /** Adding a row with `n` items to rows whose columns are those of `m0`
      items (or none) gives the columns of the larger count. */
  lemma ColumnsStep(rows0: seq<Record>, d: Record, some: bool, m0: nat, n: nat)
    requires FrameColumns(rows0) == if some then RowColumns(m0) else []
    requires d.columns == RowColumns(n)
    requires !some ==> m0 == 0
    ensures FrameColumns(rows0 + [d]) == RowColumns(if m0 > n then m0 else n)
  {
    var M := if m0 > n then m0 else n;
    ConcatColumnsSnoc(rows0, d);
    var P := RowColumns(M);
    RowColumnsNoRepeats(M);
    RowColumnsPrefix(n, M);
    if some {
      RowColumnsPrefix(m0, M);
    }
    var a := Concat(ColumnLists(rows0));
    var m := if some then 3 + 3 * m0 else 0;
    assert Distinct(a) == P[..m];
    DistinctExtend(a, P, m, 3 + 3 * n);
    assert (if m < 3 + 3 * n then 3 + 3 * n else m) == |P|;
    assert P[..|P|] == P;
    assert Distinct(a + d.columns) == P;
  }

  /** The columns offered on page 13: all but the metadata. */
  function Dynamic(all: seq<string>): (r: seq<string>)
    ensures |r| <= |all|
  {
    Filter(all, (c: string) => c !in MetaColumns)
  }

  /** `df[metadata_cols + selected_dynamic]`: `KeyError` unless every
      requested column exists. */
  function View(all: seq<string>, chosen: seq<string>): (r: Result<seq<string>>)
    ensures r.Ok? <==> forall c :: c in MetaColumns + chosen ==> c in all
    ensures r.Ok? ==> r.value == MetaColumns + chosen
  {
    var cols := MetaColumns + chosen;
    if forall k :: 0 <= k < |cols| ==> cols[k] in all then Ok(cols) else Raised("KeyError")
  }

  /** The item columns are the dynamic ones, in order. */
  lemma DynamicColumns(n: nat)
    ensures Dynamic(RowColumns(n)) == ItemColumns(n)
  {
    var p := (c: string) => c !in MetaColumns;
    FilterConcat(MetaColumns, ItemColumns(n), p);
    FilterDropsAll(MetaColumns, p);
    var items := ItemColumns(n);
    forall k | 0 <= k < |items| ensures p(items[k]) {
      ItemColumnsMembers(n, items[k]);
      var i :| 1 <= i <= n && (items[k] == Level(i) || items[k] == Content(i) || items[k] == ScrapeUrl(i));
      FamiliesDiffer(i, i);
    }
    FilterKeepsAll(items, p);
  }

  /** With at least one row, any choice among the offered columns shows the
      metadata followed by the choice; by default every column is shown. */
  lemma ViewOfTable(n: nat, chosen: seq<string>)
    requires forall c :: c in chosen ==> c in Dynamic(RowColumns(n))
    ensures View(RowColumns(n), chosen) == Ok(MetaColumns + chosen)
    ensures View(RowColumns(n), Dynamic(RowColumns(n))) == Ok(RowColumns(n))
  {
    DynamicColumns(n);
    forall c | c in chosen ensures c in RowColumns(n) {
      FilterMembers(RowColumns(n), (c: string) => c !in MetaColumns, c);
    }
  }

  /** When no selected file loads the frame has no columns and the page
      stops with `KeyError`. */
  lemma NoRowsNoView(inp: Inputs, sel: seq<string>, chosen: seq<string>)
    requires WideRows(inp, sel).Ok? && NumLoaded(inp, sel) == 0
    ensures View(FrameColumns(WideRows(inp, sel).value), chosen).Raised?
  {
    TableColumns(inp, sel);
    assert "json_file" in MetaColumns + chosen;
  }
}

=== FILE: wrappers.dfy ===
/** Failure-carrying datatypes shared by every module of the model. */
module Wrappers {

  /** A value that may be absent: Python's `None` versus a present value. */
  datatype Option<+T> = None | Some(value: T) {

    /** The value, or `default` when absent (Python's `x if x is not None else default`). */
    function GetOr(default: T): T {
      match this
      case Some(v) => v
      case None => default
    }
  }

  /** The outcome of an operation that can raise: a value, or the message of the exception. */
  datatype Result<+R> = Ok(value: R) | Raised(message: string)
}
